=== FILE: README.md ===
# audify-ejs storefront core, modelled in Dafny

This project models the business core of the audify-ejs audio-equipment storefront, an Express
and Mongoose application. It covers:

- the customer-facing services: cart, coupons, orders, payments, the wallet, the catalogue and
  accounts;
- the controllers that turn service outcomes into HTTP status codes and messages;
- the admin screens: products, categories, coupons, offers, orders, users and the sales report;
- the request validators and the start-up environment check.

The database is a record of collections (`Records.Store`). Each collection is a map from a
natural-number id to a document. Id order stands for the natural order in which MongoDB returns
documents, so `findOne` is the matching document with the least id (`Tables.FindFirst`), and an
insert takes an id above every id in use (`Tables.NextId`).

Money is integer paise (cents). Dates are integer milliseconds. Every operation is a pure
function of the store that returns the store after its writes together with its result
(`Records.Step`) or its HTTP reply (`Records.Reply`). An operation that writes and then fails
returns the store with those partial writes.

Anything the code reaches outside itself becomes a function parameter:

- password hashing and comparison;
- the random one-time password draw;
- the clock, and `Date.toDateString`, which renders a coupon's dates;
- the calendar functions of the aggregation pipeline;
- Razorpay's order creation and signature check;
- the image upload;
- the mail transport;
- the price-after-offer and totals helpers that live in utility files.

The project is organised as follows:

- `wrappers`, `seqs`, `tables`, `text`, `money` and `records` hold the shared vocabulary.
- There is one module per source file: for example `CartService` for src/services/cartService.js
  and `CartController` for src/controllers/cartController.js.
- `FieldChecks` holds the express-validator checks that the two validator files use.

## Model

| member | source | states |
|---|---|---|
| CartService.FindLine | src/services/cartService.js:21-23 | the index of the first line for the product, and None exactly when no line has it |
| CartService.FindLineByIds | src/services/cartService.js:21-23 | the line search looks at nothing but the product ids |
| CartService.Upsert | src/services/cartService.js:21-38 | an existing line gets the new quantity (not the sum) and quantity × its stored price, every other line unchanged; a new product is appended as a snapshot line; lines stay one per product |
| CartService.FindLineAppended | src/services/cartService.js:21-37 | a product pushed onto a cart without it is found at the end |
| CartService.LastQuantityWins | src/services/cartService.js:25-28 | adding the same product twice keeps only the second quantity |
| CartService.RemoveLines | src/services/cartService.js:53-55 | no line for the product remains, every other line is kept and nothing is added; a product not in the cart changes nothing |
| CartService.RemoveUndoesAdd | src/services/cartService.js:30-55 | removing a product just added to a cart without it gives back the original lines |
| CartService.UserCart | src/services/cartService.js:4 | the user's cart if there is one, None exactly when no cart belongs to the user, and the only one when carts are one per user |
| CartService.BaseCart | src/services/cartService.js:16-19 | the user's own cart, or an empty cart under an id not in use |
| CartService.AddToCart | src/services/cartService.js:9-43 | fails with "Product not found" and writes nothing for a missing product; otherwise exactly the user's cart is written, holding the upserted line with the given quantity and recomputed totals; one cart per user and one line per product are preserved |
| CartService.RemoveItemFromCart | src/services/cartService.js:45-60 | fails with "Cart not found" without a cart; otherwise only that cart changes, it has no line for the product and its totals are recomputed |
| CartController.AddToCart | src/controllers/cartController.js:87-97 | a missing product gives 500 "Failed to add item to cart" and no write; otherwise 200 and the user's cart holds the product with quantity 1 |
| CartController.AddTwiceIsAddOnce | src/controllers/cartController.js:87-97 | adding the same product twice through this endpoint leaves the cart's lines as after the first add |
| CartController.UpdateCart | src/controllers/cartController.js:99-106 | a missing product is the helper's "Product not found" with nothing written; otherwise the reply is the saved cart, whose line for the product has the requested quantity |
| CartController.DeleteItemFromCart | src/controllers/cartController.js:108-132 | 404 "Cart not found" and no write without a cart; otherwise 200, only the user's cart changes and it no longer has a line for the product |
| CartController.GetCartItemID | src/controllers/cartController.js:55-85 | 400 without a session user, 404 without a cart, 500 exactly when some line's product is gone; otherwise one entry per line in cart order with the line's product id, quantity and name |
| Money.Round2 | src/services/couponService.js:45-47 | the result is within half a cent of the exact amount, with halves going away from zero |
| Money.Round2OfWholeCents | src/services/couponService.js:45-47 | rounding an amount that is already in whole cents leaves it unchanged |
| Money.PercentOfTotalBounded | src/services/couponService.js:44-47 | a share between 0 % and 100 % of a non-negative total, once rounded, lies between zero and that total |
| Records.WithTotals | src/services/cartService.js:40 | calculateTotals writes only the two totals and sets them to what the totals function gives; lines, owner and coupon fields are kept |
| CouponService.ValidateCoupon | src/services/couponService.js:13-29 | "Invalid or inactive coupon code" exactly when no active coupon has the code; success returns an active coupon with the code whose window holds `now`; the window error is raised only for an active coupon outside its window, and carries the code and that coupon's two dates as `toDateString` renders them; success is guaranteed when every such coupon is in its window |
| CouponService.CalculateDiscount | src/services/couponService.js:41-58 | "percentage" is within half a cent of the share of the total unless the set, non-zero cap was exceeded and then it is the cap; it never exceeds a set cap and lies in [0, total] for shares of 0–100 %; "fixed" gives the value itself; any other type gives 0 |
| CouponService.PercentOfInRange | src/services/couponService.js:44-47 | a percentage discount between 0 % and 100 % of a non-negative total lies between zero and the total |
| CouponService.ApplyCouponToCart | src/services/couponService.js:70-108 | errors write nothing; the checks run in the order missing cart, coupon already applied, then the validateCoupon error; on success only that cart changes, recording the code, the discount from calculateDiscount and finalTotal = total − discount |
| CouponService.RemoveCouponFromCart | src/services/couponService.js:115-152 | succeeds exactly for an existing cart that has a coupon; errors write nothing; on success the coupon and discount are cleared and only the recomputed finalTotal is written back |
| CouponService.SecondApplyRefused | src/services/couponService.js:77-80 | once a coupon is applied, any further application to the same cart is refused with "A coupon has already been applied to this cart" |
| CouponService.ReapplyAfterRemove | src/services/couponService.js:115-152 | apply, remove, then apply the same code again succeeds: removal clears exactly the field the apply guard tests |
| CouponService.CappedPercentageExample | src/services/couponService.js:44-52 | 50 % capped at 100 on a total of 1000 gives 100 off and leaves 900 |
| CouponService.FixedDiscountHasNoFloor | src/services/couponService.js:53-55 | a fixed coupon of 150 on a total of 80 leaves a final total of −70, because nothing floors it |
| CouponController.ApplyCouponError | src/controllers/couponController.js:20-53 | the handler's message dispatch answers only 400, 404 or 500 |
| CouponController.ApplyCoupon | src/controllers/couponController.js:8-54 | the store is the service's; success answers 200 "Coupon <code> applied successfully", a failure the status its message maps to |
| CouponController.WindowMessageMatches | src/controllers/couponController.js:36-40 | the window error's message, "Coupon <code> is not valid at this time. Valid from <from> to <until>", contains "not valid at this time" and equals neither of the two messages checked before it |
| CouponController.ApplyCouponErrorTable | src/controllers/couponController.js:24-47 | each error the service can throw gets its own answer: missing cart 404, unknown code 400 "Invalid or expired coupon code", closed window 400 with the service's message, second coupon 400 |
| CouponController.ApplyCouponStatuses | src/controllers/couponController.js:20-53 | no failure of applyCouponToCart reaches the 500 branch, and each gets the answer of its kind |
| CouponController.RemoveCouponError | src/controllers/couponController.js:70-89 | the dispatch answers only 400, 404 or 500 |
| CouponController.RemoveCoupon | src/controllers/couponController.js:59-90 | the store is the service's; success answers 200 "Coupon removed successfully", a failure the status its message maps to |
| CouponController.RemoveCouponStatuses | src/controllers/couponController.js:73-84 | a missing cart gives 404, a cart without a coupon gives 400, and nothing reaches the 500 |
| Wallet.LedgerSumAppend | src/services/orderService.js:182-189 | appending one ledger entry moves the credits-minus-debits sum by exactly that entry |
| Wallet.PostingKeepsBalanced | src/services/orderService.js:180-190 | moving the balance by an entry while pushing that entry keeps the balance equal to the ledger sum, and no other move does |
| OrderService.CreateOrderItems | src/services/orderService.js:16-29 | one new item per cart line with the line's product and quantity, under distinct fresh ids listed in line order; existing items are kept and nothing else is added |
| OrderService.UpdateProductStock | src/services/orderService.js:37-53 | "Product not found" exactly for a missing product; otherwise stock drops by exactly the quantity (possibly below zero), popularity rises by one, the out-of-stock flag says whether stock ≤ 0, and no other field or product changes |
| OrderService.ApplyLine | src/services/orderService.js:76-80 | one line's stock update never adds or removes products |
| OrderService.UpdateStocks | src/services/orderService.js:76-80 | the concurrent stock updates keep the product ids, and report success exactly when every line's product exists |
| OrderService.UpdateStocksLeavesOthers | src/services/orderService.js:76-80 | a product no line mentions is left exactly as it was |
| OrderService.UpdateStocksTakesEachLine | src/services/orderService.js:76-80 | with one line per product, each line's product loses that line's quantity of stock, gains one popularity and is flagged out of stock exactly when stock ≤ 0 |
| OrderService.CouponOrNull | src/services/orderService.js:98 | `appliedCoupon \|\| null` keeps a truthy code and turns an absent or empty one into null |
| OrderService.CreateOrderFromCart | src/services/orderService.js:61-108 | "Cart not found" and "Cannot place order with empty cart" write nothing; a missing product fails after the item and stock writes, with orders and carts untouched; success holds exactly when the cart exists, is non-empty and all its products exist, and then a fresh Pending order (assumed schema defaults) snapshots the shipping, items and cart amounts and the user's cart alone is deleted |
| OrderService.PlacedOrderTakesStock | src/services/orderService.js:76-80 | a placed order takes each line's quantity off that product's stock and raises its popularity |
| OrderService.GetOrderById | src/services/orderService.js:141-160 | the stored order, or "Order not found" exactly when the id is unknown |
| OrderService.GetUserOrders | src/services/orderService.js:120-133 | exactly the user's orders, each under its own id and none listed twice, newest first |
| OrderService.UserOrdersAreTheUsers | src/services/orderService.js:123 | every listed order is a stored order of that user |
| OrderService.UserOrdersAreAll | src/services/orderService.js:123 | every stored order of the user is listed |
| OrderService.UserOrdersNewestFirst | src/services/orderService.js:121-129 | the list is ordered by order date, newest first |
| OrderService.UserOrdersOnce | src/services/orderService.js:121-129 | no order appears twice in the sorted list of a user's orders |
| OrderService.ProcessOrderRefund | src/services/orderService.js:173-193 | "User not found" exactly for a missing user; otherwise only that user changes: the balance rises by the amount, one Credit entry naming the order is pushed, and the balanced-ledger property is preserved; the user as read before is returned |
| OrderService.CancelOrder | src/services/orderService.js:201-246 | the errors come in the order unknown order, other user's order, already cancelled, uncancellable status, and none of them writes; Shipped/Delivered orders are only flagged isCancelled; Pending/Processed orders are set to Cancelled and their final total is refunded: the owner's wallet balance rises by it and one Credit transaction "Refund for cancelled order #<id>" is appended, with no other user touched |
| OrderService.NoDoubleRefund | src/services/orderService.js:226-240 | after a refunding cancellation, a second cancel is refused as already cancelled and changes nothing |
| OrderService.CancellationRequestIdempotent | src/services/orderService.js:214-225 | repeating a cancellation request for a shipped or delivered order changes nothing more |
| OrderService.RefundKeepsLedger | src/services/orderService.js:226-237 | a wallet whose balance matched its ledger still matches after a refunded cancellation |
| OrderService.GetOrderForPayment | src/services/orderService.js:254-266 | "Order not found" first, then "User not found"; success exactly when both exist, giving the order and the user's wallet balance |
| OrderController.PlaceOrderError | src/controllers/orderController.js:43-67 | the message dispatch answers only 400, 404 or 500 |
| OrderController.PlaceOrder | src/controllers/orderController.js:8-68 | the store is the service's; success is 201 "Order placed successfully" with the new order's id, a failure gets the status its message maps to and no id |
| OrderController.PlaceOrderErrorTable | src/controllers/orderController.js:44-60 | a missing cart gives 400 "Cart not found", an empty cart 400 "Cart is empty", a missing product 404 "Product not found" |
| OrderController.PlaceOrderStatuses | src/controllers/orderController.js:43-67 | each service error gets its own answer and placing an order never answers 500, since the service raises nothing else |
| OrderController.PlacedOrderShipsAsSubmitted | src/controllers/orderController.js:10-36 | the placed order belongs to the session user and carries exactly the submitted shipping fields |
| OrderController.CancelOrderError | src/controllers/orderController.js:149-181 | the dispatch answers only 400, 403 or 404 |
| OrderController.CancelOrder | src/controllers/orderController.js:136-182 | the store is the service's; success answers 200 with the service's message and cancellation result, a failure the mapped status |
| OrderController.CancelOrderStatuses | src/controllers/orderController.js:149-181 | a missing order gives 404, another user's order 403 "Unauthorized to cancel this order", and every other refusal 400 with the service's own message |
| PaymentService.ValidateCODEligibility | src/services/paymentService.js:48-58 | cash on delivery is allowed exactly up to and including 1000; above that it fails with the limit error |
| PaymentService.ConfirmPayment | src/services/paymentService.js:128-146 | "Order not found" for a missing order; succeeds exactly when the order exists and, for "COD", its final total is within the limit; failures write nothing; success records the method, sets the order Processed and changes nothing else |
| PaymentService.ProcessWalletPayment | src/services/paymentService.js:70-116 | the errors come in the order missing user, missing order, balance below the final total, and none writes; success holds exactly when the balance covers the total, and then the wallet is debited by the total (never below zero) with one Debit entry naming the order, the ledger balance property is kept, and the order is marked Wallet and Processed |
| PaymentService.ExactBalancePays | src/services/paymentService.js:83 | a balance exactly equal to the final total is accepted (the comparison is strict) and leaves the wallet at zero |
| PaymentService.RecordWalletTransaction | src/services/paymentService.js:160-182 | "User not found" exactly for a missing user; otherwise one entry of the given kind, description and date is appended, its amount rounded to the cent, and the balance is left alone |
| PaymentService.RecordingAloneUnbalances | src/services/paymentService.js:160-182 | recording a non-zero transaction without moving the balance leaves a previously balanced wallet out of balance with its ledger |
| Text.ContainsPrefix | src/controllers/paymentController.js:49 | a text contains its own first part, which the `includes` tests of the payment handler and of the validators' page choice (src/middleware/validators/authValidator.js:96) rely on |
| PaymentController.CreateRazorpayOrderService | src/services/paymentService.js:15-37 | "Order not found" for an unknown order; success exactly when the order exists and the gateway returned an order |
| PaymentController.CreateRazorpayOrder | src/controllers/paymentController.js:9-26 | answers only 200, 404 or 500, and 404 exactly when the service failed with "Order not found" |
| PaymentController.RazorpayStatuses | src/controllers/paymentController.js:15-25 | an unknown order gives 404; a gateway that returns nothing, or fails with any other message, gives 500 "Error creating order" |
| PaymentController.ConfirmPaymentError | src/controllers/paymentController.js:42-57 | the dispatch answers only 400, 404 or 500 (a rethrown error) |
| PaymentController.ConfirmPayment | src/controllers/paymentController.js:31-58 | the store is the service's; success answers 200 "Payment confirmed, order updated successfully", a failure the mapped status |
| PaymentController.ConfirmPaymentStatuses | src/controllers/paymentController.js:42-57 | a missing order gives 404, cash on delivery above the limit gives 400 with the service's message, and nothing is rethrown |
| PaymentController.WalletPaymentError | src/controllers/paymentController.js:75-100 | the dispatch answers only 400, 404 or 500 |
| PaymentController.WalletReplyFor | src/controllers/paymentController.js:75-100 | the message dispatch of the wallet handler answers only 400, 404 or 500 |
| PaymentController.ShortBalancePhraseIsReported | src/controllers/paymentController.js:88-93 | any message starting with "Insufficient wallet balance" gets the fixed 400 |
| PaymentController.ProcessWalletPayment | src/controllers/paymentController.js:63-101 | the store is the service's; success answers 200 "Payment confirmed using wallet, order updated successfully", a failure the mapped status |
| PaymentController.ShortBalanceIsReported | src/controllers/paymentController.js:88-93 | the service's balance error, whatever its amounts, is answered 400 with the fixed message |
| PaymentController.WalletPaymentStatuses | src/controllers/paymentController.js:75-100 | a missing user or order gives 404, a short balance gives 400 with the fixed message that drops the amounts, and nothing reaches the 500 |
| PaymentController.GetPaymentPage | src/controllers/paymentController.js:106-139 | 404 for a missing order, then for a missing user; otherwise the order and the user's wallet balance to render |
| Catalog.SortFor | src/services/productService.js:15-43 | exactly the eight listed keys select a sort; price and name are the two fields with an ascending variant, and only "price-asc" and "a-z" sort ascending |
| Catalog.JoinCategories | src/services/productService.js:57-68 | the category join drops exactly the products whose category does not exist, pairing every other product with its category |
| Catalog.JoinKeepsOrder | src/services/productService.js:57-68 | the join keeps the products in their natural (id) order |
| Catalog.JoinedAfterHead | src/services/productService.js:57-68 | every product the join keeps from the rest of an id-ordered list comes after its first product |
| Catalog.Query | src/services/productService.js:57-107 | the pipeline lists stored products with their categories that pass the match, lists every such product, and is sorted by the table's key or else left in natural order |
| Catalog.QueryMatchesStore | src/services/productService.js:57-71 | every matched listing is a stored product with its own category that passes the match |
| Catalog.JoinedIsStored | src/services/productService.js:57-68 | a joined listing carries the stored product under its own id |
| Catalog.QueryFindsAll | src/services/productService.js:57-71 | every stored product with an existing category that passes the match is listed |
| Catalog.OfferOf | src/services/productService.js:73-99 | the offer lookup finds the offer exactly when the id is set and stored |
| Catalog.WithDiscounts | src/services/productService.js:109-118 | each listing is kept in place and gets the discounted price computed from its own offer and its category's offer |
| Catalog.ServiceBounds | src/services/productService.js:49-55 | a missing or non-numeric minimum becomes 0 and a missing maximum becomes no limit |
| Catalog.GetFilteredProducts | src/services/productService.js:6-119 | exactly the active products of active categories, of the given category, within the price bounds, each with its discounted price, sorted per the table, or in increasing id order (natural order) for a key not in the table |
| Catalog.FilteredAreMatches | src/services/productService.js:13-55 | every listed product is active, in an active category, of the requested category and within the bounds |
| Catalog.FilteredAreAll | src/services/productService.js:13-55 | no product that passes the match is missing from the list |
| Catalog.DiscountsKeepOrder | src/services/productService.js:103-118 | adding the discounted price after the sort keeps the sort order, and the natural (increasing id) order when no sort applies |
| Catalog.PriceSortOrders | src/services/productService.js:19-24 | "price-asc" lists cheaper products first and "price-desc" dearer ones first |
| Catalog.RowsWhere | src/services/productService.js:138-141 | a `find` with a filter lists exactly the stored documents that pass it, under their own ids |
| Catalog.FilteredRowListed | src/services/productService.js:138-141 | a stored document that passes the filter is listed |
| Catalog.FilteredRowStored | src/services/productService.js:138-141 | every listed document is stored under its id |
| Catalog.Related | src/services/productService.js:138-141 | exactly the other products of the same category, active or not |
| Catalog.GetProductDetails | src/services/productService.js:121-171 | None for a missing product; a product whose category is gone ends in the TypeError; otherwise the product with its discounted price and every other product of its category, each with its discounted price |
| Catalog.RelatedListings | src/services/productService.js:145-165 | each related product is kept in place and gets its discounted price |
| Catalog.RelatedListingsCover | src/services/productService.js:138-165 | every other product of the category appears among the related listings |
| Catalog.GetStock | src/services/productService.js:173-176 | the product's stock, or null exactly for a missing product |
| Catalog.SearchProducts | src/services/productService.js:178-182 | an empty query lists every product; otherwise exactly the products whose name starts with the query, ignoring case |
| Catalog.AddToWishlist | src/services/productService.js:187-201 | the errors come in the order missing product, missing user, already listed, and none writes; success holds exactly otherwise, appends the product to the user's wishlist and leaves it there exactly once |
| Catalog.Pull | src/services/productService.js:206 | `$pull` removes every occurrence of the id and keeps every other entry in order: the list filtered by "not this id" |
| Catalog.RemoveFromWishlist | src/services/productService.js:203-208 | null with no write for a missing user; otherwise the user with the product pulled from the wishlist |
| Catalog.RemoveUndoesAddToWishlist | src/services/productService.js:187-208 | removing a product just added to a wishlist gives the wishlist back |
| Catalog.PullAppended | src/services/productService.js:198-206 | pulling an id just pushed onto a list without it gives the list back |
| ShopController.GetShop | src/controllers/shopController.js:7-91 | the page keeps the category and sort empty, shows the price bounds ₹200 and ₹5000, held as 20000 and 500000 paise, and gives every listed product its discounted price |
| ShopController.GetShopListsActiveProducts | src/controllers/shopController.js:12-77 | exactly the active products of active categories are listed, in natural (increasing id) order, each with its discounted price, whatever their price: the displayed bounds filter nothing |
| ShopController.GetShopIsUnfilteredService | src/controllers/shopController.js:12-77 | when no price is negative, the shop page lists what getFilteredProducts lists with every argument left out |
| ShopController.ShopBounds | src/controllers/shopController.js:96-97 | `parseFloat(x) \|\| 0` and `\|\| Infinity`: a missing minimum is 0, and a missing or zero maximum is no limit |
| ShopController.BoundsDifferOnlyAtZero | src/controllers/shopController.js:96-97 | the shop's bounds agree with the service's exactly when the maximum is not zero |
| ShopController.FilterShop | src/controllers/shopController.js:93-175 | exactly the products that pass the match under the shop's bounds, sorted per the sort table or left in natural (increasing id) order for an unknown key; a zero maximum lifts the upper bound; the page echoes bounds, category and sort |
| ShopController.FilterShopIsServiceWithoutDiscounts | src/controllers/shopController.js:93-161 | apart from a zero maximum, filterShop lists the same products as getFilteredProducts, without discounted prices |
| ShopController.GetStock | src/controllers/shopController.js:239-259 | 400 without a product id, 404 for a missing product, otherwise the product's stock |
| ShopController.WishlistEntries | src/controllers/shopController.js:270-278 | the populated wishlist keeps only ids of products that still exist, each with its own product's fields |
| ShopController.WishlistEntriesComplete | src/controllers/shopController.js:270-278 | every wishlisted product that still exists has its entry |
| ShopController.GetWishListAsWritten | src/controllers/shopController.js:261-298 | 401 without a session user; an unknown user ends in the 500 of the catch, never the 404 |
| ShopController.GetWishList | src/controllers/shopController.js:261-298 | 401 without a session user, 404 exactly for an unknown user, otherwise success, and the entries, each with its product's fields, are exactly those of the wishlisted products that still exist |
| ShopController.WishListMissingUser | src/controllers/shopController.js:270-283 | the two versions differ on an unknown user: 500 as written, 404 as intended |
| ShopController.AddToWishlist | src/controllers/shopController.js:300-339 | 400 without both ids; then 404 for a missing product, 404 for a missing user, 400 for a duplicate, none of which writes; 200 exactly when the product is pushed |
| ShopController.RemoveWishlist | src/controllers/shopController.js:341-368 | 404 with no write for a missing or unknown user; otherwise the product is pulled from the wishlist with 200 |
| ShopController.SearchProducts | src/controllers/shopController.js:370-387 | a missing or empty query lists every product; any other query lists exactly the stored products whose name starts with it, ignoring case |
| CategoryService.GetCategoryById | src/services/categoryService.js:25-31 | the stored category, or "Category not found" exactly when the id is missing |
| CategoryService.CreateCategory | src/services/categoryService.js:43-58 | an empty name is refused, then a taken name, neither writing; otherwise exactly one new category is stored under a fresh id, active and without offer by the assumed schema defaults |
| CategoryService.CreateKeepsNamesUnique | src/services/categoryService.js:48-55 | creation never gives two categories the same name |
| CategoryService.UpdateCategory | src/services/categoryService.js:67-82 | "Category not found" exactly for a missing id; otherwise name and description are overwritten and returned, nothing else changes |
| CategoryService.UpdateCanDuplicateName | src/services/categoryService.js:73-76 | update does not check names, so renaming one category to another's name leaves two of that name |
| CategoryService.ToggleCategoryStatus | src/services/categoryService.js:89-99 | "Category not found" exactly for a missing id; otherwise only the active flag is negated |
| CategoryService.ToggleTwiceRestores | src/services/categoryService.js:95 | toggling twice restores the store |
| CategoryService.DeleteCategory | src/services/categoryService.js:106-126 | "Category not found" for a missing id; a refusal naming the number of products in the category while any does; success, removing exactly that category, exactly when none does |
| CategoryService.DeleteKeepsCategoriesResolved | src/services/categoryService.js:113-123 | when every product names an existing category before a delete, it still does after |
| CategoryController.AddCategory | src/controllers/categoryController.js:24-48 | 400 without a name, 400 for a taken name, neither writing; 201 exactly otherwise |
| CategoryController.AddCategoryIsCreateCategory | src/controllers/categoryController.js:24-48 | the endpoint stores what createCategory stores and refuses what it refuses, with the same message |
| CategoryController.ToggleCategoryStatus | src/controllers/categoryController.js:51-66 | 404 for a missing category; otherwise the flag is negated and the list page is shown again |
| CategoryController.DeleteCategory | src/controllers/categoryController.js:69-98 | 404 for a missing category; 400 naming the positive product count, with no write; 200 removing exactly that category exactly when no product uses it |
| CategoryController.UpdateCategory | src/controllers/categoryController.js:122-142 | 404 for a missing category; otherwise 200 and the service's overwrite |
| AccountService.GetUserById | src/services/accountService.js:16-22 | the stored user, or "User not found" exactly for a missing id |
| AccountService.UpdateUserAccount | src/services/accountService.js:31-53 | an email held by another user is refused first, then a missing user, neither writing; otherwise only the given fields of that user change; keeping one's own email is no conflict |
| AccountService.UpdateUserAccountKeepsEmailsUnique | src/services/accountService.js:33-46 | when no two users share an email before an update, none do after |
| AccountService.GetAddressWithUserDetails | src/services/accountService.js:88-109 | the user is checked before the address; the name is first and last name run together, a missing landmark is empty, the rest is copied |
| AccountService.ClearDefaults | src/services/accountService.js:122 | `updateMany({user})` clears the default flag on exactly that user's addresses |
| AccountService.CreateAddress | src/services/accountService.js:117-146 | a fresh address of the user, default exactly when asked for or when it is the user's first; asking clears the user's other defaults; no other user's address changes; the id is pushed onto the user's list when the user exists |
| AccountService.CreateAddressKeepsOneDefault | src/services/accountService.js:117-138 | creating an address never gives a user a second default |
| AccountService.UpdateDefaultAddressAsWritten | src/services/accountService.js:153-169 | every address of every user loses its default before the lookup, even when the id is unknown and "Address not found" follows |
| AccountService.DefaultSwitchClearsOtherUsers | src/services/accountService.js:155 | as written, choosing one user's default removes another user's default |
| AccountService.UpdateDefaultAddress | src/services/accountService.js:153-169 | corrected: an unknown id is refused with no write; otherwise only the owner's other defaults are cleared and the chosen address becomes default |
| AccountService.DefaultSwitchKeepsOneDefault | src/services/accountService.js:153-169 | the corrected switch keeps at most one default per user |
| AccountService.GetAddressById | src/services/accountService.js:176-182 | the stored address, or "Address not found" exactly for a missing id |
| AccountService.UpdateAddress | src/services/accountService.js:190-210 | "Address not found" exactly for a missing id; otherwise the seven form fields are overwritten and owner, landmark and default flag stay |
| AccountService.DeleteAddress | src/services/accountService.js:217-225 | "Address not found" exactly for a missing id; otherwise exactly that address is removed |
| AccountService.DeleteUndoesCreate | src/services/accountService.js:117-225 | deleting an address just created restores the address book, while the owner's list keeps the id |
| AccountController.UpdateUserAccount | src/controllers/accountController.js:19-43 | 400 exactly for a taken email, 404 exactly for a missing user, 200 exactly on success, with the service's write |
| AccountController.UpdateDefaultAddress | src/controllers/accountController.js:76-95 | on the corrected service: 404 with no write for an unknown address, otherwise 200 and the service's store |
| AccountController.UpdateDefaultAddressAsWritten | src/controllers/accountController.js:76-95 | on the service as written: 404 for an unknown address, otherwise 200; the store is the service's, with every address other than the chosen one not default |
| AccountController.DefaultSwitchRepliesAgree | src/controllers/accountController.js:76-95 | both versions answer alike; for an unknown id the corrected one writes nothing while the as-written one clears every default |
| AccountController.DeleteAddress | src/controllers/accountController.js:117-132 | 404 with no write exactly for an unknown address, otherwise 200 and the address is gone |
| AccountController.WalletTransactions | src/controllers/accountController.js:134-157 | 404 exactly for an unknown user, otherwise that user's balance and transactions |
| AccountController.DownloadInvoice | src/controllers/accountController.js:159-190 | 404 exactly for an unknown order, otherwise the stored order the invoice is laid out from |
| SalesReport.GetDateRange | src/controllers/admin/salesReportController.js:12-39 | exactly the four named filters give bounds, each the calendar's current day, week, month or year; any other filter gives none |
| SalesReport.DateRangeContainsNow | src/controllers/admin/salesReportController.js:12-39 | with a calendar whose periods contain their instants, every named range contains the present moment |
| SalesReport.ReportRange | src/controllers/admin/salesReportController.js:46-54 | a custom range with both days runs from the start of the first day to the end of the second; otherwise getDateRange; there are no bounds exactly when neither applies |
| SalesReport.ReportOrders | src/controllers/admin/salesReportController.js:58-67 | every reported order is a stored order of the period not flagged cancelled |
| SalesReport.ReportOrdersComplete | src/controllers/admin/salesReportController.js:58-61 | every stored order of the period that is not flagged cancelled is reported, whatever its status |
| SalesReport.Bump | src/controllers/admin/salesReportController.js:86-90 | adding an order to a bucket grows each sum by that order's share and keeps the bucket's key |
| SalesReport.Tally | src/controllers/admin/salesReportController.js:70-99 | the reduce gives each key one bucket |
| SalesReport.TallyCovers | src/controllers/admin/salesReportController.js:70-93 | every order has the bucket of its key |
| SalesReport.TallyGrounded | src/controllers/admin/salesReportController.js:70-93 | every bucket is named after an order of its key |
| SalesReport.TallySum | src/controllers/admin/salesReportController.js:70-93 | whatever the grouping, the buckets together hold each sum over all the orders |
| SalesReport.TallyGroupSums | src/controllers/admin/salesReportController.js:70-93 | each bucket holds exactly the sums over the orders of its key |
| SalesReport.TallyHoldsGroupSums | src/controllers/admin/salesReportController.js:70-93 | every bucket of the reduce holds, for every measure, the sum over exactly the orders of its key |
| SalesReport.GetSalesReport | src/controllers/admin/salesReportController.js:41-129 | 500 exactly when there are no bounds; otherwise one bucket per reported day: the keys are distinct, every reported order has its day's bucket, every bucket is named after a reported order's day, and each bucket's revenue, discount, net, order and item counts are the sums over exactly that day's orders; the summary's count and sums equal both the orders' and the buckets' |
| SalesReport.PlanFor | src/controllers/admin/salesReportController.js:133-253 | a custom range is charted by day between its dates; every other filter ends now; only "Weekly" groups by ISO week; an unknown filter is charted like "Monthly" |
| SalesReport.ChartOrders | src/controllers/admin/salesReportController.js:256-257 | every charted order lies in the window |
| SalesReport.ChartBuckets | src/controllers/admin/salesReportController.js:256-266 | the groups are in ascending key order, each holding the revenue and the count of exactly the orders of its key |
| SalesReport.ChartGroupsGrounded | src/controllers/admin/salesReportController.js:256-279 | every charted group is labelled after an order of the window with its key |
| SalesReport.ChartGroupsCover | src/controllers/admin/salesReportController.js:256-266 | every order of the window is charted in its group |
| SalesReport.ChartOf | src/controllers/admin/salesReportController.js:269-283 | one label and one value per group, in the groups' order |
| SalesReport.GetSalesDataAsWritten | src/controllers/admin/salesReportController.js:131-290 | as written it never refuses: an unparsable custom date is charted as whatever bound the driver sends, and weekly groups sort week first |
| SalesReport.GetSalesData | src/controllers/admin/salesReportController.js:131-290 | corrected: 400 "Invalid date range" exactly for a custom range missing a valid date; otherwise the chart of the plan's window, weekly groups in calendar order |
| SalesReport.InvalidRangeNotRefused | src/controllers/admin/salesReportController.js:213-221 | a custom range without valid dates is charted as written and refused as intended |
| SalesReport.WeeksOutOfOrderAcrossYearEnd | src/controllers/admin/salesReportController.js:170-173 | as written, week 1 of 2025 is charted before week 52 of 2024 |
| SalesReport.WeekKeyIsChronological | src/controllers/admin/salesReportController.js:170-173 | the corrected weekly key sorts by year and then by week |
| SalesReport.TopProducts | src/controllers/admin/salesReportController.js:295-298 | at most ten stored active products, most popular first |
| SalesReport.TopProductsAreTop | src/controllers/admin/salesReportController.js:295-298 | an active product missing from the top list means ten listed products each at least as popular |
| SalesReport.CategoryPopularity | src/controllers/admin/salesReportController.js:302-314 | a category's popularity is 0 when no product belongs to it |
| SalesReport.TopCategories | src/controllers/admin/salesReportController.js:301-322 | three categories, or every category when there are fewer, each stored with its name and summed popularity, most popular first |
| SalesReport.TopCategoriesAreTop | src/controllers/admin/salesReportController.js:301-322 | a category left out of the top list is no more popular than each of the three listed |
| SalesReport.GetBestSellers | src/controllers/admin/salesReportController.js:292-341 | the payload lists the top products' name, image and popularity in order, most popular first, at most ten, and exactly the three most popular categories (fewer when fewer exist) |
| CouponManagement.AmountOr | src/controllers/admin/couponManagementController.js:57 | `x \|\| fallback`: the number when it is truthy, the fallback for an absent or zero one |
| CouponManagement.TextOr | src/controllers/admin/couponManagementController.js:95 | `x \|\| fallback`: the string when it is non-empty, the fallback otherwise |
| CouponManagement.NewCoupon | src/controllers/admin/couponManagementController.js:52-62 | the stored coupon copies the form, with a missing minimum 0, a missing limit 1 and a missing flag true |
| CouponManagement.AddCoupon | src/controllers/admin/couponManagementController.js:21-71 | 400 for a falsy required field, then 400 for a taken code, neither writing; 201 exactly otherwise, adding one coupon under a fresh id |
| CouponManagement.AddCouponKeepsCodesUnique | src/controllers/admin/couponManagementController.js:42-65 | adding never gives two coupons the same code |
| CouponManagement.Revised | src/controllers/admin/couponManagementController.js:95-103 | each field keeps its old value when the form's is falsy, the flag when absent; both bounds are overwritten even when absent |
| CouponManagement.UpdateCoupon | src/controllers/admin/couponManagementController.js:73-111 | 404 with no write exactly for an unknown id; otherwise the revised coupon replaces the old one |
| CouponManagement.EmptyUpdateErasesOnlyBounds | src/controllers/admin/couponManagementController.js:95-103 | an empty form keeps every field except the two bounds, which it erases |
| CouponManagement.UpdateCouponIdempotent | src/controllers/admin/couponManagementController.js:95-104 | sending the same update twice has the effect of sending it once |
| CouponManagement.UpdateCanDuplicateCode | src/controllers/admin/couponManagementController.js:95 | update does not check codes, so it can give a second coupon an existing code |
| CouponManagement.DeleteCoupon | src/controllers/admin/couponManagementController.js:113-127 | 404 with no write exactly for an unknown id; otherwise exactly that coupon is removed |
| CouponManagement.DeleteUndoesAdd | src/controllers/admin/couponManagementController.js:21-127 | deleting a coupon just added restores the store |
| CouponManagement.ToggleCouponStatus | src/controllers/admin/couponManagementController.js:129-149 | 404 with no write exactly for an unknown id; otherwise only the active flag is negated |
| CouponManagement.ToggleCouponTwiceRestores | src/controllers/admin/couponManagementController.js:140 | toggling twice restores the store |
| OfferManagement.NewOffer | src/controllers/admin/offerManagementController.js:46-57 | the stored offer starts active (the assumed schema default) and keeps product, category and referral bonus only for an offer of the matching type |
| OfferManagement.TargetProducts | src/controllers/admin/offerManagementController.js:62-66 | for a product offer naming a product, exactly that product's offer is overwritten; no product is added or removed |
| OfferManagement.TargetCategories | src/controllers/admin/offerManagementController.js:67-71 | for a category offer naming a category, exactly that category's offer is overwritten; no category is added or removed |
| OfferManagement.AddOffer | src/controllers/admin/offerManagementController.js:23-77 | 400 with no write exactly when a required field is falsy; otherwise 201 with the offer under a fresh id and its target pointed at it |
| OfferManagement.AddOfferLinksTarget | src/controllers/admin/offerManagementController.js:60-71 | after an add the new offer is stored and its existing target points back at it |
| OfferManagement.AddOfferKeepsRefsResolved | src/controllers/admin/offerManagementController.js:60-71 | when every offer reference resolves before an add, it still does after |
| OfferManagement.KeepAmount | src/controllers/admin/offerManagementController.js:104 | `x \|\| fallback` on an optional number: a falsy value keeps the fallback |
| OfferManagement.Revised | src/controllers/admin/offerManagementController.js:101-107 | each written field keeps its old value when the form's is falsy; target, referral bonus and status are never touched |
| OfferManagement.UpdateOffer | src/controllers/admin/offerManagementController.js:79-118 | 404 with no write exactly for an unknown id; otherwise the revised offer replaces the old one |
| OfferManagement.EmptyUpdateChangesNothing | src/controllers/admin/offerManagementController.js:101-110 | an empty form changes nothing |
| OfferManagement.UpdateKeepsTruthyBounds | src/controllers/admin/offerManagementController.js:104 | an update never clears a set maximum discount |
| OfferManagement.DeleteOffer | src/controllers/admin/offerManagementController.js:120-137 | 404 with no write exactly for an unknown id; otherwise exactly that offer is removed |
| OfferManagement.DeleteLeavesDanglingReference | src/controllers/admin/offerManagementController.js:132 | deleting an offer a product uses leaves that product pointing at a missing offer |
| OfferManagement.Toggled | src/controllers/admin/offerManagementController.js:152 | "active" becomes "expired" and every other status becomes "active" |
| OfferManagement.ToggleTwiceRestoresIff | src/controllers/admin/offerManagementController.js:152 | toggling twice restores a status exactly when it was "active" or "expired" |
| OfferManagement.ToggleOfferStatus | src/controllers/admin/offerManagementController.js:139-158 | 404 with no write exactly for an unknown id; otherwise only the status is toggled |
| OrderManagement.GetOrders | src/controllers/admin/orderManagementController.js:10-20 | every order once, newest first |
| OrderManagement.GetOrdersSound | src/controllers/admin/orderManagementController.js:11 | every listed row is a stored order under its own id |
| OrderManagement.GetOrdersComplete | src/controllers/admin/orderManagementController.js:11 | every stored order is listed |
| OrderManagement.SetStatus | src/controllers/admin/orderManagementController.js:25-28 | `updateOne` writes only the status; it matches one order exactly when the id is stored and modifies it exactly when the status differs |
| OrderManagement.UpdateOrderStatusAsWritten | src/controllers/admin/orderManagementController.js:22-37 | as written the answer is always 200, since the update result is never falsy |
| OrderManagement.MissingOrderReportedUpdated | src/controllers/admin/orderManagementController.js:30-36 | as written an unknown order gets 200 and nothing changes |
| OrderManagement.UpdateOrderStatus | src/controllers/admin/orderManagementController.js:22-37 | corrected: 404 with no write exactly for an unknown order; otherwise 200 with only that order's status set, to any value |
| OrderManagement.DeliveredCanReturnToPending | src/controllers/admin/orderManagementController.js:24-28 | no transition is refused: a delivered order can be set back to pending |
| OrderManagement.CorrectionOnlyAffectsMissingOrders | src/controllers/admin/orderManagementController.js:22-37 | for a stored order the corrected and the written handler agree |
| UserManagement.NextStatus | src/controllers/admin/userManagementController.js:38 | "Active" becomes "Inactive" and every other status becomes "Active" |
| UserManagement.NextStatusDiffers | src/controllers/admin/userManagementController.js:38-50 | the new status always differs from the old, so the update always modifies the user |
| UserManagement.ToggleTwiceRestoresIff | src/controllers/admin/userManagementController.js:38 | toggling twice restores a status exactly when it was "Active" or "Inactive" |
| UserManagement.ModifiedCount | src/controllers/admin/userManagementController.js:41-47 | the update modifies nothing exactly when the user is missing or already has the status |
| UserManagement.ToggleUserStatus | src/controllers/admin/userManagementController.js:27-54 | 404 with no write exactly for an unknown user; otherwise only that user's status flips and the admin is sent to the user list |
| UserManagement.ToggleUserTwiceRestores | src/controllers/admin/userManagementController.js:38-44 | for an "Active" or "Inactive" user, toggling twice restores the store |
| ProductController.NewProduct | src/controllers/productController.js:69-79 | the saved product takes the given name, description, price, category, stock and the uploaded URLs; listing, stock flag and popularity keep the schema defaults |
| ProductController.AddProduct | src/controllers/productController.js:35-86 | behind the upload limits of src/routes/productRoutes.js:10-18: 500 for a file beyond them, then 400 without one main and two support images, then 400 for an absent or empty required field (text "0" passes), then 400 for a taken name, then 500 for a price or stock that does not cast, none writing; a redirect exactly otherwise, saving one product under a fresh id |
| ProductController.AddProductKeepsNamesUnique | src/controllers/productController.js:60-82 | adding never gives two products the same name |
| ProductController.ZeroStockIsAccepted | src/controllers/productController.js:54-82 | a stock sent as "0" is truthy, so an otherwise valid product is saved with stock 0 and the schema's stock flag |
| ProductController.ToggleProductStatus | src/controllers/productController.js:89-108 | 404 with no write exactly for an unknown id; otherwise only the listing flag is negated |
| ProductController.ToggleProductTwiceRestores | src/controllers/productController.js:101 | toggling twice restores the store |
| ProductController.EditedStock | src/controllers/productController.js:168 | `stock \|\| 0`: 0 for an absent or empty field, otherwise the cast of its text |
| ProductController.EditedImages | src/controllers/productController.js:149-162 | each image part is replaced only when a new file for it was sent, and with no new file the images stay as they were |
| ProductController.UpdateProduct | src/controllers/productController.js:136-176 | behind the upload limits of src/routes/productRoutes.js:24-32: 500 for a file beyond them, then 404 for an unknown id, then 500 when the price or a sent stock does not cast, none writing; otherwise the edited fields are set, the stock is `stock \|\| 0`, the product is out of stock exactly when the stock field was absent or empty, images follow the edit, and nothing else changes |
| ProductController.UpdateTwiceIsUpdateOnce | src/controllers/productController.js:136-176 | sending the same edit twice with no new files leaves the store as sending it once |
| ProductController.WrittenStockIsInStock | src/controllers/productController.js:168-169 | any non-empty stock text, "0" and negative numbers included, is stored as cast and leaves the product in stock |
| ProductController.ZeroStockEditIsInStock | src/controllers/productController.js:168-169 | a stock of "0" is stored as 0 while the product stays marked in stock |
| ProductController.BlankStockIsOutOfStock | src/controllers/productController.js:168-169 | an absent or empty stock is stored as 0 and marks the product out of stock |
| ProductController.UpdateCanDuplicateName | src/controllers/productController.js:165 | edits do not check names, so a product can take another product's name |
| AuthService.DrawOtp | src/services/authService.js:49 | the drawn password lies in [100000, 999999) |
| AuthService.EveryOtpCanBeDrawn | src/services/authService.js:49 | every password of that range can be drawn |
| AuthService.SendOtp | src/services/authService.js:48-61 | a password in range, expiring five minutes after now, mailed to the address with the fixed subject and a text naming it |
| AuthService.FindUserByEmail | src/services/authService.js:23 | a user with exactly that email, and None exactly when there is none |
| AuthService.CreateUser | src/services/authService.js:25-28 | the signup's fields saved under a fresh id over the schema defaults, nothing else written |
| AuthService.HandleGoogleLogin | src/services/authService.js:30-46 | a known email returns its user with no write; otherwise exactly one new active Google user with the profile's names and the hash of "123456" |
| AuthService.GoogleLoginIsIdempotent | src/services/authService.js:30-46 | a second sign-in with the same profile finds the account the first made and writes nothing |
| AuthService.UpdatePassword | src/services/authService.js:63-66 | only the user's password changes, to the hash of the new one; an unknown id writes nothing |
| AuthService.ResetPassword | src/services/authService.js:68-75 | "User not found" with no write exactly when no user has the email; otherwise that user's password is replaced by its hash |
| AuthService.ResetPasswordIsChecked | src/services/authService.js:68-75 | with a compare that accepts a password against its own hash, the reset password is accepted |
| AuthController.SendOtp | src/controllers/authController.js:20-52 | a known email throws "User Already Exists" with the session unchanged; otherwise the session holds a password in range, its expiry five minutes on and the pending user with the hashed password |
| AuthController.ResendOtpAsWritten | src/controllers/authController.js:54-68 | as written, a session without a pending user throws while destructuring (500); only an empty email reaches the 400 |
| AuthController.ResendWithoutSignupCrashes | src/controllers/authController.js:55 | a visitor who never started a signup gets a server error |
| AuthController.ResendOtp | src/controllers/authController.js:54-68 | corrected: 400 exactly without a pending user with an email; otherwise a new password and expiry while the pending user stays |
| AuthController.ResendAgreesWhenSignupPending | src/controllers/authController.js:54-68 | with a pending user, the written and the corrected handler agree |
| AuthController.VerifyAndSignUp | src/controllers/authController.js:70-111 | no live password renders "OTP has expired", a wrong one "Invalid OTP", neither writing; the right one creates the pending user, clears the signup fields and signs the new user in |
| AuthController.WrongOtpAllowsRetry | src/controllers/authController.js:91-100 | a wrong password changes nothing, so the right one still works afterwards |
| AuthController.OtpIsSingleUse | src/controllers/authController.js:85-87 | once a signup completes, the same password is refused as expired |
| AuthController.LoginUser | src/controllers/authController.js:113-134 | 200 exactly when a user has the email, the password matches and the account is "Active", signing that user in; otherwise 401 with the session untouched |
| AuthController.BlockedUserCannotLogin | src/controllers/authController.js:117-121 | an account that is not "Active" cannot sign in, whatever the password |
| AuthController.SignupThenLogin | src/controllers/authController.js:20-134 | a new email, its password entered before expiry and a login with the chosen password succeed, given active new accounts and a sound hash check |
| AuthController.ResetPassword | src/controllers/authController.js:158-177 | 401 without a session email, 400 for differing passwords, 500 for an unknown email, none writing; 200 exactly otherwise, with the service's reset |
| FieldChecks.IntIsFloat | src/middleware/validators/adminValidator.js:24-36 | every string `isInt({ min: 0 })` accepts (the stock check), `isFloat({ min: 0 })` accepts too (the price check) |
| FieldChecks.WrittenNumbers | src/middleware/validators/adminValidator.js:24-36 | a natural number written out passes both number checks; with a minus sign in front of a positive one it fails both |
| FieldChecks.Escape | src/middleware/validators/authValidator.js:13 | `escape()` never shortens its input |
| FieldChecks.EscapeLeavesNoMarkup | src/middleware/validators/authValidator.js:13 | after escaping no quote, angle bracket, slash, backslash or backtick is left |
| FieldChecks.EscapeKeepsPlainText | src/middleware/validators/authValidator.js:13 | a string with none of the escaped characters is left as it is |
| AuthValidator.BoundedMessages | src/middleware/validators/authValidator.js:7-12 | no message exactly when the trimmed field has 1 to `max` characters |
| AuthValidator.EmailErrors | src/middleware/validators/authValidator.js:23-28 | no error exactly when the trimmed email is non-empty and passes `isEmail` |
| AuthValidator.PasswordErrors | src/middleware/validators/authValidator.js:31-36 | no error exactly when the trimmed password has at least six characters; an empty one gets both messages |
| AuthValidator.SignupValidation | src/middleware/validators/authValidator.js:6-37 | no error exactly when both names have 1 to 50 trimmed characters, the email is valid and the password has at least six; the body leaves trimmed, names escaped and email normalised |
| AuthValidator.LoginValidation | src/middleware/validators/authValidator.js:42-52 | no error exactly when the email is valid and the trimmed password non-empty |
| AuthValidator.AdminLoginValidation | src/middleware/validators/authValidator.js:57-67 | no error exactly when the username has 1 to 50 trimmed characters and the password is non-empty |
| AuthValidator.FormView | src/middleware/validators/authValidator.js:93-99 | the signup page unless the path mentions login; then the admin login page when it also mentions admin, else the user login page |
| AuthValidator.Validate | src/middleware/validators/authValidator.js:74-113 | on to the handler exactly without errors; otherwise 400, as JSON exactly for an AJAX or JSON-accepting request, else the page the path selects, marked admin and without header exactly on admin paths |
| AuthValidator.RejectedFormPages | src/middleware/validators/authValidator.js:93-109 | a rejected form on a login path is shown a login page; an admin path without "login" falls back to the signup page marked admin |
| AdminValidator.NumberMessages | src/middleware/validators/adminValidator.js:24-29 | no message exactly when the trimmed value is non-empty and its syntax check accepts it |
| AdminValidator.PriceErrors | src/middleware/validators/adminValidator.js:24-29 | no error exactly when the trimmed price passes `isFloat({ min: 0 })`; a blank price gets "Price is required" and the number message, a refused one only the number message |
| AdminValidator.StockErrors | src/middleware/validators/adminValidator.js:31-36 | no error exactly when the trimmed stock passes `isInt({ min: 0 })`; a blank stock gets "Stock is required" and the integer message, a refused one only the integer message |
| AdminValidator.CategoryIdErrors | src/middleware/validators/adminValidator.js:38-43 | no error exactly when the trimmed id is 24 characters of hexadecimal, which may start with 0x or 0h; a blank id gets "Category is required" and "Invalid category ID", a malformed one only the latter |
| AdminValidator.MongoIdForms | src/middleware/validators/adminValidator.js:38-43 | 24 hex digits pass as an id, so do "0x" and 22 digits, and a run of digits of any other length does not |
| AdminValidator.ProductValidation | src/middleware/validators/adminValidator.js:7-44 | no error exactly when name (1-100), description (1-1000), price, stock and category id all pass; the body leaves trimmed with both texts escaped |
| AdminValidator.WrittenStockAndPrice | src/middleware/validators/adminValidator.js:24-36 | any natural number is a valid stock and price; a negative one is neither |
| AdminValidator.NameLimitIsInclusive | src/middleware/validators/adminValidator.js:12-13 | a name of exactly 100 characters passes, though the message says fewer than 100 |
| AdminValidator.CategoryValidation | src/middleware/validators/adminValidator.js:49-64 | no error exactly when the name has 1 to 50 trimmed characters and a sent description at most 500; both leave trimmed and escaped |
| AdminValidator.CodeErrors | src/middleware/validators/adminValidator.js:70-77 | no error exactly when the trimmed code has 3 to 20 characters, all letters or digits; an empty code gets all three messages |
| AdminValidator.DiscountTypeErrors | src/middleware/validators/adminValidator.js:80-85 | no error exactly when the trimmed type is "Percentage" or "Fixed"; a blank type gets both messages, any other only "Invalid discount type" |
| AdminValidator.DiscountValueErrors | src/middleware/validators/adminValidator.js:87-92 | no error exactly when the trimmed value passes `isFloat({ min: 0 })`; a blank value gets "Discount value is required" and the number message, a refused one only the number message |
| AdminValidator.BoundErrors | src/middleware/validators/adminValidator.js:94-104 | an optional bound has no error exactly when it is left out or passes `isFloat({ min: 0 })` |
| AdminValidator.CouponValidation | src/middleware/validators/adminValidator.js:69-105 | no error exactly when the trimmed code has 3-20 letters and digits, the type is "Percentage" or "Fixed", the value is a number at least 0 and any sent bounds are too; the code leaves trimmed and upper-cased |
| AdminValidator.CouponErrors | src/middleware/validators/adminValidator.js:69-105 | the chain's errors are empty exactly when every field passes |
| AdminValidator.AcceptedCodeIsUpperCase | src/middleware/validators/adminValidator.js:70-78 | an accepted code leaves with 3 to 20 letters or digits and no lower-case letter |
| AdminValidator.LowerCaseTypesRefused | src/middleware/validators/adminValidator.js:84 | the lower-case "percentage" and "fixed" are refused by the form |
| ValidateEnv.Missing | src/config/validateEnv.js:55-57 | the variables that are unset or empty, each with its description, in their listed order |
| ValidateEnv.MissingLines | src/config/validateEnv.js:61-63 | one line per missing variable, in order, carrying its name and description |
| ValidateEnv.EnvErrors | src/config/validateEnv.js:54-64 | no error lines exactly when every required variable is set; otherwise the heading followed by one line per missing variable, naming it and its description in order |
| ValidateEnv.EnvWarnings | src/config/validateEnv.js:66-78 | a short-secret warning exactly when SESSION_SECRET is set with fewer than 32 characters; a port warning exactly when PORT is set and `parseInt` cannot read it |
| ValidateEnv.ValidateEnvironment | src/config/validateEnv.js:50-98 | errors exactly when a required variable is unset or empty, listed under the heading; both warnings as above; the process exits exactly when there are errors |
| ValidateEnv.Port | src/config/validateEnv.js:112 | the exported port is never 0 and is 3000 when PORT is unset |
| ValidateEnv.NodeEnv | src/config/validateEnv.js:113 | NODE_ENV when set and non-empty, else "development" |
| ValidateEnv.PortReadsBack | src/config/validateEnv.js:112 | a PORT written as a non-zero integer is exported as that integer |
| ValidateEnv.BadPortFallsBack | src/config/validateEnv.js:74-78 | a PORT the check warns about is exported as 3000 and does not stop a start-up that has every required variable |
| ValidateEnv.EmptyEnvironmentListsAll | src/config/validateEnv.js:10-33 | with nothing set, the heading and then all eleven required variables, in the order they are declared, are reported and the process exits |
| ValidateEnv.NothingSetListsAll | src/config/validateEnv.js:54-64 | with nothing set, any list of variables is reported in full: the heading, then one line per variable in list order |

## Left out

- Rendering: every `res.render` page, its layout and its view data beyond the values the model computes. This includes getOrderSuccessPage, getOrderHistory, getOrderDetail, getCart, getCartWithProductDetails, getOffers, getDeals, getOfferCategories, getOfferProducts, getCoupons, viewOrder, getUsers, getProducts, getProductById, getCategory, getCategoryDetail, getUserAccount, editAddressPage and the invoice PDF layout of generateInvoicePDF. These are reads of the store and template calls, with no rule to state.
- Thin wrappers whose rule lives in a modelled service: categoryService.getAllCategories, accountService.getUserAddresses, the account controller's getAddresses, getAddressDetails, addAddress and updateAddress, and the auth controller's updatePassword, which answers 200 around AuthService.UpdatePassword. shopController.getProduct repeats getProductDetails (a 404 where the service returns null) and is covered by Catalog.GetProductDetails.
- Passport and session glue: successGoogleLogin, failureGoogleLogin and logoutUser, which destroys the session. The session itself is a record that the controllers take and return.
- I/O and foreign code, all of them parameters: MongoDB failures, bcrypt, crypto.randomInt, nodemailer (including the fallback of the mail's "from" address), Cloudinary uploads, Razorpay order creation and its HMAC signature check, moment and the aggregation calendar operators (`$isoWeek`, `$dateToString`), and the utility helpers calculateDiscountedPrice and calculateTotals. Each is a function argument, not a formula.
- Database errors: every `catch` that answers 500 for a thrown driver error. This includes the 500 of updateDefaultAddress and downloadInvoice for database failures. Only the 500s that the code's own logic reaches are modelled, such as a null dereference.
- The Mongoose schemas are not part of this model. The defaults they would supply are assumed, not derived: a new category is active and has no offer (CategoryService.CreateCategory), a new offer's status is "active" (OfferManagement.NewOffer), and a new cart's final total and discount are 0 with no coupon (CartService.BaseCart). A new order is Pending, not cancelled, and dated now (OrderService.CreateOrderFromCart). Only the product and user creators take the schema's blank document as a parameter.
- The two product forms are multipart, so their fields arrive as text: a price or stock of "0" is truthy, and the stored number is Mongoose's cast, a parameter (ProductController.CastFn). Every other request body is taken as typed: numbers as integers and flags as booleans. JavaScript's coercion of form text is not modelled for those.
- The two 500 answers of the product forms (the constants SaveRefused and UnexpectedFile of ProductController): the status is modelled, but the error page's message text is Mongoose's and multer's own. The model gives it as "Product validation failed" and "Unexpected field". A category id that is not a valid ObjectId is taken as already cast, so its CastError at save is not modelled.
- The edit form of products is assumed to carry every field. The source reads them without checks.
- Floating point: prices are exact integer cents, and `toFixed(2)` rounding is Money.Round2 on exact quotients, halves away from zero. IEEE edge cases of `isFloat` (Infinity, hexadecimal, rounding of long decimals) are not modelled.
- The resendOtp destructure message does not distinguish `undefined` from `null`: both are the 500.
- userManagement's `modifiedCount === 0` branch is not modelled separately. With a known user whose flag is negated it cannot be reached.
- The validator chains couponValidation, productValidation, categoryValidation and adminLoginValidation are modelled on their own. The routes that would mount them are not part of this model, so the model does not chain them in front of the admin handlers.
- `isEmail` and `normalizeEmail` are parameters of the validators. Their grammar is the validator library's.
- `trim()` and `parseInt` skip the common white-space characters: space, tab, line feed, carriage return, vertical tab, form feed, no-break space, the byte-order mark and the two line and paragraph separators. The other Unicode space separators are not listed. The length checks (`isLength`) count every character, while the validator library leaves the variation selectors U+FE0E and U+FE0F out of the count: a 50-letter first name followed by U+FE0F passes in the code and not in the model.
- The product search builds the anchored regular expression `^query` with the `i` flag from the raw query. The model matches the query as a plain case-insensitive prefix, so regular-expression metacharacters in the query are not modelled.
- Catalog.SearchProducts: case is folded for the ASCII letters A–Z only (`Text.ToLower`). The `i` flag also folds letters outside ASCII, such as "É" and "é", so a name that differs from the query only in such a letter is matched by the code and not by the model.
- ShopController.SearchProducts: the same ASCII-only case folding as Catalog.SearchProducts.
- AdminValidator.CouponValidation: the sanitized code is upper-cased for the ASCII letters a–z only (`Text.ToUpper`). JavaScript's `toUpperCase` maps every letter, so "café" leaves as "CAFÉ" in the code and "CAFé" in the model, and "ß" becomes "SS", changing the length. For an accepted code, which is ASCII letters and digits, the two agree (AdminValidator.AcceptedCodeIsUpperCase).
- updateUserAccount's `$set` of the whole request body is modelled as the four optional profile fields the form sends. Other body keys are not modelled.
- validateEnv's console output (banners, emoji, the text of each line) and `process.exit` itself are not modelled. The report records the error and warning lines and whether the process exits. The SESSION_SECRET length is counted in characters.
- AdminValidator.NameLimitIsInclusive: the `isLength({ max: N })` messages say "less than N", but N characters pass. The model follows the code, and this lemma states the difference.

## Findings

| source | as written | input that shows it | evidently intended | confidence | as-written member | corrected member |
|---|---|---|---|---|---|---|
| src/controllers/shopController.js:270-283 | `user.wishlist` is read before the `if (!user)` check | a session user id with no stored user | 404 "User not found" | high, not executed | ShopController.GetWishListAsWritten | ShopController.GetWishList |
| src/services/accountService.js:155 | `updateMany({}, { isDefault: false })` clears the default address of every user | two users with a default address each; one of them picks another default | only the requesting user's addresses lose their default | high, not executed | AccountService.UpdateDefaultAddressAsWritten | AccountService.UpdateDefaultAddress |
| src/controllers/admin/salesReportController.js:217 | `Number.isNaN(start)` on a `Date` is always false, so the 400 is never sent | a "Custom Date Range" request with an unparsable start date | 400 "Invalid date range" | high, not executed | SalesReport.GetSalesDataAsWritten | SalesReport.GetSalesData |
| src/controllers/admin/salesReportController.js:170-173 | the weekly group key `{ week, year }` is sorted week first | orders in week 52 of 2024 and week 1 of 2025 | year first, then week | medium, not executed | SalesReport.WeeksOutOfOrderAcrossYearEnd | SalesReport.WeekKeyIsChronological |
| src/controllers/admin/orderManagementController.js:25-34 | `if (!updatedOrder)` tests the result of `updateOne`, which is always an object | an order id that does not exist | 404 "Order not found" | high, not executed | OrderManagement.UpdateOrderStatusAsWritten | OrderManagement.UpdateOrderStatus |
| src/controllers/authController.js:55 | `req.session.tempUser` is destructured without a null check | resend-OTP from a session that never started a signup | 400 asking the visitor to sign up again | high, not executed | AuthController.ResendOtpAsWritten | AuthController.ResendOtp |

=== FILE: account_controller.dfy ===
/**
 * The account endpoints' error-to-status tables (src/controllers/accountController.js).
 */
module AccountController {
  import opened Wrappers
  import opened Tables
  import opened Records
  import AccountService

  /** updateUserAccount: 400 for a taken email (in the controller's own wording), 404 for a missing user, otherwise 200. */
  function UpdateUserAccount(s: Store, user: Id, update: AccountService.AccountUpdate): (r: (Store, Reply))
    ensures var step := AccountService.UpdateUserAccount(s, user, update);
      && r.0 == step.store
      && (step.result == Failure(EmailInUse) <==> r.1 == Reply(400, "Email is already in use"))
      && (step.result == Failure(UserNotFound) <==> r.1 == Reply(404, "User not found"))
      && (step.result.Success? <==> r.1 == Reply(200, "Account updated successfully"))
  {
    var step := AccountService.UpdateUserAccount(s, user, update);
    var reply :=
      if step.result.Success? then Reply(200, "Account updated successfully")
      else if step.result.error == EmailInUse then Reply(400, "Email is already in use")
      else Reply(404, "User not found");
    (step.store, reply)
  }

  /**
   * updateDefaultAddress as written: the handler calls the service as written, so every user's
   * default is cleared before the lookup, and an unknown id still answers 404 after that clear.
   * The 500 "Internal server error" branch answers failures of the database itself, which the
   * store does not have.
   */
  function UpdateDefaultAddressAsWritten(s: Store, id: Id): (r: (Store, Reply))
    ensures id !in s.addresses ==> r.1 == Reply(404, "Address not found")
    ensures id in s.addresses ==> r.1 == Reply(200, "Default address updated successfully")
    ensures r.0 == AccountService.UpdateDefaultAddressAsWritten(s, id).store
    ensures forall k :: k in r.0.addresses && k != id ==> !r.0.addresses[k].isDefault
  {
    var step := AccountService.UpdateDefaultAddressAsWritten(s, id);
    var reply := if step.result.Success? then Reply(200, "Default address updated successfully") else Reply(404, "Address not found");
    (step.store, reply)
  }

  /**
   * updateDefaultAddress on the corrected service: the same replies, but an unknown id writes
   * nothing and only the owner's other addresses lose their default.
   */
  function UpdateDefaultAddress(s: Store, id: Id): (r: (Store, Reply))
    ensures id !in s.addresses ==> r == (s, Reply(404, "Address not found"))
    ensures id in s.addresses ==> r.1 == Reply(200, "Default address updated successfully")
    ensures r.0 == AccountService.UpdateDefaultAddress(s, id).store
  {
    var step := AccountService.UpdateDefaultAddress(s, id);
    var reply := if step.result.Success? then Reply(200, "Default address updated successfully") else Reply(404, "Address not found");
    (step.store, reply)
  }

  /**
   * The two handlers give the same reply; as written, an unknown id still leaves every
   * address without its default, where the corrected one leaves the store alone.
   */
  lemma DefaultSwitchRepliesAgree(s: Store, id: Id)
    ensures UpdateDefaultAddressAsWritten(s, id).1 == UpdateDefaultAddress(s, id).1
    ensures id !in s.addresses ==>
      && UpdateDefaultAddress(s, id).0 == s
      && forall k :: k in s.addresses ==> UpdateDefaultAddressAsWritten(s, id).0.addresses[k] == s.addresses[k].(isDefault := false)
  {
  }

  /** deleteAddress: 404 "Address not found", otherwise 200 and the address is gone. */
  function DeleteAddress(s: Store, id: Id): (r: (Store, Reply))
    ensures id !in s.addresses <==> r == (s, Reply(404, "Address not found"))
    ensures id in s.addresses ==> r == (s.(addresses := s.addresses - {id}), Reply(200, "Address deleted successfully"))
  {
    var step := AccountService.DeleteAddress(s, id);
    if step.result.Failure? then (s, Reply(404, "Address not found"))
    else (step.store, Reply(200, "Address deleted successfully"))
  }

  /** walletTransactions: 404 "User not found", otherwise the user's wallet page. */
  function WalletTransactions(s: Store, user: Id): (r: Result<User, Reply>)
    ensures r.Failure? <==> user !in s.users
    ensures r.Failure? ==> r.error == Reply(404, "User not found")
    ensures r.Success? ==>
      r.value.walletTransactions == s.users[user].walletTransactions && r.value.walletBalance == s.users[user].walletBalance
  {
    match AccountService.GetUserById(s, user)
    case Success(u) => Success(u)
    case Failure(_) => Failure(Reply(404, "User not found"))
  }

  /**
   * downloadInvoice: 404 "Order not found" for an unknown order; a failure while laying out the
   * PDF would be a 500, and the layout is not part of this model.
   */
  function DownloadInvoice(s: Store, orderId: Id): (r: Result<Order, Reply>)
    ensures r.Failure? <==> orderId !in s.orders
    ensures r.Failure? ==> r.error == Reply(404, "Order not found")
    ensures r.Success? ==> r.value == s.orders[orderId]
  {
    if orderId in s.orders then Success(s.orders[orderId]) else Failure(Reply(404, "Order not found"))
  }
}

=== FILE: account_service.dfy ===
/**
 * The customer's account and address book (src/services/accountService.js): profile update
 * with a unique email, address creation with the default-address rules, default switching,
 * edit and removal. Invoice PDF generation is not part of this model.
 */
module AccountService {
  import opened Wrappers
  import opened Tables
  import opened Records

  /** The profile fields an account update may set; None leaves the field as it is. */
  datatype AccountUpdate = AccountUpdate(
    firstName: Option<string>,
    lastName: Option<string>,
    email: Option<string>,
    mobile: Option<string>)

  /** The address fields of the address form. */
  datatype AddressInput = AddressInput(
    location: string,
    city: string,
    state: string,
    country: string,
    zip: string,
    addressType: string,
    customName: string)

  /** The address as the checkout form is filled from it. */
  datatype AddressDetails = AddressDetails(
    name: string,
    mobile: string,
    location: string,
    city: string,
    state: string,
    landmark: string,
    zip: string)

  /** No two users share an email. */
  predicate EmailsUnique(users: map<Id, User>) {
    forall a, b :: a in users && b in users && users[a].email == users[b].email ==> a == b
  }

  /** Each user has at most one default address. */
  predicate OneDefaultEach(addresses: map<Id, Address>) {
    forall a, b :: (a in addresses && b in addresses && addresses[a].isDefault && addresses[b].isDefault
      && addresses[a].user == addresses[b].user) ==> a == b
  }

  /** Another user than `user` already has `email` (the findOne on email with `_id: {$ne: user}`). */
  predicate EmailTaken(users: map<Id, User>, user: Id, email: string) {
    exists k :: k in users && k != user && users[k].email == email
  }

  function OfUser(user: Id): Address -> bool {
    (a: Address) => a.user == user
  }

  /** getUserById (and getUserWithWallet): the user, or "User not found". */
  function GetUserById(s: Store, id: Id): (r: Result<User, Err>)
    ensures r.Failure? <==> id !in s.users
    ensures r.Failure? ==> r.error == UserNotFound
    ensures r.Success? ==> r.value == s.users[id]
  {
    if id in s.users then Success(s.users[id]) else Failure(UserNotFound)
  }

  function Patched(u: User, update: AccountUpdate): User {
    u.(firstName := update.firstName.GetOr(u.firstName),
       lastName := update.lastName.GetOr(u.lastName),
       email := update.email.GetOr(u.email),
       mobile := update.mobile.GetOr(u.mobile))
  }

  /**
   * updateUserAccount: an email held by another user is refused first, with no write; then a
   * missing user; otherwise the given fields are set on that user and nothing else changes.
   * A user keeping their own email is not a conflict.
   */
  function UpdateUserAccount(s: Store, user: Id, update: AccountUpdate): (r: Step<User>)
    ensures r.result.Failure? ==> r.store == s
    ensures (update.email.Some? && exists k :: k in s.users && k != user && s.users[k].email == update.email.value) ==>
      r.result == Failure(EmailInUse)
    ensures r.result == Failure(UserNotFound) <==>
      user !in s.users && (update.email.None? || forall k :: k in s.users && k != user ==> s.users[k].email != update.email.value)
    ensures r.result.Success? ==>
      && user in s.users
      && user in r.store.users && r.result.value == r.store.users[user]
      && r.store == s.(users := s.users[user := Patched(s.users[user], update)])
  {
    if update.email.Some? && EmailTaken(s.users, user, update.email.value) then
      Fail(s, EmailInUse)
    else if user !in s.users then
      Fail(s, UserNotFound)
    else
      var u := Patched(s.users[user], update);
      Done(s.(users := s.users[user := u]), u)
  }

  /** The email check keeps emails unique across users. */
  lemma UpdateUserAccountKeepsEmailsUnique(s: Store, user: Id, update: AccountUpdate)
    requires EmailsUnique(s.users)
    ensures EmailsUnique(UpdateUserAccount(s, user, update).store.users)
  {
    var r := UpdateUserAccount(s, user, update);
    if r.result.Success? {
      var users := r.store.users;
      forall a, b | a in users && b in users && users[a].email == users[b].email ensures a == b {
      }
    }
  }

  /**
   * getAddressWithUserDetails: the user is checked before the address; the name is first and
   * last name run together and a missing landmark is the empty string.
   */
  function GetAddressWithUserDetails(s: Store, addressId: Id, user: Id): (r: Result<AddressDetails, Err>)
    ensures user !in s.users ==> r == Failure(UserNotFound)
    ensures user in s.users && addressId !in s.addresses ==> r == Failure(AddressNotFound)
    ensures r.Success? ==>
      && user in s.users && addressId in s.addresses
      && var u := s.users[user];
         var a := s.addresses[addressId];
         && r.value.name == u.firstName + u.lastName
         && |r.value.name| == |u.firstName| + |u.lastName|
         && (a.landmark.Some? ==> r.value.landmark == a.landmark.value)
         && (a.landmark.None? ==> r.value.landmark == "")
         && (r.value.mobile, r.value.location, r.value.city, r.value.state, r.value.zip)
            == (u.mobile, a.location, a.city, a.state, a.zip)
  {
    if user !in s.users then Failure(UserNotFound)
    else if addressId !in s.addresses then Failure(AddressNotFound)
    else
      var u := s.users[user];
      var a := s.addresses[addressId];
      Success(AddressDetails(u.firstName + u.lastName, u.mobile, a.location, a.city, a.state, a.landmark.GetOr(""), a.zip))
  }

  /** The user's addresses all lose the default flag; every other address stays as it is. */
  function ClearDefaults(addresses: map<Id, Address>, user: Id): (r: map<Id, Address>)
    ensures r.Keys == addresses.Keys
    ensures forall k :: k in r && addresses[k].user == user ==> r[k] == addresses[k].(isDefault := false)
    ensures forall k :: k in r && addresses[k].user != user ==> r[k] == addresses[k]
  {
    map k | k in addresses :: if addresses[k].user == user then addresses[k].(isDefault := false) else addresses[k]
  }

  function NewAddress(user: Id, input: AddressInput, isDefault: bool): Address {
    Address(user, input.location, input.city, input.state, input.country, input.zip, input.addressType,
            input.customName, None, isDefault)
  }

  /**
   * createAddress: the address is stored under a fresh id; it is default when it is the user's
   * first or when asked for, and asking for it first clears the user's other defaults; its id is
   * appended to the user's address list when the user exists. No landmark is stored.
   */
  function CreateAddress(s: Store, user: Id, input: AddressInput, wantsDefault: bool): (r: Step<Id>)
    ensures r.result.Success?
    ensures var id := r.result.value;
      && id !in s.addresses
      && r.store.addresses.Keys == s.addresses.Keys + {id}
      && r.store.addresses[id].user == user
      && (r.store.addresses[id].isDefault <==> wantsDefault || forall k :: k in s.addresses ==> s.addresses[k].user != user)
      && (wantsDefault ==> forall k :: k in s.addresses && s.addresses[k].user == user ==> !r.store.addresses[k].isDefault)
      && (forall k :: k in s.addresses && s.addresses[k].user != user ==> r.store.addresses[k] == s.addresses[k])
    ensures user in s.users ==> r.store.users == s.users[user := s.users[user].(addresses := s.users[user].addresses + [r.result.value])]
    ensures user !in s.users ==> r.store.users == s.users
    ensures r.store == s.(addresses := r.store.addresses, users := r.store.users)
  {
    var first := CountWhere(s.addresses, OfUser(user)) == 0;
    assert first <==> forall k :: k in s.addresses ==> s.addresses[k].user != user;
    var cleared := if wantsDefault then ClearDefaults(s.addresses, user) else s.addresses;
    assert cleared.Keys == s.addresses.Keys;
    var id := NextId(s.addresses);
    var addresses := cleared[id := NewAddress(user, input, first || wantsDefault)];
    assert addresses[id].isDefault == (first || wantsDefault) && addresses[id].user == user;
    var users := if user in s.users then s.users[user := s.users[user].(addresses := s.users[user].addresses + [id])] else s.users;
    Done(s.(addresses := addresses, users := users), id)
  }

  /** Creating an address never gives a user a second default. */
  lemma CreateAddressKeepsOneDefault(s: Store, user: Id, input: AddressInput, wantsDefault: bool)
    requires OneDefaultEach(s.addresses)
    ensures OneDefaultEach(CreateAddress(s, user, input, wantsDefault).store.addresses)
  {
    var r := CreateAddress(s, user, input, wantsDefault);
    var id := r.result.value;
    var after := r.store.addresses;
    forall a, b | a in after && b in after && after[a].isDefault && after[b].isDefault && after[a].user == after[b].user
      ensures a == b
    {
    }
  }

  /**
   * updateDefaultAddress as written: the default flag is cleared on EVERY address of every user,
   * then set on the chosen one; for an unknown id the clear has already happened when
   * "Address not found" is thrown.
   */
  function UpdateDefaultAddressAsWritten(s: Store, id: Id): (r: Step<Address>)
    ensures r.store.addresses.Keys == s.addresses.Keys
    ensures forall k :: k in r.store.addresses && k != id ==> r.store.addresses[k] == s.addresses[k].(isDefault := false)
    ensures r.result.Failure? <==> id !in s.addresses
    ensures r.result.Failure? ==> r.result.error == AddressNotFound
    ensures r.result.Success? ==> r.store.addresses[id] == s.addresses[id].(isDefault := true) && r.result.value == r.store.addresses[id]
    ensures r.store == s.(addresses := r.store.addresses)
  {
    var cleared := map k | k in s.addresses :: s.addresses[k].(isDefault := false);
    assert cleared.Keys == s.addresses.Keys;
    if id !in cleared then Step(s.(addresses := cleared), Failure(AddressNotFound))
    else
      var a := cleared[id].(isDefault := true);
      assert a == s.addresses[id].(isDefault := true);
      Done(s.(addresses := cleared[id := a]), a)
  }

  /**
   * As written, choosing one user's default takes another user's default away, and even an
   * unknown id wipes every default.
   */
  lemma DefaultSwitchClearsOtherUsers(s: Store, id: Id, other: Id)
    requires other in s.addresses && s.addresses[other].isDefault
    requires id in s.addresses ==> s.addresses[other].user != s.addresses[id].user
    ensures !UpdateDefaultAddressAsWritten(s, id).store.addresses[other].isDefault
  {
  }

  /**
   * updateDefaultAddress as evidently intended (the way createAddress clears defaults): an
   * unknown id is refused with no write; otherwise only the owner's defaults are cleared and
   * the chosen address becomes the owner's one default.
   */
  function UpdateDefaultAddress(s: Store, id: Id): (r: Step<Address>)
    ensures r.result.Failure? <==> id !in s.addresses
    ensures r.result.Failure? ==> r == Fail(s, AddressNotFound)
    ensures r.result.Success? ==>
      && r.store.addresses.Keys == s.addresses.Keys
      && r.store.addresses[id] == s.addresses[id].(isDefault := true)
      && r.result.value == r.store.addresses[id]
      && (forall k :: k in s.addresses && s.addresses[k].user != s.addresses[id].user ==> r.store.addresses[k] == s.addresses[k])
      && (forall k :: k in s.addresses && s.addresses[k].user == s.addresses[id].user && k != id ==> !r.store.addresses[k].isDefault)
      && r.store == s.(addresses := r.store.addresses)
  {
    if id !in s.addresses then Fail(s, AddressNotFound)
    else
      var a := s.addresses[id].(isDefault := true);
      Done(s.(addresses := ClearDefaults(s.addresses, s.addresses[id].user)[id := a]), a)
  }

  /** The corrected switch keeps one default per user and leaves other users' addresses alone. */
  lemma DefaultSwitchKeepsOneDefault(s: Store, id: Id)
    requires OneDefaultEach(s.addresses)
    ensures OneDefaultEach(UpdateDefaultAddress(s, id).store.addresses)
  {
  }

  /** getAddressById: the address, or "Address not found". */
  function GetAddressById(s: Store, id: Id): (r: Result<Address, Err>)
    ensures r.Failure? <==> id !in s.addresses
    ensures r.Failure? ==> r.error == AddressNotFound
    ensures r.Success? ==> r.value == s.addresses[id]
  {
    if id in s.addresses then Success(s.addresses[id]) else Failure(AddressNotFound)
  }

  /** updateAddress: "Address not found", otherwise the form's fields are overwritten; owner, landmark and default flag stay. */
  function UpdateAddress(s: Store, id: Id, input: AddressInput): (r: Step<Address>)
    ensures r.result.Failure? <==> id !in s.addresses
    ensures r.result.Failure? ==> r == Fail(s, AddressNotFound)
    ensures r.result.Success? ==>
      var a := r.result.value;
      && r.store == s.(addresses := s.addresses[id := a])
      && a == NewAddress(s.addresses[id].user, input, s.addresses[id].isDefault).(landmark := s.addresses[id].landmark)
  {
    if id !in s.addresses then Fail(s, AddressNotFound)
    else
      var current := s.addresses[id];
      var a := current.(location := input.location, city := input.city, state := input.state, zip := input.zip,
                    country := input.country, addressType := input.addressType, customName := input.customName);
      Done(s.(addresses := s.addresses[id := a]), a)
  }

  /**
   * deleteAddress: "Address not found", otherwise that address is removed; the owner's address
   * list is not touched, so it keeps the id.
   */
  function DeleteAddress(s: Store, id: Id): (r: Step<Address>)
    ensures r.result.Failure? <==> id !in s.addresses
    ensures r.result.Failure? ==> r == Fail(s, AddressNotFound)
    ensures r.result.Success? ==> r.result.value == s.addresses[id] && r.store == s.(addresses := s.addresses - {id})
  {
    if id !in s.addresses then Fail(s, AddressNotFound)
    else Done(s.(addresses := s.addresses - {id}), s.addresses[id])
  }

  /** Adding an address and deleting it again leaves the address book as it was, but not the user's list. */
  lemma DeleteUndoesCreate(s: Store, user: Id, input: AddressInput)
    ensures var created := CreateAddress(s, user, input, false);
      var deleted := DeleteAddress(created.store, created.result.value);
      && deleted.result.Success?
      && deleted.store.addresses == s.addresses
      && (user in s.users ==> created.result.value in deleted.store.users[user].addresses)
  {
    var created := CreateAddress(s, user, input, false);
    var id := created.result.value;
    assert created.store.addresses - {id} == s.addresses;
  }
}

=== FILE: admin_validator.dfy ===
/**
 * The admin form chains (src/middleware/validators/adminValidator.js): products, categories
 * and coupons. They report through the same `validate` middleware as the account forms.
 */
module AdminValidator {
  import opened Wrappers
  import opened Text
  import opened FieldChecks
  import opened AuthValidator

  /** The product form as it arrives; every field is text. */
  datatype ProductFields = ProductFields(name: string, description: string, price: string, stock: string, categoryId: string)

  predicate IsHexDigit(c: char) {
    IsDigit(c) || ('a' <= c <= 'f') || ('A' <= c <= 'F')
  }

  predicate IsHexDigits(s: string) {
    |s| > 0 && forall i :: 0 <= i < |s| ==> IsHexDigit(s[i])
  }

  /** validator's `isHexadecimal`: hexadecimal digits, after an optional `0x` or `0h` in either case. */
  predicate IsHexadecimal(s: string) {
    IsHexDigits(s)
    || (|s| >= 2 && s[0] == '0' && (s[1] == 'x' || s[1] == 'X' || s[1] == 'h' || s[1] == 'H') && IsHexDigits(s[2..]))
  }

  /** validator's `isMongoId`: `isHexadecimal` and exactly twenty-four characters long. */
  predicate IsMongoId(s: string) {
    |s| == 24 && IsHexadecimal(s)
  }

  /** An ObjectId's twenty-four hex digits pass, and so does `0x` followed by twenty-two. */
  lemma MongoIdForms(digits: string)
    requires IsHexDigits(digits)
    ensures |digits| == 24 ==> IsMongoId(digits)
    ensures |digits| == 22 ==> IsMongoId("0x" + digits)
    ensures |digits| != 24 ==> !IsMongoId(digits)
  {
    var s := "0x" + digits;
    assert s[2..] == digits;
  }

  /** A required number field: the message for a blank value and the one for a value its syntax refuses. */
  function NumberMessages(t: string, accepts: bool, required: string, invalid: string): (r: seq<string>)
    ensures r == [] <==> t != [] && accepts
  {
    When(t == [], required) + When(!accepts, invalid)
  }

  function PriceErrors(price: string): (r: seq<FieldError>)
    ensures r == [] <==> IsNonNegativeFloat(Trim(price))
    ensures Trim(price) == "" ==> r == [FieldError("price", "Price is required"), FieldError("price", "Price must be a positive number")]
    ensures Trim(price) != "" && !IsNonNegativeFloat(Trim(price)) ==> r == [FieldError("price", "Price must be a positive number")]
  {
    var t := Trim(price);
    Tag("price", NumberMessages(t, IsNonNegativeFloat(t), "Price is required", "Price must be a positive number"))
  }

  function StockErrors(stock: string): (r: seq<FieldError>)
    ensures r == [] <==> IsNonNegativeInt(Trim(stock))
    ensures Trim(stock) == "" ==> r == [FieldError("stock", "Stock is required"), FieldError("stock", "Stock must be a non-negative integer")]
    ensures Trim(stock) != "" && !IsNonNegativeInt(Trim(stock)) ==> r == [FieldError("stock", "Stock must be a non-negative integer")]
  {
    var t := Trim(stock);
    Tag("stock", NumberMessages(t, IsNonNegativeInt(t), "Stock is required", "Stock must be a non-negative integer"))
  }

  function CategoryIdErrors(categoryId: string): (r: seq<FieldError>)
    ensures r == [] <==> IsMongoId(Trim(categoryId))
    ensures Trim(categoryId) == "" ==> r == [FieldError("categoryId", "Category is required"), FieldError("categoryId", "Invalid category ID")]
    ensures Trim(categoryId) != "" && !IsMongoId(Trim(categoryId)) ==> r == [FieldError("categoryId", "Invalid category ID")]
  {
    var t := Trim(categoryId);
    Tag("categoryId", NumberMessages(t, IsMongoId(t), "Category is required", "Invalid category ID"))
  }

  /**
   * productValidation: a name of 1 to 100 characters, a description of 1 to 1000, a price
   * `isFloat` reads as at least 0, a stock `isInt` reads as at least 0 and a category id. The
   * body leaves with every field trimmed and the two texts escaped.
   */
  function ProductValidation(f: ProductFields): (r: Checked<ProductFields>)
    ensures r.errors == [] <==>
      && 0 < |Trim(f.name)| <= 100 && 0 < |Trim(f.description)| <= 1000
      && IsNonNegativeFloat(Trim(f.price)) && IsNonNegativeInt(Trim(f.stock)) && IsMongoId(Trim(f.categoryId))
    ensures r.body == ProductFields(Escape(Trim(f.name)), Escape(Trim(f.description)), Trim(f.price), Trim(f.stock), Trim(f.categoryId))
  {
    var texts :=
      BoundedText("name", f.name, 100, "Product name is required", "Product name must be less than 100 characters")
      + BoundedText("description", f.description, 1000, "Description is required", "Description must be less than 1000 characters");
    var numbers := PriceErrors(f.price) + StockErrors(f.stock);
    var errors := texts + numbers + CategoryIdErrors(f.categoryId);
    BothEmpty(BoundedText("name", f.name, 100, "Product name is required", "Product name must be less than 100 characters"),
      BoundedText("description", f.description, 1000, "Description is required", "Description must be less than 1000 characters"));
    BothEmpty(PriceErrors(f.price), StockErrors(f.stock));
    BothEmpty(texts, numbers);
    BothEmpty(texts + numbers, CategoryIdErrors(f.categoryId));
    Checked(errors, ProductFields(Escape(Trim(f.name)), Escape(Trim(f.description)), Trim(f.price), Trim(f.stock), Trim(f.categoryId)))
  }

  /** Any natural number is a valid stock and price; a negative one is neither. */
  lemma WrittenStockAndPrice(n: nat)
    ensures StockErrors(NatToString(n)) == [] && PriceErrors(NatToString(n)) == []
    ensures n > 0 ==> StockErrors("-" + NatToString(n)) != [] && PriceErrors("-" + NatToString(n)) != []
  {
    var d := NatToString(n);
    assert IsDigit(d[0]) && IsDigit(d[|d| - 1]);
    TrimOfUnpadded(d);
    WrittenNumbers(n);
    if n > 0 {
      var s := "-" + d;
      assert s[|s| - 1] == d[|d| - 1];
      TrimOfUnpadded(s);
    }
  }

  /** A name of exactly 100 characters passes, although the message speaks of fewer than 100. */
  lemma NameLimitIsInclusive(name: string)
    requires |name| == 100 && !IsSpace(name[0]) && !IsSpace(name[99])
    ensures BoundedText("name", name, 100, "Product name is required", "Product name must be less than 100 characters") == []
  {
    TrimOfUnpadded(name);
  }

  /** The category form; the description may be left out. */
  datatype CategoryFields = CategoryFields(name: string, description: Option<string>)

  /** categoryValidation: a name of 1 to 50 characters; a description, when sent, of at most 500. */
  function CategoryValidation(f: CategoryFields): (r: Checked<CategoryFields>)
    ensures r.errors == [] <==>
      0 < |Trim(f.name)| <= 50 && (f.description.Some? ==> |Trim(f.description.value)| <= 500)
    ensures r.body.name == Escape(Trim(f.name))
    ensures r.body.description == if f.description.Some? then Some(Escape(Trim(f.description.value))) else None
  {
    var descriptionErrors :=
      if f.description.None? then []
      else Tag("description", When(|Trim(f.description.value)| > 500, "Description must be less than 500 characters"));
    var nameErrors := BoundedText("name", f.name, 50, "Category name is required", "Category name must be less than 50 characters");
    BothEmpty(nameErrors, descriptionErrors);
    var errors := nameErrors + descriptionErrors;
    Checked(errors, CategoryFields(Escape(Trim(f.name)),
      if f.description.Some? then Some(Escape(Trim(f.description.value))) else None))
  }

  /** The coupon form; the two bounds may be left out. */
  datatype CouponFields = CouponFields(
    code: string, discountType: string, discountValue: string,
    minCartValue: Option<string>, maxDiscountValue: Option<string>)

  /** The code checks: present, 3 to 20 characters, letters and digits only (an empty code fails all three). */
  function CodeErrors(code: string): (r: seq<FieldError>)
    ensures r == [] <==> 3 <= |Trim(code)| <= 20 && IsAlphanumeric(Trim(code))
    ensures Trim(code) == [] ==> |r| == 3
  {
    var t := Trim(code);
    Tag("code",
      When(t == [], "Coupon code is required")
      + When(!(3 <= |t| <= 20), "Coupon code must be between 3 and 20 characters")
      + When(!(|t| > 0 && IsAlphanumeric(t)), "Coupon code must contain only letters and numbers"))
  }

  /** The two discount types the form accepts, capitalised. */
  predicate IsDiscountType(t: string) {
    t == "Percentage" || t == "Fixed"
  }

  function DiscountTypeErrors(discountType: string): (r: seq<FieldError>)
    ensures r == [] <==> IsDiscountType(Trim(discountType))
    ensures Trim(discountType) == "" ==> r == [FieldError("discountType", "Discount type is required"), FieldError("discountType", "Invalid discount type")]
    ensures Trim(discountType) != "" && !IsDiscountType(Trim(discountType)) ==> r == [FieldError("discountType", "Invalid discount type")]
  {
    var t := Trim(discountType);
    Tag("discountType", NumberMessages(t, IsDiscountType(t), "Discount type is required", "Invalid discount type"))
  }

  function DiscountValueErrors(discountValue: string): (r: seq<FieldError>)
    ensures r == [] <==> IsNonNegativeFloat(Trim(discountValue))
    ensures Trim(discountValue) == "" ==> r == [FieldError("discountValue", "Discount value is required"), FieldError("discountValue", "Discount value must be a positive number")]
    ensures Trim(discountValue) != "" && !IsNonNegativeFloat(Trim(discountValue)) ==> r == [FieldError("discountValue", "Discount value must be a positive number")]
  {
    var t := Trim(discountValue);
    Tag("discountValue", NumberMessages(t, IsNonNegativeFloat(t), "Discount value is required", "Discount value must be a positive number"))
  }

  function TrimmedBound(value: Option<string>): Option<string> {
    if value.Some? then Some(Trim(value.value)) else None
  }

  /** An optional bound: nothing to check when it is left out, but a sent empty value fails `isFloat`. */
  function BoundErrors(path: string, value: Option<string>, invalid: string): (r: seq<FieldError>)
    ensures r == [] <==> value.None? || IsNonNegativeFloat(Trim(value.value))
  {
    if value.None? then [] else Tag(path, When(!IsNonNegativeFloat(Trim(value.value)), invalid))
  }

  /**
   * couponValidation: a 3-to-20-character alphanumeric code, one of the two capitalised
   * types, a discount value of at least 0 and, when sent, bounds of at least 0. The code
   * leaves trimmed and upper-cased.
   */
  function CouponValidation(f: CouponFields): (r: Checked<CouponFields>)
    ensures r.errors == [] <==> CouponAccepted(f)
    ensures r.body.code == ToUpper(Trim(f.code)) && r.body.discountType == Trim(f.discountType)
  {
    Checked(CouponErrors(f), CouponFields(ToUpper(Trim(f.code)), Trim(f.discountType), Trim(f.discountValue),
      TrimmedBound(f.minCartValue), TrimmedBound(f.maxDiscountValue)))
  }

  /** What the coupon form demands of its fields. */
  predicate CouponAccepted(f: CouponFields) {
    && 3 <= |Trim(f.code)| <= 20 && IsAlphanumeric(Trim(f.code))
    && IsDiscountType(Trim(f.discountType))
    && IsNonNegativeFloat(Trim(f.discountValue))
    && (f.minCartValue.Some? ==> IsNonNegativeFloat(Trim(f.minCartValue.value)))
    && (f.maxDiscountValue.Some? ==> IsNonNegativeFloat(Trim(f.maxDiscountValue.value)))
  }

  /** The coupon form's errors, field by field in the order the chain declares them. */
  function CouponErrors(f: CouponFields): (r: seq<FieldError>)
    ensures r == [] <==> CouponAccepted(f)
  {
    var code := CodeErrors(f.code);
    var discountType := DiscountTypeErrors(f.discountType);
    var discountValue := DiscountValueErrors(f.discountValue);
    var minCart := BoundErrors("minCartValue", f.minCartValue, "Minimum cart value must be a positive number");
    var maxDiscount := BoundErrors("maxDiscountValue", f.maxDiscountValue, "Maximum discount value must be a positive number");
    FiveEmpty(code, discountType, discountValue, minCart, maxDiscount);
    code + discountType + discountValue + minCart + maxDiscount
  }

  /** A code that passes leaves, upper-cased, with no lower-case letter and its length unchanged. */
  lemma AcceptedCodeIsUpperCase(code: string)
    requires CodeErrors(code) == []
    ensures var c := ToUpper(Trim(code));
      3 <= |c| <= 20 && forall i :: 0 <= i < |c| ==> !('a' <= c[i] <= 'z') && IsAsciiLetterOrDigit(c[i])
  {
    UpperOfAlphanumeric(Trim(code));
  }

  /** Upper-casing letters and digits leaves letters and digits with no lower-case one among them. */
  lemma UpperOfAlphanumeric(t: string)
    requires IsAlphanumeric(t)
    ensures var c := ToUpper(t);
      |c| == |t| && forall i :: 0 <= i < |c| ==> !('a' <= c[i] <= 'z') && IsAsciiLetterOrDigit(c[i])
  {
    var c := ToUpper(t);
    forall i | 0 <= i < |c|
      ensures !('a' <= c[i] <= 'z') && IsAsciiLetterOrDigit(c[i])
    {
      assert c[i] == ToUpperChar(t[i]) && IsAsciiLetterOrDigit(t[i]);
    }
  }

  /** The lower-case type names the discount calculation tests for are refused by the form. */
  lemma LowerCaseTypesRefused(t: string)
    requires t == "percentage" || t == "fixed"
    ensures DiscountTypeErrors(t) != []
  {
    assert Trim(t) == t by {
      TrimOfUnpadded(t);
    }
    assert !IsDiscountType(t);
  }
}

=== FILE: auth_controller.dfy ===
/**
 * Signup, login and password reset as the user sees them (src/controllers/authController.js).
 * Signup is a two-step machine over the session: sendOtp stores a one-time password, its
 * expiry and the pending user; verifyAndSignUp either creates the user and clears the three,
 * or renders an error and changes nothing.
 */
module AuthController {
  import opened Wrappers
  import opened Tables
  import opened Records
  import AuthService

  /** The signup fields the session keeps until the password is confirmed; `password` is hashed. */
  datatype TempUser = TempUser(firstName: string, lastName: string, email: string, password: string)

  /** The parts of the session these handlers read and write. */
  datatype Session = Session(
    otp: Option<int>,
    otpExpiry: Option<int>,
    tempUser: Option<TempUser>,
    user: Option<Id>,
    email: Option<string>)

  /** A signup in progress holds its pending user whenever it holds a password. */
  predicate Consistent(sess: Session) {
    sess.otp.Some? ==> sess.tempUser.Some?
  }

  /** What a handler sends back. */
  datatype Response =
    | Render(view: string, error: Option<string>)
    | Json(status: nat, message: string)
    | Redirect(url: string)
    /** An error thrown to the error handler, which answers with this status and the message. */
    | Thrown(status: nat, message: string)

  /** The HTTP status of a response: a rendered page is 200 and a redirect 302. */
  function Code(r: Response): nat {
    match r
    case Render(_, _) => 200
    case Redirect(_) => 302
    case Json(status, _) => status
    case Thrown(status, _) => status
  }

  const VerifyView := "users/verifyOtp"

  /** The signup form. */
  datatype SignupForm = SignupForm(firstName: string, lastName: string, email: string, password: string)

  /**
   * sendOtp: a known email is refused with "User Already Exists" (a 500, since no status is
   * set) and nothing changes; otherwise the session holds a fresh password, its expiry five
   * minutes on, and the pending user with the hashed password.
   */
  function SendOtp(s: Store, sess: Session, form: SignupForm, hash: AuthService.HashFn, random: nat, now: int): (r: (Session, Response))
    ensures AuthService.FindUserByEmail(s, form.email).Some? ==> r == (sess, Thrown(500, "User Already Exists"))
    ensures AuthService.FindUserByEmail(s, form.email).None? ==>
      && r.1 == Render(VerifyView, None)
      && r.0.otp.Some? && AuthService.OtpMin <= r.0.otp.value < AuthService.OtpBound
      && r.0.otpExpiry == Some(now + 300000)
      && r.0.tempUser == Some(TempUser(form.firstName, form.lastName, form.email, hash(form.password)))
      && r.0.user == sess.user && r.0.email == sess.email
    ensures Consistent(r.0) || r.0 == sess
  {
    if AuthService.FindUserByEmail(s, form.email).Some? then (sess, Thrown(500, "User Already Exists"))
    else
      var hashed := hash(form.password);
      var grant := AuthService.SendOtp(form.email, random, now);
      var pending := TempUser(form.firstName, form.lastName, form.email, hashed);
      (sess.(otp := Some(grant.otp), otpExpiry := Some(grant.otpExpiry), tempUser := Some(pending)), Render(VerifyView, None))
  }

  /** The text of the TypeError resendOtp throws when destructuring the absent pending user. */
  const NoTempUserCrash := "Cannot destructure property 'email' of 'req.session.tempUser' as it is undefined."

  /** The same TypeError in verifyAndSignUp, whose destructure names 'firstName' first. */
  const NoTempUserSignupCrash := "Cannot destructure property 'firstName' of 'req.session.tempUser' as it is undefined."

  /**
   * resendOtp as written: the pending user is destructured before the check, so a session
   * without one throws (500) and only a pending user with an empty email reaches the 400.
   */
  function ResendOtpAsWritten(sess: Session, random: nat, now: int): (r: (Session, Response))
    ensures sess.tempUser.None? ==> r == (sess, Thrown(500, NoTempUserCrash))
    ensures sess.tempUser.Some? && sess.tempUser.value.email == "" ==>
      r == (sess, Json(400, "No user data in session. Please sign up again."))
  {
    match sess.tempUser
    case None => (sess, Thrown(500, NoTempUserCrash))
    case Some(t) =>
      if t.email == "" then (sess, Json(400, "No user data in session. Please sign up again."))
      else
        var grant := AuthService.SendOtp(t.email, random, now);
        (sess.(otp := Some(grant.otp), otpExpiry := Some(grant.otpExpiry)), Json(200, "New OTP sent successfully!"))
  }

  /** A visitor who never started a signup gets a server error rather than the 400 meant for them. */
  lemma ResendWithoutSignupCrashes(random: nat, now: int)
    ensures Code(ResendOtpAsWritten(Session(None, None, None, None, None), random, now).1) == 500
  {
  }

  /**
   * resendOtp as intended: 400 when the session holds no pending user or one without an email;
   * otherwise a new password and expiry replace the old ones and the pending user stays.
   */
  function ResendOtp(sess: Session, random: nat, now: int): (r: (Session, Response))
    ensures r.1.Json?
    ensures Code(r.1) == 400 <==> sess.tempUser.None? || sess.tempUser.value.email == ""
    ensures Code(r.1) == 400 ==> r == (sess, Json(400, "No user data in session. Please sign up again."))
    ensures Code(r.1) != 400 ==>
      && r.1 == Json(200, "New OTP sent successfully!")
      && r.0.tempUser == sess.tempUser && r.0.user == sess.user && r.0.email == sess.email
      && r.0.otp.Some? && AuthService.OtpMin <= r.0.otp.value < AuthService.OtpBound
      && r.0.otpExpiry == Some(now + 300000)
    ensures Consistent(sess) ==> Consistent(r.0)
  {
    if sess.tempUser.None? || sess.tempUser.value.email == "" then
      (sess, Json(400, "No user data in session. Please sign up again."))
    else
      var grant := AuthService.SendOtp(sess.tempUser.value.email, random, now);
      (sess.(otp := Some(grant.otp), otpExpiry := Some(grant.otpExpiry)), Json(200, "New OTP sent successfully!"))
  }

  /** Whenever the written handler answers at all, it answers as the corrected one does. */
  lemma ResendAgreesWhenSignupPending(sess: Session, random: nat, now: int)
    requires sess.tempUser.Some?
    ensures ResendOtpAsWritten(sess, random, now) == ResendOtp(sess, random, now)
  {
  }

  /** The session password is live: present, non-zero and not yet expired. */
  predicate OtpLive(sess: Session, now: int) {
    sess.otp.Some? && sess.otp.value != 0 && sess.otpExpiry.Some? && sess.otpExpiry.value > now
  }

  /**
   * verifyAndSignUp: with no live password, "OTP has expired"; with a live one that the
   * submitted number does not equal, "Invalid OTP"; in both cases nothing changes. Otherwise
   * the pending user is created, the three signup fields are cleared and the new user is
   * signed in. `entered` is `Number(otp)` of the submitted text, None when it is not a number.
   */
  function VerifyAndSignUp(s: Store, sess: Session, entered: Option<int>, now: int, blank: User): (r: (Store, Session, Response))
    ensures !OtpLive(sess, now) ==>
      r == (s, sess, Render(VerifyView, Some("OTP has expired. Please sign up again.")))
    ensures OtpLive(sess, now) && entered != sess.otp ==>
      r == (s, sess, Render(VerifyView, Some("Invalid OTP")))
    ensures OtpLive(sess, now) && entered == sess.otp && sess.tempUser.Some? ==>
      var t := sess.tempUser.value;
      && r.2 == Redirect("/")
      && r.1 == Session(None, None, None, r.1.user, sess.email)
      && r.1.user.Some? && r.1.user.value !in s.users
      && r.0 == s.(users := s.users[r.1.user.value := blank.(firstName := t.firstName, lastName := t.lastName, email := t.email, password := t.password)])
    ensures Consistent(r.1) || r.1 == sess
  {
    if !OtpLive(sess, now) then (s, sess, Render(VerifyView, Some("OTP has expired. Please sign up again.")))
    else if entered != sess.otp then (s, sess, Render(VerifyView, Some("Invalid OTP")))
    else
      match sess.tempUser
      case None => (s, sess, Thrown(500, NoTempUserSignupCrash))
      case Some(t) =>
        var (s1, id) := AuthService.CreateUser(s, AuthService.NewUser(t.firstName, t.lastName, t.email, t.password), blank);
        (s1, Session(None, None, None, Some(id), sess.email), Redirect("/"))
  }

  /** A wrong password keeps the session as it was, so the right one still works afterwards. */
  lemma WrongOtpAllowsRetry(s: Store, sess: Session, wrong: Option<int>, now: int, blank: User)
    requires OtpLive(sess, now) && wrong != sess.otp && sess.tempUser.Some?
    ensures var (s1, sess1, _) := VerifyAndSignUp(s, sess, wrong, now, blank);
      VerifyAndSignUp(s1, sess1, sess.otp, now, blank).2 == Redirect("/")
  {
  }

  /** Once a signup completes, the same password cannot be used again. */
  lemma OtpIsSingleUse(s: Store, sess: Session, now: int, blank: User)
    requires OtpLive(sess, now) && sess.tempUser.Some?
    ensures var (s1, sess1, _) := VerifyAndSignUp(s, sess, sess.otp, now, blank);
      VerifyAndSignUp(s1, sess1, sess.otp, now, blank) == (s1, sess1, Render(VerifyView, Some("OTP has expired. Please sign up again.")))
  {
  }

  /**
   * loginUser: signed in (200) exactly when a user has the email, the password matches its
   * hash and the account is "Active"; otherwise 401 and the session is untouched.
   */
  function LoginUser(s: Store, sess: Session, email: string, password: string, compare: (string, string) -> bool): (r: (Session, Response))
    ensures var found := AuthService.FindUserByEmail(s, email);
      Code(r.1) == 200 <==> found.Some? && compare(password, s.users[found.value].password) && s.users[found.value].status == "Active"
    ensures Code(r.1) == 200 ==> r == (sess.(user := AuthService.FindUserByEmail(s, email)), Json(200, "Login successful"))
    ensures Code(r.1) != 200 ==> r == (sess, Json(401, "Invalid Credentials"))
  {
    match AuthService.FindUserByEmail(s, email)
    case None => (sess, Json(401, "Invalid Credentials"))
    case Some(id) =>
      var u := s.users[id];
      if compare(password, u.password) && u.status == "Active" then (sess.(user := Some(id)), Json(200, "Login successful"))
      else (sess, Json(401, "Invalid Credentials"))
  }

  /** A blocked account cannot sign in, whatever the password. */
  lemma BlockedUserCannotLogin(s: Store, sess: Session, email: string, password: string, compare: (string, string) -> bool)
    requires forall k :: k in s.users && s.users[k].email == email ==> s.users[k].status != "Active"
    ensures LoginUser(s, sess, email, password, compare).1 == Json(401, "Invalid Credentials")
  {
  }

  /**
   * The whole signup: a new email, its password entered before expiry, and then a login with
   * the chosen password succeeds, provided new accounts start active and the hash check
   * accepts a password against its own hash.
   */
  lemma SignupThenLogin(
    s: Store, sess: Session, form: SignupForm, hash: AuthService.HashFn, compare: (string, string) -> bool,
    random: nat, now: int, later: int, blank: User)
    requires forall p :: compare(p, hash(p))
    requires blank.status == "Active"
    requires forall k :: k in s.users ==> s.users[k].email != form.email
    requires now <= later < now + 300000
    ensures var (sess1, _) := SendOtp(s, sess, form, hash, random, now);
      var (s2, sess2, reply) := VerifyAndSignUp(s, sess1, sess1.otp, later, blank);
      reply == Redirect("/") && Code(LoginUser(s2, sess2, form.email, form.password, compare).1) == 200
  {
    var (sess1, _) := SendOtp(s, sess, form, hash, random, now);
    assert OtpLive(sess1, later);
    var (s2, sess2, reply) := VerifyAndSignUp(s, sess1, sess1.otp, later, blank);
    var id := sess2.user.value;
    assert s2.users[id].email == form.email;
    var found := AuthService.FindUserByEmail(s2, form.email);
    assert found == Some(id) by {
      assert forall k :: k in s2.users && k != id ==> s2.users[k].email != form.email;
    }
  }

  /**
   * resetPassword: 401 without a verified email in the session, 400 when the two passwords
   * differ, 500 when no user has the email, otherwise 200 with the password replaced by its hash.
   */
  function ResetPassword(s: Store, sess: Session, newPassword: string, confirmPassword: string, hash: AuthService.HashFn): (r: (Store, Response))
    ensures !Truthy(sess.email) ==> r == (s, Json(401, "Unauthorized access"))
    ensures Truthy(sess.email) && newPassword != confirmPassword ==> r == (s, Json(400, "Passwords do not match"))
    ensures Code(r.1) == 200 <==>
      Truthy(sess.email) && newPassword == confirmPassword && exists k :: k in s.users && s.users[k].email == sess.email.value
    ensures Code(r.1) == 200 ==>
      r == (AuthService.ResetPassword(s, sess.email.value, newPassword, hash).store, Json(200, "Password updated successfully"))
    ensures Code(r.1) != 200 ==> r.0 == s
  {
    if !Truthy(sess.email) then (s, Json(401, "Unauthorized access"))
    else if newPassword != confirmPassword then (s, Json(400, "Passwords do not match"))
    else
      var step := AuthService.ResetPassword(s, sess.email.value, newPassword, hash);
      if step.result.Failure? then (s, Json(500, "Internal server error"))
      else (step.store, Json(200, "Password updated successfully"))
  }
}

=== FILE: auth_service.dfy ===
/**
 * Account creation and passwords (src/services/authService.js): the one-time password and
 * its expiry, user lookup by email, Google sign-in and the two password writes. Hashing,
 * the random draw and the mail transport are outside the model: the hash is a function
 * parameter and the draw a number the caller supplies.
 */
module AuthService {
  import opened Wrappers
  import opened Tables
  import opened Records
  import Text

  /** `bcrypt.hash` with a fresh salt, as a function of the password. */
  type HashFn = string -> string

  /** The smallest one-time password `crypto.randomInt` can draw. */
  const OtpMin := 100000
  /** The bound `crypto.randomInt` excludes. */
  const OtpBound := 999999
  /** Five minutes, in milliseconds. */
  const OtpLifetime := 5 * 60 * 1000

  /** The draw `crypto.randomInt(100000, 999999)` makes, from a caller-supplied random number. */
  function DrawOtp(random: nat): (otp: int)
    ensures OtpMin <= otp < OtpBound
  {
    OtpMin + random % (OtpBound - OtpMin)
  }

  /** Every password in the range can be drawn. */
  lemma EveryOtpCanBeDrawn(otp: int)
    requires OtpMin <= otp < OtpBound
    ensures DrawOtp(otp - OtpMin) == otp
  {
  }

  /** The mail the service sends. */
  datatype Mail = Mail(to: string, subject: string, text: string)

  /** What sendOtp returns, with the mail it sent. */
  datatype OtpGrant = OtpGrant(otp: int, otpExpiry: int, mail: Mail)

  /** sendOtp: a six-digit password valid for five minutes from `now`, mailed to the address. */
  function SendOtp(email: string, random: nat, now: int): (g: OtpGrant)
    ensures OtpMin <= g.otp < OtpBound
    ensures g.otpExpiry == now + 300000
    ensures g.mail.to == email && g.mail.subject == "Your OTP for Signup"
    ensures g.mail.text == "Your OTP is " + Text.NatToString(g.otp) + ". It will expire in 5 minutes."
  {
    var otp := DrawOtp(random);
    OtpGrant(otp, now + OtpLifetime,
      Mail(email, "Your OTP for Signup", "Your OTP is " + Text.NatToString(otp) + ". It will expire in 5 minutes."))
  }

  function HasEmail(email: string): User -> bool {
    (u: User) => u.email == email
  }

  /** findUserByEmail: the first user with exactly this email. */
  function FindUserByEmail(s: Store, email: string): (r: Option<Id>)
    ensures r.None? <==> forall k :: k in s.users ==> s.users[k].email != email
    ensures r.Some? ==> r.value in s.users && s.users[r.value].email == email
  {
    FindFirst(s.users, HasEmail(email))
  }

  /** The fields a signup supplies; the password is already hashed. */
  datatype NewUser = NewUser(firstName: string, lastName: string, email: string, password: string)

  /**
   * createUser: the user saved under a fresh id. The user schema is not part of this model;
   * its defaults are the `blank` user.
   */
  function CreateUser(s: Store, data: NewUser, blank: User): (r: (Store, Id))
    ensures r.1 !in s.users && r.0 == s.(users := r.0.users)
    ensures r.0.users == s.users[r.1 := blank.(firstName := data.firstName, lastName := data.lastName,
                                               email := data.email, password := data.password)]
  {
    var id := NextId(s.users);
    var u := blank.(firstName := data.firstName, lastName := data.lastName, email := data.email, password := data.password);
    (s.(users := s.users[id := u]), id)
  }

  /** What the Google profile supplies. */
  datatype GoogleProfile = GoogleProfile(givenName: string, familyName: string, email: string)

  /** The password given to every account created through Google sign-in. */
  const GooglePassword := "123456"

  /**
   * handleGoogleLogin: the user with the profile's email, unchanged; if there is none, a new
   * active Google user with the hash of the fixed password.
   */
  function HandleGoogleLogin(s: Store, profile: GoogleProfile, hash: HashFn, blank: User): (r: (Store, Id))
    ensures FindUserByEmail(s, profile.email).Some? ==> r == (s, FindUserByEmail(s, profile.email).value)
    ensures FindUserByEmail(s, profile.email).None? ==>
      && r.1 !in s.users && r.1 in r.0.users && r.0 == s.(users := s.users[r.1 := r.0.users[r.1]])
      && r.0.users[r.1].email == profile.email && r.0.users[r.1].status == "Active" && r.0.users[r.1].isGoogleUser
      && r.0.users[r.1].firstName == profile.givenName && r.0.users[r.1].lastName == profile.familyName
      && r.0.users[r.1].password == hash(GooglePassword)
  {
    match FindUserByEmail(s, profile.email)
    case Some(id) => (s, id)
    case None =>
      var id := NextId(s.users);
      var u := blank.(
        firstName := profile.givenName, lastName := profile.familyName, email := profile.email,
        password := hash(GooglePassword), status := "Active", isGoogleUser := true);
      (s.(users := s.users[id := u]), id)
  }

  /** A second Google sign-in with the same profile finds the account the first one made. */
  lemma GoogleLoginIsIdempotent(s: Store, profile: GoogleProfile, hash: HashFn, blank: User)
    ensures var (s1, id) := HandleGoogleLogin(s, profile, hash, blank);
      HandleGoogleLogin(s1, profile, hash, blank) == (s1, id)
  {
    var (s1, id) := HandleGoogleLogin(s, profile, hash, blank);
    if FindUserByEmail(s, profile.email).None? {
      var found := FindUserByEmail(s1, profile.email);
      assert found.Some? by {
        assert s1.users[id].email == profile.email;
      }
      assert found.value == id by {
        assert forall k :: k in s1.users && k != id ==> s1.users[k] == s.users[k];
      }
    }
  }

  /** updatePassword: the user's password becomes the hash of the new one; an unknown id writes nothing. */
  function UpdatePassword(s: Store, user: Id, newPassword: string, hash: HashFn): (r: Store)
    ensures user !in s.users ==> r == s
    ensures user in s.users ==> r == s.(users := s.users[user := s.users[user].(password := hash(newPassword))])
  {
    if user in s.users then s.(users := s.users[user := s.users[user].(password := hash(newPassword))]) else s
  }

  /** resetPassword: "User not found" for an unknown email, otherwise that user's password is replaced by its hash. */
  function ResetPassword(s: Store, email: string, newPassword: string, hash: HashFn): (r: Step<Id>)
    ensures r.result.Failure? <==> forall k :: k in s.users ==> s.users[k].email != email
    ensures r.result.Failure? ==> r == Fail(s, UserNotFound)
    ensures r.result.Success? ==> var id := r.result.value;
      && id in s.users && s.users[id].email == email
      && r.store == UpdatePassword(s, id, newPassword, hash)
  {
    match FindUserByEmail(s, email)
    case None => Fail(s, UserNotFound)
    case Some(id) => Done(UpdatePassword(s, id, newPassword, hash), id)
  }

  /** With a password check that accepts a password against its own hash, a reset password lets the user in. */
  lemma ResetPasswordIsChecked(s: Store, email: string, newPassword: string, hash: HashFn, compare: (string, string) -> bool)
    requires forall p :: compare(p, hash(p))
    requires exists k :: k in s.users && s.users[k].email == email
    ensures var r := ResetPassword(s, email, newPassword, hash);
      r.result.Success? && compare(newPassword, r.store.users[r.result.value].password)
  {
  }
}

=== FILE: auth_validator.dfy ===
/**
 * The account form chains and the shared `validate` middleware
 * (src/middleware/validators/authValidator.js). Email syntax and `normalizeEmail` are outside
 * the model: they are the function parameters `isEmail` and `normalizeEmail`.
 */
module AuthValidator {
  import opened Wrappers
  import opened Text
  import opened FieldChecks

  /** The signup form as it arrives. */
  datatype SignupForm = SignupForm(firstName: string, lastName: string, email: string, password: string)

  /** The errors a chain reports and the body as its sanitizers leave it. */
  datatype Checked<T> = Checked(errors: seq<FieldError>, body: T)

  /** The checks on a trimmed field that must be non-empty and at most `max` characters long. */
  function BoundedMessages(value: string, max: nat, required: string, tooLong: string): (r: seq<string>)
    ensures r == [] <==> 0 < |Trim(value)| <= max
  {
    var t := Trim(value);
    When(t == [], required) + When(|t| > max, tooLong)
  }

  function BoundedText(path: string, value: string, max: nat, required: string, tooLong: string): (r: seq<FieldError>)
    ensures r == [] <==> 0 < |Trim(value)| <= max
  {
    Tag(path, BoundedMessages(value, max, required, tooLong))
  }

  /** A trimmed field that must be non-empty. */
  function RequiredText(path: string, value: string, required: string): (r: seq<FieldError>)
    ensures r == [] <==> Trim(value) != []
  {
    Tag(path, When(Trim(value) == [], required))
  }

  /** A trimmed email that must be non-empty and pass `isEmail`. */
  function EmailErrors(value: string, isEmail: string -> bool): (r: seq<FieldError>)
    ensures r == [] <==> Trim(value) != [] && isEmail(Trim(value))
  {
    var t := Trim(value);
    Tag("email", When(t == [], "Email is required") + When(!isEmail(t), "Please enter a valid email address"))
  }

  /** A trimmed password that must be non-empty and at least six characters long. */
  function PasswordErrors(value: string): (r: seq<FieldError>)
    ensures r == [] <==> |Trim(value)| >= 6
    ensures Trim(value) == [] ==>
      r == [FieldError("password", "Password is required"), FieldError("password", "Password must be at least 6 characters long")]
  {
    var p := Trim(value);
    Tag("password", When(p == [], "Password is required") + When(|p| < 6, "Password must be at least 6 characters long"))
  }

  /**
   * signupValidation: names of 1 to 50 characters, a valid email and a password of at least
   * six characters once trimmed. The body leaves with trimmed, escaped names, the trimmed and
   * normalised email and the trimmed password.
   */
  function SignupValidation(f: SignupForm, isEmail: string -> bool, normalizeEmail: string -> string): (r: Checked<SignupForm>)
    ensures r.errors == [] <==>
      && 0 < |Trim(f.firstName)| <= 50 && 0 < |Trim(f.lastName)| <= 50
      && Trim(f.email) != [] && isEmail(Trim(f.email))
      && |Trim(f.password)| >= 6
    ensures r.body == SignupForm(Escape(Trim(f.firstName)), Escape(Trim(f.lastName)), normalizeEmail(Trim(f.email)), Trim(f.password))
  {
    var names :=
      BoundedText("firstName", f.firstName, 50, "First name is required", "First name must be less than 50 characters")
      + BoundedText("lastName", f.lastName, 50, "Last name is required", "Last name must be less than 50 characters");
    var rest := EmailErrors(f.email, isEmail) + PasswordErrors(f.password);
    BothEmpty(names, rest);
    Checked(names + rest, SignupForm(Escape(Trim(f.firstName)), Escape(Trim(f.lastName)), normalizeEmail(Trim(f.email)), Trim(f.password)))
  }

  /** loginValidation: a valid email and a non-empty password. */
  function LoginValidation(email: string, password: string, isEmail: string -> bool): (r: seq<FieldError>)
    ensures r == [] <==> Trim(email) != [] && isEmail(Trim(email)) && Trim(password) != []
  {
    BothEmpty(EmailErrors(email, isEmail), RequiredText("password", password, "Password is required"));
    EmailErrors(email, isEmail) + RequiredText("password", password, "Password is required")
  }

  /** adminLoginValidation: a username of 1 to 50 characters and a non-empty password. */
  function AdminLoginValidation(username: string, password: string): (r: seq<FieldError>)
    ensures r == [] <==> 0 < |Trim(username)| <= 50 && Trim(password) != []
  {
    var name := BoundedText("username", username, 50, "Username is required", "Username too long");
    BothEmpty(name, RequiredText("password", password, "Password is required"));
    name + RequiredText("password", password, "Password is required")
  }

  /** What `validate` sees of the request. */
  datatype Request = Request(xhr: bool, accept: Option<string>, path: string)

  /** What `validate` does: pass on, answer with JSON, or render a form page with the errors. */
  datatype Outcome =
    | Next
    | JsonErrors(status: nat, errors: seq<FieldError>)
    | FormErrors(status: nat, view: string, title: string, header: Option<string>, isAdmin: bool, errors: seq<FieldError>)

  /** The view and title for a form page: the signup page unless the path mentions login. */
  function FormView(path: string): (r: (string, string))
    ensures !Contains(path, "login") ==> r == ("users/signup", "Sign Up")
    ensures Contains(path, "login") && Contains(path, "admin") ==> r == ("admin/login", "Admin Login")
    ensures Contains(path, "login") && !Contains(path, "admin") ==> r == ("users/login", "Login")
  {
    if Contains(path, "login") then
      if Contains(path, "admin") then ("admin/login", "Admin Login") else ("users/login", "Login")
    else ("users/signup", "Sign Up")
  }

  predicate WantsJson(req: Request) {
    req.xhr || (req.accept.Some? && Contains(req.accept.value, "json"))
  }

  /**
   * validate: on to the handler iff there are no errors; otherwise 400, as JSON for an AJAX
   * request or one accepting JSON, else the page the path selects, without the shop header on
   * admin paths.
   */
  function Validate(errors: seq<FieldError>, req: Request): (r: Outcome)
    ensures r.Next? <==> errors == []
    ensures r.JsonErrors? <==> errors != [] && WantsJson(req)
    ensures r.JsonErrors? ==> r == JsonErrors(400, errors)
    ensures r.FormErrors? ==>
      && r.status == 400 && r.errors == errors
      && (r.view, r.title) == FormView(req.path)
      && r.isAdmin == Contains(req.path, "admin")
      && (r.header.None? <==> Contains(req.path, "admin"))
  {
    if errors == [] then Next
    else if WantsJson(req) then JsonErrors(400, errors)
    else
      var (view, title) := FormView(req.path);
      var admin := Contains(req.path, "admin");
      FormErrors(400, view, title, if admin then None else Some("partials/header"), admin, errors)
  }

  /**
   * A rejected form posted to a login path is shown the login page; an admin path that does
   * not mention login falls back to the signup page, marked as admin.
   */
  lemma RejectedFormPages(errors: seq<FieldError>, rest: string)
    requires errors != []
    ensures Validate(errors, Request(false, None, "login" + rest)).FormErrors?
    ensures Validate(errors, Request(false, None, "login" + rest)).view in {"users/login", "admin/login"}
    ensures !Contains("admin" + rest, "login") ==>
      Validate(errors, Request(false, None, "admin" + rest)) == FormErrors(400, "users/signup", "Sign Up", None, true, errors)
  {
    ContainsPrefix("login", rest);
    ContainsPrefix("admin", rest);
  }
}

=== FILE: cart_controller.dfy ===
/**
 * The cart endpoints (src/controllers/cartController.js). The controller's own
 * `addToCartHelper` is the same procedure as the service's addToCart, so both are modelled by
 * CartService.AddToCart.
 */
module CartController {
  import opened Wrappers
  import opened Tables
  import opened Records
  import opened CartService

  /** addToCart: always quantity 1; any failure of the helper becomes 500. */
  function AddToCart(s: Store, user: Id, pid: Id, totals: TotalsFn): (r: (Store, Reply))
    ensures pid !in s.products ==> r == (s, Reply(500, "Failed to add item to cart"))
    ensures pid in s.products ==>
      && r.1 == Reply(200, "Item added to cart successfully")
      && var k := BaseCart(s.carts, user).0;
         && k in r.0.carts
         && r.0.carts[k].user == user
         && FindLine(r.0.carts[k].items, pid).Some?
         && r.0.carts[k].items[FindLine(r.0.carts[k].items, pid).value].quantity == 1
  {
    var step := CartService.AddToCart(s, user, pid, 1, totals);
    if step.result.Failure? then (step.store, Reply(500, "Failed to add item to cart"))
    else (step.store, Reply(200, "Item added to cart successfully"))
  }

  /** Putting a product in the cart through this endpoint twice leaves one line of quantity 1. */
  lemma AddTwiceIsAddOnce(s: Store, user: Id, pid: Id, totals: TotalsFn)
    requires pid in s.products
    requires UserCart(s.carts, user).Some?
    ensures var once := AddToCart(s, user, pid, totals).0;
            var k := UserCart(s.carts, user).value;
            AddToCart(once, user, pid, totals).0.carts[k].items == once.carts[k].items
  {
    var once := AddToCart(s, user, pid, totals).0;
    var k := UserCart(s.carts, user).value;
    assert once.carts[k].user == user;
    assert once.products == s.products;
    assert UserCart(once.carts, user).Some?;
    var k2 := UserCart(once.carts, user).value;
    if OneCartPerUser(s.carts) {
      assert k2 == k;
    }
    LastQuantityWins(s.carts[k].items, s.products[pid], pid, 1, 1);
  }

  /** updateCart: the helper with the requested quantity, replying with the saved cart. */
  function UpdateCart(s: Store, user: Id, pid: Id, quantity: int, totals: TotalsFn): (r: Step<Cart>)
    ensures r.result.Success? <==> pid in s.products
    ensures r.result.Failure? ==> r == Fail(s, ProductNotFound)
    ensures r.result.Success? ==>
      var k := BaseCart(s.carts, user).0;
      && k in r.store.carts
      && r.result.value == r.store.carts[k]
      && r.result.value.user == user
      && FindLine(r.result.value.items, pid).Some?
      && r.result.value.items[FindLine(r.result.value.items, pid).value].quantity == quantity
  {
    var step := CartService.AddToCart(s, user, pid, quantity, totals);
    match step.result
    case Failure(e) => Fail(step.store, e)
    case Success(k) => Done(step.store, step.store.carts[k])
  }

  /** deleteItemFromCart: 404 without a cart, otherwise the line is filtered out and totals recomputed. */
  function DeleteItemFromCart(s: Store, user: Id, pid: Id, totals: TotalsFn): (r: (Store, Reply))
    ensures UserCart(s.carts, user).None? ==> r == (s, Reply(404, "Cart not found"))
    ensures UserCart(s.carts, user).Some? ==>
      var k := UserCart(s.carts, user).value;
      && r.1 == Reply(200, "Item removed successfully")
      && k in r.0.carts
      && FindLine(r.0.carts[k].items, pid).None?
      && r.0 == s.(carts := s.carts[k := r.0.carts[k]])
  {
    var step := RemoveItemFromCart(s, user, pid, totals);
    if step.result.Failure? then (step.store, Reply(404, "Cart not found"))
    else (step.store, Reply(200, "Item removed successfully"))
  }

  /** One entry of the getCartItemID reply. */
  datatype LineSummary = LineSummary(productId: Id, quantity: int, name: string)

  /**
   * getCartItemID: 400 without a session user, 404 without a cart; the populated product of
   * every line is dereferenced, so a line whose product no longer exists ends in 500.
   * Otherwise one entry per line, in cart order.
   */
  function GetCartItemID(s: Store, user: Option<Id>): (r: Result<seq<LineSummary>, Reply>)
    ensures user.None? ==> r == Failure(Reply(400, "User ID is required"))
    ensures user.Some? && UserCart(s.carts, user.value).None? ==> r == Failure(Reply(404, "Cart not found"))
    ensures r.Failure? ==> r.error.status in {400, 404, 500}
    ensures r.Success? ==>
      && user.Some? && UserCart(s.carts, user.value).Some?
      && var items := s.carts[UserCart(s.carts, user.value).value].items;
         && |r.value| == |items|
         && forall i :: 0 <= i < |items| ==>
              && items[i].productId in s.products
              && r.value[i] == LineSummary(items[i].productId, items[i].quantity, items[i].name)
    ensures user.Some? && UserCart(s.carts, user.value).Some? ==>
      var items := s.carts[UserCart(s.carts, user.value).value].items;
      r.Success? <==> forall i :: 0 <= i < |items| ==> items[i].productId in s.products
  {
    match user
    case None => Failure(Reply(400, "User ID is required"))
    case Some(u) =>
      match UserCart(s.carts, u)
      case None => Failure(Reply(404, "Cart not found"))
      case Some(k) =>
        var items := s.carts[k].items;
        if exists i :: 0 <= i < |items| && items[i].productId !in s.products then
          Failure(Reply(500, "Server error"))
        else
          Success(seq(|items|, i requires 0 <= i < |items| =>
            LineSummary(items[i].productId, items[i].quantity, items[i].name)))
  }
}

=== FILE: cart_service.dfy ===
/**
 * The cart aggregate (src/services/cartService.js): one cart per user, created lazily, holding
 * at most one line per product; lines are upserted by product and removed by filtering.
 */
module CartService {
  import opened Wrappers
  import opened Tables
  import opened Records

  /** No two lines of the cart are for the same product. */
  predicate UniqueLines(items: seq<CartLine>) {
    forall i, j :: 0 <= i < j < |items| ==> items[i].productId != items[j].productId
  }

  /** No two carts belong to the same user. */
  predicate OneCartPerUser(carts: map<Id, Cart>) {
    forall a, b :: a in carts && b in carts && carts[a].user == carts[b].user ==> a == b
  }

  /** `items.findIndex(item => item.productId.equals(pid))`, with None for -1. */
  function FindLine(items: seq<CartLine>, pid: Id): (r: Option<nat>)
    ensures r.None? <==> forall i :: 0 <= i < |items| ==> items[i].productId != pid
    ensures r.Some? ==> r.value < |items| && items[r.value].productId == pid
    ensures r.Some? ==> forall i :: 0 <= i < r.value ==> items[i].productId != pid
    decreases |items|
  {
    if items == [] then None
    else if items[0].productId == pid then Some(0)
    else match FindLine(items[1..], pid)
      case None => None
      case Some(i) => Some(i + 1)
  }

  /** FindLine reads only the product ids of the lines. */
  lemma {:induction false} FindLineByIds(a: seq<CartLine>, b: seq<CartLine>, pid: Id)
    requires |a| == |b|
    requires forall i :: 0 <= i < |a| ==> a[i].productId == b[i].productId
    ensures FindLine(a, pid) == FindLine(b, pid)
    decreases |a|
  {
    if a != [] && a[0].productId != pid {
      FindLineByIds(a[1..], b[1..], pid);
    }
  }

  /** The line a product gets when it is first put in the cart: a snapshot of name, image and price. */
  function NewLine(p: Product, pid: Id, quantity: int): CartLine {
    CartLine(pid, p.name, p.images.main, p.price, quantity, p.price * quantity)
  }

  /**
   * The line update of addToCart: an existing line for the product gets the new quantity (not
   * the sum) and a subtotal at the line's stored price; otherwise a new line is appended.
   */
  function Upsert(items: seq<CartLine>, p: Product, pid: Id, quantity: int): (r: seq<CartLine>)
    ensures FindLine(items, pid).Some? ==>
      var i := FindLine(items, pid).value;
      && |r| == |items|
      && FindLine(r, pid) == Some(i)
      && r[i] == items[i].(quantity := quantity, subtotal := quantity * items[i].price)
      && forall j :: 0 <= j < |items| && j != i ==> r[j] == items[j]
    ensures FindLine(items, pid).None? ==>
      && r == items + [NewLine(p, pid, quantity)]
      && FindLine(r, pid) == Some(|items|)
    ensures UniqueLines(items) ==> UniqueLines(r)
  {
    match FindLine(items, pid)
    case Some(i) =>
      var r := items[i := items[i].(quantity := quantity, subtotal := quantity * items[i].price)];
      FindLineByIds(items, r, pid);
      r
    case None =>
      var r := items + [NewLine(p, pid, quantity)];
      FindLineAppended(items, NewLine(p, pid, quantity), pid);
      r
  }

  lemma {:induction false} FindLineAppended(items: seq<CartLine>, line: CartLine, pid: Id)
    requires FindLine(items, pid).None? && line.productId == pid
    ensures FindLine(items + [line], pid) == Some(|items|)
    decreases |items|
  {
    if items != [] {
      assert (items + [line])[1..] == items[1..] + [line];
      FindLineAppended(items[1..], line, pid);
    }
  }

  /** Whatever quantity was set before, the last quantity set for a product is the one that stays. */
  lemma LastQuantityWins(items: seq<CartLine>, p: Product, pid: Id, q1: int, q2: int)
    ensures Upsert(Upsert(items, p, pid, q1), p, pid, q2) == Upsert(items, p, pid, q2)
  {
    var once := Upsert(items, p, pid, q1);
    match FindLine(items, pid)
    case Some(i) =>
      assert FindLine(once, pid) == Some(i);
      assert Upsert(once, p, pid, q2) == Upsert(items, p, pid, q2);
    case None =>
      assert FindLine(once, pid) == Some(|items|);
      assert Upsert(once, p, pid, q2) == items + [NewLine(p, pid, q2)];
  }

  /** `items.filter(item => item.productId != pid)`. */
  function RemoveLines(items: seq<CartLine>, pid: Id): (r: seq<CartLine>)
    ensures forall i :: 0 <= i < |r| ==> r[i].productId != pid
    ensures forall l :: l in r ==> l in items
    ensures forall l :: l in items && l.productId != pid ==> l in r
    ensures FindLine(items, pid).None? ==> r == items
    ensures UniqueLines(items) ==> UniqueLines(r)
    decreases |items|
  {
    if items == [] then []
    else
      var rest := RemoveLines(items[1..], pid);
      if items[0].productId == pid then rest else [items[0]] + rest
  }

  /** Removing a product that was just added to a cart without it gives the cart's lines back. */
  lemma {:induction false} RemoveUndoesAdd(items: seq<CartLine>, p: Product, pid: Id, quantity: int)
    requires FindLine(items, pid).None?
    ensures RemoveLines(Upsert(items, p, pid, quantity), pid) == items
    decreases |items|
  {
    if items == [] {
      assert Upsert(items, p, pid, quantity) == [NewLine(p, pid, quantity)];
      assert RemoveLines([NewLine(p, pid, quantity)], pid) == RemoveLines([], pid);
    } else {
      var added := Upsert(items, p, pid, quantity);
      assert added == items + [NewLine(p, pid, quantity)];
      assert added[1..] == items[1..] + [NewLine(p, pid, quantity)];
      RemoveUndoesAdd(items[1..], p, pid, quantity);
      assert Upsert(items[1..], p, pid, quantity) == added[1..];
    }
  }

  /** `Cart.findOne({ user })`: the user's cart, if any. */
  function UserCart(carts: map<Id, Cart>, user: Id): (r: Option<Id>)
    ensures r.None? <==> forall k :: k in carts ==> carts[k].user != user
    ensures r.Some? ==> r.value in carts && carts[r.value].user == user
    ensures OneCartPerUser(carts) && r.Some? ==> forall k :: k in carts && carts[k].user == user ==> k == r.value
  {
    FindFirst(carts, (c: Cart) => c.user == user)
  }

  /** `new Cart({ user, items: [], total: 0 })`, the other fields at their schema defaults. */
  function EmptyCart(user: Id): Cart {
    Cart(user, [], 0, 0, None, 0, 0)
  }

  /** The cart addToCart works on: the user's own, or a fresh one under a new id. */
  function BaseCart(carts: map<Id, Cart>, user: Id): (r: (Id, Cart))
    ensures UserCart(carts, user).Some? ==> r.0 == UserCart(carts, user).value && r.1 == carts[r.0]
    ensures UserCart(carts, user).None? ==> r.0 !in carts && r.1 == EmptyCart(user)
  {
    match UserCart(carts, user)
    case Some(k) => (k, carts[k])
    case None => (NextId(carts), EmptyCart(user))
  }

  /**
   * addToCart: fails on a missing product before any cart is created; otherwise upserts the
   * product's line in the user's cart (created if the user has none), recomputes the totals
   * and saves. Returns the id of the saved cart. The quantity is stored as given.
   */
  function AddToCart(s: Store, user: Id, pid: Id, quantity: int, totals: TotalsFn): (r: Step<Id>)
    ensures pid !in s.products ==> r == Fail(s, ProductNotFound)
    ensures r.result.Success? <==> pid in s.products
    ensures r.result.Success? ==>
      var k := r.result.value;
      var base := BaseCart(s.carts, user);
      && k == base.0
      && k in r.store.carts
      && r.store == s.(carts := s.carts[k := r.store.carts[k]])
      && r.store.carts[k].user == user
      && r.store.carts[k] == WithTotals(base.1.(items := Upsert(base.1.items, s.products[pid], pid, quantity)), totals)
    ensures r.result.Success? ==>
      var line := FindLine(r.store.carts[r.result.value].items, pid);
      && line.Some?
      && r.store.carts[r.result.value].items[line.value].quantity == quantity
    ensures OneCartPerUser(s.carts) ==> OneCartPerUser(r.store.carts)
    ensures r.result.Success? && (forall k :: k in s.carts ==> UniqueLines(s.carts[k].items)) ==>
      forall k :: k in r.store.carts ==> UniqueLines(r.store.carts[k].items)
  {
    if pid !in s.products then Fail(s, ProductNotFound)
    else
      var (k, cart) := BaseCart(s.carts, user);
      var saved := WithTotals(cart.(items := Upsert(cart.items, s.products[pid], pid, quantity)), totals);
      assert UniqueLines(cart.items) ==> UniqueLines(saved.items);
      Done(s.(carts := s.carts[k := saved]), k)
  }

  /**
   * removeItemFromCart: fails on a missing cart; otherwise drops every line for the product,
   * recomputes the totals and saves.
   */
  function RemoveItemFromCart(s: Store, user: Id, pid: Id, totals: TotalsFn): (r: Step<Id>)
    ensures UserCart(s.carts, user).None? ==> r == Fail(s, CartNotFound)
    ensures r.result.Success? <==> UserCart(s.carts, user).Some?
    ensures r.result.Success? ==>
      var k := r.result.value;
      && k == UserCart(s.carts, user).value
      && k in r.store.carts
      && r.store == s.(carts := s.carts[k := r.store.carts[k]])
      && r.store.carts[k] == WithTotals(s.carts[k].(items := RemoveLines(s.carts[k].items, pid)), totals)
      && FindLine(r.store.carts[k].items, pid).None?
    ensures OneCartPerUser(s.carts) ==> OneCartPerUser(r.store.carts)
  {
    match UserCart(s.carts, user)
    case None => Fail(s, CartNotFound)
    case Some(k) =>
      var cart := s.carts[k];
      var saved := WithTotals(cart.(items := RemoveLines(cart.items, pid)), totals);
      Done(s.(carts := s.carts[k := saved]), k)
  }
}

=== FILE: catalog.dfy ===
/**
 * Catalog queries and the wishlist (src/services/productService.js). A product listing joins
 * each product with its category; offers are looked up by id, and the discounted price comes
 * from `calculateDiscountedPrice`, which is not part of this model and is a parameter here.
 */
module Catalog {
  import opened Wrappers
  import opened Tables
  import opened Records
  import opened Seqs
  import Text

  /** `calculateDiscountedPrice(price, productOffer, categoryOffer)`. */
  type DiscountFn = (Cents, Option<Offer>, Option<Offer>) -> Cents

  /** A product as a listing shows it: with its category and, where computed, its discounted price. */
  datatype Listing = Listing(id: Id, product: Product, category: Category, discountedPrice: Option<Cents>)

  datatype SortField = Popularity | Price | Rating | Featured | Newest | Name

  datatype SortSpec = SortSpec(field: SortField, descending: bool)

  const SortKeys: set<string> := {"popularity", "price-asc", "price-desc", "rating", "featured", "new", "a-z", "z-a"}

  /** The `sortBy` table: eight keys, each a field and a direction; any other key means no sort. */
  function SortFor(sortBy: string): (r: Option<SortSpec>)
    ensures r.Some? <==> sortBy in SortKeys
    ensures r.Some? ==> (r.value.field in {Price, Name} <==> sortBy in {"price-asc", "price-desc", "a-z", "z-a"})
    ensures r.Some? ==> (r.value.descending <==> sortBy !in {"price-asc", "a-z"})
  {
    match sortBy
    case "popularity" => Some(SortSpec(Popularity, true))
    case "price-asc" => Some(SortSpec(Price, false))
    case "price-desc" => Some(SortSpec(Price, true))
    case "rating" => Some(SortSpec(Rating, true))
    case "featured" => Some(SortSpec(Featured, true))
    case "new" => Some(SortSpec(Newest, true))
    case "a-z" => Some(SortSpec(Name, false))
    case "z-a" => Some(SortSpec(Name, true))
    case _ => None
  }

  /** The value a listing is sorted on. */
  function KeyOf(field: SortField): Listing -> seq<int> {
    (l: Listing) =>
      match field
      case Popularity => [l.product.popularity]
      case Price => [l.product.price]
      case Rating => [l.product.averageRatings]
      case Featured => [if l.product.featured then 1 else 0]
      case Newest => [l.product.createdAt]
      case Name => TextKey(l.product.name)
  }

  /** The upper price bound: a number or Infinity. */
  datatype Upper = AtMost(limit: Cents) | NoLimit

  /** The listing's `$match`: active product in an active category, optionally of one category and price range. */
  function Matcher(category: string, prices: Option<(Cents, Upper)>): Listing -> bool {
    (l: Listing) =>
      && l.category.isActive
      && l.product.isActive
      && (category != "" ==> l.category.name == category)
      && (prices.Some? ==> prices.value.0 <= l.product.price
                            && (prices.value.1.AtMost? ==> l.product.price <= prices.value.1.limit))
  }

  function ListingId(l: Listing): int {
    l.id
  }

  function RowId(row: (Id, Product)): int {
    row.0
  }

  /** The product exists and so does its category. */
  predicate Listable(s: Store, k: Id) {
    k in s.products && s.products[k].categoryId in s.categories
  }

  /** A product of the store joined with its category, before any discount is computed. */
  function ListingOf(s: Store, k: Id): Listing
    requires Listable(s, k)
  {
    Listing(k, s.products[k], s.categories[s.products[k].categoryId], None)
  }

  /** The `$lookup`/`$unwind` of the category: products whose category does not exist drop out. */
  function JoinCategories(s: Store, rows: seq<(Id, Product)>): (r: seq<Listing>)
    ensures forall i :: 0 <= i < |r| ==>
      && r[i].product.categoryId in s.categories
      && r[i].category == s.categories[r[i].product.categoryId]
      && (r[i].id, r[i].product) in rows
      && r[i].discountedPrice.None?
    ensures forall i :: 0 <= i < |rows| && rows[i].1.categoryId in s.categories ==>
      Listing(rows[i].0, rows[i].1, s.categories[rows[i].1.categoryId], None) in r
    decreases |rows|
  {
    if rows == [] then []
    else
      var rest := JoinCategories(s, rows[1..]);
      assert forall i :: 0 <= i < |rest| ==> (rest[i].id, rest[i].product) in rows[1..];
      assert forall i :: 1 <= i < |rows| ==> rows[i] == rows[1..][i - 1];
      var row := rows[0];
      if row.1.categoryId in s.categories then [Listing(row.0, row.1, s.categories[row.1.categoryId], None)] + rest
      else rest
  }

  /** The join keeps the products' order. */
  lemma {:induction false} JoinKeepsOrder(s: Store, rows: seq<(Id, Product)>)
    requires IncreasingBy(rows, RowId)
    ensures IncreasingBy(JoinCategories(s, rows), ListingId)
    decreases |rows|
  {
    if rows != [] {
      var tail := rows[1..];
      assert IncreasingBy(tail, RowId) by {
        assert forall i :: 0 <= i < |tail| ==> tail[i] == rows[i + 1];
      }
      JoinKeepsOrder(s, tail);
      if rows[0].1.categoryId in s.categories {
        var head := Listing(rows[0].0, rows[0].1, s.categories[rows[0].1.categoryId], None);
        JoinedAfterHead(s, rows);
        PrependIncreasing(head, JoinCategories(s, tail), ListingId);
      }
    }
  }

  /** Every product the join keeps from the tail of an increasing list comes after its head. */
  lemma JoinedAfterHead(s: Store, rows: seq<(Id, Product)>)
    requires IncreasingBy(rows, RowId) && rows != []
    ensures forall j :: 0 <= j < |JoinCategories(s, rows[1..])| ==> rows[0].0 < JoinCategories(s, rows[1..])[j].id
  {
    var tail := rows[1..];
    var rest := JoinCategories(s, tail);
    forall j | 0 <= j < |rest| ensures rows[0].0 < rest[j].id {
      var m :| 0 <= m < |tail| && tail[m] == (rest[j].id, rest[j].product);
      assert rows[m + 1] == tail[m];
    }
  }

  /**
   * The listing pipeline: join, match, then sort when the key is in the table (otherwise
   * natural order).
   */
  function Query(s: Store, category: string, prices: Option<(Cents, Upper)>, sortBy: string): (r: seq<Listing>)
    ensures forall i :: 0 <= i < |r| ==>
      && r[i].id in s.products && s.products[r[i].id] == r[i].product
      && r[i].product.categoryId in s.categories && r[i].category == s.categories[r[i].product.categoryId]
      && Matcher(category, prices)(r[i])
      && r[i].discountedPrice.None?
    ensures forall k :: Listable(s, k) && Matcher(category, prices)(ListingOf(s, k)) ==> ListingOf(s, k) in r
    ensures SortFor(sortBy).Some? ==> SortedBy(r, KeyOf(SortFor(sortBy).value.field), SortFor(sortBy).value.descending)
    ensures SortFor(sortBy).None? ==> IncreasingBy(r, ListingId)
  {
    var joined := JoinCategories(s, Rows(s.products));
    var matched := Filter(joined, Matcher(category, prices));
    QueryFindsAll(s, category, prices, joined, matched);
    QueryMatchesStore(s, category, prices, joined, matched);
    match SortFor(sortBy)
    case None =>
      assert IncreasingBy(Rows(s.products), RowId);
      JoinKeepsOrder(s, Rows(s.products));
      FilterKeepsIncreasing(joined, Matcher(category, prices), ListingId);
      matched
    case Some(spec) =>
      var sorted := Sort(matched, KeyOf(spec.field), spec.descending);
      SortKeepsElements(matched, KeyOf(spec.field), spec.descending);
      forall i | 0 <= i < |sorted| ensures sorted[i] in matched {
      }
      sorted
  }

  lemma QueryMatchesStore(s: Store, category: string, prices: Option<(Cents, Upper)>, joined: seq<Listing>, matched: seq<Listing>)
    requires joined == JoinCategories(s, Rows(s.products))
    requires matched == Filter(joined, Matcher(category, prices))
    ensures forall i :: 0 <= i < |matched| ==>
      && matched[i].id in s.products && s.products[matched[i].id] == matched[i].product
      && matched[i].product.categoryId in s.categories
      && matched[i].category == s.categories[matched[i].product.categoryId]
      && Matcher(category, prices)(matched[i])
      && matched[i].discountedPrice.None?
  {
    forall i | 0 <= i < |matched|
      ensures matched[i].id in s.products && s.products[matched[i].id] == matched[i].product
    {
      assert matched[i] in joined;
      var j :| 0 <= j < |joined| && joined[j] == matched[i];
      JoinedIsStored(s, j);
    }
  }

  /** A joined listing carries a stored product under its own id. */
  lemma JoinedIsStored(s: Store, j: nat)
    requires j < |JoinCategories(s, Rows(s.products))|
    ensures var l := JoinCategories(s, Rows(s.products))[j];
      l.id in s.products && s.products[l.id] == l.product
  {
    var rows := Rows(s.products);
    var l := JoinCategories(s, rows)[j];
    var m :| 0 <= m < |rows| && rows[m] == (l.id, l.product);
  }

  lemma QueryFindsAll(s: Store, category: string, prices: Option<(Cents, Upper)>, joined: seq<Listing>, matched: seq<Listing>)
    requires joined == JoinCategories(s, Rows(s.products))
    requires matched == Filter(joined, Matcher(category, prices))
    ensures forall k :: Listable(s, k) && Matcher(category, prices)(ListingOf(s, k)) ==> ListingOf(s, k) in matched
  {
    var rows := Rows(s.products);
    forall k | Listable(s, k) && Matcher(category, prices)(ListingOf(s, k)) ensures ListingOf(s, k) in matched {
      var l := ListingOf(s, k);
      assert (k, s.products[k]) in rows;
      var m :| 0 <= m < |rows| && rows[m] == (k, s.products[k]);
      assert l in joined;
      var j :| 0 <= j < |joined| && joined[j] == l;
    }
  }

  /** The offer a document points at, if it exists. */
  function OfferOf(s: Store, id: Option<Id>): (r: Option<Offer>)
    ensures r.Some? <==> id.Some? && id.value in s.offers
    ensures r.Some? ==> r.value == s.offers[id.value]
  {
    if id.Some? && id.value in s.offers then Some(s.offers[id.value]) else None
  }

  /** The discounted price of a listed product, from its own offer and its category's offer. */
  function DiscountedPrice(s: Store, p: Product, c: Category, discount: DiscountFn): Cents {
    discount(p.price, OfferOf(s, p.offerId), OfferOf(s, c.offerId))
  }

  /** `products.map(p => ({ ...p, discountedPrice }))`. */
  function WithDiscounts(s: Store, ls: seq<Listing>, discount: DiscountFn): (r: seq<Listing>)
    ensures |r| == |ls|
    ensures forall i :: 0 <= i < |ls| ==>
      r[i] == ls[i].(discountedPrice := Some(DiscountedPrice(s, ls[i].product, ls[i].category, discount)))
  {
    seq(|ls|, i requires 0 <= i < |ls| =>
      ls[i].(discountedPrice := Some(DiscountedPrice(s, ls[i].product, ls[i].category, discount))))
  }

  /**
   * The price bounds of getFilteredProducts: a bound that is missing or not a number (None)
   * becomes 0 below and Infinity above.
   */
  function ServiceBounds(minPrice: Option<Cents>, maxPrice: Option<Cents>): (r: (Cents, Upper))
    ensures r.0 == minPrice.GetOr(0)
    ensures r.1.NoLimit? <==> maxPrice.None?
  {
    (minPrice.GetOr(0), if maxPrice.Some? then AtMost(maxPrice.value) else NoLimit)
  }

  /**
   * getFilteredProducts: active products in active categories, of the category when one is
   * given, within the price bounds, sorted per the table, each with its discounted price.
   */
  function GetFilteredProducts(s: Store, category: string, minPrice: Option<Cents>, maxPrice: Option<Cents>,
                               sortBy: string, discount: DiscountFn): (r: seq<Listing>)
    ensures forall i :: 0 <= i < |r| ==>
      && r[i].id in s.products && s.products[r[i].id] == r[i].product
      && r[i].product.isActive && r[i].category.isActive
      && (category != "" ==> r[i].category.name == category)
      && minPrice.GetOr(0) <= r[i].product.price
      && (maxPrice.Some? ==> r[i].product.price <= maxPrice.value)
      && r[i].discountedPrice == Some(DiscountedPrice(s, r[i].product, r[i].category, discount))
    ensures forall k :: Listable(s, k) && Matcher(category, Some(ServiceBounds(minPrice, maxPrice)))(ListingOf(s, k)) ==>
      exists i :: 0 <= i < |r| && r[i].id == k
    ensures SortFor(sortBy).Some? ==> SortedBy(r, KeyOf(SortFor(sortBy).value.field), SortFor(sortBy).value.descending)
    ensures SortFor(sortBy).None? ==> IncreasingBy(r, ListingId)
  {
    var q := Query(s, category, Some(ServiceBounds(minPrice, maxPrice)), sortBy);
    FilteredAreMatches(s, category, minPrice, maxPrice, q, discount);
    FilteredAreAll(s, category, Some(ServiceBounds(minPrice, maxPrice)), q, discount);
    DiscountsKeepOrder(s, q, discount, sortBy);
    WithDiscounts(s, q, discount)
  }

  lemma FilteredAreMatches(s: Store, category: string, minPrice: Option<Cents>, maxPrice: Option<Cents>,
                           q: seq<Listing>, discount: DiscountFn)
    requires forall i :: 0 <= i < |q| ==>
      && q[i].id in s.products && s.products[q[i].id] == q[i].product
      && Matcher(category, Some(ServiceBounds(minPrice, maxPrice)))(q[i])
    ensures var r := WithDiscounts(s, q, discount);
      forall i :: 0 <= i < |r| ==>
        && r[i].id in s.products && s.products[r[i].id] == r[i].product
        && r[i].product.isActive && r[i].category.isActive
        && (category != "" ==> r[i].category.name == category)
        && minPrice.GetOr(0) <= r[i].product.price
        && (maxPrice.Some? ==> r[i].product.price <= maxPrice.value)
        && r[i].discountedPrice == Some(DiscountedPrice(s, r[i].product, r[i].category, discount))
  {
    var r := WithDiscounts(s, q, discount);
    forall i | 0 <= i < |r|
      ensures r[i].product.isActive && r[i].category.isActive
      ensures minPrice.GetOr(0) <= r[i].product.price
      ensures maxPrice.Some? ==> r[i].product.price <= maxPrice.value
    {
      assert Matcher(category, Some(ServiceBounds(minPrice, maxPrice)))(q[i]);
    }
  }

  lemma FilteredAreAll(s: Store, category: string, prices: Option<(Cents, Upper)>, q: seq<Listing>, discount: DiscountFn)
    requires forall k :: Listable(s, k) && Matcher(category, prices)(ListingOf(s, k)) ==> ListingOf(s, k) in q
    ensures var r := WithDiscounts(s, q, discount);
      forall k :: Listable(s, k) && Matcher(category, prices)(ListingOf(s, k)) ==> exists i :: 0 <= i < |r| && r[i].id == k
  {
    var r := WithDiscounts(s, q, discount);
    forall k | Listable(s, k) && Matcher(category, prices)(ListingOf(s, k))
      ensures exists i :: 0 <= i < |r| && r[i].id == k
    {
      var i :| 0 <= i < |q| && q[i] == ListingOf(s, k);
      assert r[i].id == k;
    }
  }

  /** The discounted price is neither a sort field nor the id, so adding it keeps the order. */
  lemma DiscountsKeepOrder(s: Store, q: seq<Listing>, discount: DiscountFn, sortBy: string)
    requires SortFor(sortBy).Some? ==> SortedBy(q, KeyOf(SortFor(sortBy).value.field), SortFor(sortBy).value.descending)
    requires SortFor(sortBy).None? ==> IncreasingBy(q, ListingId)
    ensures SortFor(sortBy).Some? ==>
      SortedBy(WithDiscounts(s, q, discount), KeyOf(SortFor(sortBy).value.field), SortFor(sortBy).value.descending)
    ensures SortFor(sortBy).None? ==> IncreasingBy(WithDiscounts(s, q, discount), ListingId)
  {
    var r := WithDiscounts(s, q, discount);
    if SortFor(sortBy).Some? {
      var key := KeyOf(SortFor(sortBy).value.field);
      assert forall i :: 0 <= i < |q| ==> key(r[i]) == key(q[i]);
    } else {
      assert forall i :: 0 <= i < |q| ==> ListingId(r[i]) == ListingId(q[i]);
    }
  }

  /** Sorting "price-asc" lists cheaper products first; "price-desc" the other way round. */
  lemma PriceSortOrders(s: Store, category: string, minPrice: Option<Cents>, maxPrice: Option<Cents>, discount: DiscountFn)
    ensures var r := GetFilteredProducts(s, category, minPrice, maxPrice, "price-asc", discount);
            forall i, j :: 0 <= i < j < |r| ==> r[i].product.price <= r[j].product.price
    ensures var r := GetFilteredProducts(s, category, minPrice, maxPrice, "price-desc", discount);
            forall i, j :: 0 <= i < j < |r| ==> r[i].product.price >= r[j].product.price
  {
    var up := GetFilteredProducts(s, category, minPrice, maxPrice, "price-asc", discount);
    forall i, j | 0 <= i < j < |up| ensures up[i].product.price <= up[j].product.price {
      assert InOrder(KeyOf(Price)(up[i]), KeyOf(Price)(up[j]), false);
      LexLeNumber(up[i].product.price, up[j].product.price);
    }
    var down := GetFilteredProducts(s, category, minPrice, maxPrice, "price-desc", discount);
    forall i, j | 0 <= i < j < |down| ensures down[i].product.price >= down[j].product.price {
      assert InOrder(KeyOf(Price)(down[i]), KeyOf(Price)(down[j]), true);
      LexLeNumber(down[j].product.price, down[i].product.price);
    }
  }

  /** What getProductDetails returns: the product and the rest of its category, each with its discounted price. */
  datatype Details = Details(product: Listing, related: seq<Listing>)

  /** The rows of a table that satisfy `p`, in id order. */
  function RowsWhere<T>(m: map<Id, T>, p: ((Id, T)) -> bool): (r: seq<(Id, T)>)
    ensures forall i :: 0 <= i < |r| ==> r[i].0 in m && m[r[i].0] == r[i].1 && p(r[i])
    ensures forall k :: k in m && p((k, m[k])) ==> (k, m[k]) in r
  {
    var r := Filter(Rows(m), p);
    forall k | k in m && p((k, m[k])) ensures (k, m[k]) in r {
      FilteredRowListed(m, p, k);
    }
    forall i | 0 <= i < |r| ensures r[i].0 in m && m[r[i].0] == r[i].1 {
      FilteredRowStored(m, p, i);
    }
    r
  }

  lemma FilteredRowListed<T>(m: map<Id, T>, p: ((Id, T)) -> bool, k: Id)
    requires k in m && p((k, m[k]))
    ensures (k, m[k]) in Filter(Rows(m), p)
  {
    var rows := Rows(m);
    var i :| 0 <= i < |rows| && rows[i] == (k, m[k]);
    assert p(rows[i]);
  }

  lemma FilteredRowStored<T>(m: map<Id, T>, p: ((Id, T)) -> bool, i: nat)
    requires i < |Filter(Rows(m), p)|
    ensures var row := Filter(Rows(m), p)[i]; row.0 in m && m[row.0] == row.1
  {
    var rows := Rows(m);
    var row := Filter(rows, p)[i];
    var j :| 0 <= j < |rows| && rows[j] == row;
  }

  function InCategoryExcept(categoryId: Id, exclude: Id): ((Id, Product)) -> bool {
    (row: (Id, Product)) => row.1.categoryId == categoryId && row.0 != exclude
  }

  /** The products of a category other than one product, in natural order. */
  function Related(s: Store, categoryId: Id, exclude: Id): (r: seq<(Id, Product)>)
    ensures forall i :: 0 <= i < |r| ==>
      r[i].0 in s.products && s.products[r[i].0] == r[i].1 && r[i].1.categoryId == categoryId && r[i].0 != exclude
    ensures forall k :: k in s.products && s.products[k].categoryId == categoryId && k != exclude ==> (k, s.products[k]) in r
  {
    var p := InCategoryExcept(categoryId, exclude);
    var r := RowsWhere(s.products, p);
    assert forall i :: 0 <= i < |r| ==> p(r[i]);
    r
  }

  /**
   * getProductDetails: None for a missing product; a product whose category is gone ends in
   * the TypeError of reading the missing category's offer. Otherwise the product and every
   * other product of its category (active or not), each with its discounted price.
   */
  function GetProductDetails(s: Store, pid: Id, discount: DiscountFn): (r: Result<Option<Details>, Err>)
    ensures pid !in s.products ==> r == Success(None)
    ensures pid in s.products && s.products[pid].categoryId !in s.categories ==> r == Failure(Crash("offerId"))
    ensures r.Success? && r.value.Some? ==>
      var p := s.products[pid];
      var c := s.categories[p.categoryId];
      var d := r.value.value;
      && d.product == Listing(pid, p, c, Some(DiscountedPrice(s, p, c, discount)))
      && (forall i :: 0 <= i < |d.related| ==>
            && d.related[i].id != pid
            && d.related[i].id in s.products
            && d.related[i].product == s.products[d.related[i].id]
            && d.related[i].product.categoryId == p.categoryId
            && d.related[i].discountedPrice == Some(DiscountedPrice(s, d.related[i].product, c, discount)))
      && (forall k :: k in s.products && k != pid && s.products[k].categoryId == p.categoryId ==>
            exists i :: 0 <= i < |d.related| && d.related[i].id == k)
  {
    if pid !in s.products then Success(None)
    else
      var p := s.products[pid];
      if p.categoryId !in s.categories then Failure(Crash("offerId"))
      else
        var c := s.categories[p.categoryId];
        var related := RelatedListings(s, c, Related(s, p.categoryId, pid), discount);
        RelatedListingsCover(s, pid, discount);
        Success(Some(Details(Listing(pid, p, c, Some(DiscountedPrice(s, p, c, discount))), related)))
  }

  /** The related products with the category's offer applied. */
  function RelatedListings(s: Store, c: Category, rows: seq<(Id, Product)>, discount: DiscountFn): (r: seq<Listing>)
    ensures |r| == |rows|
    ensures forall i :: 0 <= i < |rows| ==> r[i] == Listing(rows[i].0, rows[i].1, c, Some(DiscountedPrice(s, rows[i].1, c, discount)))
  {
    seq(|rows|, i requires 0 <= i < |rows| => Listing(rows[i].0, rows[i].1, c, Some(DiscountedPrice(s, rows[i].1, c, discount))))
  }

  lemma RelatedListingsCover(s: Store, pid: Id, discount: DiscountFn)
    requires Listable(s, pid)
    ensures var p := s.products[pid];
            var c := s.categories[p.categoryId];
            var related := RelatedListings(s, c, Related(s, p.categoryId, pid), discount);
            forall k :: k in s.products && k != pid && s.products[k].categoryId == p.categoryId ==>
              exists i :: 0 <= i < |related| && related[i].id == k
  {
    var p := s.products[pid];
    var c := s.categories[p.categoryId];
    var rows := Related(s, p.categoryId, pid);
    var related := RelatedListings(s, c, rows, discount);
    forall k | k in s.products && k != pid && s.products[k].categoryId == p.categoryId
      ensures exists i :: 0 <= i < |related| && related[i].id == k
    {
      var i :| 0 <= i < |rows| && rows[i] == (k, s.products[k]);
      assert related[i].id == k;
    }
  }

  /** getStock: the product's stock, or None for a missing product. */
  function GetStock(s: Store, pid: Id): (r: Option<int>)
    ensures r.Some? <==> pid in s.products
    ensures r.Some? ==> r.value == s.products[pid].stock
  {
    if pid in s.products then Some(s.products[pid].stock) else None
  }

  /**
   * searchProducts: every product for an empty query, otherwise the products whose name
   * starts with the query, ignoring case; in natural order.
   */
  function SearchProducts(s: Store, query: string): (r: seq<(Id, Product)>)
    ensures forall i :: 0 <= i < |r| ==> r[i].0 in s.products && s.products[r[i].0] == r[i].1
    ensures forall i :: 0 <= i < |r| ==> query == "" || Text.StartsWithIgnoringCase(r[i].1.name, query)
    ensures forall k :: k in s.products && (query == "" || Text.StartsWithIgnoringCase(s.products[k].name, query)) ==>
      (k, s.products[k]) in r
  {
    var rows := Rows(s.products);
    if query == "" then rows
    else
      var p := (row: (Id, Product)) => Text.StartsWithIgnoringCase(row.1.name, query);
      var r := Filter(rows, p);
      forall k | k in s.products && Text.StartsWithIgnoringCase(s.products[k].name, query)
        ensures (k, s.products[k]) in r
      {
        var m :| 0 <= m < |rows| && rows[m] == (k, s.products[k]);
        assert p(rows[m]);
      }
      forall i | 0 <= i < |r| ensures r[i].0 in s.products && s.products[r[i].0] == r[i].1 {
        var m :| 0 <= m < |rows| && rows[m] == r[i];
      }
      r
  }

  /**
   * addToWishlist: fails on a missing product, then a missing user, then a product already in
   * the wishlist; otherwise appends the product once. Returns the refreshed user.
   */
  function AddToWishlist(s: Store, user: Id, pid: Id): (r: Step<User>)
    ensures pid !in s.products ==> r == Fail(s, ProductNotFound)
    ensures pid in s.products && user !in s.users ==> r == Fail(s, UserNotFound)
    ensures pid in s.products && user in s.users && pid in s.users[user].wishlist ==> r == Fail(s, AlreadyInWishlist)
    ensures r.result.Failure? ==> r.store == s
    ensures r.result.Success? <==> pid in s.products && user in s.users && pid !in s.users[user].wishlist
    ensures r.result.Success? ==>
      && r.result.value == s.users[user].(wishlist := s.users[user].wishlist + [pid])
      && r.store == s.(users := s.users[user := r.result.value])
      && multiset(r.result.value.wishlist)[pid] == 1
  {
    if pid !in s.products then Fail(s, ProductNotFound)
    else if user !in s.users then Fail(s, UserNotFound)
    else
      var u := s.users[user];
      if pid in u.wishlist then Fail(s, AlreadyInWishlist)
      else
        assert multiset(u.wishlist)[pid] == 0;
        var updated := u.(wishlist := u.wishlist + [pid]);
        Done(s.(users := s.users[user := updated]), updated)
  }

  /** `$pull`: every occurrence of the id removed, the rest in order. */
  function Pull(ids: seq<Id>, id: Id): (r: seq<Id>)
    ensures id !in r
    ensures forall x :: x in ids && x != id ==> x in r
    ensures forall x :: x in r ==> x in ids
    ensures id !in ids ==> r == ids
    ensures r == Filter(ids, NotId(id))
    decreases |ids|
  {
    if ids == [] then []
    else
      var rest := Pull(ids[1..], id);
      assert ids == [ids[0]] + ids[1..];
      if ids[0] == id then rest else [ids[0]] + rest
  }

  /** The test `$pull` keeps an entry by. */
  function NotId(id: Id): Id -> bool {
    x => x != id
  }

  /** removeFromWishlist: the updated user, or None (and no write) for a missing user. */
  function RemoveFromWishlist(s: Store, user: Id, pid: Id): (r: (Store, Option<User>))
    ensures r.1.Some? <==> user in s.users
    ensures r.1.None? ==> r.0 == s
    ensures r.1.Some? ==>
      && r.1.value == s.users[user].(wishlist := Pull(s.users[user].wishlist, pid))
      && pid !in r.1.value.wishlist
      && r.0 == s.(users := s.users[user := r.1.value])
  {
    if user !in s.users then (s, None)
    else
      var updated := s.users[user].(wishlist := Pull(s.users[user].wishlist, pid));
      (s.(users := s.users[user := updated]), Some(updated))
  }

  /** Removing a product just added to a wishlist gives the wishlist back. */
  lemma RemoveUndoesAddToWishlist(s: Store, user: Id, pid: Id)
    requires AddToWishlist(s, user, pid).result.Success?
    ensures var s1 := AddToWishlist(s, user, pid).store;
            RemoveFromWishlist(s1, user, pid).1 == Some(s.users[user])
  {
    var w := s.users[user].wishlist;
    PullAppended(w, pid);
  }

  lemma {:induction false} PullAppended(ids: seq<Id>, id: Id)
    requires id !in ids
    ensures Pull(ids + [id], id) == ids
    decreases |ids|
  {
    if ids == [] {
      assert Pull([id], id) == Pull([], id);
    } else {
      assert (ids + [id])[1..] == ids[1..] + [id];
      PullAppended(ids[1..], id);
    }
  }
}

=== FILE: category_controller.dfy ===
/**
 * The category administration endpoints (src/controllers/categoryController.js). They repeat
 * the service's checks against the store themselves and answer with HTTP statuses.
 */
module CategoryController {
  import opened Wrappers
  import opened Tables
  import opened Records
  import CategoryService

  /** addCategory: 400 without a name, 400 for a taken name, otherwise 201 and the category is stored. */
  function AddCategory(s: Store, name: Option<string>, description: string): (r: (Store, Reply))
    ensures !Truthy(name) ==> r == (s, Reply(400, "Category name is required"))
    ensures r.1.status == 201 <==> Truthy(name) && forall k :: k in s.categories ==> s.categories[k].name != name.value
    ensures r.1.status == 201 ==> r.1.message == "Category added successfully"
    ensures r.1.status != 201 ==> r.0 == s
    ensures Truthy(name) && (exists k :: k in s.categories && s.categories[k].name == name.value) ==>
      r == (s, Reply(400, "Category already exists"))
  {
    if !Truthy(name) then (s, Reply(400, "Category name is required"))
    else if FindFirst(s.categories, CategoryService.Named(name.value)).Some? then (s, Reply(400, "Category already exists"))
    else
      var id := NextId(s.categories);
      (s.(categories := s.categories[id := CategoryService.NewCategory(name.value, description)]), Reply(201, "Category added successfully"))
  }

  /** The endpoint and the service store the same category and refuse the same requests. */
  lemma AddCategoryIsCreateCategory(s: Store, name: Option<string>, description: string)
    ensures var service := CategoryService.CreateCategory(s, name.GetOr(""), description);
      && AddCategory(s, name, description).0 == service.store
      && (AddCategory(s, name, description).1.status == 201 <==> service.result.Success?)
      && (service.result.Failure? ==> AddCategory(s, name, description).1 == Reply(400, Message(service.result.error)))
  {
  }

  /** toggleCategoryStatus: 404 "Category not found", otherwise the flag is negated and the list page is shown again. */
  function ToggleCategoryStatus(s: Store, id: Id): (r: (Store, Reply))
    ensures id !in s.categories ==> r == (s, Reply(404, "Category not found"))
    ensures id in s.categories ==>
      && r.1 == Reply(302, "/admin/category")
      && id in r.0.categories && r.0.categories[id].isActive == !s.categories[id].isActive
      && r.0 == CategoryService.ToggleCategoryStatus(s, id).store
  {
    if id !in s.categories then (s, Reply(404, "Category not found"))
    else (CategoryService.ToggleCategoryStatus(s, id).store, Reply(302, "/admin/category"))
  }

  /** deleteCategory: 404 when missing, 400 naming the product count while products use it, otherwise 200. */
  function DeleteCategory(s: Store, id: Id): (r: (Store, Reply))
    ensures id !in s.categories ==> r == (s, Reply(404, "Category not found"))
    ensures r.1.status == 200 <==> id in s.categories && forall k :: k in s.products ==> s.products[k].categoryId != id
    ensures r.1.status == 200 ==> r == (s.(categories := s.categories - {id}), Reply(200, "Category deleted successfully"))
    ensures r.1.status == 400 ==>
      && r.0 == s
      && var n := CountWhere(s.products, CategoryService.InCategory(id));
         n > 0 && r.1.message == Message(CategoryInUse(n))
  {
    var step := CategoryService.DeleteCategory(s, id);
    match step.result
    case Success(_) => (step.store, Reply(200, "Category deleted successfully"))
    case Failure(e) => (s, Reply(if e == CategoryNotFound then 404 else 400, Message(e)))
  }

  /** updateCategory: 404 when missing, otherwise name and description are overwritten, unchecked. */
  function UpdateCategory(s: Store, id: Id, name: string, description: string): (r: (Store, Reply))
    ensures id !in s.categories ==> r == (s, Reply(404, "Category not found"))
    ensures id in s.categories ==>
      && r.1 == Reply(200, "Category updated successfully")
      && r.0 == CategoryService.UpdateCategory(s, id, name, description).store
  {
    var step := CategoryService.UpdateCategory(s, id, name, description);
    if step.result.Failure? then (s, Reply(404, "Category not found"))
    else (step.store, Reply(200, "Category updated successfully"))
  }
}

=== FILE: category_service.dfy ===
/**
 * Category administration (src/services/categoryService.js): lookup, creation with a unique
 * name, update, the active toggle and deletion guarded by the products that use the category.
 */
module CategoryService {
  import opened Wrappers
  import opened Tables
  import opened Records

  /** No two categories share a name; creation keeps this, update does not check it. */
  predicate NamesUnique(categories: map<Id, Category>) {
    forall a, b :: a in categories && b in categories && categories[a].name == categories[b].name ==> a == b
  }

  /** Every product names a category that exists. */
  predicate CategoriesResolve(s: Store) {
    forall k :: k in s.products ==> s.products[k].categoryId in s.categories
  }

  function Named(name: string): Category -> bool {
    (c: Category) => c.name == name
  }

  /** The ids of the products that belong to the category. */
  function ProductsIn(products: map<Id, Product>, id: Id): set<Id> {
    set k | k in products && products[k].categoryId == id
  }

  function InCategory(id: Id): Product -> bool {
    (p: Product) => p.categoryId == id
  }

  /**
   * A new category: the category schema is not part of this model; its documents start active
   * and without an offer.
   */
  function NewCategory(name: string, description: string): Category {
    Category(name, description, true, None)
  }

  /** getCategoryById: the category, or "Category not found". */
  function GetCategoryById(s: Store, id: Id): (r: Result<Category, Err>)
    ensures r.Failure? <==> id !in s.categories
    ensures r.Failure? ==> r.error == CategoryNotFound
    ensures r.Success? ==> r.value == s.categories[id]
  {
    if id in s.categories then Success(s.categories[id]) else Failure(CategoryNotFound)
  }

  /**
   * createCategory: an empty name is refused, then a name some category already has; otherwise
   * exactly one new category is stored, under a fresh id.
   */
  function CreateCategory(s: Store, name: string, description: string): (r: Step<Id>)
    ensures name == "" ==> r == Fail(s, CategoryNameRequired)
    ensures name != "" && (exists k :: k in s.categories && s.categories[k].name == name) ==> r == Fail(s, CategoryExists)
    ensures r.result.Success? <==> name != "" && forall k :: k in s.categories ==> s.categories[k].name != name
    ensures r.result.Failure? ==> r.store == s
    ensures r.result.Success? ==>
      && r.result.value !in s.categories
      && r.store == s.(categories := s.categories[r.result.value := NewCategory(name, description)])
  {
    if name == "" then Fail(s, CategoryNameRequired)
    else if FindFirst(s.categories, Named(name)).Some? then Fail(s, CategoryExists)
    else
      var id := NextId(s.categories);
      Done(s.(categories := s.categories[id := NewCategory(name, description)]), id)
  }

  /** Creation never introduces a second category of the same name. */
  lemma CreateKeepsNamesUnique(s: Store, name: string, description: string)
    requires NamesUnique(s.categories)
    ensures NamesUnique(CreateCategory(s, name, description).store.categories)
  {
  }

  /** updateCategory: "Category not found", otherwise name and description are overwritten. */
  function UpdateCategory(s: Store, id: Id, name: string, description: string): (r: Step<(string, string)>)
    ensures r.result.Failure? <==> id !in s.categories
    ensures r.result.Failure? ==> r == Fail(s, CategoryNotFound)
    ensures r.result.Success? ==>
      && r.result.value == (name, description)
      && r.store == s.(categories := s.categories[id := s.categories[id].(name := name, description := description)])
  {
    if id !in s.categories then Fail(s, CategoryNotFound)
    else
      var c := s.categories[id].(name := name, description := description);
      Done(s.(categories := s.categories[id := c]), (name, description))
  }

  /** Without a uniqueness check, renaming one category to another's name leaves two of that name. */
  lemma UpdateCanDuplicateName(s: Store, a: Id, b: Id, description: string)
    requires a in s.categories && b in s.categories && a != b
    ensures !NamesUnique(UpdateCategory(s, b, s.categories[a].name, description).store.categories)
  {
    var after := UpdateCategory(s, b, s.categories[a].name, description).store.categories;
    assert after[a].name == after[b].name;
  }

  /** toggleCategoryStatus: "Category not found", otherwise the active flag is negated. */
  function ToggleCategoryStatus(s: Store, id: Id): (r: Step<Category>)
    ensures r.result.Failure? <==> id !in s.categories
    ensures r.result.Failure? ==> r == Fail(s, CategoryNotFound)
    ensures r.result.Success? ==>
      && r.result.value.isActive == !s.categories[id].isActive
      && r.result.value == s.categories[id].(isActive := r.result.value.isActive)
      && r.store == s.(categories := s.categories[id := r.result.value])
  {
    if id !in s.categories then Fail(s, CategoryNotFound)
    else
      var c := s.categories[id].(isActive := !s.categories[id].isActive);
      Done(s.(categories := s.categories[id := c]), c)
  }

  /** Toggling twice restores the store. */
  lemma ToggleTwiceRestores(s: Store, id: Id)
    requires id in s.categories
    ensures ToggleCategoryStatus(ToggleCategoryStatus(s, id).store, id).store == s
  {
    var s1 := ToggleCategoryStatus(s, id).store;
    assert s1.categories[id].(isActive := !s1.categories[id].isActive) == s.categories[id];
    assert s1.categories[id := s.categories[id]] == s.categories;
  }

  /**
   * deleteCategory: "Category not found"; then, while any product belongs to the category, a
   * refusal that names how many; otherwise exactly that category is removed.
   */
  function DeleteCategory(s: Store, id: Id): (r: Step<Category>)
    ensures id !in s.categories ==> r == Fail(s, CategoryNotFound)
    ensures r.result.Failure? ==> r.store == s
    ensures id in s.categories && (exists k :: k in s.products && s.products[k].categoryId == id) ==>
      && r.result.Failure? && r.result.error.CategoryInUse? && r.result.error.productCount > 0
      && r.result.error.productCount == |ProductsIn(s.products, id)|
    ensures r.result.Success? <==> id in s.categories && forall k :: k in s.products ==> s.products[k].categoryId != id
    ensures r.result.Success? ==>
      r.result.value == s.categories[id] && r.store == s.(categories := s.categories - {id})
  {
    if id !in s.categories then Fail(s, CategoryNotFound)
    else
      var n := CountWhere(s.products, InCategory(id));
      assert Where(s.products, InCategory(id)) == ProductsIn(s.products, id);
      if n > 0 then Fail(s, CategoryInUse(n))
      else Done(s.(categories := s.categories - {id}), s.categories[id])
  }

  /** Because deletion waits until no product uses the category, no product is left pointing at nothing. */
  lemma DeleteKeepsCategoriesResolved(s: Store, id: Id)
    requires CategoriesResolve(s)
    ensures CategoriesResolve(DeleteCategory(s, id).store)
  {
    var r := DeleteCategory(s, id);
    if r.result.Success? {
      forall k | k in r.store.products ensures r.store.products[k].categoryId in r.store.categories {
        assert s.products[k].categoryId != id;
      }
    }
  }
}

=== FILE: coupon_controller.dfy ===
/**
 * The cart's coupon endpoints (src/controllers/couponController.js): each catches the
 * service's error and picks the status by comparing or searching its message text.
 */
module CouponController {
  import opened Wrappers
  import opened Tables
  import opened Records
  import opened Text
  import CouponService

  /** The status for an error of applyCouponToCart, chosen by its message as the handler does. */
  function ApplyCouponError(e: Err): (r: Reply)
    ensures r.status in {400, 404, 500}
  {
    var m := Message(e);
    if m == "Cart not found" then Reply(404, "Cart not found")
    else if m == "Invalid or inactive coupon code" then Reply(400, "Invalid or expired coupon code")
    else if Contains(m, "not valid at this time") then Reply(400, m)
    else if m == "A coupon has already been applied to this cart" then
      Reply(400, "A coupon has already been applied to this cart")
    else Reply(500, "An error occurred while applying the coupon")
  }

  /** applyCoupon: the service's message on success, otherwise the status its error maps to. */
  function ApplyCoupon(s: Store, cartId: Id, code: string, now: int, toDateString: DateStringFn): (r: (Store, Reply))
    ensures var step := CouponService.ApplyCouponToCart(s, cartId, code, now, toDateString);
      && r.0 == step.store
      && (step.result.Success? ==> r.1 == Reply(200, "Coupon " + code + " applied successfully"))
      && (step.result.Failure? ==> r.1 == ApplyCouponError(step.result.error))
  {
    var step := CouponService.ApplyCouponToCart(s, cartId, code, now, toDateString);
    match step.result
    case Success(_) => (step.store, Reply(200, "Coupon " + code + " applied successfully"))
    case Failure(e) => (step.store, ApplyCouponError(e))
  }

  /** The window error's message names the coupon and contains the phrase the handler searches for. */
  lemma WindowMessageMatches(code: string, validFrom: int, validUntil: int, fromText: string, untilText: string)
    ensures var m := Message(CouponNotValidNow(code, validFrom, validUntil, fromText, untilText));
      && Contains(m, "not valid at this time")
      && m != "Cart not found"
      && m != "Invalid or inactive coupon code"
  {
    var head := "Coupon " + code + " is ";
    var tail := ". Valid from " + fromText + " to " + untilText;
    var m := WindowMessage(code, fromText, untilText);
    assert m == head + "not valid at this time" + tail;
    ContainsMiddle(head, "not valid at this time", tail);
    assert m[1] == head[1];
  }

  /** The answer to each error applyCouponToCart can throw; none of them reaches the 500. */
  lemma ApplyCouponErrorTable(e: Err)
    requires e == CartNotFound || e == InvalidCoupon || e.CouponNotValidNow? || e == CouponAlreadyApplied
    ensures e == CartNotFound ==> ApplyCouponError(e) == Reply(404, "Cart not found")
    ensures e == InvalidCoupon ==> ApplyCouponError(e) == Reply(400, "Invalid or expired coupon code")
    ensures e.CouponNotValidNow? ==> ApplyCouponError(e) == Reply(400, Message(e))
    ensures e == CouponAlreadyApplied ==> ApplyCouponError(e) == Reply(400, "A coupon has already been applied to this cart")
  {
    if e.CouponNotValidNow? {
      WindowMessageMatches(e.code, e.validFrom, e.validUntil, e.fromText, e.untilText);
    } else if e == CouponAlreadyApplied {
      assert Message(e) != "Cart not found" && Message(e) != "Invalid or inactive coupon code";
    }
  }

  /**
   * Every error the service throws gets its own answer: a missing cart 404, an unknown or
   * inactive code 400, a closed window 400 with the service's message, a second coupon 400.
   * No failure of applyCouponToCart reaches the 500.
   */
  lemma ApplyCouponStatuses(s: Store, cartId: Id, code: string, now: int, toDateString: DateStringFn)
    ensures var step := CouponService.ApplyCouponToCart(s, cartId, code, now, toDateString);
      step.result.Failure? ==>
        && (step.result.error == CartNotFound ==> ApplyCoupon(s, cartId, code, now, toDateString).1 == Reply(404, "Cart not found"))
        && (step.result.error == InvalidCoupon ==> ApplyCoupon(s, cartId, code, now, toDateString).1 == Reply(400, "Invalid or expired coupon code"))
        && (step.result.error.CouponNotValidNow? ==>
              ApplyCoupon(s, cartId, code, now, toDateString).1 == Reply(400, Message(step.result.error)))
        && (step.result.error == CouponAlreadyApplied ==>
              ApplyCoupon(s, cartId, code, now, toDateString).1 == Reply(400, "A coupon has already been applied to this cart"))
        && ApplyCoupon(s, cartId, code, now, toDateString).1.status != 500
  {
    var step := CouponService.ApplyCouponToCart(s, cartId, code, now, toDateString);
    if step.result.Failure? {
      var e := step.result.error;
      assert e == CartNotFound || e == InvalidCoupon || e.CouponNotValidNow? || e == CouponAlreadyApplied;
      ApplyCouponErrorTable(e);
    }
  }

  /** The status for an error of removeCouponFromCart. */
  function RemoveCouponError(e: Err): (r: Reply)
    ensures r.status in {400, 404, 500}
  {
    var m := Message(e);
    if m == "Cart not found" then Reply(404, "Cart not found")
    else if m == "No coupon applied to this cart" then Reply(400, "No coupon applied to this cart")
    else Reply(500, "An error occurred while removing the coupon")
  }

  /** removeCoupon: "Coupon removed successfully", or the status the service's error maps to. */
  function RemoveCoupon(s: Store, cartId: Id, totals: TotalsFn): (r: (Store, Reply))
    ensures var step := CouponService.RemoveCouponFromCart(s, cartId, totals);
      && r.0 == step.store
      && (step.result.Success? ==> r.1 == Reply(200, "Coupon removed successfully"))
      && (step.result.Failure? ==> r.1 == RemoveCouponError(step.result.error))
  {
    var step := CouponService.RemoveCouponFromCart(s, cartId, totals);
    match step.result
    case Success(_) => (step.store, Reply(200, "Coupon removed successfully"))
    case Failure(e) => (step.store, RemoveCouponError(e))
  }

  /** A missing cart is 404, a cart without a coupon 400, and success 200: nothing reaches the 500. */
  lemma RemoveCouponStatuses(s: Store, cartId: Id, totals: TotalsFn)
    ensures cartId !in s.carts ==> RemoveCoupon(s, cartId, totals).1 == Reply(404, "Cart not found")
    ensures cartId in s.carts && !Truthy(s.carts[cartId].appliedCoupon) ==>
      RemoveCoupon(s, cartId, totals).1 == Reply(400, "No coupon applied to this cart")
    ensures RemoveCoupon(s, cartId, totals).1.status != 500
  {
  }
}

=== FILE: coupon_management.dfy ===
/**
 * The admin coupon screens (src/controllers/admin/couponManagementController.js): adding a
 * coupon with a unique code and defaults, the keep-or-overwrite update, deletion and the
 * active toggle. Form values arrive as optional fields; an absent or empty one is falsy.
 */
module CouponManagement {
  import opened Wrappers
  import opened Tables
  import opened Records

  /** The request body of the add and update forms. */
  datatype CouponForm = CouponForm(
    code: Option<string>,
    discountType: Option<string>,
    discountValue: Option<int>,
    maxDiscountValue: Option<int>,
    minCartValue: Option<int>,
    validFrom: Option<int>,
    validUntil: Option<int>,
    usageLimit: Option<int>,
    isActive: Option<bool>)

  /** No two coupons share a code. */
  predicate CodesUnique(coupons: map<Id, Coupon>) {
    forall a, b :: a in coupons && b in coupons && coupons[a].code == coupons[b].code ==> a == b
  }

  function HasCode(code: string): Coupon -> bool {
    (c: Coupon) => c.code == code
  }

  /** The five fields addCoupon insists on, each required to be truthy. */
  predicate HasRequiredFields(f: CouponForm) {
    Truthy(f.code) && Truthy(f.discountType) && TruthyAmount(f.discountValue)
    && f.validFrom.Some? && f.validUntil.Some?
  }

  /** `x || fallback` on an optional number. */
  function AmountOr(x: Option<int>, fallback: int): (r: int)
    ensures TruthyAmount(x) ==> r == x.value
    ensures !TruthyAmount(x) ==> r == fallback
  {
    if TruthyAmount(x) then x.value else fallback
  }

  /** `x || fallback` on an optional string. */
  function TextOr(x: Option<string>, fallback: string): (r: string)
    ensures Truthy(x) ==> r == x.value
    ensures !Truthy(x) ==> r == fallback
  {
    if Truthy(x) then x.value else fallback
  }

  /** The coupon addCoupon stores: a missing minimum becomes 0, a missing limit 1, a missing flag true. */
  function NewCoupon(f: CouponForm): (c: Coupon)
    requires HasRequiredFields(f)
    ensures c.code == f.code.value && c.discountType == f.discountType.value
    ensures c.discountValue == f.discountValue.value && c.maxDiscountValue == f.maxDiscountValue
    ensures c.minCartValue == Some(AmountOr(f.minCartValue, 0))
    ensures c.usageLimit == AmountOr(f.usageLimit, 1)
    ensures c.isActive == f.isActive.GetOr(true)
    ensures c.validFrom == f.validFrom.value && c.validUntil == f.validUntil.value
  {
    Coupon(
      f.code.value, f.discountType.value, f.discountValue.value, f.maxDiscountValue,
      Some(AmountOr(f.minCartValue, 0)), f.validFrom.value, f.validUntil.value,
      AmountOr(f.usageLimit, 1), f.isActive.GetOr(true))
  }

  /**
   * addCoupon: 400 when a required field is falsy (so a discount value of 0 is refused), 400
   * when the code is taken, otherwise 201 with exactly one coupon added.
   */
  function AddCoupon(s: Store, f: CouponForm): (r: (Store, Reply))
    ensures !HasRequiredFields(f) ==> r == (s, Reply(400, "Please fill all required fields"))
    ensures HasRequiredFields(f) && (exists k :: k in s.coupons && s.coupons[k].code == f.code.value) ==>
      r == (s, Reply(400, "A coupon with this code already exists"))
    ensures r.1.status == 201 <==>
      HasRequiredFields(f) && forall k :: k in s.coupons ==> s.coupons[k].code != f.code.value
    ensures r.1.status != 201 ==> r.0 == s
    ensures r.1.status == 201 ==> r.1.message == "Coupon added successfully!"
    ensures r.1.status == 201 ==> exists id: Id :: id !in s.coupons && r.0 == s.(coupons := s.coupons[id := NewCoupon(f)])
  {
    if !HasRequiredFields(f) then (s, Reply(400, "Please fill all required fields"))
    else if FindFirst(s.coupons, HasCode(f.code.value)).Some? then
      (s, Reply(400, "A coupon with this code already exists"))
    else
      var id := NextId(s.coupons);
      (s.(coupons := s.coupons[id := NewCoupon(f)]), Reply(201, "Coupon added successfully!"))
  }

  /** Adding never gives two coupons the same code. */
  lemma {:induction false} AddCouponKeepsCodesUnique(s: Store, f: CouponForm)
    requires CodesUnique(s.coupons)
    ensures CodesUnique(AddCoupon(s, f).0.coupons)
  {
    var r := AddCoupon(s, f);
    if r.1.status == 201 {
      var id :| id !in s.coupons && r.0 == s.(coupons := s.coupons[id := NewCoupon(f)]);
      forall a, b | a in r.0.coupons && b in r.0.coupons && r.0.coupons[a].code == r.0.coupons[b].code
        ensures a == b
      {
        if a != id && b != id {
          assert s.coupons[a].code == s.coupons[b].code;
        }
      }
    }
  }

  /**
   * The fields updateCoupon writes: code, type, value, dates and limit keep their old value
   * when the form's is falsy, the flag when it is absent; both bounds are always overwritten.
   */
  function Revised(c: Coupon, f: CouponForm): (r: Coupon)
    ensures r.code == TextOr(f.code, c.code) && r.discountType == TextOr(f.discountType, c.discountType)
    ensures r.discountValue == AmountOr(f.discountValue, c.discountValue)
    ensures r.maxDiscountValue == f.maxDiscountValue && r.minCartValue == f.minCartValue
    ensures r.validFrom == f.validFrom.GetOr(c.validFrom) && r.validUntil == f.validUntil.GetOr(c.validUntil)
    ensures r.usageLimit == AmountOr(f.usageLimit, c.usageLimit)
    ensures r.isActive == f.isActive.GetOr(c.isActive)
  {
    Coupon(
      TextOr(f.code, c.code), TextOr(f.discountType, c.discountType),
      AmountOr(f.discountValue, c.discountValue), f.maxDiscountValue, f.minCartValue,
      f.validFrom.GetOr(c.validFrom), f.validUntil.GetOr(c.validUntil),
      AmountOr(f.usageLimit, c.usageLimit), f.isActive.GetOr(c.isActive))
  }

  /** updateCoupon: 404 for an unknown id, otherwise the revised coupon replaces the old one. */
  function UpdateCoupon(s: Store, id: Id, f: CouponForm): (r: (Store, Reply))
    ensures id !in s.coupons <==> r.1.status == 404
    ensures id !in s.coupons ==> r == (s, Reply(404, "Coupon not found"))
    ensures id in s.coupons ==>
      r == (s.(coupons := s.coupons[id := Revised(s.coupons[id], f)]), Reply(200, "Coupon updated successfully"))
  {
    if id !in s.coupons then (s, Reply(404, "Coupon not found"))
    else (s.(coupons := s.coupons[id := Revised(s.coupons[id], f)]), Reply(200, "Coupon updated successfully"))
  }

  const EmptyForm := CouponForm(None, None, None, None, None, None, None, None, None)

  /** An empty update form keeps every field except the two bounds, which it erases. */
  lemma EmptyUpdateErasesOnlyBounds(s: Store, id: Id)
    requires id in s.coupons
    ensures UpdateCoupon(s, id, EmptyForm).0.coupons[id]
      == s.coupons[id].(maxDiscountValue := None, minCartValue := None)
  {
  }

  /** Sending the same update form twice has the effect of sending it once. */
  lemma UpdateCouponIdempotent(s: Store, id: Id, f: CouponForm)
    ensures UpdateCoupon(UpdateCoupon(s, id, f).0, id, f) == UpdateCoupon(s, id, f)
  {
    if id in s.coupons {
      var once := Revised(s.coupons[id], f);
      assert Revised(once, f) == once;
      assert s.coupons[id := once][id := once] == s.coupons[id := once];
    }
  }

  /** Update does not check codes, so it can give a second coupon an existing code. */
  lemma UpdateCanDuplicateCode(s: Store, a: Id, b: Id)
    requires a in s.coupons && b in s.coupons && a != b && s.coupons[a].code != ""
    ensures !CodesUnique(UpdateCoupon(s, b, EmptyForm.(code := Some(s.coupons[a].code))).0.coupons)
  {
    var after := UpdateCoupon(s, b, EmptyForm.(code := Some(s.coupons[a].code))).0.coupons;
    assert after[a].code == after[b].code;
  }

  /** deleteCoupon: 404 for an unknown id, otherwise exactly that coupon is removed. */
  function DeleteCoupon(s: Store, id: Id): (r: (Store, Reply))
    ensures id !in s.coupons <==> r.1.status == 404
    ensures id !in s.coupons ==> r == (s, Reply(404, "Coupon not found"))
    ensures id in s.coupons ==>
      r == (s.(coupons := s.coupons - {id}), Reply(200, "Coupon deleted successfully"))
  {
    if id !in s.coupons then (s, Reply(404, "Coupon not found"))
    else (s.(coupons := s.coupons - {id}), Reply(200, "Coupon deleted successfully"))
  }

  /** Adding a coupon and deleting it again leaves the store as it was. */
  lemma DeleteUndoesAdd(s: Store, f: CouponForm)
    requires HasRequiredFields(f) && forall k :: k in s.coupons ==> s.coupons[k].code != f.code.value
    ensures DeleteCoupon(AddCoupon(s, f).0, NextId(s.coupons)).0 == s
  {
    var id := NextId(s.coupons);
    assert AddCoupon(s, f).0 == s.(coupons := s.coupons[id := NewCoupon(f)]);
    assert s.coupons[id := NewCoupon(f)] - {id} == s.coupons;
  }

  /** toggleCouponStatus: 404 for an unknown id, otherwise the active flag is negated. */
  function ToggleCouponStatus(s: Store, id: Id): (r: (Store, Reply))
    ensures id !in s.coupons <==> r.1.status == 404
    ensures id !in s.coupons ==> r == (s, Reply(404, "Coupon not found"))
    ensures id in s.coupons ==>
      && r.1 == Reply(200, "Coupon status updated")
      && id in r.0.coupons && r.0.coupons[id].isActive == !s.coupons[id].isActive
      && r.0 == s.(coupons := s.coupons[id := s.coupons[id].(isActive := r.0.coupons[id].isActive)])
  {
    if id !in s.coupons then (s, Reply(404, "Coupon not found"))
    else
      var c := s.coupons[id].(isActive := !s.coupons[id].isActive);
      (s.(coupons := s.coupons[id := c]), Reply(200, "Coupon status updated"))
  }

  /** Toggling twice restores the store. */
  lemma ToggleCouponTwiceRestores(s: Store, id: Id)
    ensures ToggleCouponStatus(ToggleCouponStatus(s, id).0, id).0 == s
  {
    if id in s.coupons {
      var s1 := ToggleCouponStatus(s, id).0;
      assert s1.coupons[id].(isActive := !s1.coupons[id].isActive) == s.coupons[id];
      assert s1.coupons[id := s.coupons[id]] == s.coupons;
    }
  }
}

=== FILE: coupon_service.dfy ===
/**
 * The coupon engine (src/services/couponService.js): coupon validity, the discount a coupon
 * gives, and the per-cart state machine "no coupon" <-> "coupon applied".
 */
module CouponService {
  import opened Wrappers
  import opened Tables
  import opened Records
  import Money

  /** The `findOne({ code, isActive: true })` filter. */
  predicate ActiveWithCode(c: Coupon, code: string) {
    c.code == code && c.isActive
  }

  /** Both ends of the validity window are inclusive. */
  predicate InWindow(c: Coupon, now: int) {
    c.validFrom <= now <= c.validUntil
  }

  /**
   * validateCoupon: the first active coupon with exactly this code, provided `now` lies in
   * its window; outside the window the error names the code and both dates, rendered by
   * `toDateString`.
   */
  function ValidateCoupon(coupons: map<Id, Coupon>, code: string, now: int, toDateString: DateStringFn): (r: Result<Coupon, Err>)
    ensures r == Failure(InvalidCoupon) <==> forall k :: k in coupons ==> !ActiveWithCode(coupons[k], code)
    ensures r.Success? ==> r.value in coupons.Values && ActiveWithCode(r.value, code) && InWindow(r.value, now)
    ensures r.Failure? ==> r.error == InvalidCoupon || r.error.CouponNotValidNow?
    ensures r.Failure? && r.error.CouponNotValidNow? ==>
      && r.error.code == code
      && r.error.fromText == toDateString(r.error.validFrom) && r.error.untilText == toDateString(r.error.validUntil)
      && exists k :: k in coupons && ActiveWithCode(coupons[k], code) && !InWindow(coupons[k], now)
           && coupons[k].validFrom == r.error.validFrom && coupons[k].validUntil == r.error.validUntil
    ensures (exists k :: k in coupons && ActiveWithCode(coupons[k], code))
      && (forall k :: k in coupons && ActiveWithCode(coupons[k], code) ==> InWindow(coupons[k], now))
      ==> r.Success?
  {
    match FindFirst(coupons, c => ActiveWithCode(c, code))
    case None => Failure(InvalidCoupon)
    case Some(k) =>
      var c := coupons[k];
      if now < c.validFrom || now > c.validUntil then
        Failure(CouponNotValidNow(code, c.validFrom, c.validUntil, toDateString(c.validFrom), toDateString(c.validUntil)))
      else Success(c)
  }

  /** The percentage of the total, to the nearest cent (halves away from zero). */
  function PercentOf(hundredths: int, total: Cents): Cents {
    Money.Round2(hundredths * total, 10000)
  }

  /**
   * calculateDiscount: "percentage" takes that share of the total, rounded to the cent and
   * cut to `maxDiscountValue` when that is set, non-zero and exceeded; "fixed" takes the value
   * itself, with no floor against the total; any other type gives nothing.
   */
  function CalculateDiscount(c: Coupon, cartTotal: Cents): (d: Cents)
    ensures c.discountType == "percentage" ==>
      (TruthyAmount(c.maxDiscountValue) && d == c.maxDiscountValue.value
       && c.maxDiscountValue.value < PercentOf(c.discountValue, cartTotal))
      || -10000 <= 2 * (d * 10000 - c.discountValue * cartTotal) <= 10000
    ensures c.discountType == "percentage" && TruthyAmount(c.maxDiscountValue) ==> d <= c.maxDiscountValue.value
    ensures (c.discountType == "percentage" && 0 <= c.discountValue <= 10000 && cartTotal >= 0
             && (c.maxDiscountValue.Some? ==> c.maxDiscountValue.value >= 0))
            ==> 0 <= d <= cartTotal
    ensures c.discountType == "fixed" ==> d == c.discountValue
    ensures c.discountType != "percentage" && c.discountType != "fixed" ==> d == 0
  {
    if c.discountType == "percentage" then
      var raw := PercentOf(c.discountValue, cartTotal);
      PercentOfInRange(c.discountValue, cartTotal);
      if TruthyAmount(c.maxDiscountValue) && raw > c.maxDiscountValue.value then c.maxDiscountValue.value
      else raw
    else if c.discountType == "fixed" then c.discountValue
    else 0
  }

  lemma PercentOfInRange(hundredths: int, total: Cents)
    ensures 0 <= hundredths <= 10000 && total >= 0 ==> 0 <= PercentOf(hundredths, total) <= total
  {
    if 0 <= hundredths <= 10000 && total >= 0 {
      Money.PercentOfTotalBounded(hundredths, total);
    }
  }

  /** What applyCouponToCart reports back. */
  datatype Applied = Applied(discount: Cents, finalTotal: Cents, appliedCoupon: string)

  /**
   * applyCouponToCart: refuses a missing cart, then a cart that already carries a coupon (before
   * the coupon is looked up), then an invalid coupon; otherwise records the coupon, the discount
   * computed from the cart's `total` and `finalTotal = total - discount`.
   */
  function ApplyCouponToCart(s: Store, cartId: Id, code: string, now: int, toDateString: DateStringFn): (r: Step<Applied>)
    ensures r.result.Failure? ==> r.store == s
    ensures cartId !in s.carts ==> r.result == Failure(CartNotFound)
    ensures cartId in s.carts && Truthy(s.carts[cartId].appliedCoupon) ==> r.result == Failure(CouponAlreadyApplied)
    ensures cartId in s.carts && !Truthy(s.carts[cartId].appliedCoupon) && ValidateCoupon(s.coupons, code, now, toDateString).Failure?
      ==> r.result == Failure(ValidateCoupon(s.coupons, code, now, toDateString).error)
    ensures r.result.Success? ==>
      && cartId in s.carts
      && !Truthy(s.carts[cartId].appliedCoupon)
      && ValidateCoupon(s.coupons, code, now, toDateString).Success?
      && var cart := s.carts[cartId];
         var coupon := ValidateCoupon(s.coupons, code, now, toDateString).value;
         var a := r.result.value;
         && a.appliedCoupon == coupon.code == code
         && a.discount == CalculateDiscount(coupon, cart.total)
         && a.finalTotal == cart.total - a.discount
         && r.store == s.(carts := s.carts[cartId := cart.(appliedCoupon := Some(code),
                                                             discountApplied := a.discount,
                                                             finalTotal := a.finalTotal)])
  {
    if cartId !in s.carts then Fail(s, CartNotFound)
    else
      var cart := s.carts[cartId];
      if Truthy(cart.appliedCoupon) then Fail(s, CouponAlreadyApplied)
      else
        match ValidateCoupon(s.coupons, code, now, toDateString)
        case Failure(e) => Fail(s, e)
        case Success(coupon) =>
          var discount := CalculateDiscount(coupon, cart.total);
          var finalTotal := cart.total - discount;
          var saved := cart.(appliedCoupon := Some(coupon.code), discountApplied := discount, finalTotal := finalTotal);
          Done(s.(carts := s.carts[cartId := saved]), Applied(discount, finalTotal, coupon.code))
  }

  /**
   * removeCouponFromCart: refuses a missing cart or one without a coupon; otherwise clears the
   * coupon and the discount and stores the `finalTotal` that calculateTotals recomputes. Only
   * those three fields are written back: the recomputed `total` is not stored.
   */
  function RemoveCouponFromCart(s: Store, cartId: Id, totals: TotalsFn): (r: Step<Cents>)
    ensures r.result.Failure? ==> r.store == s
    ensures cartId !in s.carts ==> r.result == Failure(CartNotFound)
    ensures cartId in s.carts && !Truthy(s.carts[cartId].appliedCoupon) ==> r.result == Failure(NoCouponApplied)
    ensures r.result.Success? <==> cartId in s.carts && Truthy(s.carts[cartId].appliedCoupon)
    ensures r.result.Success? ==>
      var cart := s.carts[cartId];
      var cleared := cart.(appliedCoupon := None, discountApplied := 0);
      && r.result.value == totals(cleared).1
      && r.store == s.(carts := s.carts[cartId := cleared.(finalTotal := r.result.value)])
  {
    if cartId !in s.carts then Fail(s, CartNotFound)
    else
      var cart := s.carts[cartId];
      if !Truthy(cart.appliedCoupon) then Fail(s, NoCouponApplied)
      else
        var cleared := cart.(appliedCoupon := None, discountApplied := 0);
        var recomputed := WithTotals(cleared, totals);
        var saved := cleared.(finalTotal := recomputed.finalTotal);
        Done(s.(carts := s.carts[cartId := saved]), recomputed.finalTotal)
  }

  /** At most one coupon per cart: once applied, a second application is refused. */
  lemma SecondApplyRefused(s: Store, cartId: Id, code: string, code2: string, now: int, now2: int, toDateString: DateStringFn)
    requires code != ""
    requires ApplyCouponToCart(s, cartId, code, now, toDateString).result.Success?
    ensures ApplyCouponToCart(ApplyCouponToCart(s, cartId, code, now, toDateString).store, cartId, code2, now2, toDateString).result
            == Failure(CouponAlreadyApplied)
  {
  }

  /**
   * Apply, remove, apply again with the same code at the same instant succeeds: removal clears
   * exactly the field the apply guard tests, and leaves the coupons alone.
   */
  lemma ReapplyAfterRemove(s: Store, cartId: Id, code: string, now: int, totals: TotalsFn, toDateString: DateStringFn)
    requires code != ""
    requires ApplyCouponToCart(s, cartId, code, now, toDateString).result.Success?
    ensures var s1 := ApplyCouponToCart(s, cartId, code, now, toDateString).store;
            var removed := RemoveCouponFromCart(s1, cartId, totals);
            && removed.result.Success?
            && ApplyCouponToCart(removed.store, cartId, code, now, toDateString).result.Success?
  {
    var s1 := ApplyCouponToCart(s, cartId, code, now, toDateString).store;
    assert s1.coupons == s.coupons;
    var removed := RemoveCouponFromCart(s1, cartId, totals);
    assert removed.store.coupons == s.coupons;
    assert !Truthy(removed.store.carts[cartId].appliedCoupon);
  }

  /** A percentage coupon of 50 % capped at 100 on a total of 1000 gives 100 off, leaving 900. */
  lemma CappedPercentageExample()
    ensures var c := Coupon("SAVE50", "percentage", 5000, Some(10000), None, 0, 10, 1, true);
            CalculateDiscount(c, 100000) == 10000 && 100000 - CalculateDiscount(c, 100000) == 90000
  {
  }

  /** A fixed coupon of 150 on a total of 80 gives 150 off: the final total is -70. */
  lemma FixedDiscountHasNoFloor()
    ensures var c := Coupon("FLAT150", "fixed", 15000, None, None, 0, 10, 1, true);
            8000 - CalculateDiscount(c, 8000) == -7000
  {
  }
}

=== FILE: field_checks.dfy ===
/**
 * The pieces of express-validator the validation chains use (src/middleware/validators/):
 * a reported error, the number syntaxes `isInt` and `isFloat` accept with a minimum of 0,
 * and the `escape` sanitizer. A field the request leaves out is read as the empty string,
 * as express-validator does for the validators that are not `optional()`.
 */
module FieldChecks {
  import opened Text

  /** One entry of `validationResult(req).array()`: the field and the message its failing check carries. */
  datatype FieldError = FieldError(path: string, msg: string)

  /** The messages of the checks that failed, tagged with the field. */
  function Tag(path: string, msgs: seq<string>): (r: seq<FieldError>)
    ensures |r| == |msgs| && (r == [] <==> msgs == [])
    ensures forall i :: 0 <= i < |r| ==> r[i] == FieldError(path, msgs[i])
  {
    if msgs == [] then [] else [FieldError(path, msgs[0])] + Tag(path, msgs[1..])
  }

  /** The message when a check fails, nothing when it passes. */
  function When(fails: bool, msg: string): (r: seq<string>)
    ensures r == [] <==> !fails
    ensures |r| == if fails then 1 else 0
  {
    if fails then [msg] else []
  }

  /** Two lists of errors together are empty exactly when each is. */
  lemma BothEmpty<T>(a: seq<T>, b: seq<T>)
    ensures a + b == [] <==> a == [] && b == []
  {
    assert |a + b| == |a| + |b|;
  }

  /** Five lists of errors together are empty exactly when each is. */
  lemma FiveEmpty<T>(a: seq<T>, b: seq<T>, c: seq<T>, d: seq<T>, e: seq<T>)
    ensures a + b + c + d + e == [] <==> a == [] && b == [] && c == [] && d == [] && e == []
  {
    assert |a + b + c + d + e| == |a| + |b| + |c| + |d| + |e|;
  }

  predicate IsSign(c: char) {
    c == '+' || c == '-'
  }

  /** The string after one leading sign, if it has one. */
  function Unsigned(s: string): (u: string)
    ensures |s| > 0 && IsSign(s[0]) ==> u == s[1..]
    ensures !(|s| > 0 && IsSign(s[0])) ==> u == s
  {
    if |s| > 0 && IsSign(s[0]) then s[1..] else s
  }

  predicate Negative(s: string) {
    |s| > 0 && s[0] == '-'
  }

  /** Digits that are all zero, so that with a minus sign they still denote zero. */
  predicate AllZeros(s: string) {
    forall i :: 0 <= i < |s| ==> s[i] == '0' || s[i] == '.'
  }

  /** `isInt({ min: 0 })`: an optional sign and at least one digit, and not below zero (`-0` is zero). */
  predicate IsNonNegativeInt(s: string) {
    var u := Unsigned(s);
    |u| > 0 && AllDigits(u) && (!Negative(s) || AllZeros(u))
  }

  predicate IsExponentMark(c: char) {
    c == 'e' || c == 'E'
  }

  /** Where the exponent part starts: the first `e` or `E`, or the end. */
  function ExponentAt(u: string): (k: nat)
    ensures k <= |u|
    ensures forall i :: 0 <= i < k ==> !IsExponentMark(u[i])
    ensures k < |u| ==> IsExponentMark(u[k])
  {
    if u == [] || IsExponentMark(u[0]) then 0 else 1 + ExponentAt(u[1..])
  }

  /** Digits, then optionally a point and more digits; either run may be empty. */
  predicate IsMantissa(m: string) {
    var d := DigitPrefix(m);
    var rest := m[|d|..];
    rest == [] || (rest[0] == '.' && AllDigits(rest[1..]))
  }

  /** Nothing, or an `e` with an optionally signed run of at least one digit. */
  predicate IsExponent(x: string) {
    x == [] || (IsExponentMark(x[0]) && |Unsigned(x[1..])| > 0 && AllDigits(Unsigned(x[1..])))
  }

  predicate HasDigit(m: string) {
    exists i :: 0 <= i < |m| && IsDigit(m[i])
  }

  /**
   * `isFloat({ min: 0 })`: the float syntax (sign, digits, point, digits, exponent), not one of
   * the excluded one-character strings, a value `parseFloat` can read (the mantissa has a digit)
   * and not below zero.
   */
  predicate IsNonNegativeFloat(s: string) {
    var u := Unsigned(s);
    var k := ExponentAt(u);
    && s !in {"", ".", ",", "-", "+"}
    && IsMantissa(u[..k]) && IsExponent(u[k..])
    && HasDigit(u[..k])
    && (!Negative(s) || AllZeros(u[..k]))
  }

  /** Every string `isInt({ min: 0 })` accepts, `isFloat({ min: 0 })` accepts too. */
  lemma IntIsFloat(s: string)
    requires IsNonNegativeInt(s)
    ensures IsNonNegativeFloat(s)
  {
    var u := Unsigned(s);
    assert ExponentAt(u) == |u|;
    assert u[..|u|] == u;
    DigitPrefixOfDigits(u);
    assert IsDigit(u[0]);
    assert s != "" && s != "." && s != "," && s != "-" && s != "+";
  }

  /** A natural number written out passes both checks; the same number with a minus sign fails both. */
  lemma WrittenNumbers(n: nat)
    ensures IsNonNegativeInt(NatToString(n)) && IsNonNegativeFloat(NatToString(n))
    ensures n > 0 ==> !IsNonNegativeInt("-" + NatToString(n)) && !IsNonNegativeFloat("-" + NatToString(n))
  {
    var d := NatToString(n);
    assert !IsSign(d[0]) by {
      assert IsDigit(d[0]);
    }
    IntIsFloat(d);
    if n > 0 {
      var s := "-" + d;
      assert Unsigned(s) == d;
      assert d[0] != '0';
      assert !AllZeros(d);
      var k := ExponentAt(d);
      assert k == |d|;
      assert d[..k] == d;
    }
  }

  /** The entity validator's `escape` writes for one character; other characters stay as they are. */
  function EscapeChar(c: char): (r: string)
    ensures |r| >= 1
  {
    match c
    case '&' => "&amp;"
    case '"' => "&quot;"
    case '\'' => "&#x27;"
    case '<' => "&lt;"
    case '>' => "&gt;"
    case '/' => "&#x2F;"
    case '\\' => "&#x5C;"
    case '`' => "&#96;"
    case _ => [c]
  }

  /** The characters `escape` replaces, except `&`, which it introduces itself. */
  predicate IsMarkup(c: char) {
    c == '"' || c == '\'' || c == '<' || c == '>' || c == '/' || c == '\\' || c == '`'
  }

  predicate IsEscaped(c: char) {
    c == '&' || IsMarkup(c)
  }

  /** `escape()`: every markup character replaced by its HTML entity. */
  function Escape(s: string): (r: string)
    ensures |r| >= |s|
  {
    if s == [] then [] else EscapeChar(s[0]) + Escape(s[1..])
  }

  /** After escaping, no markup character is left. */
  lemma {:induction false} EscapeLeavesNoMarkup(s: string)
    ensures forall i :: 0 <= i < |Escape(s)| ==> !IsMarkup(Escape(s)[i])
  {
    if s != [] {
      EscapeLeavesNoMarkup(s[1..]);
      var head := EscapeChar(s[0]);
      assert forall i :: 0 <= i < |head| ==> !IsMarkup(head[i]);
      var r := Escape(s);
      forall i | 0 <= i < |r|
        ensures !IsMarkup(r[i])
      {
        if i >= |head| {
          assert r[i] == Escape(s[1..])[i - |head|];
        }
      }
    }
  }

  /** A string with none of the escaped characters is left as it is. */
  lemma {:induction false} EscapeKeepsPlainText(s: string)
    requires forall i :: 0 <= i < |s| ==> !IsEscaped(s[i])
    ensures Escape(s) == s
  {
    if s != [] {
      EscapeKeepsPlainText(s[1..]);
      assert EscapeChar(s[0]) == [s[0]];
      assert s == [s[0]] + s[1..];
    }
  }
}

=== FILE: money.dfy ===
/**
 * Money as integer minor units (cents). Every decimal amount of the storefront has two
 * places, so an amount of 12.50 is the integer 1250, and a percentage of 12.5 % is 1250
 * hundredths of a percent.
 */
module Money {
  import Text

  /** An amount in cents. */
  type Cents = int

  /**
   * `parseFloat(x.toFixed(2))` for the exact amount `num / den` cents: the nearest whole cent,
   * halves rounded away from zero. Binary floating point error is not modelled.
   */
  function Round2(num: int, den: nat): (r: int)
    requires den > 0
    ensures num >= 0 ==> -(den as int) < 2 * (r * den - num) <= den
    ensures num < 0 ==> -(den as int) <= 2 * (r * den - num) < den
  {
    if num >= 0 then
      var q := (2 * num + den) / (2 * den);
      DivBounds(2 * num + den, 2 * den);
      q
    else
      var q := (2 * -num + den) / (2 * den);
      DivBounds(2 * -num + den, 2 * den);
      -q
  }

  lemma DivBounds(a: int, b: int)
    requires b > 0
    ensures (a / b) * b <= a < (a / b) * b + b
  {
  }

  lemma AtLeastOneTimes(e: int, d: int)
    requires e >= 1 && d > 0
    ensures e * d >= d
  {
    assert e * d == d + (e - 1) * d;
  }

  /** Rounding an amount that is already whole cents changes nothing. */
  lemma Round2OfWholeCents(c: int, den: nat)
    requires den > 0
    ensures Round2(c * den, den) == c
  {
    var r := Round2(c * den, den);
    var e := r - c;
    assert -2 * (den as int) < 2 * (r * den - c * den) < 2 * den;
    assert r * den - c * den == e * den;
    if e >= 1 {
      AtLeastOneTimes(e, den);
    } else if e <= -1 {
      AtLeastOneTimes(-e, den);
    }
  }

  /**
   * A percentage between 0 % and 100 % (in hundredths of a percent) of a non-negative total,
   * rounded to the cent, lies between zero and the total.
   */
  lemma PercentOfTotalBounded(hundredths: int, total: int)
    requires 0 <= hundredths <= 10000 && total >= 0
    ensures 0 <= Round2(hundredths * total, 10000) <= total
  {
    var num := hundredths * total;
    assert 0 <= num;
    assert num <= 10000 * total by {
      assert 10000 * total - num == (10000 - hundredths) * total;
    }
    var r := Round2(num, 10000);
    assert -10000 < 2 * (r * 10000 - num) <= 10000;
    if r > total {
      AtLeastOneTimes(r - total, 10000);
    }
    if r < 0 {
      AtLeastOneTimes(-r, 10000);
    }
  }

  /** JavaScript's rendering of the number `c / 100`: no trailing zeros after the point. */
  function MoneyText(c: Cents): string {
    var sign := if c < 0 then "-" else "";
    var a := if c < 0 then -c else c;
    var whole := Text.NatToString(a / 100);
    var frac := a % 100;
    if frac == 0 then sign + whole
    else if frac % 10 == 0 then sign + whole + "." + [Text.DigitChar(frac / 10)]
    else sign + whole + "." + [Text.DigitChar(frac / 10), Text.DigitChar(frac % 10)]
  }
}

=== FILE: offer_management.dfy ===
/**
 * The admin offer screens (src/controllers/admin/offerManagementController.js): adding an
 * offer and pointing its product or category at it, the keep-old-when-falsy update, deletion
 * (which leaves references behind) and the active/expired toggle.
 */
module OfferManagement {
  import opened Wrappers
  import opened Tables
  import opened Records

  /** The request body of the add and update forms; `kind` is the form's `type`. */
  datatype OfferForm = OfferForm(
    kind: Option<string>,
    product: Option<Id>,
    category: Option<Id>,
    discountType: Option<string>,
    discountValue: Option<int>,
    maxDiscountAmount: Option<int>,
    minCartValue: Option<int>,
    validFrom: Option<int>,
    validUntil: Option<int>,
    referralBonus: Option<int>)

  /** Every product and category offer reference names an offer that exists. */
  predicate OfferRefsResolve(s: Store) {
    && (forall k :: k in s.products && s.products[k].offerId.Some? ==> s.products[k].offerId.value in s.offers)
    && (forall k :: k in s.categories && s.categories[k].offerId.Some? ==> s.categories[k].offerId.value in s.offers)
  }

  /** The five fields addOffer insists on, each required to be truthy. */
  predicate HasRequiredFields(f: OfferForm) {
    Truthy(f.kind) && Truthy(f.discountType) && TruthyAmount(f.discountValue)
    && f.validFrom.Some? && f.validUntil.Some?
  }

  /**
   * The offer addOffer stores: the product, category and referral bonus only for an offer of
   * the matching type. The offer schema is not part of this model; its documents start "active".
   */
  function NewOffer(f: OfferForm): (o: Offer)
    requires HasRequiredFields(f)
    ensures o.kind == f.kind.value && o.status == "active"
    ensures o.product == (if f.kind.value == "product" then f.product else None)
    ensures o.category == (if f.kind.value == "category" then f.category else None)
    ensures o.referralBonus == (if f.kind.value == "referral" then f.referralBonus else None)
    ensures o.discountType == f.discountType.value && o.discountValue == f.discountValue.value
    ensures o.maxDiscountAmount == f.maxDiscountAmount && o.minCartValue == f.minCartValue
    ensures o.validFrom == f.validFrom.value && o.validUntil == f.validUntil.value
  {
    var kind := f.kind.value;
    Offer(
      kind,
      if kind == "product" then f.product else None,
      if kind == "category" then f.category else None,
      f.discountType.value, f.discountValue.value, f.maxDiscountAmount, f.minCartValue,
      f.validFrom.value, f.validUntil.value,
      if kind == "referral" then f.referralBonus else None,
      "active")
  }

  /**
   * The products after addOffer: for a product offer naming a product, that product's offerId
   * is overwritten (`findByIdAndUpdate` does nothing for an unknown id); every other product
   * is unchanged.
   */
  function TargetProducts(products: map<Id, Product>, f: OfferForm, offer: Id): (r: map<Id, Product>)
    ensures r.Keys == products.Keys
    ensures forall k :: k in products ==>
      r[k] == if f.kind == Some("product") && f.product == Some(k) then products[k].(offerId := Some(offer)) else products[k]
  {
    if f.kind == Some("product") && f.product.Some? && f.product.value in products then
      products[f.product.value := products[f.product.value].(offerId := Some(offer))]
    else products
  }

  /** The same for the categories and a category offer. */
  function TargetCategories(categories: map<Id, Category>, f: OfferForm, offer: Id): (r: map<Id, Category>)
    ensures r.Keys == categories.Keys
    ensures forall k :: k in categories ==>
      r[k] == if f.kind == Some("category") && f.category == Some(k) then categories[k].(offerId := Some(offer)) else categories[k]
  {
    if f.kind == Some("category") && f.category.Some? && f.category.value in categories then
      categories[f.category.value := categories[f.category.value].(offerId := Some(offer))]
    else categories
  }

  /** The store with the new offer saved under `id` and its target pointed at it. */
  function WithOffer(s: Store, f: OfferForm, id: Id): Store
    requires HasRequiredFields(f)
  {
    s.(offers := s.offers[id := NewOffer(f)],
       products := TargetProducts(s.products, f, id),
       categories := TargetCategories(s.categories, f, id))
  }

  /**
   * addOffer: 400 when a required field is falsy; otherwise 201 with the offer stored under a
   * fresh id and the targeted product or category, if any, pointing at it whatever offer it
   * had before. Nothing else is written.
   */
  function AddOffer(s: Store, f: OfferForm): (r: (Store, Reply))
    ensures !HasRequiredFields(f) <==> r == (s, Reply(400, "Please fill all required fields"))
    ensures HasRequiredFields(f) ==> r.1 == Reply(201, "Offer added successfully!")
    ensures HasRequiredFields(f) ==> exists id: Id :: id !in s.offers && r.0 == WithOffer(s, f, id)
  {
    if !HasRequiredFields(f) then (s, Reply(400, "Please fill all required fields"))
    else
      var id := NextId(s.offers);
      (WithOffer(s, f, id), Reply(201, "Offer added successfully!"))
  }

  /** After an add, the new offer's target points back at it when that target exists. */
  lemma AddOfferLinksTarget(s: Store, f: OfferForm)
    requires HasRequiredFields(f)
    ensures var r := AddOffer(s, f).0; var id := NextId(s.offers);
      && id in r.offers && r.offers[id] == NewOffer(f)
      && (f.kind.value == "product" && f.product.Some? && f.product.value in s.products ==>
            r.products[f.product.value].offerId == Some(id))
      && (f.kind.value == "category" && f.category.Some? && f.category.value in s.categories ==>
            r.categories[f.category.value].offerId == Some(id))
  {
  }

  /** An add keeps every offer reference resolvable: the only new reference is to the new offer. */
  lemma AddOfferKeepsRefsResolved(s: Store, f: OfferForm)
    requires OfferRefsResolve(s)
    ensures OfferRefsResolve(AddOffer(s, f).0)
  {
    var r := AddOffer(s, f).0;
    if HasRequiredFields(f) {
      var id :| id !in s.offers && r == WithOffer(s, f, id);
      forall k | k in r.products && r.products[k].offerId.Some? ensures r.products[k].offerId.value in r.offers {
      }
      forall k | k in r.categories && r.categories[k].offerId.Some? ensures r.categories[k].offerId.value in r.offers {
      }
    }
  }

  /** `x || fallback` on an optional number, where the fallback may itself be absent. */
  function KeepAmount(x: Option<int>, fallback: Option<int>): (r: Option<int>)
    ensures TruthyAmount(x) ==> r == x
    ensures !TruthyAmount(x) ==> r == fallback
  {
    if TruthyAmount(x) then x else fallback
  }

  /**
   * The fields updateOffer writes, each keeping its old value when the form's is falsy; the
   * target, the referral bonus and the status are never touched.
   */
  function Revised(o: Offer, f: OfferForm): (r: Offer)
    ensures r.kind == (if Truthy(f.kind) then f.kind.value else o.kind)
    ensures r.discountType == (if Truthy(f.discountType) then f.discountType.value else o.discountType)
    ensures r.discountValue == (if TruthyAmount(f.discountValue) then f.discountValue.value else o.discountValue)
    ensures r.maxDiscountAmount == KeepAmount(f.maxDiscountAmount, o.maxDiscountAmount)
    ensures r.minCartValue == KeepAmount(f.minCartValue, o.minCartValue)
    ensures r.validFrom == f.validFrom.GetOr(o.validFrom) && r.validUntil == f.validUntil.GetOr(o.validUntil)
    ensures r.product == o.product && r.category == o.category
    ensures r.referralBonus == o.referralBonus && r.status == o.status
  {
    o.(
      kind := if Truthy(f.kind) then f.kind.value else o.kind,
      discountType := if Truthy(f.discountType) then f.discountType.value else o.discountType,
      discountValue := if TruthyAmount(f.discountValue) then f.discountValue.value else o.discountValue,
      maxDiscountAmount := KeepAmount(f.maxDiscountAmount, o.maxDiscountAmount),
      minCartValue := KeepAmount(f.minCartValue, o.minCartValue),
      validFrom := f.validFrom.GetOr(o.validFrom),
      validUntil := f.validUntil.GetOr(o.validUntil))
  }

  /** updateOffer: 404 for an unknown id, otherwise the revised offer replaces the old one. */
  function UpdateOffer(s: Store, id: Id, f: OfferForm): (r: (Store, Reply))
    ensures id !in s.offers <==> r.1.status == 404
    ensures id !in s.offers ==> r == (s, Reply(404, "Offer not found"))
    ensures id in s.offers ==>
      r == (s.(offers := s.offers[id := Revised(s.offers[id], f)]), Reply(200, "Offer updated successfully"))
  {
    if id !in s.offers then (s, Reply(404, "Offer not found"))
    else (s.(offers := s.offers[id := Revised(s.offers[id], f)]), Reply(200, "Offer updated successfully"))
  }

  const EmptyForm := OfferForm(None, None, None, None, None, None, None, None, None, None)

  /** Since every field falls back to the old value, an empty form changes nothing. */
  lemma EmptyUpdateChangesNothing(s: Store, id: Id)
    ensures UpdateOffer(s, id, EmptyForm).0 == s
  {
    if id in s.offers {
      assert Revised(s.offers[id], EmptyForm) == s.offers[id];
      assert s.offers[id := s.offers[id]] == s.offers;
    }
  }

  /** A falsy value cannot clear a field: an update never leaves a field emptier than it found it. */
  lemma UpdateKeepsTruthyBounds(s: Store, id: Id, f: OfferForm)
    requires id in s.offers && TruthyAmount(s.offers[id].maxDiscountAmount)
    ensures TruthyAmount(UpdateOffer(s, id, f).0.offers[id].maxDiscountAmount)
  {
  }

  /** deleteOffer: 404 for an unknown id, otherwise exactly that offer is removed. */
  function DeleteOffer(s: Store, id: Id): (r: (Store, Reply))
    ensures id !in s.offers <==> r.1.status == 404
    ensures id !in s.offers ==> r == (s, Reply(404, "Offer not found"))
    ensures id in s.offers ==>
      r == (s.(offers := s.offers - {id}), Reply(200, "Offer deleted successfully"))
  {
    if id !in s.offers then (s, Reply(404, "Offer not found"))
    else (s.(offers := s.offers - {id}), Reply(200, "Offer deleted successfully"))
  }

  /** Deleting an offer that a product uses leaves that product pointing at a missing offer. */
  lemma DeleteLeavesDanglingReference(s: Store, id: Id, p: Id)
    requires id in s.offers && p in s.products && s.products[p].offerId == Some(id)
    ensures var r := DeleteOffer(s, id).0;
      r.products[p].offerId == Some(id) && id !in r.offers && !OfferRefsResolve(r)
  {
  }

  /** The toggle's rule: "active" becomes "expired", any other status becomes "active". */
  function Toggled(status: string): (r: string)
    ensures r == "expired" <==> status == "active"
    ensures r == "active" <==> status != "active"
  {
    if status == "active" then "expired" else "active"
  }

  /** Toggling twice restores a status exactly when it was "active" or "expired". */
  lemma ToggleTwiceRestoresIff(status: string)
    ensures Toggled(Toggled(status)) == status <==> status == "active" || status == "expired"
  {
  }

  /** toggleOfferStatus: 404 for an unknown id, otherwise only the status changes. */
  function ToggleOfferStatus(s: Store, id: Id): (r: (Store, Reply))
    ensures id !in s.offers <==> r.1.status == 404
    ensures id !in s.offers ==> r == (s, Reply(404, "Offer not found"))
    ensures id in s.offers ==>
      && r.1.status == 200
      && id in r.0.offers && r.0.offers[id].status == Toggled(s.offers[id].status)
      && r.0 == s.(offers := s.offers[id := s.offers[id].(status := r.0.offers[id].status)])
  {
    if id !in s.offers then (s, Reply(404, "Offer not found"))
    else
      var o := s.offers[id].(status := Toggled(s.offers[id].status));
      (s.(offers := s.offers[id := o]), Reply(200, ""))
  }
}

=== FILE: order_controller.dfy ===
/**
 * The shopper's order endpoints (src/controllers/orderController.js): placing an order from
 * the cart and cancelling one, each mapping the service's error message to a status.
 */
module OrderController {
  import opened Wrappers
  import opened Tables
  import opened Records
  import opened Text
  import OrderService

  /** The status for an error of createOrderFromCart, chosen by its message. */
  function PlaceOrderError(e: Err): (r: Reply)
    ensures r.status in {400, 404, 500}
  {
    var m := Message(e);
    if m == "Cart not found" then Reply(400, "Cart not found")
    else if m == "Cannot place order with empty cart" then Reply(400, "Cart is empty")
    else if m == "Product not found" then Reply(404, "Product not found")
    else Reply(500, "Error placing the order")
  }

  /**
   * placeOrder: the form's eight shipping fields go to the service as they are; on success
   * 201 with the new order's id, otherwise the status the error maps to.
   */
  function PlaceOrder(s: Store, user: Id, shipping: Shipping, now: int): (r: (Store, Reply, Option<Id>))
    ensures var step := OrderService.CreateOrderFromCart(s, user, shipping, now);
      && r.0 == step.store
      && (step.result.Success? ==> r.1 == Reply(201, "Order placed successfully") && r.2 == Some(step.result.value))
      && (step.result.Failure? ==> r.1 == PlaceOrderError(step.result.error) && r.2 == None)
  {
    var step := OrderService.CreateOrderFromCart(s, user, shipping, now);
    match step.result
    case Success(id) => (step.store, Reply(201, "Order placed successfully"), Some(id))
    case Failure(e) => (step.store, PlaceOrderError(e), None)
  }

  /** The three errors the service can raise, and the replies they get. */
  lemma PlaceOrderErrorTable()
    ensures PlaceOrderError(CartNotFound) == Reply(400, "Cart not found")
    ensures PlaceOrderError(EmptyCart) == Reply(400, "Cart is empty")
    ensures PlaceOrderError(ProductNotFound) == Reply(404, "Product not found")
  {
    assert Message(EmptyCart) != "Cart not found";
    assert Message(ProductNotFound) != "Cart not found" && Message(ProductNotFound) != "Cannot place order with empty cart";
  }

  /**
   * A missing cart and an empty cart are both 400, a missing product 404; since the service
   * raises nothing else, placing an order never answers 500.
   */
  lemma PlaceOrderStatuses(s: Store, user: Id, shipping: Shipping, now: int)
    ensures var step := OrderService.CreateOrderFromCart(s, user, shipping, now);
      && (step.result == Failure(CartNotFound) ==> PlaceOrder(s, user, shipping, now).1 == Reply(400, "Cart not found"))
      && (step.result == Failure(EmptyCart) ==> PlaceOrder(s, user, shipping, now).1 == Reply(400, "Cart is empty"))
      && (step.result == Failure(ProductNotFound) ==> PlaceOrder(s, user, shipping, now).1 == Reply(404, "Product not found"))
      && PlaceOrder(s, user, shipping, now).1.status != 500
  {
    PlaceOrderErrorTable();
    var step := OrderService.CreateOrderFromCart(s, user, shipping, now);
    assert step.result.Failure? ==> step.result.error in {CartNotFound, EmptyCart, ProductNotFound};
  }

  /** The placed order carries exactly the shipping fields the shopper submitted. */
  lemma PlacedOrderShipsAsSubmitted(s: Store, user: Id, shipping: Shipping, now: int)
    requires PlaceOrder(s, user, shipping, now).2.Some?
    ensures var r := PlaceOrder(s, user, shipping, now);
      r.2.value in r.0.orders && r.0.orders[r.2.value].shipping == shipping && r.0.orders[r.2.value].user == user
  {
  }

  /** The status for an error of cancelOrder: 404 and 403 for the first two, 400 with the message otherwise. */
  function CancelOrderError(e: Err): (r: Reply)
    ensures r.status in {400, 403, 404}
  {
    var m := Message(e);
    if m == "Order not found" then Reply(404, "Order not found")
    else if m == "Unauthorized to cancel this order" then Reply(403, m)
    else if m == "Order is already cancelled" then Reply(400, m)
    else if Contains(m, "cannot be cancelled") then Reply(400, m)
    else Reply(400, m)
  }

  /** cancelOrder: 200 with the service's message, refund flag and amount, or the mapped error. */
  function CancelOrder(s: Store, orderId: Id, user: Id, now: int): (r: (Store, Reply, Option<OrderService.Cancellation>))
    ensures var step := OrderService.CancelOrder(s, orderId, user, now);
      && r.0 == step.store
      && (step.result.Success? ==> r.1 == Reply(200, step.result.value.message) && r.2 == Some(step.result.value))
      && (step.result.Failure? ==> r.1 == CancelOrderError(step.result.error) && r.2 == None)
  {
    var step := OrderService.CancelOrder(s, orderId, user, now);
    match step.result
    case Success(c) => (step.store, Reply(200, c.message), Some(c))
    case Failure(e) => (step.store, CancelOrderError(e), None)
  }

  /**
   * A missing order is 404 and another user's order 403; every other refusal is 400 with the
   * service's own message.
   */
  lemma CancelOrderStatuses(s: Store, orderId: Id, user: Id, now: int)
    ensures orderId !in s.orders ==> CancelOrder(s, orderId, user, now).1 == Reply(404, "Order not found")
    ensures orderId in s.orders && s.orders[orderId].user != user ==>
      CancelOrder(s, orderId, user, now).1 == Reply(403, "Unauthorized to cancel this order")
    ensures var step := OrderService.CancelOrder(s, orderId, user, now);
      step.result.Failure? && step.result.error != OrderNotFound && step.result.error != NotOrderOwner ==>
        CancelOrder(s, orderId, user, now).1 == Reply(400, Message(step.result.error))
  {
    var step := OrderService.CancelOrder(s, orderId, user, now);
    if step.result.Failure? {
      var e := step.result.error;
      assert e in {OrderNotFound, NotOrderOwner, AlreadyCancelled, CannotCancel, UserNotFound};
    }
  }
}

=== FILE: order_management.dfy ===
/**
 * The admin order screens (src/controllers/admin/orderManagementController.js): the order
 * list, newest first, and the status update, which accepts any status.
 */
module OrderManagement {
  import opened Wrappers
  import opened Tables
  import opened Records
  import opened Seqs

  function DateKey(row: (Id, Order)): seq<int> {
    [row.1.dateOrdered]
  }

  /** getOrders: every order, by `dateOrdered` descending; orders of the same instant keep id order. */
  function GetOrders(s: Store): (r: seq<(Id, Order)>)
    ensures |r| == |s.orders|
    ensures forall i, j :: 0 <= i < j < |r| ==> r[i].1.dateOrdered >= r[j].1.dateOrdered
  {
    var rows := Rows(s.orders);
    var r := Sort(rows, DateKey, true);
    RowsLength(s.orders);
    forall i, j | 0 <= i < j < |r| ensures r[i].1.dateOrdered >= r[j].1.dateOrdered {
      assert InOrder(DateKey(r[i]), DateKey(r[j]), true);
      LexLeNumber(r[j].1.dateOrdered, r[i].1.dateOrdered);
    }
    r
  }

  /** Every listed row is a stored order under its own id. */
  lemma GetOrdersSound(s: Store)
    ensures forall i :: 0 <= i < |GetOrders(s)| ==>
      GetOrders(s)[i].0 in s.orders && s.orders[GetOrders(s)[i].0] == GetOrders(s)[i].1
  {
    var rows := Rows(s.orders);
    assert GetOrders(s) == Sort(rows, DateKey, true);
    SortAddsNothing(rows, DateKey, true);
  }

  /** Every stored order is listed. */
  lemma GetOrdersComplete(s: Store, k: Id)
    requires k in s.orders
    ensures exists i :: 0 <= i < |GetOrders(s)| && GetOrders(s)[i] == (k, s.orders[k])
  {
    var rows := Rows(s.orders);
    assert GetOrders(s) == Sort(rows, DateKey, true);
    assert (k, s.orders[k]) in rows;
    var i := SortKeeps(rows, DateKey, true, (k, s.orders[k]));
    assert GetOrders(s)[i] == (k, s.orders[k]);
  }

  /** What `updateOne` reports: how many documents matched and how many changed. */
  datatype UpdateResult = UpdateResult(matchedCount: nat, modifiedCount: nat)

  /** `Order.updateOne({_id}, {$set: {status}})`: only the status is written; an unknown id matches nothing. */
  function SetStatus(s: Store, id: Id, status: string): (r: (Store, UpdateResult))
    ensures id !in s.orders ==> r == (s, UpdateResult(0, 0))
    ensures id in s.orders ==> r.0 == s.(orders := s.orders[id := s.orders[id].(status := status)])
    ensures id in s.orders ==> r.1.matchedCount == 1 && (r.1.modifiedCount == 1 <==> s.orders[id].status != status)
  {
    if id !in s.orders then (s, UpdateResult(0, 0))
    else
      var o := s.orders[id];
      (s.(orders := s.orders[id := o.(status := status)]), UpdateResult(1, if o.status == status then 0 else 1))
  }

  /**
   * updateOrderStatus as written: the `!updatedOrder` test is applied to the result object,
   * which always exists, so the 404 branch never runs and an unknown id gets 200.
   */
  function UpdateOrderStatusAsWritten(s: Store, id: Id, status: string): (r: (Store, Reply))
    ensures r.1.status == 200
    ensures r.0 == SetStatus(s, id, status).0
  {
    var (s1, _) := SetStatus(s, id, status);
    (s1, Reply(200, ""))
  }

  /** An unknown order id is answered with success and nothing changes. */
  lemma MissingOrderReportedUpdated(s: Store, id: Id, status: string)
    requires id !in s.orders
    ensures UpdateOrderStatusAsWritten(s, id, status) == (s, Reply(200, ""))
  {
  }

  /**
   * updateOrderStatus as intended: 404 "Order not found" when no order matched; otherwise 200,
   * with the status set to whatever was asked (no transition is refused) and nothing else changed.
   */
  function UpdateOrderStatus(s: Store, id: Id, status: string): (r: (Store, Reply))
    ensures r.1.status == 404 <==> id !in s.orders
    ensures id !in s.orders ==> r == (s, Reply(404, "Order not found"))
    ensures id in s.orders ==> r.1.status == 200 && r.0.orders.Keys == s.orders.Keys
    ensures id in s.orders ==> r.0.orders[id].status == status && r.0.orders[id] == s.orders[id].(status := status)
    ensures id in s.orders ==> r.0 == s.(orders := r.0.orders) && forall k :: k in s.orders && k != id ==> r.0.orders[k] == s.orders[k]
  {
    var (s1, result) := SetStatus(s, id, status);
    if result.matchedCount == 0 then (s, Reply(404, "Order not found"))
    else (s1, Reply(200, ""))
  }

  /** With no transition rules, a delivered order can be sent back to pending. */
  lemma DeliveredCanReturnToPending(s: Store, id: Id)
    requires id in s.orders && s.orders[id].status == Delivered
    ensures UpdateOrderStatus(s, id, Pending).0.orders[id].status == Pending
  {
  }

  /** For a known order, the corrected and the written handler agree. */
  lemma CorrectionOnlyAffectsMissingOrders(s: Store, id: Id, status: string)
    requires id in s.orders
    ensures UpdateOrderStatus(s, id, status) == UpdateOrderStatusAsWritten(s, id, status)
  {
  }
}

=== FILE: order_service.dfy ===
/**
 * Order placement, retrieval, cancellation and refunds (src/services/orderService.js).
 */
module OrderService {
  import opened Wrappers
  import opened Tables
  import opened Records
  import opened Seqs
  import Text
  import Wallet
  import CartService

  /**
   * createOrderItems: one new order item per cart line, with the line's product and quantity,
   * under fresh ids listed in cart-line order.
   */
  function CreateOrderItems(items: map<Id, OrderItem>, lines: seq<CartLine>): (r: (map<Id, OrderItem>, seq<Id>))
    ensures |r.1| == |lines|
    ensures forall i :: 0 <= i < |lines| ==>
      r.1[i] !in items && r.1[i] in r.0 && r.0[r.1[i]] == OrderItem(lines[i].productId, lines[i].quantity)
    ensures forall i, j :: 0 <= i < j < |r.1| ==> r.1[i] != r.1[j]
    ensures forall k :: k in items ==> k in r.0 && r.0[k] == items[k]
    ensures forall k :: k in r.0 ==> k in items || k in r.1
    decreases |lines|
  {
    if lines == [] then (items, [])
    else
      var id := NextId(items);
      var (m, ids) := CreateOrderItems(items[id := OrderItem(lines[0].productId, lines[0].quantity)], lines[1..]);
      (m, [id] + ids)
  }

  /**
   * updateProductStock: fails on a missing product; otherwise stock goes down by exactly the
   * quantity (it may go below zero), popularity goes up by one, and the out-of-stock flag
   * records whether the new stock is at most zero. Nothing else changes.
   */
  function UpdateProductStock(products: map<Id, Product>, pid: Id, quantity: int): (r: Result<map<Id, Product>, Err>)
    ensures r.Failure? <==> pid !in products
    ensures r.Failure? ==> r.error == ProductNotFound
    ensures r.Success? ==> r.value.Keys == products.Keys
    ensures r.Success? ==>
      var before := products[pid];
      var after := r.value[pid];
      && (forall k :: k in products && k != pid ==> r.value[k] == products[k])
      && after.stock + quantity == before.stock
      && after.popularity == before.popularity + 1
      && (after.isOutOfStock <==> after.stock <= 0)
      && after.(stock := before.stock, popularity := before.popularity, isOutOfStock := before.isOutOfStock) == before
  {
    if pid !in products then Failure(ProductNotFound)
    else
      var p := products[pid];
      var updatedStock := p.stock - quantity;
      Success(products[pid := p.(stock := updatedStock, popularity := p.popularity + 1, isOutOfStock := updatedStock <= 0)])
  }

  /** The product table after one line's stock update; a missing product is left to the caller. */
  function ApplyLine(products: map<Id, Product>, line: CartLine): (r: map<Id, Product>)
    ensures r.Keys == products.Keys
  {
    match UpdateProductStock(products, line.productId, line.quantity)
    case Success(p) => p
    case Failure(_) => products
  }

  /**
   * The stock update of every cart line. The updates run concurrently and independently, so
   * every line whose product exists is applied even when another line's product is missing;
   * the second component says whether every product was found.
   */
  function UpdateStocks(products: map<Id, Product>, lines: seq<CartLine>): (r: (map<Id, Product>, bool))
    ensures r.0.Keys == products.Keys
    ensures r.1 <==> forall i :: 0 <= i < |lines| ==> lines[i].productId in products
    decreases |lines|
  {
    if lines == [] then (products, true)
    else
      var rest := UpdateStocks(ApplyLine(products, lines[0]), lines[1..]);
      assert forall i :: 1 <= i < |lines| ==> lines[i] == lines[1..][i - 1];
      (rest.0, rest.1 && lines[0].productId in products)
  }

  /** A product no line mentions keeps its stock, popularity and flags. */
  lemma {:induction false} UpdateStocksLeavesOthers(products: map<Id, Product>, lines: seq<CartLine>, k: Id)
    requires k in products
    requires forall i :: 0 <= i < |lines| ==> lines[i].productId != k
    ensures UpdateStocks(products, lines).0[k] == products[k]
    decreases |lines|
  {
    if lines != [] {
      var first := ApplyLine(products, lines[0]);
      assert first[k] == products[k];
      assert forall i :: 0 <= i < |lines[1..]| ==> lines[1..][i] == lines[i + 1];
      UpdateStocksLeavesOthers(first, lines[1..], k);
    }
  }

  /**
   * With one line per product, each line's product ends with its stock lowered by that line's
   * quantity and its popularity raised by one.
   */
  lemma {:induction false} UpdateStocksTakesEachLine(products: map<Id, Product>, lines: seq<CartLine>, i: nat)
    requires CartService.UniqueLines(lines)
    requires i < |lines| && lines[i].productId in products
    ensures var pid := lines[i].productId;
            var after := UpdateStocks(products, lines).0;
            && after[pid].stock == products[pid].stock - lines[i].quantity
            && after[pid].popularity == products[pid].popularity + 1
            && (after[pid].isOutOfStock <==> after[pid].stock <= 0)
    decreases |lines|
  {
    var first := ApplyLine(products, lines[0]);
    var tail := lines[1..];
    assert forall m :: 0 <= m < |tail| ==> tail[m] == lines[m + 1];
    if i == 0 {
      assert forall m :: 0 <= m < |tail| ==> tail[m].productId != lines[0].productId;
      UpdateStocksLeavesOthers(first, tail, lines[0].productId);
    } else {
      assert first[lines[i].productId] == products[lines[i].productId];
      UpdateStocksTakesEachLine(first, tail, i - 1);
    }
  }

  /** The order's copy of the cart's coupon: `cart.appliedCoupon || null`. */
  function CouponOrNull(c: Option<string>): (r: Option<string>)
    ensures r.Some? <==> Truthy(c)
    ensures r.Some? ==> r == c
  {
    if Truthy(c) then c else None
  }

  /**
   * createOrderFromCart: refuses a missing or empty cart before any write; then creates the
   * order items and updates the stock (a missing product fails the call after those writes);
   * then saves a Pending order that snapshots the cart, and only after that deletes the cart.
   */
  function CreateOrderFromCart(s: Store, user: Id, shipping: Shipping, now: int): (r: Step<Id>)
    ensures CartService.UserCart(s.carts, user).None? ==> r == Fail(s, CartNotFound)
    ensures CartService.UserCart(s.carts, user).Some? && s.carts[CartService.UserCart(s.carts, user).value].items == [] ==>
      r == Fail(s, EmptyCart)
    ensures r.result.Failure? ==> r.store.carts == s.carts && r.store.orders == s.orders
    ensures r.result.Failure? ==> r.result.error in {CartNotFound, EmptyCart, ProductNotFound}
    ensures r.result.Success? <==>
      && CartService.UserCart(s.carts, user).Some?
      && var items := s.carts[CartService.UserCart(s.carts, user).value].items;
         && items != []
         && forall i :: 0 <= i < |items| ==> items[i].productId in s.products
    ensures r.result.Success? ==>
      var k := CartService.UserCart(s.carts, user).value;
      var cart := s.carts[k];
      var o := r.result.value;
      && o !in s.orders
      && r.store.orders.Keys == s.orders.Keys + {o}
      && (forall j :: j in s.orders ==> r.store.orders[j] == s.orders[j])
      && r.store.carts == s.carts - {k}
      && var order := r.store.orders[o];
         && order.user == user
         && order.shipping == shipping
         && |order.orderItems| == |cart.items|
         && (forall i :: 0 <= i < |cart.items| ==>
               order.orderItems[i] !in s.orderItems
               && order.orderItems[i] in r.store.orderItems
               && r.store.orderItems[order.orderItems[i]] == OrderItem(cart.items[i].productId, cart.items[i].quantity))
         && order.shippingCharge == cart.shippingCharge
         && order.totalAmount == cart.total
         && order.discountApplied == cart.discountApplied
         && order.finalTotal == cart.finalTotal
         && order.appliedCoupon == CouponOrNull(cart.appliedCoupon)
         && order.paymentMethod == None
         && order.status == Pending
         && !order.isCancelled
         && order.dateOrdered == now
    ensures r.store.users == s.users && r.store.coupons == s.coupons && r.store.categories == s.categories
  {
    match CartService.UserCart(s.carts, user)
    case None => Fail(s, CartNotFound)
    case Some(k) =>
      var cart := s.carts[k];
      if cart.items == [] then Fail(s, EmptyCart)
      else
        var created := CreateOrderItems(s.orderItems, cart.items);
        var stocked := UpdateStocks(s.products, cart.items);
        var written := s.(orderItems := created.0, products := stocked.0);
        if !stocked.1 then Fail(written, ProductNotFound)
        else
          var o := NextId(s.orders);
          var order := Order(user, shipping, created.1, cart.shippingCharge, cart.total, cart.discountApplied,
                             cart.finalTotal, CouponOrNull(cart.appliedCoupon), None, Pending, false, now);
          Done(written.(orders := s.orders[o := order], carts := s.carts - {k}), o)
  }

  /**
   * Placing an order from a cart whose lines are unique takes each line's quantity off that
   * product's stock and bumps its popularity.
   */
  lemma PlacedOrderTakesStock(s: Store, user: Id, shipping: Shipping, now: int, i: nat)
    requires CreateOrderFromCart(s, user, shipping, now).result.Success?
    requires CartService.UniqueLines(s.carts[CartService.UserCart(s.carts, user).value].items)
    requires i < |s.carts[CartService.UserCart(s.carts, user).value].items|
    ensures var line := s.carts[CartService.UserCart(s.carts, user).value].items[i];
            var after := CreateOrderFromCart(s, user, shipping, now).store.products;
            && line.productId in after
            && after[line.productId].stock == s.products[line.productId].stock - line.quantity
            && after[line.productId].popularity == s.products[line.productId].popularity + 1
  {
    var items := s.carts[CartService.UserCart(s.carts, user).value].items;
    UpdateStocksTakesEachLine(s.products, items, i);
  }

  /** getOrderById. */
  function GetOrderById(orders: map<Id, Order>, id: Id): (r: Result<Order, Err>)
    ensures r.Success? <==> id in orders
    ensures r.Success? ==> r.value == orders[id]
    ensures r.Failure? ==> r.error == OrderNotFound
  {
    if id in orders then Success(orders[id]) else Failure(OrderNotFound)
  }

  /** The filter of getUserOrders. */
  function OwnedBy(user: Id): ((Id, Order)) -> bool {
    (row: (Id, Order)) => row.1.user == user
  }

  /** The sort key of `sort({ dateOrdered: -1 })`. */
  function DateKey(row: (Id, Order)): seq<int> {
    [row.1.dateOrdered]
  }

  /** getUserOrders: the user's orders, newest first. */
  function GetUserOrders(orders: map<Id, Order>, user: Id): (r: seq<(Id, Order)>)
    ensures forall i :: 0 <= i < |r| ==> r[i].0 in orders && orders[r[i].0] == r[i].1 && r[i].1.user == user
    ensures forall k :: k in orders && orders[k].user == user ==> (k, orders[k]) in r
    ensures forall i, j :: 0 <= i < j < |r| ==> r[i].1.dateOrdered >= r[j].1.dateOrdered
    ensures forall i, j :: 0 <= i < j < |r| ==> r[i].0 != r[j].0
  {
    UserOrdersAreTheUsers(orders, user);
    UserOrdersAreAll(orders, user);
    UserOrdersNewestFirst(orders, user);
    UserOrdersOnce(orders, user);
    Sort(Filter(Rows(orders), OwnedBy(user)), DateKey, true)
  }

  lemma UserOrdersAreTheUsers(orders: map<Id, Order>, user: Id)
    ensures var r := Sort(Filter(Rows(orders), OwnedBy(user)), DateKey, true);
            forall i :: 0 <= i < |r| ==> r[i].0 in orders && orders[r[i].0] == r[i].1 && r[i].1.user == user
  {
    var rows := Rows(orders);
    var mine := Filter(rows, OwnedBy(user));
    var r := Sort(mine, DateKey, true);
    SortKeepsElements(mine, DateKey, true);
    forall i | 0 <= i < |r| ensures r[i].0 in orders && orders[r[i].0] == r[i].1 && r[i].1.user == user {
      var row := r[i];
      assert row in mine;
      var j :| 0 <= j < |mine| && mine[j] == row;
      assert OwnedBy(user)(mine[j]);
      assert row in rows;
      var m :| 0 <= m < |rows| && rows[m] == row;
      assert rows[m].0 in orders && orders[rows[m].0] == rows[m].1;
    }
  }

  lemma UserOrdersAreAll(orders: map<Id, Order>, user: Id)
    ensures var r := Sort(Filter(Rows(orders), OwnedBy(user)), DateKey, true);
            forall k :: k in orders && orders[k].user == user ==> (k, orders[k]) in r
  {
    var rows := Rows(orders);
    var mine := Filter(rows, OwnedBy(user));
    var r := Sort(mine, DateKey, true);
    SortKeepsElements(mine, DateKey, true);
    forall k | k in orders && orders[k].user == user ensures (k, orders[k]) in r {
      var i :| 0 <= i < |rows| && rows[i] == (k, orders[k]);
      assert OwnedBy(user)(rows[i]);
      var j :| 0 <= j < |mine| && mine[j] == (k, orders[k]);
    }
  }

  function RowId(row: (Id, Order)): int {
    row.0
  }

  /** No order is listed twice. */
  lemma UserOrdersOnce(orders: map<Id, Order>, user: Id)
    ensures var r := Sort(Filter(Rows(orders), OwnedBy(user)), DateKey, true);
            forall i, j :: 0 <= i < j < |r| ==> r[i].0 != r[j].0
  {
    var rows := Rows(orders);
    var mine := Filter(rows, OwnedBy(user));
    assert IncreasingBy(rows, RowId);
    FilterKeepsIncreasing(rows, OwnedBy(user), RowId);
    assert Distinct(mine);
    SortKeepsDistinct(mine, DateKey, true);
    var r := Sort(mine, DateKey, true);
    UserOrdersAreTheUsers(orders, user);
    forall i, j | 0 <= i < j < |r| ensures r[i].0 != r[j].0 {
      assert r[i] != r[j];
    }
  }

  lemma UserOrdersNewestFirst(orders: map<Id, Order>, user: Id)
    ensures var r := Sort(Filter(Rows(orders), OwnedBy(user)), DateKey, true);
            forall i, j :: 0 <= i < j < |r| ==> r[i].1.dateOrdered >= r[j].1.dateOrdered
  {
    var r := Sort(Filter(Rows(orders), OwnedBy(user)), DateKey, true);
    forall i, j | 0 <= i < j < |r| ensures r[i].1.dateOrdered >= r[j].1.dateOrdered {
      assert InOrder(DateKey(r[i]), DateKey(r[j]), true);
      LexLeNumber(r[j].1.dateOrdered, r[i].1.dateOrdered);
    }
  }

  /** The text of a refund's ledger entry. */
  function RefundText(orderId: Id): string {
    "Refund for cancelled order #" + Text.NatToString(orderId)
  }

  /**
   * processOrderRefund: fails on a missing user; otherwise adds the amount to the wallet and
   * records one Credit entry of that amount referencing the order. Returns the user as read
   * before the update.
   */
  function ProcessOrderRefund(s: Store, user: Id, orderId: Id, amount: Cents, now: int): (r: Step<User>)
    ensures r.result.Failure? <==> user !in s.users
    ensures r.result.Failure? ==> r == Fail(s, UserNotFound)
    ensures r.result.Success? ==>
      && r.result.value == s.users[user]
      && user in r.store.users
      && r.store == s.(users := s.users[user := r.store.users[user]])
      && var before := s.users[user];
         var after := r.store.users[user];
         && after.walletBalance == before.walletBalance + amount
         && after.walletTransactions == before.walletTransactions + [WalletTx(Credit, amount, RefundText(orderId), now)]
         && after.(walletBalance := before.walletBalance, walletTransactions := before.walletTransactions) == before
         && (Wallet.Balanced(before) <==> Wallet.Balanced(after))
  {
    if user !in s.users then Fail(s, UserNotFound)
    else
      var u := s.users[user];
      var tx := WalletTx(Credit, amount, RefundText(orderId), now);
      var updated := u.(walletBalance := u.walletBalance + amount, walletTransactions := u.walletTransactions + [tx]);
      Wallet.PostingKeepsBalanced(u, tx, updated.walletBalance);
      Done(s.(users := s.users[user := updated]), u)
  }

  /** What cancelOrder reports. */
  datatype Cancellation = Cancellation(message: string, refunded: bool, refundAmount: Option<Cents>)

  const RequestSubmitted := "Cancellation request submitted for shipped/delivered order"
  const CancelledAndRefunded := "Order cancelled successfully and refund processed to wallet"

  /**
   * cancelOrder: a missing order, then an order of another user, is refused; a Shipped or
   * Delivered order is only flagged `isCancelled`; a Pending or Processed order is refunded in
   * full to the wallet and then set to Cancelled; a Cancelled order or any other status is refused.
   */
  function CancelOrder(s: Store, orderId: Id, user: Id, now: int): (r: Step<Cancellation>)
    ensures orderId !in s.orders ==> r == Fail(s, OrderNotFound)
    ensures orderId in s.orders && s.orders[orderId].user != user ==> r == Fail(s, NotOrderOwner)
    ensures orderId in s.orders && s.orders[orderId].user == user && s.orders[orderId].status == Cancelled ==>
      r == Fail(s, AlreadyCancelled)
    ensures (orderId in s.orders && s.orders[orderId].user == user
             && s.orders[orderId].status !in {Shipped, Delivered, Pending, Processed, Cancelled})
            ==> r == Fail(s, CannotCancel)
    ensures r.result.Failure? ==> r.store == s
    ensures r.result.Success? ==> orderId in s.orders && s.orders[orderId].user == user
    ensures orderId in s.orders && s.orders[orderId].user == user && s.orders[orderId].status in {Shipped, Delivered} ==>
      && r.result == Success(Cancellation(RequestSubmitted, false, None))
      && r.store == s.(orders := s.orders[orderId := s.orders[orderId].(isCancelled := true)])
    ensures orderId in s.orders && s.orders[orderId].user == user && s.orders[orderId].status in {Pending, Processed} ==>
      var order := s.orders[orderId];
      if user !in s.users then r == Fail(s, UserNotFound)
      else
        && r.result == Success(Cancellation(CancelledAndRefunded, true, Some(order.finalTotal)))
        && r.store.orders == s.orders[orderId := order.(status := Cancelled)]
        && r.store.users == s.users[user := s.users[user].(
             walletBalance := s.users[user].walletBalance + order.finalTotal,
             walletTransactions := s.users[user].walletTransactions + [WalletTx(Credit, order.finalTotal, RefundText(orderId), now)])]
        && r.store == s.(users := r.store.users, orders := r.store.orders)
  {
    if orderId !in s.orders then Fail(s, OrderNotFound)
    else
      var order := s.orders[orderId];
      if order.user != user then Fail(s, NotOrderOwner)
      else if order.status == Shipped || order.status == Delivered then
        Done(s.(orders := s.orders[orderId := order.(isCancelled := true)]), Cancellation(RequestSubmitted, false, None))
      else if order.status == Pending || order.status == Processed then
        var refund := ProcessOrderRefund(s, user, orderId, order.finalTotal, now);
        match refund.result
        case Failure(e) => Fail(refund.store, e)
        case Success(_) =>
          var after := refund.store;
          Done(after.(orders := after.orders[orderId := order.(status := Cancelled)]),
               Cancellation(CancelledAndRefunded, true, Some(order.finalTotal)))
      else if order.status == Cancelled then Fail(s, AlreadyCancelled)
      else Fail(s, CannotCancel)
  }

  /** An order is refunded at most once: cancelling it again is refused and changes nothing. */
  lemma NoDoubleRefund(s: Store, orderId: Id, user: Id, now: int, later: int)
    requires CancelOrder(s, orderId, user, now).result.Success?
    requires CancelOrder(s, orderId, user, now).result.value.refunded
    ensures var s1 := CancelOrder(s, orderId, user, now).store;
            CancelOrder(s1, orderId, user, later) == Fail(s1, AlreadyCancelled)
  {
  }

  /** A cancellation request for a shipped or delivered order can be repeated harmlessly. */
  lemma CancellationRequestIdempotent(s: Store, orderId: Id, user: Id, now: int, later: int)
    requires orderId in s.orders && s.orders[orderId].status in {Shipped, Delivered}
    requires CancelOrder(s, orderId, user, now).result.Success?
    ensures var s1 := CancelOrder(s, orderId, user, now).store;
            CancelOrder(s1, orderId, user, later).store == s1
  {
  }

  /** Cancelling with a refund keeps a wallet whose balance matched its ledger in that state. */
  lemma RefundKeepsLedger(s: Store, orderId: Id, user: Id, now: int)
    requires CancelOrder(s, orderId, user, now).result.Success?
    requires user in s.users && Wallet.Balanced(s.users[user])
    ensures user in CancelOrder(s, orderId, user, now).store.users
    ensures Wallet.Balanced(CancelOrder(s, orderId, user, now).store.users[user])
  {
    var order := s.orders[orderId];
    if order.status in {Pending, Processed} {
      var u := s.users[user];
      Wallet.PostingKeepsBalanced(u, WalletTx(Credit, order.finalTotal, RefundText(orderId), now),
                                  u.walletBalance + order.finalTotal);
    }
  }

  /** getOrderForPayment: the order (missing: "Order not found"), then the user's wallet balance. */
  function GetOrderForPayment(s: Store, orderId: Id, user: Id): (r: Result<(Order, Cents), Err>)
    ensures orderId !in s.orders ==> r == Failure(OrderNotFound)
    ensures orderId in s.orders && user !in s.users ==> r == Failure(UserNotFound)
    ensures r.Success? <==> orderId in s.orders && user in s.users
    ensures r.Success? ==> r.value == (s.orders[orderId], s.users[user].walletBalance)
  {
    var order :- GetOrderById(s.orders, orderId);
    if user !in s.users then Failure(UserNotFound)
    else Success((order, s.users[user].walletBalance))
  }
}

=== FILE: payment_controller.dfy ===
/**
 * The payment endpoints (src/controllers/paymentController.js): the gateway order, payment
 * confirmation, wallet payment and the payment page, each mapping the service's error message
 * to a status. The gateway itself is a parameter: what its order call returned or threw.
 */
module PaymentController {
  import opened Wrappers
  import opened Tables
  import opened Records
  import opened Text
  import PaymentService
  import OrderService
  import Money

  /**
   * createRazorpayOrder in the service, reduced to its error behaviour: "Order not found" for
   * an unknown order, the gateway's own error, or "Failed to create Razorpay order" when the
   * gateway returns nothing; otherwise the gateway's order id.
   */
  function CreateRazorpayOrderService(s: Store, orderId: Id, gateway: Result<Option<string>, string>): (r: Result<string, string>)
    ensures orderId !in s.orders ==> r == Failure("Order not found")
    ensures r.Success? <==> orderId in s.orders && gateway.Success? && gateway.value.Some?
  {
    if orderId !in s.orders then Failure("Order not found")
    else
      match gateway
      case Failure(m) => Failure(m)
      case Success(None) => Failure("Failed to create Razorpay order")
      case Success(Some(g)) => Success(g)
  }

  /** createRazorpayOrder: 200, 404 for "Order not found", 500 "Error creating order" for anything else. */
  function CreateRazorpayOrder(s: Store, orderId: Id, gateway: Result<Option<string>, string>): (r: Reply)
    ensures r.status in {200, 404, 500}
    ensures r.status == 404 <==> CreateRazorpayOrderService(s, orderId, gateway) == Failure("Order not found")
  {
    match CreateRazorpayOrderService(s, orderId, gateway)
    case Success(g) => Reply(200, g)
    case Failure(m) => if m == "Order not found" then Reply(404, "Order not found") else Reply(500, "Error creating order")
  }

  /** An unknown order is 404; a gateway that fails for a known order is 500 unless it reports that very message. */
  lemma RazorpayStatuses(s: Store, orderId: Id, gateway: Result<Option<string>, string>)
    ensures orderId !in s.orders ==> CreateRazorpayOrder(s, orderId, gateway) == Reply(404, "Order not found")
    ensures orderId in s.orders && gateway == Success(None) ==> CreateRazorpayOrder(s, orderId, gateway) == Reply(500, "Error creating order")
    ensures orderId in s.orders && gateway.Failure? && gateway.error != "Order not found" ==>
      CreateRazorpayOrder(s, orderId, gateway) == Reply(500, "Error creating order")
  {
  }

  /** The status for an error of confirmPayment; an error the handler does not name is rethrown and becomes a 500. */
  function ConfirmPaymentError(e: Err): (r: Reply)
    ensures r.status in {400, 404, 500}
  {
    var m := Message(e);
    if m == "Order not found" then Reply(404, "Order not found")
    else if Contains(m, "Cash on Delivery is not available") then Reply(400, m)
    else Reply(500, m)
  }

  /** confirmPayment: 200 with the confirmation, or the mapped error. */
  function ConfirmPayment(s: Store, orderId: Id, paymentMethod: string): (r: (Store, Reply))
    ensures var step := PaymentService.ConfirmPayment(s, orderId, paymentMethod);
      && r.0 == step.store
      && (step.result.Success? ==> r.1 == Reply(200, "Payment confirmed, order updated successfully"))
      && (step.result.Failure? ==> r.1 == ConfirmPaymentError(step.result.error))
  {
    var step := PaymentService.ConfirmPayment(s, orderId, paymentMethod);
    match step.result
    case Success(_) => (step.store, Reply(200, "Payment confirmed, order updated successfully"))
    case Failure(e) => (step.store, ConfirmPaymentError(e))
  }

  /** A missing order is 404 and cash on delivery above the ceiling 400 with the service's message; nothing is rethrown. */
  lemma ConfirmPaymentStatuses(s: Store, orderId: Id, paymentMethod: string)
    ensures orderId !in s.orders ==> ConfirmPayment(s, orderId, paymentMethod).1 == Reply(404, "Order not found")
    ensures orderId in s.orders && paymentMethod == "COD" && s.orders[orderId].finalTotal > CodLimit ==>
      ConfirmPayment(s, orderId, paymentMethod).1 == Reply(400, Message(CodLimitExceeded))
    ensures ConfirmPayment(s, orderId, paymentMethod).1.status in {200, 400, 404}
  {
    ContainsPrefix("Cash on Delivery is not available", " for orders above \U{20B9}" + Money.MoneyText(CodLimit));
    assert Message(CodLimitExceeded) == "Cash on Delivery is not available" + (" for orders above \U{20B9}" + Money.MoneyText(CodLimit));
  }

  const InsufficientWalletBalance := "Insufficient wallet balance. Please use a different payment method."

  /** The status for an error of processWalletPayment, chosen by its message. */
  function WalletPaymentError(e: Err): (r: Reply)
    ensures r.status in {400, 404, 500}
  {
    WalletReplyFor(Message(e))
  }

  function WalletReplyFor(m: string): (r: Reply)
    ensures r.status in {400, 404, 500}
  {
    if m == "User not found" then Reply(404, "User not found")
    else if m == "Order not found" then Reply(404, "Order not found")
    else if Contains(m, "Insufficient wallet balance") then Reply(400, InsufficientWalletBalance)
    else Reply(500, "Error processing wallet payment: " + m)
  }

  /** Any message that starts with the insufficient-balance phrase gets the fixed 400. */
  lemma ShortBalancePhraseIsReported(m: string)
    requires |m| >= 27 && m[..27] == "Insufficient wallet balance"
    ensures WalletReplyFor(m) == Reply(400, InsufficientWalletBalance)
  {
    assert m[0] == 'I';
    assert OccursAt(m, "Insufficient wallet balance", 0);
  }

  /** processWalletPayment: 200 with the confirmation, or the mapped error. */
  function ProcessWalletPayment(s: Store, user: Id, orderId: Id, now: int): (r: (Store, Reply))
    ensures var step := PaymentService.ProcessWalletPayment(s, user, orderId, now);
      && r.0 == step.store
      && (step.result.Success? ==> r.1 == Reply(200, "Payment confirmed using wallet, order updated successfully"))
      && (step.result.Failure? ==> r.1 == WalletPaymentError(step.result.error))
  {
    var step := PaymentService.ProcessWalletPayment(s, user, orderId, now);
    match step.result
    case Success(_) => (step.store, Reply(200, "Payment confirmed using wallet, order updated successfully"))
    case Failure(e) => (step.store, WalletPaymentError(e))
  }

  /** The service's insufficient-balance error, whatever its amounts, is reported with the fixed message. */
  lemma ShortBalanceIsReported(required: Cents, available: Cents)
    ensures WalletPaymentError(InsufficientBalance(required, available)) == Reply(400, InsufficientWalletBalance)
  {
    var head := "Insufficient wallet balance. Required: \U{20B9}";
    var m := Message(InsufficientBalance(required, available));
    assert m[..27] == head[..27];
    ShortBalancePhraseIsReported(m);
  }

  /**
   * A missing user or order is 404; a short balance is 400 with a fixed message that drops the
   * amounts the service reported; nothing reaches the 500.
   */
  lemma WalletPaymentStatuses(s: Store, user: Id, orderId: Id, now: int)
    ensures user !in s.users ==> ProcessWalletPayment(s, user, orderId, now).1 == Reply(404, "User not found")
    ensures user in s.users && orderId !in s.orders ==> ProcessWalletPayment(s, user, orderId, now).1 == Reply(404, "Order not found")
    ensures user in s.users && orderId in s.orders && s.users[user].walletBalance < s.orders[orderId].finalTotal ==>
      ProcessWalletPayment(s, user, orderId, now).1 == Reply(400, InsufficientWalletBalance)
    ensures ProcessWalletPayment(s, user, orderId, now).1.status in {200, 400, 404}
  {
    if user in s.users && orderId in s.orders && s.users[user].walletBalance < s.orders[orderId].finalTotal {
      ShortBalanceIsReported(s.orders[orderId].finalTotal, s.users[user].walletBalance);
    }
  }

  /** The reply for any other error while fetching the payment page. */
  const FetchFailed := Reply(500, "Error fetching order")

  /** getPaymentPage: the order and the wallet balance to render, or 404 for either missing, 500 otherwise. */
  function GetPaymentPage(s: Store, orderId: Id, user: Id): (r: Result<(Order, Cents), Reply>)
    ensures orderId !in s.orders ==> r == Failure(Reply(404, "Order not found"))
    ensures orderId in s.orders && user !in s.users ==> r == Failure(Reply(404, "User not found"))
    ensures r.Success? <==> orderId in s.orders && user in s.users
    ensures r.Success? ==> r.value == (s.orders[orderId], s.users[user].walletBalance)
  {
    match OrderService.GetOrderForPayment(s, orderId, user)
    case Success(page) => Success(page)
    case Failure(e) =>
      var m := Message(e);
      if m == "Order not found" then Failure(Reply(404, "Order not found"))
      else if m == "User not found" then Failure(Reply(404, "User not found"))
      else Failure(FetchFailed)
  }
}

=== FILE: payment_service.dfy ===
/**
 * Payment rules (src/services/paymentService.js): the cash-on-delivery ceiling, payment
 * confirmation, wallet payment and wallet transaction recording. createRazorpayOrder is
 * modelled with its controller, where the gateway's answer is a parameter.
 */
module PaymentService {
  import opened Wrappers
  import opened Tables
  import opened Records
  import Text
  import Money
  import Wallet

  /** validateCODEligibility: allowed up to and including 1000, refused above. */
  function ValidateCODEligibility(amount: Cents): (r: Result<bool, Err>)
    ensures r.Success? <==> amount <= CodLimit
    ensures r.Success? ==> r.value
    ensures r.Failure? ==> r.error == CodLimitExceeded
  {
    if amount > CodLimit then Failure(CodLimitExceeded) else Success(true)
  }

  /**
   * confirmPayment: fails on a missing order; for "COD" checks the ceiling before writing
   * anything; otherwise records the method and marks the order Processed, nothing else.
   */
  function ConfirmPayment(s: Store, orderId: Id, paymentMethod: string): (r: Step<Order>)
    ensures orderId !in s.orders ==> r == Fail(s, OrderNotFound)
    ensures r.result.Failure? ==> r.store == s
    ensures r.result.Success? <==>
      orderId in s.orders && (paymentMethod == "COD" ==> s.orders[orderId].finalTotal <= CodLimit)
    ensures orderId in s.orders && paymentMethod == "COD" && s.orders[orderId].finalTotal > CodLimit ==>
      r.result == Failure(CodLimitExceeded)
    ensures r.result.Success? ==>
      && r.result.value == s.orders[orderId].(paymentMethod := Some(paymentMethod), status := Processed)
      && r.store == s.(orders := s.orders[orderId := r.result.value])
  {
    if orderId !in s.orders then Fail(s, OrderNotFound)
    else
      var order := s.orders[orderId];
      var eligible := if paymentMethod == "COD" then ValidateCODEligibility(order.finalTotal) else Success(true);
      match eligible
      case Failure(e) => Fail(s, e)
      case Success(_) =>
        var updated := order.(paymentMethod := Some(paymentMethod), status := Processed);
        Done(s.(orders := s.orders[orderId := updated]), updated)
  }

  /** The text of a wallet payment's ledger entry. */
  function PaymentText(orderId: Id): string {
    "Payment for Order ID: " + Text.NatToString(orderId)
  }

  /**
   * processWalletPayment: fails on a missing user, then on a missing order, then when the
   * balance is below the order's final total; otherwise debits the wallet by the final total
   * (rounded to the cent), records one Debit entry referencing the order, and marks the order
   * paid by Wallet and Processed.
   */
  function ProcessWalletPayment(s: Store, user: Id, orderId: Id, now: int): (r: Step<Order>)
    ensures user !in s.users ==> r == Fail(s, UserNotFound)
    ensures user in s.users && orderId !in s.orders ==> r == Fail(s, OrderNotFound)
    ensures user in s.users && orderId in s.orders && s.users[user].walletBalance < s.orders[orderId].finalTotal ==>
      r == Fail(s, InsufficientBalance(s.orders[orderId].finalTotal, s.users[user].walletBalance))
    ensures r.result.Failure? ==> r.store == s
    ensures r.result.Success? <==>
      user in s.users && orderId in s.orders && s.users[user].walletBalance >= s.orders[orderId].finalTotal
    ensures r.result.Success? ==>
      var before := s.users[user];
      var order := s.orders[orderId];
      && user in r.store.users
      && var after := r.store.users[user];
         && after.walletBalance == before.walletBalance - order.finalTotal
         && after.walletBalance >= 0
         && after.walletTransactions == before.walletTransactions + [WalletTx(Debit, order.finalTotal, PaymentText(orderId), now)]
         && after.(walletBalance := before.walletBalance, walletTransactions := before.walletTransactions) == before
         && (Wallet.Balanced(before) <==> Wallet.Balanced(after))
         && r.result.value == order.(paymentMethod := Some("Wallet"), status := Processed)
         && r.store == s.(users := s.users[user := after], orders := s.orders[orderId := r.result.value])
  {
    if user !in s.users then Fail(s, UserNotFound)
    else if orderId !in s.orders then Fail(s, OrderNotFound)
    else
      var u := s.users[user];
      var order := s.orders[orderId];
      if u.walletBalance < order.finalTotal then Fail(s, InsufficientBalance(order.finalTotal, u.walletBalance))
      else
        Money.Round2OfWholeCents(u.walletBalance - order.finalTotal, 1);
        var balance := Money.Round2(u.walletBalance - order.finalTotal, 1);
        var tx := WalletTx(Debit, order.finalTotal, PaymentText(orderId), now);
        Wallet.PostingKeepsBalanced(u, tx, balance);
        var debited := u.(walletBalance := balance, walletTransactions := u.walletTransactions + [tx]);
        var paid := order.(paymentMethod := Some("Wallet"), status := Processed);
        Done(s.(users := s.users[user := debited], orders := s.orders[orderId := paid]), paid)
  }

  /** A balance exactly equal to the final total pays the order and leaves the wallet at zero. */
  lemma ExactBalancePays(s: Store, user: Id, orderId: Id, now: int)
    requires user in s.users && orderId in s.orders
    requires s.users[user].walletBalance == s.orders[orderId].finalTotal
    ensures ProcessWalletPayment(s, user, orderId, now).result.Success?
    ensures ProcessWalletPayment(s, user, orderId, now).store.users[user].walletBalance == 0
  {
  }

  /**
   * recordWalletTransaction: fails on a missing user; otherwise appends one entry whose amount
   * is rounded to the cent. The amount is `num / den` cents. The balance is not touched.
   */
  function RecordWalletTransaction(s: Store, user: Id, kind: TxKind, num: int, den: nat, description: string, now: int)
    : (r: Step<User>)
    requires den > 0
    ensures r.result.Failure? <==> user !in s.users
    ensures r.result.Failure? ==> r == Fail(s, UserNotFound)
    ensures r.result.Success? ==>
      var before := s.users[user];
      && r.result.value == before
      && user in r.store.users
      && var after := r.store.users[user];
         && after.walletBalance == before.walletBalance
         && |after.walletTransactions| == |before.walletTransactions| + 1
         && after.walletTransactions[..|before.walletTransactions|] == before.walletTransactions
         && r.store == s.(users := s.users[user := after])
         && (var t := after.walletTransactions[|before.walletTransactions|];
             && t.kind == kind && t.description == description && t.date == now
             && (num >= 0 ==> -(den as int) < 2 * (t.amount * den - num) <= den)
             && (num < 0 ==> -(den as int) <= 2 * (t.amount * den - num) < den))
  {
    if user !in s.users then Fail(s, UserNotFound)
    else
      var u := s.users[user];
      var tx := WalletTx(kind, Money.Round2(num, den), description, now);
      var recorded := u.(walletTransactions := u.walletTransactions + [tx]);
      assert recorded.walletTransactions[..|u.walletTransactions|] == u.walletTransactions;
      Done(s.(users := s.users[user := recorded]), u)
  }

  /**
   * Recording a non-zero transaction on its own moves the ledger but not the balance, so a
   * wallet whose balance matched its ledger no longer does.
   */
  lemma RecordingAloneUnbalances(s: Store, user: Id, kind: TxKind, amount: Cents, description: string, now: int)
    requires user in s.users && Wallet.Balanced(s.users[user]) && amount != 0
    ensures var after := RecordWalletTransaction(s, user, kind, amount, 1, description, now).store.users[user];
            !Wallet.Balanced(after)
  {
    Money.Round2OfWholeCents(amount, 1);
    var u := s.users[user];
    var tx := WalletTx(kind, amount, description, now);
    Wallet.LedgerSumAppend(u.walletTransactions, tx);
  }
}

=== FILE: product_controller.dfy ===
/**
 * The admin product screens (src/controllers/productController.js): adding a product after
 * the image and field checks, the listing toggle, and the edit form's stock and image rules.
 * Image uploads are function parameters from a file's content to its stored URL; the product
 * schema's defaults are the `blank` product parameter.
 */
module ProductController {
  import opened Wrappers
  import opened Tables
  import opened Records

  /**
   * The add form's fields as the multipart parser delivers them: text, with an absent or empty
   * field falsy. A price or stock of "0" is therefore truthy.
   */
  datatype ProductForm = ProductForm(
    name: Option<string>,
    description: Option<string>,
    price: Option<string>,
    categoryId: Option<Id>,
    stock: Option<string>)

  /** `uploadProductImages`: the URLs of the main image and of the support images. */
  type UploadFn = (string, seq<string>) -> (string, seq<string>)

  /** Mongoose's cast of a form's text to the stored number, None when the cast fails at save. */
  type CastFn = string -> Option<int>

  /** No two products share a name. */
  predicate NamesUnique(products: map<Id, Product>) {
    forall a, b :: a in products && b in products && products[a].name == products[b].name ==> a == b
  }

  function Named(name: string): Product -> bool {
    (p: Product) => p.name == name
  }

  /**
   * The upload middleware's `maxCount`s: at most one main image and two support images. A
   * further file is refused before the handler runs, and the error handler answers 500.
   */
  predicate WithinFileLimits(mainImages: seq<string>, supportImages: seq<string>) {
    |mainImages| <= 1 && |supportImages| <= 2
  }

  /** The upload middleware's refusal of a file beyond a `maxCount`, as the error handler answers it. */
  const UnexpectedFile := Reply(500, "Unexpected field")

  /** A save whose text Mongoose cannot cast to a number, as the error handler answers it. */
  const SaveRefused := Reply(500, "Product validation failed")

  /** The four fields addProduct insists on, each required to be truthy text. */
  predicate HasRequiredFields(f: ProductForm) {
    Truthy(f.name) && Truthy(f.price) && f.categoryId.Some? && Truthy(f.stock)
  }

  /** A main image and exactly two support images. */
  predicate HasImages(mainImages: seq<string>, supportImages: seq<string>) {
    |mainImages| > 0 && |supportImages| == 2
  }

  /** The form's price and stock both cast to numbers. */
  predicate Castable(f: ProductForm, cast: CastFn) {
    f.price.Some? && f.stock.Some? && cast(f.price.value).Some? && cast(f.stock.value).Some?
  }

  /** The product addProduct saves: the given fields and the uploaded URLs over the schema defaults. */
  function NewProduct(
    blank: Product, name: string, description: Option<string>, price: Cents, categoryId: Id, stock: int,
    urls: (string, seq<string>)): (p: Product)
    ensures p.name == name && p.price == price && p.categoryId == categoryId && p.stock == stock
    ensures p.description == description.GetOr(blank.description)
    ensures p.images == Images(urls.0, urls.1)
    ensures p.isActive == blank.isActive && p.isOutOfStock == blank.isOutOfStock && p.popularity == blank.popularity
  {
    blank.(
      name := name, description := description.GetOr(blank.description),
      price := price, categoryId := categoryId, stock := stock,
      images := Images(urls.0, urls.1))
  }

  /** The product an accepted add form saves. */
  function FormProduct(blank: Product, f: ProductForm, cast: CastFn, urls: (string, seq<string>)): Product
    requires HasRequiredFields(f) && Castable(f, cast)
  {
    NewProduct(blank, f.name.value, f.description, cast(f.price.value).value, f.categoryId.value,
      cast(f.stock.value).value, urls)
  }

  /**
   * addProduct behind the upload middleware: 500 for a file beyond the limits; 400 unless there
   * is a main image and two support images; then 400 when a required field is falsy; then 400
   * when the name is taken; then 500 when the price or stock does not cast; otherwise the
   * product is saved under a fresh id and the admin is redirected to the product list.
   */
  function AddProduct(
    s: Store, f: ProductForm, mainImages: seq<string>, supportImages: seq<string>,
    upload: UploadFn, cast: CastFn, blank: Product): (r: (Store, Reply))
    ensures !WithinFileLimits(mainImages, supportImages) ==> r == (s, UnexpectedFile)
    ensures WithinFileLimits(mainImages, supportImages) && !HasImages(mainImages, supportImages) ==>
      r == (s, Reply(400, "Please provide exactly one main image and two support images."))
    ensures WithinFileLimits(mainImages, supportImages) && HasImages(mainImages, supportImages) && !HasRequiredFields(f) ==>
      r == (s, Reply(400, "Please fill all required fields"))
    ensures WithinFileLimits(mainImages, supportImages) && HasImages(mainImages, supportImages) && HasRequiredFields(f)
            && (exists k :: k in s.products && s.products[k].name == f.name.value) ==>
      r == (s, Reply(400, "Product with this name already exists"))
    ensures WithinFileLimits(mainImages, supportImages) && HasImages(mainImages, supportImages) && HasRequiredFields(f)
            && (forall k :: k in s.products ==> s.products[k].name != f.name.value) && !Castable(f, cast) ==>
      r == (s, SaveRefused)
    ensures r.1.status == 302 <==>
      && WithinFileLimits(mainImages, supportImages) && HasImages(mainImages, supportImages) && HasRequiredFields(f)
      && (forall k :: k in s.products ==> s.products[k].name != f.name.value) && Castable(f, cast)
    ensures r.1.status != 302 ==> r.0 == s
    ensures r.1.status == 302 ==> r.1.message == "/admin/products" && exists id: Id ::
      id !in s.products
      && r.0 == s.(products := s.products[id := FormProduct(blank, f, cast, upload(mainImages[0], supportImages))])
  {
    if !WithinFileLimits(mainImages, supportImages) then (s, UnexpectedFile)
    else if !HasImages(mainImages, supportImages) then
      (s, Reply(400, "Please provide exactly one main image and two support images."))
    else
      var urls := upload(mainImages[0], supportImages);
      if !HasRequiredFields(f) then (s, Reply(400, "Please fill all required fields"))
      else if FindFirst(s.products, Named(f.name.value)).Some? then
        (s, Reply(400, "Product with this name already exists"))
      else if !Castable(f, cast) then (s, SaveRefused)
      else
        var id := NextId(s.products);
        (s.(products := s.products[id := FormProduct(blank, f, cast, urls)]), Reply(302, "/admin/products"))
  }

  /** Adding never gives two products the same name. */
  lemma {:induction false} AddProductKeepsNamesUnique(
    s: Store, f: ProductForm, mainImages: seq<string>, supportImages: seq<string>,
    upload: UploadFn, cast: CastFn, blank: Product)
    requires NamesUnique(s.products)
    ensures NamesUnique(AddProduct(s, f, mainImages, supportImages, upload, cast, blank).0.products)
  {
    var r := AddProduct(s, f, mainImages, supportImages, upload, cast, blank);
    if r.1.status == 302 {
      var id: Id :| id !in s.products
        && r.0 == s.(products := s.products[id := FormProduct(blank, f, cast, upload(mainImages[0], supportImages))]);
      forall a, b | a in r.0.products && b in r.0.products && r.0.products[a].name == r.0.products[b].name
        ensures a == b
      {
        if a != id && b != id {
          assert s.products[a].name == s.products[b].name;
        }
      }
    }
  }

  /**
   * A stock written as "0" is truthy text, so an otherwise valid form is saved with stock 0
   * and the schema's out-of-stock flag.
   */
  lemma ZeroStockIsAccepted(
    s: Store, f: ProductForm, mainImages: seq<string>, supportImages: seq<string>,
    upload: UploadFn, cast: CastFn, blank: Product)
    requires |mainImages| == 1 && |supportImages| == 2
    requires Truthy(f.name) && Truthy(f.price) && f.categoryId.Some? && f.stock == Some("0")
    requires cast(f.price.value).Some? && cast("0") == Some(0)
    requires forall k :: k in s.products ==> s.products[k].name != f.name.value
    ensures var r := AddProduct(s, f, mainImages, supportImages, upload, cast, blank);
      && r.1 == Reply(302, "/admin/products")
      && exists id :: id !in s.products && id in r.0.products
           && r.0.products[id].stock == 0 && r.0.products[id].isOutOfStock == blank.isOutOfStock
  {
    var r := AddProduct(s, f, mainImages, supportImages, upload, cast, blank);
    var id: Id :| id !in s.products
      && r.0 == s.(products := s.products[id := FormProduct(blank, f, cast, upload(mainImages[0], supportImages))]);
    assert r.0.products[id].stock == 0;
  }

  /** toggleProductStatus: 404 "Product not found", otherwise the listing flag is negated. */
  function ToggleProductStatus(s: Store, id: Id): (r: (Store, Reply))
    ensures r.1.status == 404 <==> id !in s.products
    ensures id !in s.products ==> r == (s, Reply(404, "Product not found"))
    ensures id in s.products ==>
      && r.1 == Reply(302, "/admin/products")
      && id in r.0.products && r.0.products[id].isActive == !s.products[id].isActive
      && r.0 == s.(products := s.products[id := s.products[id].(isActive := r.0.products[id].isActive)])
  {
    if id !in s.products then (s, Reply(404, "Product not found"))
    else
      var p := s.products[id].(isActive := !s.products[id].isActive);
      (s.(products := s.products[id := p]), Reply(302, "/admin/products"))
  }

  /** Toggling twice restores the store. */
  lemma ToggleProductTwiceRestores(s: Store, id: Id)
    ensures ToggleProductStatus(ToggleProductStatus(s, id).0, id).0 == s
  {
    if id in s.products {
      var s1 := ToggleProductStatus(s, id).0;
      assert s1.products[id].(isActive := !s1.products[id].isActive) == s.products[id];
      assert s1.products[id := s.products[id]] == s.products;
    }
  }

  /**
   * The edit form's fields as the multipart parser delivers them. The name, category and
   * description are taken as sent; the price is text Mongoose casts on save; the stock is
   * text that may be absent or empty.
   */
  datatype ProductEdit = ProductEdit(
    name: string,
    price: string,
    categoryId: Id,
    stock: Option<string>,
    description: string)

  /** `stock || 0`: a truthy stock's cast, else 0; None when a truthy stock does not cast. */
  function EditedStock(stock: Option<string>, cast: CastFn): (r: Option<int>)
    ensures !Truthy(stock) ==> r == Some(0)
    ensures Truthy(stock) ==> r == cast(stock.value)
  {
    if Truthy(stock) then cast(stock.value) else Some(0)
  }

  /** The edit's price and stock both reach the save as numbers. */
  predicate EditCastable(e: ProductEdit, cast: CastFn) {
    cast(e.price).Some? && EditedStock(e.stock, cast).Some?
  }

  /** The images after an edit: each part is replaced only when a new file for it was sent. */
  function EditedImages(
    prior: Images, newMains: seq<string>, newSupports: seq<string>,
    uploadOne: string -> string, uploadMany: seq<string> -> seq<string>): (r: Images)
    ensures r.main == (if |newMains| > 0 then uploadOne(newMains[0]) else prior.main)
    ensures r.supports == (if |newSupports| > 0 then uploadMany(newSupports) else prior.supports)
    ensures newMains == [] && newSupports == [] ==> r == prior
  {
    Images(
      if |newMains| > 0 then uploadOne(newMains[0]) else prior.main,
      if |newSupports| > 0 then uploadMany(newSupports) else prior.supports)
  }

  /**
   * updateProduct behind the upload middleware: 500 for a file beyond the limits; 404
   * "Product not found"; 500 when the price or a truthy stock does not cast; otherwise name,
   * price, category and description are overwritten (with no uniqueness check), a falsy stock
   * becomes 0, the out-of-stock flag is set exactly when the stock field is falsy, and images
   * are kept unless new ones were sent.
   */
  function UpdateProduct(
    s: Store, id: Id, e: ProductEdit, newMains: seq<string>, newSupports: seq<string>,
    uploadOne: string -> string, uploadMany: seq<string> -> seq<string>, cast: CastFn): (r: (Store, Reply))
    ensures !WithinFileLimits(newMains, newSupports) ==> r == (s, UnexpectedFile)
    ensures WithinFileLimits(newMains, newSupports) && id !in s.products ==> r == (s, Reply(404, "Product not found"))
    ensures WithinFileLimits(newMains, newSupports) && id in s.products && !EditCastable(e, cast) ==> r == (s, SaveRefused)
    ensures r.1.status == 302 <==> WithinFileLimits(newMains, newSupports) && id in s.products && EditCastable(e, cast)
    ensures r.1.status != 302 ==> r.0 == s
    ensures r.1.status == 302 ==>
      && r.1 == Reply(302, "/admin/products/")
      && r.0 == s.(products := r.0.products) && r.0.products.Keys == s.products.Keys
      && (forall k :: k in s.products && k != id ==> r.0.products[k] == s.products[k])
      && var p := r.0.products[id];
      && p.name == e.name && Some(p.price) == cast(e.price) && p.categoryId == e.categoryId && p.description == e.description
      && Some(p.stock) == EditedStock(e.stock, cast)
      && (p.isOutOfStock <==> !Truthy(e.stock))
      && p.images == EditedImages(s.products[id].images, newMains, newSupports, uploadOne, uploadMany)
      && p.isActive == s.products[id].isActive && p.popularity == s.products[id].popularity
      && p.offerId == s.products[id].offerId
  {
    if !WithinFileLimits(newMains, newSupports) then (s, UnexpectedFile)
    else if id !in s.products then (s, Reply(404, "Product not found"))
    else
      var p := s.products[id];
      var images := EditedImages(p.images, newMains, newSupports, uploadOne, uploadMany);
      if !EditCastable(e, cast) then (s, SaveRefused)
      else
        var edited := p.(
          name := e.name, price := cast(e.price).value, categoryId := e.categoryId,
          stock := EditedStock(e.stock, cast).value, isOutOfStock := !Truthy(e.stock), description := e.description,
          images := images);
        (s.(products := s.products[id := edited]), Reply(302, "/admin/products/"))
  }

  /** Sending the same edit twice, with no new files, leaves the store as sending it once. */
  lemma UpdateTwiceIsUpdateOnce(
    s: Store, id: Id, e: ProductEdit, uploadOne: string -> string, uploadMany: seq<string> -> seq<string>, cast: CastFn)
    ensures var once := UpdateProduct(s, id, e, [], [], uploadOne, uploadMany, cast);
      UpdateProduct(once.0, id, e, [], [], uploadOne, uploadMany, cast) == once
  {
    var once := UpdateProduct(s, id, e, [], [], uploadOne, uploadMany, cast);
    if once.1.status == 302 {
      var twice := UpdateProduct(once.0, id, e, [], [], uploadOne, uploadMany, cast);
      assert twice.0.products[id] == once.0.products[id];
      assert twice.0.products == once.0.products;
    }
  }

  /**
   * Any non-empty stock text is truthy: it is stored as cast and the product stays in stock,
   * whether it reads "0" or a negative number.
   */
  lemma WrittenStockIsInStock(
    s: Store, id: Id, e: ProductEdit, uploadOne: string -> string, uploadMany: seq<string> -> seq<string>,
    cast: CastFn, n: int)
    requires id in s.products && e.stock.Some? && e.stock.value != "" && cast(e.stock.value) == Some(n)
    requires cast(e.price).Some?
    ensures var p := UpdateProduct(s, id, e, [], [], uploadOne, uploadMany, cast).0.products[id];
      p.stock == n && !p.isOutOfStock && p.images == s.products[id].images
  {
  }

  /** A stock of "0" is saved as 0 with the product still marked in stock. */
  lemma ZeroStockEditIsInStock(
    s: Store, id: Id, e: ProductEdit, uploadOne: string -> string, uploadMany: seq<string> -> seq<string>, cast: CastFn)
    requires id in s.products && e.stock == Some("0") && cast("0") == Some(0) && cast(e.price).Some?
    ensures var p := UpdateProduct(s, id, e, [], [], uploadOne, uploadMany, cast).0.products[id];
      p.stock == 0 && !p.isOutOfStock
  {
    WrittenStockIsInStock(s, id, e, uploadOne, uploadMany, cast, 0);
  }

  /** An absent or empty stock field stores 0 and marks the product out of stock. */
  lemma BlankStockIsOutOfStock(
    s: Store, id: Id, e: ProductEdit, uploadOne: string -> string, uploadMany: seq<string> -> seq<string>, cast: CastFn)
    requires id in s.products && !Truthy(e.stock) && cast(e.price).Some?
    ensures var p := UpdateProduct(s, id, e, [], [], uploadOne, uploadMany, cast).0.products[id];
      p.stock == 0 && p.isOutOfStock
  {
  }

  /** Edits do not check names, so a product can be renamed to another product's name. */
  lemma UpdateCanDuplicateName(
    s: Store, a: Id, b: Id, e: ProductEdit, uploadOne: string -> string, uploadMany: seq<string> -> seq<string>,
    cast: CastFn)
    requires a in s.products && b in s.products && a != b && e.name == s.products[a].name && EditCastable(e, cast)
    ensures !NamesUnique(UpdateProduct(s, b, e, [], [], uploadOne, uploadMany, cast).0.products)
  {
    var after := UpdateProduct(s, b, e, [], [], uploadOne, uploadMany, cast).0.products;
    assert after[a].name == after[b].name;
  }
}

=== FILE: records.dfy ===
/**
 * The storefront's documents and the in-memory store that replaces the database.
 * Fields follow the documents the services read and write; amounts are cents
 * (module Money) and instants are milliseconds since the epoch.
 */
module Records {
  import opened Wrappers
  import opened Tables
  import Money
  import Text

  type Cents = Money.Cents

  /** JavaScript truthiness of an optional string: present and not empty. */
  predicate Truthy(s: Option<string>) {
    s.Some? && s.value != ""
  }

  /** JavaScript truthiness of an optional number: present and not zero. */
  predicate TruthyAmount(n: Option<int>) {
    n.Some? && n.value != 0
  }

  datatype Images = Images(main: string, supports: seq<string>)

  datatype Product = Product(
    name: string,
    description: string,
    price: Cents,
    categoryId: Id,
    stock: int,
    isOutOfStock: bool,
    isActive: bool,
    popularity: int,
    averageRatings: int,
    featured: bool,
    createdAt: int,
    offerId: Option<Id>,
    images: Images)

  datatype Category = Category(
    name: string,
    description: string,
    isActive: bool,
    offerId: Option<Id>)

  /** An offer; `kind` is the document's `type` field: "product", "category" or "referral". */
  datatype Offer = Offer(
    kind: string,
    product: Option<Id>,
    category: Option<Id>,
    discountType: string,
    discountValue: int,
    maxDiscountAmount: Option<int>,
    minCartValue: Option<int>,
    validFrom: int,
    validUntil: int,
    referralBonus: Option<int>,
    status: string)

  /** A coupon; a percentage `discountValue` is in hundredths of a percent, a fixed one in cents. */
  datatype Coupon = Coupon(
    code: string,
    discountType: string,
    discountValue: int,
    maxDiscountValue: Option<int>,
    minCartValue: Option<int>,
    validFrom: int,
    validUntil: int,
    usageLimit: int,
    isActive: bool)

  /** One cart line: a snapshot of the product's name and price when the line was created. */
  datatype CartLine = CartLine(
    productId: Id,
    name: string,
    image: string,
    price: Cents,
    quantity: int,
    subtotal: Cents)

  datatype Cart = Cart(
    user: Id,
    items: seq<CartLine>,
    total: Cents,
    shippingCharge: Cents,
    appliedCoupon: Option<string>,
    discountApplied: Cents,
    finalTotal: Cents)

  /**
   * `Cart.calculateTotals`, defined in the cart model, which is not part of this model: given
   * the cart it yields the new `total` and `finalTotal`, and it writes nothing else.
   */
  type TotalsFn = Cart -> (Cents, Cents)

  /** `Date.prototype.toDateString`, which renders a date as text; the calendar is not part of this model. */
  type DateStringFn = int -> string

  function WithTotals(c: Cart, totals: TotalsFn): (r: Cart)
    ensures r.items == c.items && r.user == c.user
    ensures r.appliedCoupon == c.appliedCoupon && r.discountApplied == c.discountApplied
    ensures r.shippingCharge == c.shippingCharge
    ensures (r.total, r.finalTotal) == totals(c)
  {
    var (t, f) := totals(c);
    c.(total := t, finalTotal := f)
  }

  datatype OrderItem = OrderItem(product: Id, quantity: int)

  datatype Shipping = Shipping(
    name: string,
    mobile: string,
    alternateMobile: string,
    location: string,
    city: string,
    state: string,
    landmark: string,
    zip: string)

  /** Order statuses the services compare against; the field itself holds any string. */
  const Pending := "Pending"
  const Processed := "Processed"
  const Shipped := "Shipped"
  const Delivered := "Delivered"
  const Cancelled := "Cancelled"

  datatype Order = Order(
    user: Id,
    shipping: Shipping,
    orderItems: seq<Id>,
    shippingCharge: Cents,
    totalAmount: Cents,
    discountApplied: Cents,
    finalTotal: Cents,
    appliedCoupon: Option<string>,
    paymentMethod: Option<string>,
    status: string,
    isCancelled: bool,
    dateOrdered: int)

  datatype TxKind = Credit | Debit

  datatype WalletTx = WalletTx(kind: TxKind, amount: Cents, description: string, date: int)

  datatype User = User(
    firstName: string,
    lastName: string,
    email: string,
    password: string,
    mobile: string,
    status: string,
    isGoogleUser: bool,
    walletBalance: Cents,
    walletTransactions: seq<WalletTx>,
    wishlist: seq<Id>,
    addresses: seq<Id>)

  datatype Address = Address(
    user: Id,
    location: string,
    city: string,
    state: string,
    country: string,
    zip: string,
    addressType: string,
    customName: string,
    landmark: Option<string>,
    isDefault: bool)

  /** The database: one id-keyed table per collection. */
  datatype Store = Store(
    products: map<Id, Product>,
    categories: map<Id, Category>,
    offers: map<Id, Offer>,
    coupons: map<Id, Coupon>,
    carts: map<Id, Cart>,
    orderItems: map<Id, OrderItem>,
    orders: map<Id, Order>,
    users: map<Id, User>,
    addresses: map<Id, Address>)

  /**
   * The errors the services throw, one per message; `Crash` is the TypeError of reading a
   * field of a document that does not exist.
   */
  datatype Err =
    | CartNotFound
    | ProductNotFound
    | UserNotFound
    | OrderNotFound
    | AddressNotFound
    | CategoryNotFound
    | InvalidCoupon
    | CouponNotValidNow(code: string, validFrom: int, validUntil: int, fromText: string, untilText: string)
    | CouponAlreadyApplied
    | NoCouponApplied
    | EmptyCart
    | NotOrderOwner
    | AlreadyCancelled
    | CannotCancel
    | CodLimitExceeded
    | InsufficientBalance(required: Cents, available: Cents)
    | CategoryNameRequired
    | CategoryExists
    | CategoryInUse(productCount: nat)
    | EmailInUse
    | AlreadyInWishlist
    | UserAlreadyExists
    | Crash(reading: string)

  /** The limit above which cash on delivery is refused, in cents (1000 rupees). */
  const CodLimit: Cents := 100000

  /** The message of a coupon used outside its validity window. */
  function WindowMessage(code: string, fromText: string, untilText: string): string {
    "Coupon " + code + " is " + "not valid at this time" + ". Valid from " + fromText + " to " + untilText
  }

  /**
   * The text of each error. The coupon-window message names the two dates as the error
   * carries them, already rendered by `Date.toDateString`.
   */
  function Message(e: Err): string {
    match e
    case CartNotFound => "Cart not found"
    case ProductNotFound => "Product not found"
    case UserNotFound => "User not found"
    case OrderNotFound => "Order not found"
    case AddressNotFound => "Address not found"
    case CategoryNotFound => "Category not found"
    case InvalidCoupon => "Invalid or inactive coupon code"
    case CouponNotValidNow(code, _, _, fromText, untilText) => WindowMessage(code, fromText, untilText)
    case CouponAlreadyApplied => "A coupon has already been applied to this cart"
    case NoCouponApplied => "No coupon applied to this cart"
    case EmptyCart => "Cannot place order with empty cart"
    case NotOrderOwner => "Unauthorized to cancel this order"
    case AlreadyCancelled => "Order is already cancelled"
    case CannotCancel => "Order cannot be cancelled at this stage. Please contact support."
    case CodLimitExceeded => "Cash on Delivery is not available for orders above \U{20B9}" + Money.MoneyText(CodLimit)
    case InsufficientBalance(required, available) =>
      "Insufficient wallet balance. Required: \U{20B9}" + Money.MoneyText(required)
      + ", Available: \U{20B9}" + Money.MoneyText(available)
    case CategoryNameRequired => "Category name is required"
    case CategoryExists => "Category already exists"
    case CategoryInUse(n) =>
      "Cannot delete category. There are " + Text.NatToString(n) + " product(s) associated with this category."
    case EmailInUse => "Email already in use"
    case AlreadyInWishlist => "Product is already in the wishlist"
    case UserAlreadyExists => "User Already Exists"
    case Crash(field) => "Cannot read properties of null (reading '" + field + "')"
  }

  /**
   * The result of one service call: the store after every write the call made (also when it
   * then failed, since no call runs in a transaction) and what it returned or threw.
   */
  datatype Step<T> = Step(store: Store, result: Result<T, Err>)

  function Fail<T>(s: Store, e: Err): Step<T> {
    Step(s, Failure(e))
  }

  function Done<T>(s: Store, v: T): Step<T> {
    Step(s, Success(v))
  }

  /** An HTTP reply: status code and the `message` (or `error`) text of the body. */
  datatype Reply = Reply(status: nat, message: string)
}

=== FILE: sales_report.dfy ===
/**
 * The admin sales report (src/controllers/admin/salesReportController.js): the reporting
 * period, the per-day fold of the orders in it with its summary, the chart series and the best
 * sellers. Calendar arithmetic (moment, `$dateToString`, `$isoWeek`) enters as functions.
 */
module SalesReport {
  import opened Wrappers
  import opened Tables
  import opened Records
  import opened Seqs
  import Text

  /** Calendar units of `startOf` / `endOf`. */
  datatype Period = Day | Week | Month | Year

  /** The first and last instant of the period that contains an instant (moment `startOf`/`endOf`). */
  type CalendarFn = (Period, int) -> (int, int)

  /** A calendar whose periods contain the instants they are asked about. */
  ghost predicate CalendarSound(cal: CalendarFn) {
    forall p, t :: cal(p, t).0 <= t <= cal(p, t).1
  }

  /** getDateRange: the current day, week, month or year; any other filter gives no bounds. */
  function GetDateRange(filter: string, now: int, cal: CalendarFn): (r: Option<(int, int)>)
    ensures r.Some? <==> filter in {"Daily", "Weekly", "Monthly", "Yearly"}
    ensures filter == "Daily" ==> r == Some(cal(Day, now))
    ensures filter == "Weekly" ==> r == Some(cal(Week, now))
    ensures filter == "Monthly" ==> r == Some(cal(Month, now))
    ensures filter == "Yearly" ==> r == Some(cal(Year, now))
  {
    match filter
    case "Daily" => Some(cal(Day, now))
    case "Weekly" => Some(cal(Week, now))
    case "Monthly" => Some(cal(Month, now))
    case "Yearly" => Some(cal(Year, now))
    case _ => None
  }

  /** With a sound calendar every named range contains the present moment. */
  lemma DateRangeContainsNow(filter: string, now: int, cal: CalendarFn)
    requires CalendarSound(cal)
    requires GetDateRange(filter, now, cal).Some?
    ensures var r := GetDateRange(filter, now, cal).value; r.0 <= now <= r.1
  {
    var r := GetDateRange(filter, now, cal).value;
    assert r == cal(Day, now) || r == cal(Week, now) || r == cal(Month, now) || r == cal(Year, now);
  }

  /**
   * The period of getSalesReport: the two given days, from the start of the first to the end
   * of the second, when the filter asks for a custom range and both are given; otherwise
   * getDateRange. None stands for the null bounds.
   */
  function ReportRange(filter: string, startDate: Option<int>, endDate: Option<int>, now: int, cal: CalendarFn)
    : (r: Option<(int, int)>)
    ensures filter == "Custom Date Range" && startDate.Some? && endDate.Some? ==>
      r == Some((cal(Day, startDate.value).0, cal(Day, endDate.value).1))
    ensures !(filter == "Custom Date Range" && startDate.Some? && endDate.Some?) ==> r == GetDateRange(filter, now, cal)
    ensures r.None? <==>
      filter !in {"Daily", "Weekly", "Monthly", "Yearly"} && !(filter == "Custom Date Range" && startDate.Some? && endDate.Some?)
  {
    if filter == "Custom Date Range" && startDate.Some? && endDate.Some? then
      Some((cal(Day, startDate.value).0, cal(Day, endDate.value).1))
    else
      GetDateRange(filter, now, cal)
  }

  /** Order documents in natural order, without their ids. */
  function Documents(rows: seq<(Id, Order)>): (r: seq<Order>)
    ensures |r| == |rows| && forall i :: 0 <= i < |rows| ==> r[i] == rows[i].1
  {
    seq(|rows|, i requires 0 <= i < |rows| => rows[i].1)
  }

  /** The report's `$match`: ordered within the period and not flagged cancelled; the status is not looked at. */
  function InReport(start: int, end: int): ((Id, Order)) -> bool {
    (row: (Id, Order)) => start <= row.1.dateOrdered <= end && !row.1.isCancelled
  }

  /** The orders of a period, in natural order. */
  function ReportOrders(s: Store, start: int, end: int): (r: seq<Order>)
    ensures forall i :: 0 <= i < |r| ==> start <= r[i].dateOrdered <= end && !r[i].isCancelled
    ensures forall i :: 0 <= i < |r| ==> exists k :: k in s.orders && s.orders[k] == r[i]
  {
    var rows := Filter(Rows(s.orders), InReport(start, end));
    ReportRowsSound(s, start, end, rows);
    Documents(rows)
  }

  lemma ReportRowsSound(s: Store, start: int, end: int, rows: seq<(Id, Order)>)
    requires rows == Filter(Rows(s.orders), InReport(start, end))
    ensures forall i :: 0 <= i < |rows| ==>
      start <= rows[i].1.dateOrdered <= end && !rows[i].1.isCancelled && rows[i].0 in s.orders && s.orders[rows[i].0] == rows[i].1
  {
    forall i | 0 <= i < |rows|
      ensures start <= rows[i].1.dateOrdered <= end && !rows[i].1.isCancelled
      ensures rows[i].0 in s.orders && s.orders[rows[i].0] == rows[i].1
    {
      assert InReport(start, end)(rows[i]);
      assert rows[i] in Rows(s.orders);
    }
  }

  /** Every order of the period that is not flagged cancelled is in the report, whatever its status. */
  lemma ReportOrdersComplete(s: Store, start: int, end: int, k: Id)
    requires k in s.orders && start <= s.orders[k].dateOrdered <= end && !s.orders[k].isCancelled
    ensures s.orders[k] in ReportOrders(s, start, end)
  {
    var all := Rows(s.orders);
    var rows := Filter(all, InReport(start, end));
    var m :| 0 <= m < |all| && all[m] == (k, s.orders[k]);
    assert InReport(start, end)(all[m]);
    var j :| 0 <= j < |rows| && rows[j] == (k, s.orders[k]);
    ReportOrdersAreDocuments(s, start, end);
    assert Documents(rows)[j] == s.orders[k];
  }

  /** The report's orders are the documents of the matching rows. */
  lemma ReportOrdersAreDocuments(s: Store, start: int, end: int)
    ensures ReportOrders(s, start, end) == Documents(Filter(Rows(s.orders), InReport(start, end)))
  {
  }

  /** One group of orders: its sort key, its title and the running sums. */
  datatype Bucket = Bucket(
    key: seq<int>,
    title: string,
    revenue: Cents,
    discount: Cents,
    net: Cents,
    orders: int,
    items: int)

  /** How an order is grouped: its key and the title its group shows. */
  type GroupFn = Order -> (seq<int>, string)

  /** The sums a bucket keeps, each the sum of one order field. */
  datatype Measure = Revenue | Discount | Net | Count | Items

  function OrderMeasure(m: Measure): Order -> int {
    (o: Order) =>
      match m
      case Revenue => o.totalAmount
      case Discount => o.discountApplied
      case Net => o.finalTotal
      case Count => 1
      case Items => |o.orderItems|
  }

  function BucketMeasure(m: Measure): Bucket -> int {
    (b: Bucket) =>
      match m
      case Revenue => b.revenue
      case Discount => b.discount
      case Net => b.net
      case Count => b.orders
      case Items => b.items
  }

  /** One more order in a bucket: every sum grows by that order's share (one order, its line count). */
  function Bump(b: Bucket, o: Order): (r: Bucket)
    ensures r.key == b.key && r.title == b.title
    ensures forall m :: BucketMeasure(m)(r) == BucketMeasure(m)(b) + OrderMeasure(m)(o)
  {
    b.(revenue := b.revenue + o.totalAmount, discount := b.discount + o.discountApplied,
       net := b.net + o.finalTotal, orders := b.orders + 1, items := b.items + |o.orderItems|)
  }

  function FindBucket(bs: seq<Bucket>, key: seq<int>): (r: Option<nat>)
    ensures r.Some? ==> r.value < |bs| && bs[r.value].key == key
    ensures r.None? <==> forall i :: 0 <= i < |bs| ==> bs[i].key != key
    decreases |bs|
  {
    if bs == [] then None
    else if bs[0].key == key then Some(0)
    else
      match FindBucket(bs[1..], key)
      case None => None
      case Some(i) => Some(i + 1)
  }

  predicate DistinctKeys(bs: seq<Bucket>) {
    forall i, j :: 0 <= i < j < |bs| ==> bs[i].key != bs[j].key
  }

  /** Every order has the bucket of its key. */
  predicate Covers(os: seq<Order>, g: GroupFn, bs: seq<Bucket>) {
    forall i :: 0 <= i < |os| ==> exists j :: 0 <= j < |bs| && bs[j].key == g(os[i]).0
  }

  /** Every bucket has an order of its key and takes its title from one. */
  predicate Grounded(os: seq<Order>, g: GroupFn, bs: seq<Bucket>) {
    forall j :: 0 <= j < |bs| ==> exists i :: 0 <= i < |os| && g(os[i]) == (bs[j].key, bs[j].title)
  }

  /** The reduce step: the order's bucket grows, or a new bucket is appended for a new key. */
  function AddOrder(bs: seq<Bucket>, g: GroupFn, o: Order): seq<Bucket> {
    match FindBucket(bs, g(o).0)
    case Some(i) => bs[i := Bump(bs[i], o)]
    case None => bs + [Bump(Bucket(g(o).0, g(o).1, 0, 0, 0, 0, 0), o)]
  }

  /**
   * `orders.reduce` into an object keyed by the group: the buckets in the order their keys
   * first appear, one per key, each named after an order of it.
   */
  function Tally(os: seq<Order>, g: GroupFn): (r: seq<Bucket>)
    ensures DistinctKeys(r)
    decreases |os|
  {
    if os == [] then []
    else
      var prefix := os[..|os| - 1];
      var bs := Tally(prefix, g);
      AddOrderShape(bs, g, os[|os| - 1]);
      AddOrder(bs, g, os[|os| - 1])
  }

  lemma AddOrderKeeps(os: seq<Order>, o: Order, g: GroupFn, bs: seq<Bucket>)
    requires DistinctKeys(bs) && Covers(os, g, bs)
    ensures Covers(os + [o], g, AddOrder(bs, g, o))
  {
    AddOrderShape(bs, g, o);
    var r := AddOrder(bs, g, o);
    var all := os + [o];
    forall i | 0 <= i < |all| ensures exists j :: 0 <= j < |r| && r[j].key == g(all[i]).0 {
      if i < |os| {
        assert all[i] == os[i];
        var j :| 0 <= j < |bs| && bs[j].key == g(os[i]).0;
        assert r[j].key == bs[j].key;
      } else {
        assert all[i] == o;
      }
    }
  }

  lemma AddOrderKeepsGrounded(os: seq<Order>, o: Order, g: GroupFn, bs: seq<Bucket>)
    requires DistinctKeys(bs) && Grounded(os, g, bs)
    ensures Grounded(os + [o], g, AddOrder(bs, g, o))
  {
    AddOrderShape(bs, g, o);
    var r := AddOrder(bs, g, o);
    var all := os + [o];
    forall j | 0 <= j < |r| ensures exists i :: 0 <= i < |all| && g(all[i]) == (r[j].key, r[j].title) {
      if j < |bs| {
        var i :| 0 <= i < |os| && g(os[i]) == (bs[j].key, bs[j].title);
        assert all[i] == os[i];
      } else {
        assert all[|os|] == o;
      }
    }
  }

  /** Every order has its bucket. */
  lemma {:induction false} TallyCovers(os: seq<Order>, g: GroupFn)
    ensures Covers(os, g, Tally(os, g))
    decreases |os|
  {
    if os != [] {
      var prefix := os[..|os| - 1];
      TallyCovers(prefix, g);
      AddOrderKeeps(prefix, os[|os| - 1], g, Tally(prefix, g));
      assert os == prefix + [os[|os| - 1]];
    }
  }

  /** Every bucket is named after an order of its key. */
  lemma {:induction false} TallyGrounded(os: seq<Order>, g: GroupFn)
    ensures Grounded(os, g, Tally(os, g))
    decreases |os|
  {
    if os != [] {
      var prefix := os[..|os| - 1];
      TallyGrounded(prefix, g);
      AddOrderKeepsGrounded(prefix, os[|os| - 1], g, Tally(prefix, g));
      assert os == prefix + [os[|os| - 1]];
    }
  }

  /** What the reduce step does to the list of buckets, key by key. */
  lemma AddOrderShape(bs: seq<Bucket>, g: GroupFn, o: Order)
    requires DistinctKeys(bs)
    ensures var r := AddOrder(bs, g, o);
      && |bs| <= |r| <= |bs| + 1
      && (forall j :: 0 <= j < |bs| ==> r[j].key == bs[j].key && r[j].title == bs[j].title)
      && (|r| == |bs| + 1 ==> r[|bs|].key == g(o).0 && r[|bs|].title == g(o).1 && forall j :: 0 <= j < |bs| ==> bs[j].key != g(o).0)
      && (exists j :: 0 <= j < |r| && r[j].key == g(o).0)
      && DistinctKeys(r)
  {
    var r := AddOrder(bs, g, o);
    match FindBucket(bs, g(o).0)
    case Some(i) =>
      assert r[i].key == g(o).0;
    case None =>
      assert r[|bs|].key == g(o).0;
  }

  /** Adding an order to the buckets adds its share to the buckets' total. */
  lemma AddOrderSum(bs: seq<Bucket>, g: GroupFn, o: Order, m: Measure)
    ensures Sum(AddOrder(bs, g, o), BucketMeasure(m)) == Sum(bs, BucketMeasure(m)) + OrderMeasure(m)(o)
  {
    match FindBucket(bs, g(o).0)
    case Some(i) =>
      SumUpdate(bs, i, Bump(bs[i], o), BucketMeasure(m));
    case None =>
      var started := Bump(Bucket(g(o).0, g(o).1, 0, 0, 0, 0, 0), o);
      SumAppendOne(bs, started, BucketMeasure(m));
  }

  /** Whatever the grouping, the buckets together hold exactly the sums over all the orders. */
  lemma {:induction false} TallySum(os: seq<Order>, g: GroupFn, m: Measure)
    ensures Sum(Tally(os, g), BucketMeasure(m)) == Sum(os, OrderMeasure(m))
    decreases |os|
  {
    if os != [] {
      var prefix := os[..|os| - 1];
      var o := os[|os| - 1];
      TallySum(prefix, g, m);
      AddOrderSum(Tally(prefix, g), g, o, m);
      assert os == prefix + [o];
      SumAppendOne(prefix, o, OrderMeasure(m));
    }
  }

  function HasKey(g: GroupFn, key: seq<int>): Order -> bool {
    (o: Order) => g(o).0 == key
  }

  /** The reduce step changes at most the order's own bucket, or appends it. */
  lemma AddOrderAt(bs: seq<Bucket>, g: GroupFn, o: Order)
    requires DistinctKeys(bs)
    ensures var r := AddOrder(bs, g, o);
      && |bs| <= |r|
      && (forall j :: 0 <= j < |bs| ==> r[j] == if bs[j].key == g(o).0 then Bump(bs[j], o) else bs[j])
      && (|r| == |bs| + 1 ==> r[|bs|] == Bump(Bucket(g(o).0, g(o).1, 0, 0, 0, 0, 0), o))
  {
  }

  /** Each bucket holds exactly the sums over the orders of its key. */
  lemma {:induction false} TallyGroupSums(os: seq<Order>, g: GroupFn, m: Measure, j: nat)
    requires j < |Tally(os, g)|
    ensures var b := Tally(os, g)[j];
      BucketMeasure(m)(b) == Sum(Filter(os, HasKey(g, b.key)), OrderMeasure(m))
    decreases |os|
  {
    var prefix := os[..|os| - 1];
    var o := os[|os| - 1];
    var bs := Tally(prefix, g);
    assert os == prefix + [o];
    assert Tally(os, g) == AddOrder(bs, g, o);
    AddOrderShape(bs, g, o);
    if j < |bs| {
      TallyGroupSums(prefix, g, m, j);
      OldBucketStep(prefix, o, g, m, bs, j);
    } else {
      TallyCovers(prefix, g);
      NewBucketStep(prefix, o, g, m, bs);
    }
  }

  lemma OldBucketStep(prefix: seq<Order>, o: Order, g: GroupFn, m: Measure, bs: seq<Bucket>, j: nat)
    requires DistinctKeys(bs) && j < |bs|
    requires BucketMeasure(m)(bs[j]) == Sum(Filter(prefix, HasKey(g, bs[j].key)), OrderMeasure(m))
    ensures var r := AddOrder(bs, g, o);
      j < |r| && BucketMeasure(m)(r[j]) == Sum(Filter(prefix + [o], HasKey(g, r[j].key)), OrderMeasure(m))
  {
    AddOrderAt(bs, g, o);
    var r := AddOrder(bs, g, o);
    var key := bs[j].key;
    FilterAppendOne(prefix, o, HasKey(g, key));
    var selected := Filter(prefix, HasKey(g, key));
    if g(o).0 == key {
      assert r[j] == Bump(bs[j], o);
      assert Filter(prefix + [o], HasKey(g, key)) == selected + [o];
      SumAppendOne(selected, o, OrderMeasure(m));
    } else {
      assert r[j] == bs[j];
      assert Filter(prefix + [o], HasKey(g, key)) == selected;
    }
  }

  lemma NewBucketStep(prefix: seq<Order>, o: Order, g: GroupFn, m: Measure, bs: seq<Bucket>)
    requires DistinctKeys(bs) && Covers(prefix, g, bs)
    requires |AddOrder(bs, g, o)| == |bs| + 1
    ensures var r := AddOrder(bs, g, o);
      BucketMeasure(m)(r[|bs|]) == Sum(Filter(prefix + [o], HasKey(g, r[|bs|].key)), OrderMeasure(m))
  {
    AddOrderAt(bs, g, o);
    AddOrderShape(bs, g, o);
    var key := g(o).0;
    forall i | 0 <= i < |prefix| ensures !HasKey(g, key)(prefix[i]) {
      var k :| 0 <= k < |bs| && bs[k].key == g(prefix[i]).0;
    }
    FilterNone(prefix, HasKey(g, key));
    FilterAppendOne(prefix, o, HasKey(g, key));
    assert Filter(prefix + [o], HasKey(g, key)) == [o];
    assert Sum([o], OrderMeasure(m)) == OrderMeasure(m)(o) + Sum([o][1..], OrderMeasure(m));
  }

  /** Every bucket holds, for each measure, exactly the sum over the orders of its key. */
  predicate HoldsGroupSums(os: seq<Order>, g: GroupFn, bs: seq<Bucket>) {
    forall j, m :: 0 <= j < |bs| ==> BucketMeasure(m)(bs[j]) == Sum(Filter(os, HasKey(g, bs[j].key)), OrderMeasure(m))
  }

  lemma TallyHoldsGroupSums(os: seq<Order>, g: GroupFn)
    ensures HoldsGroupSums(os, g, Tally(os, g))
  {
    forall j, m | 0 <= j < |Tally(os, g)|
      ensures BucketMeasure(m)(Tally(os, g)[j]) == Sum(Filter(os, HasKey(g, Tally(os, g)[j].key)), OrderMeasure(m))
    {
      TallyGroupSums(os, g, m, j);
    }
  }

  /** The report's summary. */
  datatype Summary = Summary(totalSalesCount: int, overallOrderAmount: Cents, overallDiscount: Cents)

  /** The report: one bucket per day, in the order the days first appear, and the summary. */
  datatype Report = Report(data: seq<Bucket>, summary: Summary)

  /** The day of an order as `YYYY-MM-DD`, as the day's sort key and title. */
  function DayGroup(dayKey: int -> string): GroupFn {
    (o: Order) => (TextKey(dayKey(o.dateOrdered)), dayKey(o.dateOrdered))
  }

  /**
   * getSalesReport: without bounds `start.toDate()` fails on null and the catch answers 500;
   * otherwise the day buckets of the period's orders, and a summary whose count and sums agree
   * with the buckets'.
   */
  function GetSalesReport(s: Store, filter: string, startDate: Option<int>, endDate: Option<int>, now: int,
                          cal: CalendarFn, dayKey: int -> string): (r: Result<Report, Reply>)
    ensures r.Failure? <==> ReportRange(filter, startDate, endDate, now, cal).None?
    ensures r.Failure? ==> r.error == Reply(500, "Internal server error")
    ensures r.Success? ==>
      var range := ReportRange(filter, startDate, endDate, now, cal).value;
      var os := ReportOrders(s, range.0, range.1);
      && r.value.summary == Summary(|os|, Sum(os, OrderMeasure(Revenue)), Sum(os, OrderMeasure(Discount)))
      && r.value.summary.totalSalesCount == Sum(r.value.data, BucketMeasure(Count))
      && r.value.summary.overallOrderAmount == Sum(r.value.data, BucketMeasure(Revenue))
      && r.value.summary.overallDiscount == Sum(r.value.data, BucketMeasure(Discount))
      && DistinctKeys(r.value.data)
      && Covers(os, DayGroup(dayKey), r.value.data)
      && Grounded(os, DayGroup(dayKey), r.value.data)
      && HoldsGroupSums(os, DayGroup(dayKey), r.value.data)
  {
    match ReportRange(filter, startDate, endDate, now, cal)
    case None => Failure(Reply(500, "Internal server error"))
    case Some(range) =>
      var os := ReportOrders(s, range.0, range.1);
      var data := Tally(os, DayGroup(dayKey));
      TallyCovers(os, DayGroup(dayKey));
      TallyGrounded(os, DayGroup(dayKey));
      TallyHoldsGroupSums(os, DayGroup(dayKey));
      TallySum(os, DayGroup(dayKey), Count);
      TallySum(os, DayGroup(dayKey), Revenue);
      TallySum(os, DayGroup(dayKey), Discount);
      CountIsLength(os);
      Success(Report(data, Summary(|os|, Sum(os, OrderMeasure(Revenue)), Sum(os, OrderMeasure(Discount)))))
  }

  lemma {:induction false} CountIsLength(os: seq<Order>)
    ensures Sum(os, OrderMeasure(Count)) == |os|
    decreases |os|
  {
    if os != [] {
      CountIsLength(os[1..]);
    }
  }


  /** How getSalesData groups the orders of its window. */
  datatype Grouping = ByDay | ByIsoWeek | ByMonth | ByYear

  /** `$dateToString` of an instant with `%Y-%m-%d`, `%Y-%m` or `%Y`, by grouping. */
  type DateTextFn = (Grouping, int) -> string

  /** `$isoWeek` and `$isoWeekYear` of an instant. */
  type IsoWeekFn = int -> (int, int)

  /**
   * The start of a chart window ending now: six days, 28 days, eleven months or four years
   * back (`setDate`, `setMonth`, `setFullYear` on the current date), by period.
   */
  type LookbackFn = (Period, int) -> int

  /** The window and the grouping getSalesData uses. */
  datatype ChartPlan = ChartPlan(start: int, end: int, grouping: Grouping)

  /**
   * The plan of each filter (`req.query.filter || 'Monthly'`): the last seven days by day, four
   * weeks by ISO week, twelve months by month, five years by year, a custom range by day; any
   * other filter is charted like "Monthly".
   */
  function PlanFor(filter: string, now: int, lookback: LookbackFn, customStart: int, customEnd: int): (r: ChartPlan)
    ensures filter == "Custom Date Range" ==> r == ChartPlan(customStart, customEnd, ByDay)
    ensures filter != "Custom Date Range" ==> r.end == now
    ensures r.grouping == ByIsoWeek <==> filter == "Weekly"
    ensures filter !in {"Daily", "Weekly", "Yearly", "Custom Date Range"} ==> r == ChartPlan(lookback(Month, now), now, ByMonth)
  {
    match filter
    case "Daily" => ChartPlan(lookback(Day, now), now, ByDay)
    case "Weekly" => ChartPlan(lookback(Week, now), now, ByIsoWeek)
    case "Monthly" => ChartPlan(lookback(Month, now), now, ByMonth)
    case "Yearly" => ChartPlan(lookback(Year, now), now, ByYear)
    case "Custom Date Range" => ChartPlan(customStart, customEnd, ByDay)
    case _ => ChartPlan(lookback(Month, now), now, ByMonth)
  }

  /** The chart's `$match`: ordered within the window; cancelled orders are charted too. */
  function InWindow(start: int, end: int): Order -> bool {
    (o: Order) => start <= o.dateOrdered <= end
  }

  /** The orders a chart is drawn from, in natural order. */
  function ChartOrders(s: Store, start: int, end: int): (r: seq<Order>)
    ensures forall i :: 0 <= i < |r| ==> start <= r[i].dateOrdered <= end
  {
    var r := Filter(Documents(Rows(s.orders)), InWindow(start, end));
    assert forall i :: 0 <= i < |r| ==> InWindow(start, end)(r[i]);
    r
  }

  /** A weekly group's key as the group id `{week, year}` sorts: week first, then year. */
  function WeekKeyAsWritten(week: int, year: int): seq<int> {
    [week, year]
  }

  /** A weekly group's key in calendar order: year first, then week. */
  function WeekKey(week: int, year: int): seq<int> {
    [year, week]
  }

  /** A weekly group's label. */
  function WeekTitle(week: int, year: int): string {
    "Week " + Text.IntToString(week) + " (" + Text.IntToString(year) + ")"
  }

  /**
   * The group of an order on the chart; the label of a string group is the group id itself.
   * `yearFirst` chooses between the weekly key as written and in calendar order.
   */
  function ChartGroup(grouping: Grouping, dateText: DateTextFn, isoWeek: IsoWeekFn, yearFirst: bool): GroupFn {
    (o: Order) =>
      if grouping == ByIsoWeek then
        var (week, year) := isoWeek(o.dateOrdered);
        (if yearFirst then WeekKey(week, year) else WeekKeyAsWritten(week, year), WeekTitle(week, year))
      else
        var text := dateText(grouping, o.dateOrdered);
        (TextKey(text), text)
  }

  function BucketKey(b: Bucket): seq<int> {
    b.key
  }

  /**
   * The `$group` and `$sort: {_id: 1}` stages: the groups of the window's orders in ascending
   * key order, each holding the sum of its orders' totalAmount and their count.
   */
  function ChartBuckets(os: seq<Order>, g: GroupFn): (r: seq<Bucket>)
    ensures SortedBy(r, BucketKey, false)
    ensures forall i :: 0 <= i < |r| ==>
      && r[i].revenue == Sum(Filter(os, HasKey(g, r[i].key)), OrderMeasure(Revenue))
      && r[i].orders == Sum(Filter(os, HasKey(g, r[i].key)), OrderMeasure(Count))
  {
    var r := Sort(Tally(os, g), BucketKey, false);
    SortedGroupSums(os, g, r);
    r
  }

  lemma SortedGroupSums(os: seq<Order>, g: GroupFn, r: seq<Bucket>)
    requires r == Sort(Tally(os, g), BucketKey, false)
    ensures forall i :: 0 <= i < |r| ==>
      && r[i].revenue == Sum(Filter(os, HasKey(g, r[i].key)), OrderMeasure(Revenue))
      && r[i].orders == Sum(Filter(os, HasKey(g, r[i].key)), OrderMeasure(Count))
  {
    var tally := Tally(os, g);
    SortAddsNothing(tally, BucketKey, false);
    forall i | 0 <= i < |r|
      ensures r[i].revenue == Sum(Filter(os, HasKey(g, r[i].key)), OrderMeasure(Revenue))
      ensures r[i].orders == Sum(Filter(os, HasKey(g, r[i].key)), OrderMeasure(Count))
    {
      var j :| 0 <= j < |tally| && tally[j] == r[i];
      TallyGroupSums(os, g, Revenue, j);
      TallyGroupSums(os, g, Count, j);
    }
  }

  /** Every group on the chart is labelled after an order of the window that has its key. */
  lemma ChartGroupsGrounded(os: seq<Order>, g: GroupFn)
    ensures var r := ChartBuckets(os, g);
      forall i :: 0 <= i < |r| ==> exists k :: 0 <= k < |os| && g(os[k]) == (r[i].key, r[i].title)
  {
    SortedGrounded(os, g, ChartBuckets(os, g));
  }

  lemma SortedGrounded(os: seq<Order>, g: GroupFn, r: seq<Bucket>)
    requires r == Sort(Tally(os, g), BucketKey, false)
    ensures forall i :: 0 <= i < |r| ==> exists k :: 0 <= k < |os| && g(os[k]) == (r[i].key, r[i].title)
  {
    var tally := Tally(os, g);
    SortAddsNothing(tally, BucketKey, false);
    TallyGrounded(os, g);
  }

  /** Every order of the window is charted in the group of its key. */
  lemma ChartGroupsCover(os: seq<Order>, g: GroupFn)
    ensures var r := ChartBuckets(os, g);
      forall k :: 0 <= k < |os| ==> exists i :: 0 <= i < |r| && r[i].key == g(os[k]).0
  {
    var tally := Tally(os, g);
    var r := ChartBuckets(os, g);
    SortLosesNothing(tally, BucketKey, false);
    TallyCovers(os, g);
    forall k | 0 <= k < |os| ensures exists i :: 0 <= i < |r| && r[i].key == g(os[k]).0 {
      var j :| 0 <= j < |tally| && tally[j].key == g(os[k]).0;
      assert tally[j] in r;
      var i :| 0 <= i < |r| && r[i] == tally[j];
    }
  }

  /** The chart: one label and one value per group. */
  datatype Chart = Chart(labels: seq<string>, values: seq<Cents>)

  function ChartOf(bs: seq<Bucket>): (r: Chart)
    ensures |r.labels| == |bs| && |r.values| == |bs|
    ensures forall i :: 0 <= i < |bs| ==> r.labels[i] == bs[i].title && r.values[i] == bs[i].revenue
  {
    Chart(seq(|bs|, i requires 0 <= i < |bs| => bs[i].title), seq(|bs|, i requires 0 <= i < |bs| => bs[i].revenue))
  }

  /**
   * getSalesData as written. The custom range is refused when `Number.isNaN` holds of either
   * date, but `Number.isNaN` of a Date object is always false, so the 400 is never sent and an
   * unparsable date is passed on as a bound; what the driver sends for it is `invalidAs`. The
   * weekly groups sort by the id `{week, year}`, week first.
   */
  function GetSalesDataAsWritten(s: Store, filter: Option<string>, startDate: Option<int>, endDate: Option<int>,
                                 invalidAs: int, now: int, lookback: LookbackFn, dateText: DateTextFn,
                                 isoWeek: IsoWeekFn): (r: Result<Chart, Reply>)
    ensures r.Success?
    ensures var plan := PlanFor(if Truthy(filter) then filter.value else "Monthly", now, lookback,
                                startDate.GetOr(invalidAs), endDate.GetOr(invalidAs));
      r.value == ChartOf(ChartBuckets(ChartOrders(s, plan.start, plan.end), ChartGroup(plan.grouping, dateText, isoWeek, false)))
  {
    var name := if Truthy(filter) then filter.value else "Monthly";
    var plan := PlanFor(name, now, lookback, startDate.GetOr(invalidAs), endDate.GetOr(invalidAs));
    var os := ChartOrders(s, plan.start, plan.end);
    Success(ChartOf(ChartBuckets(os, ChartGroup(plan.grouping, dateText, isoWeek, false))))
  }

  /**
   * getSalesData as evidently intended: a custom range with a date that does not parse is
   * refused with 400 "Invalid date range", and weekly groups are in calendar order.
   */
  function GetSalesData(s: Store, filter: Option<string>, startDate: Option<int>, endDate: Option<int>,
                        now: int, lookback: LookbackFn, dateText: DateTextFn, isoWeek: IsoWeekFn): (r: Result<Chart, Reply>)
    ensures var name := if Truthy(filter) then filter.value else "Monthly";
      r.Failure? <==> name == "Custom Date Range" && (startDate.None? || endDate.None?)
    ensures r.Failure? ==> r.error == Reply(400, "Invalid date range")
    ensures r.Success? ==>
      var name := if Truthy(filter) then filter.value else "Monthly";
      var plan := PlanFor(name, now, lookback, startDate.GetOr(0), endDate.GetOr(0));
      r.value == ChartOf(ChartBuckets(ChartOrders(s, plan.start, plan.end), ChartGroup(plan.grouping, dateText, isoWeek, true)))
  {
    var name := if Truthy(filter) then filter.value else "Monthly";
    if name == "Custom Date Range" && (startDate.None? || endDate.None?) then
      Failure(Reply(400, "Invalid date range"))
    else
      var plan := PlanFor(name, now, lookback, startDate.GetOr(0), endDate.GetOr(0));
      var os := ChartOrders(s, plan.start, plan.end);
      Success(ChartOf(ChartBuckets(os, ChartGroup(plan.grouping, dateText, isoWeek, true))))
  }

  /** As written, a custom range whose dates do not parse is still charted, never refused. */
  lemma InvalidRangeNotRefused(s: Store, invalidAs: int, now: int, lookback: LookbackFn, dateText: DateTextFn, isoWeek: IsoWeekFn)
    ensures GetSalesDataAsWritten(s, Some("Custom Date Range"), None, None, invalidAs, now, lookback, dateText, isoWeek).Success?
    ensures GetSalesData(s, Some("Custom Date Range"), None, None, now, lookback, dateText, isoWeek) == Failure(Reply(400, "Invalid date range"))
  {
  }

  /**
   * As written, across a year end the first week of the new year is charted before the last
   * week of the old one: week 1 of 2025 sorts before week 52 of 2024.
   */
  lemma WeeksOutOfOrderAcrossYearEnd(bs: seq<Bucket>, i: nat, j: nat)
    requires SortedBy(bs, BucketKey, false)
    requires i < |bs| && j < |bs|
    requires bs[i].key == WeekKeyAsWritten(52, 2024) && bs[j].key == WeekKeyAsWritten(1, 2025)
    ensures j < i
  {
  }

  /** The corrected weekly key sorts in calendar order: by year, then by week. */
  lemma WeekKeyIsChronological(w1: int, y1: int, w2: int, y2: int)
    ensures LexLe(WeekKey(w1, y1), WeekKey(w2, y2)) <==> y1 < y2 || (y1 == y2 && w1 <= w2)
  {
    assert WeekKey(w1, y1)[1..] == [w1];
    assert WeekKey(w2, y2)[1..] == [w2];
    LexLeNumber(w1, w2);
  }

  /** One best-selling product as the dashboard shows it. */
  datatype BestSeller = BestSeller(name: string, image: string, popularity: int)

  /** One category with the summed popularity of its products. */
  datatype CategoryRank = CategoryRank(id: Id, name: string, popularity: int)

  function IsActiveRow(row: (Id, Product)): bool {
    row.1.isActive
  }

  function PopularityKey(row: (Id, Product)): seq<int> {
    [row.1.popularity]
  }

  /** The active products, most popular first, at most ten. */
  function TopProducts(s: Store): (r: seq<(Id, Product)>)
    ensures |r| <= 10
    ensures forall i :: 0 <= i < |r| ==> r[i].0 in s.products && s.products[r[i].0] == r[i].1 && r[i].1.isActive
    ensures forall i, j :: 0 <= i < j < |r| ==> r[i].1.popularity >= r[j].1.popularity
  {
    var active := Filter(Rows(s.products), IsActiveRow);
    var sorted := Sort(active, PopularityKey, true);
    SortAddsNothing(active, PopularityKey, true);
    var r := Take(sorted, 10);
    forall i | 0 <= i < |r| ensures r[i].0 in s.products && s.products[r[i].0] == r[i].1 && r[i].1.isActive {
      assert r[i] == sorted[i];
      assert IsActiveRow(sorted[i]);
    }
    forall i, j | 0 <= i < j < |r| ensures r[i].1.popularity >= r[j].1.popularity {
      assert InOrder(PopularityKey(sorted[i]), PopularityKey(sorted[j]), true);
      LexLeNumber(r[j].1.popularity, r[i].1.popularity);
    }
    r
  }

  /** Every active product has a place in the popularity order. */
  lemma ActiveIsRanked(s: Store, k: Id) returns (m: nat)
    requires k in s.products && s.products[k].isActive
    ensures var sorted := Sort(Filter(Rows(s.products), IsActiveRow), PopularityKey, true);
      m < |sorted| && sorted[m] == (k, s.products[k])
  {
    var rows := Rows(s.products);
    var active := Filter(rows, IsActiveRow);
    var row := (k, s.products[k]);
    var a :| 0 <= a < |rows| && rows[a] == row;
    assert IsActiveRow(rows[a]);
    assert row in active;
    m := SortKeeps(active, PopularityKey, true, row);
  }

  /**
   * The first ten of a list sorted by descending popularity either hold the row at position
   * `m` or are all at least as popular as it.
   */
  lemma TakeTenOfSorted(sorted: seq<(Id, Product)>, m: nat)
    requires SortedBy(sorted, PopularityKey, true) && m < |sorted|
    ensures var r := Take(sorted, 10);
      (exists i :: 0 <= i < |r| && r[i].0 == sorted[m].0)
      || (|r| == 10 && forall i :: 0 <= i < |r| ==> r[i].1.popularity >= sorted[m].1.popularity)
  {
    var r := Take(sorted, 10);
    if m < |r| {
      assert r[m] == sorted[m];
    } else {
      forall i | 0 <= i < |r| ensures r[i].1.popularity >= sorted[m].1.popularity {
        assert r[i] == sorted[i];
        assert InOrder(PopularityKey(sorted[i]), PopularityKey(sorted[m]), true);
        LexLeNumber(sorted[m].1.popularity, sorted[i].1.popularity);
      }
    }
  }

  /** The top list is the head of the popularity order. */
  lemma TopProductsIsHead(s: Store)
    ensures TopProducts(s) == Take(Sort(Filter(Rows(s.products), IsActiveRow), PopularityKey, true), 10)
  {
  }

  /** No active product left out of the top ten is more popular than any product in it. */
  lemma TopProductsAreTop(s: Store, k: Id)
    requires k in s.products && s.products[k].isActive
    ensures var r := TopProducts(s);
      (exists i :: 0 <= i < |r| && r[i].0 == k)
      || (|r| == 10 && forall i :: 0 <= i < |r| ==> r[i].1.popularity >= s.products[k].popularity)
  {
    var sorted := Sort(Filter(Rows(s.products), IsActiveRow), PopularityKey, true);
    var m := ActiveIsRanked(s, k);
    TakeTenOfSorted(sorted, m);
    TopProductsIsHead(s);
  }

  /** The dashboard entry of a product. */
  function BestSellerOf(p: Product): BestSeller {
    BestSeller(p.name, p.images.main, p.popularity)
  }

  function InCategoryRow(id: Id): ((Id, Product)) -> bool {
    (row: (Id, Product)) => row.1.categoryId == id
  }

  function RowPopularity(row: (Id, Product)): int {
    row.1.popularity
  }

  /** The `$lookup` and `$sum`: the popularity of a category's products added up, 0 when it has none. */
  function CategoryPopularity(s: Store, id: Id): (n: int)
    ensures (forall k :: k in s.products ==> s.products[k].categoryId != id) ==> n == 0
  {
    var mine := Filter(Rows(s.products), InCategoryRow(id));
    assert (forall k :: k in s.products ==> s.products[k].categoryId != id) ==> mine == [] by {
      if forall k :: k in s.products ==> s.products[k].categoryId != id {
        forall i | 0 <= i < |Rows(s.products)| ensures !InCategoryRow(id)(Rows(s.products)[i]) {
          assert Rows(s.products)[i].0 in s.products;
        }
        FilterNone(Rows(s.products), InCategoryRow(id));
      }
    }
    Sum(mine, RowPopularity)
  }

  function RankKey(c: CategoryRank): seq<int> {
    [c.popularity]
  }

  function Ranks(s: Store, rows: seq<(Id, Category)>): (r: seq<CategoryRank>)
    ensures |r| == |rows|
    ensures forall i :: 0 <= i < |rows| ==> r[i] == CategoryRank(rows[i].0, rows[i].1.name, CategoryPopularity(s, rows[i].0))
  {
    seq(|rows|, i requires 0 <= i < |rows| => CategoryRank(rows[i].0, rows[i].1.name, CategoryPopularity(s, rows[i].0)))
  }

  /** The categories ranked by popularity, most popular first. */
  function RankedCategories(s: Store): seq<CategoryRank> {
    Sort(Ranks(s, Rows(s.categories)), RankKey, true)
  }

  /** The ranking lists as many entries as there are categories. */
  lemma RankedLength(s: Store)
    ensures |RankedCategories(s)| == |s.categories|
  {
    RowsLength(s.categories);
  }

  /** Every ranked entry is a stored category with its own name and popularity. */
  lemma RankedAreStored(s: Store)
    ensures forall i :: 0 <= i < |RankedCategories(s)| ==>
      var c := RankedCategories(s)[i];
      c.id in s.categories && c.name == s.categories[c.id].name && c.popularity == CategoryPopularity(s, c.id)
  {
    var ranks := Ranks(s, Rows(s.categories));
    var sorted := RankedCategories(s);
    SortAddsNothing(ranks, RankKey, true);
    var rows := Rows(s.categories);
    forall i | 0 <= i < |sorted|
      ensures sorted[i].id in s.categories && sorted[i].name == s.categories[sorted[i].id].name
      ensures sorted[i].popularity == CategoryPopularity(s, sorted[i].id)
    {
      var j :| 0 <= j < |ranks| && ranks[j] == sorted[i];
      assert ranks[j] == CategoryRank(rows[j].0, rows[j].1.name, CategoryPopularity(s, rows[j].0));
      assert rows[j].0 in s.categories && s.categories[rows[j].0] == rows[j].1;
    }
  }

  /** The ranking is by descending popularity. */
  lemma RankedDescending(s: Store)
    ensures forall i, j :: 0 <= i < j < |RankedCategories(s)| ==>
      RankedCategories(s)[i].popularity >= RankedCategories(s)[j].popularity
  {
    var sorted := RankedCategories(s);
    forall i, j | 0 <= i < j < |sorted| ensures sorted[i].popularity >= sorted[j].popularity {
      assert InOrder(RankKey(sorted[i]), RankKey(sorted[j]), true);
      LexLeNumber(sorted[j].popularity, sorted[i].popularity);
    }
  }

  /** The first three of the ranking: as many as there are categories, up to three. */
  lemma TopThreeLength(s: Store)
    ensures |Take(RankedCategories(s), 3)| == if |s.categories| < 3 then |s.categories| else 3
  {
    RankedLength(s);
  }

  /** Entries that are stored categories with their own name and popularity. */
  predicate RanksStored(s: Store, cs: seq<CategoryRank>) {
    forall i :: 0 <= i < |cs| ==>
      cs[i].id in s.categories && cs[i].name == s.categories[cs[i].id].name && cs[i].popularity == CategoryPopularity(s, cs[i].id)
  }

  predicate RanksDescending(cs: seq<CategoryRank>) {
    forall i, j :: 0 <= i < j < |cs| ==> cs[i].popularity >= cs[j].popularity
  }

  /** A prefix of a stored, descending ranking is stored and descending. */
  lemma TakeRanks(s: Store, cs: seq<CategoryRank>, n: nat)
    requires RanksStored(s, cs) && RanksDescending(cs)
    ensures RanksStored(s, Take(cs, n)) && RanksDescending(Take(cs, n))
  {
    var r := Take(cs, n);
    assert forall i :: 0 <= i < |r| ==> r[i] == cs[i];
  }

  /** The first three of the ranking are stored categories, most popular first. */
  lemma TopThreeRanked(s: Store)
    ensures RanksStored(s, Take(RankedCategories(s), 3)) && RanksDescending(Take(RankedCategories(s), 3))
  {
    RankedAreStored(s);
    RankedDescending(s);
    TakeRanks(s, RankedCategories(s), 3);
  }

  /** The three categories whose products are most popular together, most popular first. */
  function TopCategories(s: Store): (r: seq<CategoryRank>)
    ensures |r| == if |s.categories| < 3 then |s.categories| else 3
    ensures forall i :: 0 <= i < |r| ==>
      r[i].id in s.categories && r[i].name == s.categories[r[i].id].name && r[i].popularity == CategoryPopularity(s, r[i].id)
    ensures forall i, j :: 0 <= i < j < |r| ==> r[i].popularity >= r[j].popularity
  {
    TopThreeLength(s);
    TopThreeRanked(s);
    Take(RankedCategories(s), 3)
  }

  /** Every category has a place in the popularity order of the categories. */
  lemma CategoryIsRanked(s: Store, k: Id) returns (m: nat)
    requires k in s.categories
    ensures var sorted := RankedCategories(s);
      m < |sorted| && sorted[m] == CategoryRank(k, s.categories[k].name, CategoryPopularity(s, k))
  {
    var rows := Rows(s.categories);
    var ranks := Ranks(s, rows);
    var a :| 0 <= a < |rows| && rows[a] == (k, s.categories[k]);
    assert ranks[a] == CategoryRank(k, s.categories[k].name, CategoryPopularity(s, k));
    m := SortKeeps(ranks, RankKey, true, ranks[a]);
  }

  /**
   * The first three of a list sorted by descending popularity either hold the entry at
   * position `m` or are three entries at least as popular as it.
   */
  lemma TakeThreeOfSorted(sorted: seq<CategoryRank>, m: nat)
    requires SortedBy(sorted, RankKey, true) && m < |sorted|
    ensures var r := Take(sorted, 3);
      (exists i :: 0 <= i < |r| && r[i].id == sorted[m].id)
      || (|r| == 3 && forall i :: 0 <= i < |r| ==> r[i].popularity >= sorted[m].popularity)
  {
    var r := Take(sorted, 3);
    if m < |r| {
      assert r[m] == sorted[m];
    } else {
      forall i | 0 <= i < |r| ensures r[i].popularity >= sorted[m].popularity {
        assert r[i] == sorted[i];
        assert InOrder(RankKey(sorted[i]), RankKey(sorted[m]), true);
        LexLeNumber(sorted[m].popularity, sorted[i].popularity);
      }
    }
  }

  /** The top categories are the head of the category popularity order. */
  lemma TopCategoriesIsHead(s: Store)
    ensures TopCategories(s) == Take(RankedCategories(s), 3)
  {
  }

  /** No category left out of the top three is more popular than any category in it. */
  lemma TopCategoriesAreTop(s: Store, k: Id)
    requires k in s.categories
    ensures var r := TopCategories(s);
      (exists i :: 0 <= i < |r| && r[i].id == k)
      || (|r| == 3 && forall i :: 0 <= i < |r| ==> r[i].popularity >= CategoryPopularity(s, k))
  {
    var sorted := RankedCategories(s);
    var m := CategoryIsRanked(s, k);
    TakeThreeOfSorted(sorted, m);
    TopCategoriesIsHead(s);
  }

  /** The best-sellers payload. */
  datatype BestSellers = BestSellers(topProducts: seq<BestSeller>, topCategories: seq<CategoryRank>)

  /** The dashboard entries of a list of products, in the same order. */
  function BestSellersOf(top: seq<(Id, Product)>): (r: seq<BestSeller>)
    ensures |r| == |top|
    ensures forall i :: 0 <= i < |r| ==> r[i] == BestSellerOf(top[i].1)
  {
    if top == [] then [] else [BestSellerOf(top[0].1)] + BestSellersOf(top[1..])
  }

  /** getBestSellers: the ten most popular active products and the three most popular categories. */
  function GetBestSellers(s: Store): (r: BestSellers)
    ensures |r.topProducts| == |TopProducts(s)| <= 10
    ensures forall i :: 0 <= i < |r.topProducts| ==> r.topProducts[i] == BestSellerOf(TopProducts(s)[i].1)
    ensures forall i, j :: 0 <= i < j < |r.topProducts| ==> r.topProducts[i].popularity >= r.topProducts[j].popularity
    ensures r.topCategories == TopCategories(s)
  {
    var top := TopProducts(s);
    var products := BestSellersOf(top);
    assert forall i :: 0 <= i < |top| ==> products[i].popularity == top[i].1.popularity;
    BestSellers(products, TopCategories(s))
  }
}

=== FILE: seqs.dfy ===
/**
 * List operations the queries are made of: filtering, truncation (`limit`), sums, and a
 * stable sort by a key under lexicographic order (`sort({ field: 1 })` / `-1`).
 */
module Seqs {
  /** `array.filter(p)` / a `$match` stage. */
  function Filter<T>(s: seq<T>, p: T -> bool): (r: seq<T>)
    ensures forall i :: 0 <= i < |r| ==> p(r[i])
    ensures forall i :: 0 <= i < |s| && p(s[i]) ==> s[i] in r
    ensures forall i :: 0 <= i < |r| ==> r[i] in s
    ensures (forall i :: 0 <= i < |s| ==> p(s[i])) ==> r == s
    decreases |s|
  {
    if s == [] then []
    else
      var rest := Filter(s[1..], p);
      assert s == [s[0]] + s[1..];
      if p(s[0]) then [s[0]] + rest else rest
  }

  predicate IncreasingBy<T>(s: seq<T>, f: T -> int) {
    forall i, j :: 0 <= i < j < |s| ==> f(s[i]) < f(s[j])
  }

  /** A list stays increasing when an element below all of it is put in front. */
  lemma PrependIncreasing<T>(x: T, rest: seq<T>, f: T -> int)
    requires IncreasingBy(rest, f)
    requires forall j :: 0 <= j < |rest| ==> f(x) < f(rest[j])
    ensures IncreasingBy([x] + rest, f)
  {
    var r := [x] + rest;
    forall i, j | 0 <= i < j < |r| ensures f(r[i]) < f(r[j]) {
      assert r[j] == rest[j - 1];
      if i > 0 {
        assert r[i] == rest[i - 1];
      }
    }
  }

  /** Filtering keeps the relative order of what it keeps. */
  lemma {:induction false} FilterKeepsIncreasing<T>(s: seq<T>, p: T -> bool, f: T -> int)
    requires IncreasingBy(s, f)
    ensures IncreasingBy(Filter(s, p), f)
    decreases |s|
  {
    if s != [] {
      var tail := s[1..];
      assert IncreasingBy(tail, f) by {
        assert forall i :: 0 <= i < |tail| ==> tail[i] == s[i + 1];
      }
      FilterKeepsIncreasing(tail, p, f);
      var rest := Filter(tail, p);
      if p(s[0]) {
        forall j | 0 <= j < |rest| ensures f(s[0]) < f(rest[j]) {
          assert rest[j] in tail;
          var m :| 0 <= m < |tail| && tail[m] == rest[j];
          assert s[m + 1] == rest[j];
        }
        PrependIncreasing(s[0], rest, f);
        assert Filter(s, p) == [s[0]] + rest;
      } else {
        assert Filter(s, p) == rest;
      }
    }
  }

  /** Two filters that agree on every element of the list select the same sublist. */
  lemma {:induction false} FilterAgree<T>(s: seq<T>, p: T -> bool, q: T -> bool)
    requires forall i :: 0 <= i < |s| ==> p(s[i]) == q(s[i])
    ensures Filter(s, p) == Filter(s, q)
    decreases |s|
  {
    if s != [] {
      FilterAgree(s[1..], p, q);
    }
  }

  /** `limit(n)`. */
  function Take<T>(s: seq<T>, n: nat): (r: seq<T>)
    ensures |r| <= n && |r| <= |s|
    ensures |r| == if |s| <= n then |s| else n
    ensures r == s[..|r|]
  {
    if |s| <= n then s else s[..n]
  }

  /** Lexicographic order on sort keys: ints compare numerically, strings by character code. */
  predicate LexLe(a: seq<int>, b: seq<int>)
    decreases |a|
  {
    a == [] || (b != [] && (a[0] < b[0] || (a[0] == b[0] && LexLe(a[1..], b[1..]))))
  }

  lemma {:induction false} LexLeTotal(a: seq<int>, b: seq<int>)
    ensures LexLe(a, b) || LexLe(b, a)
    decreases |a|
  {
    if a != [] && b != [] && a[0] == b[0] {
      LexLeTotal(a[1..], b[1..]);
    }
  }

  lemma {:induction false} LexLeTransitive(a: seq<int>, b: seq<int>, c: seq<int>)
    requires LexLe(a, b) && LexLe(b, c)
    ensures LexLe(a, c)
    decreases |a|
  {
    if a != [] && a[0] == b[0] && b[0] == c[0] {
      LexLeTransitive(a[1..], b[1..], c[1..]);
    }
  }

  /** On one-number keys the order is the numeric order. */
  lemma LexLeNumber(a: int, b: int)
    ensures LexLe([a], [b]) <==> a <= b
  {
    assert [a][1..] == [];
  }

  /** A string as a sort key. */
  function TextKey(s: string): (k: seq<int>)
    ensures |k| == |s| && forall i :: 0 <= i < |s| ==> k[i] == s[i] as int
  {
    seq(|s|, i requires 0 <= i < |s| => s[i] as int)
  }

  /** `a` may come before `b` in a sort by this key, ascending or descending. */
  predicate InOrder(a: seq<int>, b: seq<int>, descending: bool) {
    if descending then LexLe(b, a) else LexLe(a, b)
  }

  predicate SortedBy<T>(s: seq<T>, key: T -> seq<int>, descending: bool) {
    forall i, j :: 0 <= i < j < |s| ==> InOrder(key(s[i]), key(s[j]), descending)
  }

  /** Puts `x` before the first element it may precede. */
  function Insert<T>(x: T, s: seq<T>, key: T -> seq<int>, descending: bool): (r: seq<T>)
    requires SortedBy(s, key, descending)
    ensures multiset(r) == multiset(s) + multiset{x}
    ensures SortedBy(r, key, descending)
    decreases |s|
  {
    if s == [] then [x]
    else if InOrder(key(x), key(s[0]), descending) then
      InsertInFront(x, s, key, descending);
      [x] + s
    else
      var rest := Insert(x, s[1..], key, descending);
      InsertBehindHead(x, s, rest, key, descending);
      [s[0]] + rest
  }

  /** An element that may precede the head of a sorted list may precede all of it. */
  lemma InsertInFront<T>(x: T, s: seq<T>, key: T -> seq<int>, descending: bool)
    requires SortedBy(s, key, descending) && s != [] && InOrder(key(x), key(s[0]), descending)
    ensures SortedBy([x] + s, key, descending)
  {
    var r := [x] + s;
    forall i, j | 0 <= i < j < |r| ensures InOrder(key(r[i]), key(r[j]), descending) {
      if i == 0 && j > 1 {
        InOrderTransitive(key(x), key(s[0]), key(s[j - 1]), descending);
      }
    }
  }

  /** The head of a sorted list may precede the rest with `x` inserted, when `x` may not precede the head. */
  lemma InsertBehindHead<T>(x: T, s: seq<T>, rest: seq<T>, key: T -> seq<int>, descending: bool)
    requires SortedBy(s, key, descending) && s != [] && !InOrder(key(x), key(s[0]), descending)
    requires SortedBy(rest, key, descending) && multiset(rest) == multiset(s[1..]) + multiset{x}
    ensures SortedBy([s[0]] + rest, key, descending)
    ensures multiset([s[0]] + rest) == multiset(s) + multiset{x}
  {
    InOrderTotal(key(x), key(s[0]), descending);
    assert s == [s[0]] + s[1..];
    forall j | 0 <= j < |rest| ensures InOrder(key(s[0]), key(rest[j]), descending) {
      assert rest[j] in multiset(rest);
      if rest[j] != x {
        assert rest[j] in multiset(s[1..]);
        var m :| 0 <= m < |s[1..]| && s[1..][m] == rest[j];
        assert s[m + 1] == rest[j];
      }
    }
    var r := [s[0]] + rest;
    forall i, j | 0 <= i < j < |r| ensures InOrder(key(r[i]), key(r[j]), descending) {
      assert r[j] == rest[j - 1];
      if i > 0 {
        assert r[i] == rest[i - 1];
      }
    }
  }

  lemma InOrderTotal(a: seq<int>, b: seq<int>, descending: bool)
    ensures InOrder(a, b, descending) || InOrder(b, a, descending)
  {
    LexLeTotal(a, b);
  }

  lemma InOrderTransitive(a: seq<int>, b: seq<int>, c: seq<int>, descending: bool)
    requires InOrder(a, b, descending) && InOrder(b, c, descending)
    ensures InOrder(a, c, descending)
  {
    if descending {
      LexLeTransitive(c, b, a);
    } else {
      LexLeTransitive(a, b, c);
    }
  }

  /** A stable insertion sort: a permutation of the input, ordered by the key. */
  function Sort<T>(s: seq<T>, key: T -> seq<int>, descending: bool): (r: seq<T>)
    ensures multiset(r) == multiset(s)
    ensures |r| == |s|
    ensures SortedBy(r, key, descending)
    decreases |s|
  {
    if s == [] then []
    else
      assert s == [s[0]] + s[1..];
      Insert(s[0], Sort(s[1..], key, descending), key, descending)
  }

  /** Sorting only reorders: every element of the input is in the output and vice versa. */
  lemma SortKeepsElements<T>(s: seq<T>, key: T -> seq<int>, descending: bool)
    ensures forall i :: 0 <= i < |s| ==> s[i] in Sort(s, key, descending)
    ensures forall i :: 0 <= i < |s| ==> Sort(s, key, descending)[i] in s
  {
    SortLosesNothing(s, key, descending);
    SortAddsNothing(s, key, descending);
  }

  lemma SortLosesNothing<T>(s: seq<T>, key: T -> seq<int>, descending: bool)
    ensures forall i :: 0 <= i < |s| ==> s[i] in Sort(s, key, descending)
  {
    var r := Sort(s, key, descending);
    forall i | 0 <= i < |s| ensures s[i] in r {
      assert s[i] in multiset(s);
    }
  }

  /** One element of the input, found again in the sorted list. */
  lemma SortKeeps<T>(s: seq<T>, key: T -> seq<int>, descending: bool, x: T) returns (i: nat)
    requires x in s
    ensures i < |Sort(s, key, descending)| && Sort(s, key, descending)[i] == x
  {
    var r := Sort(s, key, descending);
    assert x in multiset(s);
    assert x in r;
    i :| 0 <= i < |r| && r[i] == x;
  }

  lemma SortAddsNothing<T>(s: seq<T>, key: T -> seq<int>, descending: bool)
    ensures forall i :: 0 <= i < |s| ==> Sort(s, key, descending)[i] in s
  {
    var r := Sort(s, key, descending);
    forall i | 0 <= i < |s| ensures r[i] in s {
      assert r[i] in multiset(r);
    }
  }

  /** No element is listed twice. */
  predicate Distinct<T(==)>(s: seq<T>) {
    forall i, j :: 0 <= i < j < |s| ==> s[i] != s[j]
  }

  /** A list without repeats holds each element at most once. */
  lemma {:induction false} DistinctCountsOnce<T>(s: seq<T>, x: T)
    requires Distinct(s)
    ensures multiset(s)[x] <= 1
    decreases |s|
  {
    if s != [] {
      var tail := s[1..];
      assert s == [s[0]] + tail;
      assert Distinct(tail) by {
        assert forall i :: 0 <= i < |tail| ==> tail[i] == s[i + 1];
      }
      DistinctCountsOnce(tail, x);
      if s[0] == x {
        assert x !in tail by {
          forall i | 0 <= i < |tail| ensures tail[i] != x {
            assert tail[i] == s[i + 1];
          }
        }
      }
    }
  }

  /** An element listed at two positions is counted at least twice. */
  lemma RepeatCountsTwice<T>(s: seq<T>, i: nat, j: nat)
    requires i < j < |s| && s[i] == s[j]
    ensures multiset(s)[s[i]] >= 2
  {
    var front := s[..j];
    assert s == front + [s[j]] + s[j + 1..];
    assert front[i] == s[i];
    assert s[i] in multiset(front);
  }

  /** Sorting a list without repeats gives a list without repeats. */
  lemma SortKeepsDistinct<T>(s: seq<T>, key: T -> seq<int>, descending: bool)
    requires Distinct(s)
    ensures Distinct(Sort(s, key, descending))
  {
    var r := Sort(s, key, descending);
    forall i, j | 0 <= i < j < |r| ensures r[i] != r[j] {
      if r[i] == r[j] {
        RepeatCountsTwice(r, i, j);
        DistinctCountsOnce(s, r[i]);
        assert false;
      }
    }
  }

  /** The sum of an int-valued field over a list. */
  function Sum<T>(s: seq<T>, f: T -> int): int
    decreases |s|
  {
    if s == [] then 0 else f(s[0]) + Sum(s[1..], f)
  }

  lemma {:induction false} SumAppend<T>(a: seq<T>, b: seq<T>, f: T -> int)
    ensures Sum(a + b, f) == Sum(a, f) + Sum(b, f)
    decreases |a|
  {
    if a == [] {
      assert a + b == b;
    } else {
      assert (a + b)[0] == a[0];
      assert (a + b)[1..] == a[1..] + b;
      SumAppend(a[1..], b, f);
    }
  }

  /** Filtering a list extended by one element extends the filtered list by that element, if it passes. */
  lemma {:induction false} FilterAppendOne<T>(a: seq<T>, x: T, p: T -> bool)
    ensures Filter(a + [x], p) == Filter(a, p) + (if p(x) then [x] else [])
    decreases |a|
  {
    if a == [] {
      assert a + [x] == [x];
      assert [x][1..] == [];
    } else {
      assert (a + [x])[0] == a[0];
      assert (a + [x])[1..] == a[1..] + [x];
      FilterAppendOne(a[1..], x, p);
    }
  }

  /** Replacing one element changes the sum by the difference. */
  lemma {:induction false} SumUpdate<T>(s: seq<T>, i: nat, x: T, f: T -> int)
    requires i < |s|
    ensures Sum(s[i := x], f) == Sum(s, f) - f(s[i]) + f(x)
    decreases |s|
  {
    if i > 0 {
      assert s[i := x][1..] == s[1..][i - 1 := x];
      SumUpdate(s[1..], i - 1, x, f);
    }
  }

  lemma SumAppendOne<T>(a: seq<T>, x: T, f: T -> int)
    ensures Sum(a + [x], f) == Sum(a, f) + f(x)
  {
    SumAppend(a, [x], f);
    assert [x][1..] == [];
  }

  lemma {:induction false} FilterNone<T>(s: seq<T>, p: T -> bool)
    requires forall i :: 0 <= i < |s| ==> !p(s[i])
    ensures Filter(s, p) == []
    decreases |s|
  {
    if s != [] {
      FilterNone(s[1..], p);
    }
  }
}

=== FILE: shop_controller.dfy ===
/**
 * The shop pages and their JSON endpoints (src/controllers/shopController.js), built on the
 * catalog query of module Catalog.
 */
module ShopController {
  import opened Wrappers
  import opened Tables
  import opened Records
  import opened Seqs
  import opened Catalog
  import Text

  /** What the shop page is rendered with. */
  datatype ShopPage = ShopPage(products: seq<Listing>, category: string, minPrice: Cents, maxPrice: Upper, sortBy: string)

  /**
   * getShop: every active product of an active category, in natural order, with its discounted
   * price. The page shows the defaults 200 and 5000, an empty category and no sort, but the
   * query applies none of them.
   */
  function GetShop(s: Store, discount: DiscountFn): (r: ShopPage)
    ensures r.category == "" && r.sortBy == "" && r.minPrice == 20000 && r.maxPrice == AtMost(500000)
    ensures forall i :: 0 <= i < |r.products| ==> r.products[i].discountedPrice.Some?
  {
    ShopPage(WithDiscounts(s, Query(s, "", None, ""), discount), "", 20000, AtMost(500000), "")
  }

  /**
   * The shop page lists exactly the active products of active categories, each with its
   * discounted price, whatever their price: the displayed defaults filter nothing.
   */
  lemma GetShopListsActiveProducts(s: Store, discount: DiscountFn)
    ensures var r := GetShop(s, discount).products;
      && (forall i :: 0 <= i < |r| ==>
          && r[i].id in s.products && s.products[r[i].id] == r[i].product
          && r[i].product.isActive && r[i].category.isActive
          && r[i].discountedPrice == Some(DiscountedPrice(s, r[i].product, r[i].category, discount)))
      && (forall k :: Listable(s, k) && s.products[k].isActive && ListingOf(s, k).category.isActive ==>
          exists i :: 0 <= i < |r| && r[i].id == k)
      && IncreasingBy(r, ListingId)
  {
    var q := Query(s, "", None, "");
    var r := WithDiscounts(s, q, discount);
    assert GetShop(s, discount).products == r;
    FilteredAreAll(s, "", None, q, discount);
    DiscountsKeepOrder(s, q, discount, "");
    forall i | 0 <= i < |r|
      ensures r[i].id in s.products && s.products[r[i].id] == r[i].product
      ensures r[i].product.isActive && r[i].category.isActive
    {
      assert Matcher("", None)(q[i]);
    }
  }

  /**
   * When no product has a negative price, the shop page lists exactly what getFilteredProducts
   * lists with every argument left out.
   */
  lemma GetShopIsUnfilteredService(s: Store, discount: DiscountFn)
    requires forall k :: k in s.products ==> s.products[k].price >= 0
    ensures GetShop(s, discount).products == GetFilteredProducts(s, "", None, None, "", discount)
  {
    var joined := JoinCategories(s, Rows(s.products));
    forall i | 0 <= i < |joined|
      ensures Matcher("", None)(joined[i]) == Matcher("", Some(ServiceBounds(None, None)))(joined[i])
    {
      var m :| 0 <= m < |Rows(s.products)| && Rows(s.products)[m] == (joined[i].id, joined[i].product);
      assert joined[i].product.price >= 0;
    }
    FilterAgree(joined, Matcher("", None), Matcher("", Some(ServiceBounds(None, None))));
  }

  /**
   * The price bounds of filterShop: `parseFloat(x) || 0` below and `|| Infinity` above, so a
   * bound that is zero or not a number (None) means no bound.
   */
  function ShopBounds(minPrice: Option<Cents>, maxPrice: Option<Cents>): (r: (Cents, Upper))
    ensures r.0 == minPrice.GetOr(0)
    ensures r.1.NoLimit? <==> maxPrice.None? || maxPrice == Some(0)
    ensures r.1.AtMost? ==> r.1.limit == maxPrice.value
  {
    var min := if minPrice.Some? && minPrice.value != 0 then minPrice.value else 0;
    var max := if maxPrice.Some? && maxPrice.value != 0 then AtMost(maxPrice.value) else NoLimit;
    (min, max)
  }

  /** The shop's bounds and the service's differ exactly when the upper bound is zero. */
  lemma BoundsDifferOnlyAtZero(minPrice: Option<Cents>, maxPrice: Option<Cents>)
    ensures ShopBounds(minPrice, maxPrice) == ServiceBounds(minPrice, maxPrice) <==> maxPrice != Some(0)
  {
  }

  /**
   * filterShop: the catalog query with the shop's bounds, without discounted prices (unlike
   * getShop); the page echoes the bounds and the request.
   */
  function FilterShop(s: Store, sortBy: string, category: string, minPrice: Option<Cents>, maxPrice: Option<Cents>)
    : (r: ShopPage)
    ensures forall i :: 0 <= i < |r.products| ==>
      && r.products[i].id in s.products && s.products[r.products[i].id] == r.products[i].product
      && Matcher(category, Some(ShopBounds(minPrice, maxPrice)))(r.products[i])
      && r.products[i].discountedPrice.None?
    ensures forall k :: Listable(s, k) && Matcher(category, Some(ShopBounds(minPrice, maxPrice)))(ListingOf(s, k)) ==>
      ListingOf(s, k) in r.products
    ensures SortFor(sortBy).Some? ==>
      SortedBy(r.products, KeyOf(SortFor(sortBy).value.field), SortFor(sortBy).value.descending)
    ensures SortFor(sortBy).None? ==> IncreasingBy(r.products, ListingId)
    ensures maxPrice == Some(0) ==> forall i :: 0 <= i < |r.products| ==> minPrice.GetOr(0) <= r.products[i].product.price
    ensures (r.minPrice, r.maxPrice) == ShopBounds(minPrice, maxPrice) && r.category == category && r.sortBy == sortBy
  {
    var bounds := ShopBounds(minPrice, maxPrice);
    ShopPage(Query(s, category, Some(bounds), sortBy), category, bounds.0, bounds.1, sortBy)
  }

  /**
   * Apart from an upper bound of zero, filterShop lists what getFilteredProducts lists,
   * without the discounted price.
   */
  lemma FilterShopIsServiceWithoutDiscounts(s: Store, sortBy: string, category: string, minPrice: Option<Cents>,
                                            maxPrice: Option<Cents>, discount: DiscountFn)
    requires maxPrice != Some(0)
    ensures var shop := FilterShop(s, sortBy, category, minPrice, maxPrice).products;
            var service := GetFilteredProducts(s, category, minPrice, maxPrice, sortBy, discount);
            && |shop| == |service|
            && forall i :: 0 <= i < |shop| ==> service[i] == shop[i].(discountedPrice := service[i].discountedPrice)
  {
    BoundsDifferOnlyAtZero(minPrice, maxPrice);
  }

  /** getStock: 400 without a product id, 404 for a missing product, otherwise the stock. */
  function GetStock(s: Store, pid: Option<Id>): (r: Result<int, Reply>)
    ensures pid.None? ==> r == Failure(Reply(400, "Product ID is required"))
    ensures pid.Some? && pid.value !in s.products ==> r == Failure(Reply(404, "Product not found"))
    ensures r.Success? <==> pid.Some? && Catalog.GetStock(s, pid.value).Some?
    ensures r.Success? ==> r.value == Catalog.GetStock(s, pid.value).value
  {
    match pid
    case None => Failure(Reply(400, "Product ID is required"))
    case Some(p) =>
      match Catalog.GetStock(s, p)
      case None => Failure(Reply(404, "Product not found"))
      case Some(stock) => Success(stock)
  }

  /** One wishlist entry as the page shows it. */
  datatype WishEntry = WishEntry(id: Id, name: string, price: Cents, image: string, description: string)

  /** The populated wishlist: ids of products that no longer exist drop out, the rest keep their order. */
  function WishlistEntries(s: Store, ids: seq<Id>): (r: seq<WishEntry>)
    ensures |r| <= |ids|
    ensures forall i :: 0 <= i < |r| ==> r[i].id in ids && r[i].id in s.products
    ensures forall i :: 0 <= i < |r| ==> r[i] == EntryOf(s, r[i].id)
    decreases |ids|
  {
    if ids == [] then []
    else
      var rest := WishlistEntries(s, ids[1..]);
      if ids[0] in s.products then [EntryOf(s, ids[0])] + rest else rest
  }

  function EntryOf(s: Store, id: Id): WishEntry
    requires id in s.products
  {
    var p := s.products[id];
    WishEntry(id, p.name, p.price, p.images.main, p.description)
  }

  /** Every wishlisted product that still exists has its entry. */
  lemma {:induction false} WishlistEntriesComplete(s: Store, ids: seq<Id>, id: Id)
    requires id in ids && id in s.products
    ensures EntryOf(s, id) in WishlistEntries(s, ids)
    decreases |ids|
  {
    if ids[0] != id {
      assert id in ids[1..];
      WishlistEntriesComplete(s, ids[1..], id);
    }
  }

  /**
   * getWishList as written: 401 without a session user; the user's wishlist is read before the
   * check for a missing user, so an unknown user ends in the catch-all 500, never in the 404.
   */
  function GetWishListAsWritten(s: Store, user: Option<Id>): (r: Result<seq<WishEntry>, Reply>)
    ensures user.None? ==> r == Failure(Reply(401, "Unauthorized"))
    ensures user.Some? && user.value !in s.users ==> r == Failure(Reply(500, "Server error"))
    ensures r.Success? <==> user.Some? && user.value in s.users
    ensures r.Failure? ==> r.error.status != 404
  {
    match user
    case None => Failure(Reply(401, "Unauthorized"))
    case Some(u) =>
      if u !in s.users then Failure(Reply(500, "Server error"))
      else Success(WishlistEntries(s, s.users[u].wishlist))
  }

  /**
   * getWishList as evidently intended: the missing-user check answers 404 before the wishlist is
   * read; otherwise the user's wishlist entries for the products that still exist.
   */
  function GetWishList(s: Store, user: Option<Id>): (r: Result<seq<WishEntry>, Reply>)
    ensures user.None? ==> r == Failure(Reply(401, "Unauthorized"))
    ensures user.Some? ==> (r == Failure(Reply(404, "User not found")) <==> user.value !in s.users)
    ensures r.Success? <==> user.Some? && user.value in s.users
    ensures r.Success? ==>
      && (forall i :: 0 <= i < |r.value| ==>
            && r.value[i].id in s.users[user.value].wishlist && r.value[i].id in s.products
            && r.value[i] == EntryOf(s, r.value[i].id))
      && (forall id :: id in s.users[user.value].wishlist && id in s.products ==> EntryOf(s, id) in r.value)
  {
    match user
    case None => Failure(Reply(401, "Unauthorized"))
    case Some(u) =>
      if u !in s.users then Failure(Reply(404, "User not found"))
      else
        var ids := s.users[u].wishlist;
        forall id | id in ids && id in s.products ensures EntryOf(s, id) in WishlistEntries(s, ids) {
          WishlistEntriesComplete(s, ids, id);
        }
        Success(WishlistEntries(s, ids))
  }

  /** The two versions differ exactly on an unknown session user: 500 as written, 404 as intended. */
  lemma WishListMissingUser(s: Store, u: Id)
    requires u !in s.users
    ensures GetWishListAsWritten(s, Some(u)).error.status == 500
    ensures GetWishList(s, Some(u)).error.status == 404
  {
  }

  /**
   * addToWishlist: 400 without both ids; then the service's checks in its order, a missing
   * product or user answering 404 and a duplicate 400; otherwise the product is appended.
   */
  function AddToWishlist(s: Store, user: Option<Id>, pid: Option<Id>): (r: (Store, Reply))
    ensures user.None? || pid.None? ==> r == (s, Reply(400, "User ID and Product ID are required"))
    ensures r.1.status == 200 <==> user.Some? && pid.Some? && Catalog.AddToWishlist(s, user.value, pid.value).result.Success?
    ensures r.1.status == 200 ==> r == (Catalog.AddToWishlist(s, user.value, pid.value).store, Reply(200, "Product added to wishlist"))
    ensures r.1.status != 200 ==> r.0 == s
    ensures user.Some? && pid.Some? && pid.value !in s.products ==> r.1 == Reply(404, "Product not found")
    ensures user.Some? && pid.Some? && pid.value in s.products && user.value !in s.users ==> r.1 == Reply(404, "User not found")
    ensures user.Some? && pid.Some? && pid.value in s.products && user.value in s.users && pid.value in s.users[user.value].wishlist ==>
      r.1 == Reply(400, "Product is already in the wishlist")
  {
    if user.None? || pid.None? then (s, Reply(400, "User ID and Product ID are required"))
    else
      var step := Catalog.AddToWishlist(s, user.value, pid.value);
      match step.result
      case Success(_) => (step.store, Reply(200, "Product added to wishlist"))
      case Failure(e) =>
        var status := if e == AlreadyInWishlist then 400 else 404;
        (s, Reply(status, Message(e)))
  }

  /** removeWishlist: 404 for an unknown user, otherwise every occurrence of the product is pulled. */
  function RemoveWishlist(s: Store, user: Option<Id>, pid: Id): (r: (Store, Reply))
    ensures user.None? || user.value !in s.users ==> r == (s, Reply(404, "User not found"))
    ensures user.Some? && user.value in s.users ==>
      && r.1 == Reply(200, "Product removed from wishlist successfully")
      && r.0 == RemoveFromWishlist(s, user.value, pid).0
      && pid !in r.0.users[user.value].wishlist
  {
    if user.None? then (s, Reply(404, "User not found"))
    else
      var (after, updated) := RemoveFromWishlist(s, user.value, pid);
      if updated.None? then (s, Reply(404, "User not found"))
      else (after, Reply(200, "Product removed from wishlist successfully"))
  }

  /**
   * searchProducts: a missing query is the empty query, which lists every product; any other
   * query lists exactly the stored products whose name starts with it, ignoring case.
   */
  function SearchProducts(s: Store, query: Option<string>): (r: seq<(Id, Product)>)
    ensures query.None? || query == Some("") ==> forall k :: k in s.products ==> (k, s.products[k]) in r
    ensures forall i :: 0 <= i < |r| ==> r[i].0 in s.products && s.products[r[i].0] == r[i].1
    ensures query.Some? && query.value != "" ==>
      forall k :: k in s.products ==>
        ((k, s.products[k]) in r <==> Text.StartsWithIgnoringCase(s.products[k].name, query.value))
  {
    Catalog.SearchProducts(s, query.GetOr(""))
  }
}

=== FILE: tables.dfy ===
/**
 * Document collections as id-keyed maps.
 *
 * Ids are natural numbers that grow with creation time, as MongoDB ObjectIds do, so a
 * collection's natural order is id order: `findOne(filter)` is the matching document with
 * the smallest id, and a newly inserted document gets an id above every id in use.
 */
module Tables {
  import opened Wrappers

  type Id = nat

  lemma {:induction false} LeastOf(s: set<nat>) returns (k: nat)
    requires s != {}
    ensures k in s && forall j :: j in s ==> k <= j
  {
    var x :| x in s;
    var rest := s - {x};
    if rest == {} {
      forall j | j in s ensures x <= j {
        assert j == x || j in rest;
      }
      k := x;
    } else {
      var m := LeastOf(rest);
      k := if x <= m then x else m;
      forall j | j in s ensures k <= j {
        if j != x { assert j in rest; }
      }
    }
  }

  lemma LeastExists(s: set<nat>)
    requires s != {}
    ensures exists k :: k in s && forall j :: j in s ==> k <= j
  {
    var k := LeastOf(s);
    assert k in s && forall j :: j in s ==> k <= j;
  }

  lemma {:induction false} GreatestOf(s: set<nat>) returns (k: nat)
    requires s != {}
    ensures k in s && forall j :: j in s ==> j <= k
  {
    var x :| x in s;
    var rest := s - {x};
    if rest == {} {
      forall j | j in s ensures j <= x {
        assert j == x || j in rest;
      }
      k := x;
    } else {
      var m := GreatestOf(rest);
      k := if m <= x then x else m;
      forall j | j in s ensures j <= k {
        if j != x { assert j in rest; }
      }
    }
  }

  lemma GreatestExists(s: set<nat>)
    requires s != {}
    ensures exists k :: k in s && forall j :: j in s ==> j <= k
  {
    var k := GreatestOf(s);
    assert k in s && forall j :: j in s ==> j <= k;
  }

  /** `findOne(filter)`: the first document, in natural order, that satisfies the filter. */
  function FindFirst<T>(m: map<Id, T>, p: T -> bool): (r: Option<Id>)
    ensures r.None? <==> forall k :: k in m ==> !p(m[k])
    ensures r.Some? ==> r.value in m && p(m[r.value])
    ensures r.Some? ==> forall k :: k in m && p(m[k]) ==> r.value <= k
  {
    var hits := set k | k in m && p(m[k]);
    assert forall k :: k in m && p(m[k]) ==> k in hits;
    if hits == {} then None
    else
      LeastExists(hits);
      var k :| k in hits && forall j :: j in hits ==> k <= j;
      Some(k)
  }

  /** The id the database gives the next inserted document: above every id in use. */
  function NextId<T>(m: map<Id, T>): (r: Id)
    ensures r !in m
    ensures forall k :: k in m ==> k < r
  {
    if m.Keys == {} then 0
    else
      GreatestExists(m.Keys);
      var g :| g in m.Keys && forall j :: j in m.Keys ==> j <= g;
      g + 1
  }

  /** The ids of the documents that pass the filter. */
  function Where<T>(m: map<Id, T>, p: T -> bool): set<Id> {
    set k | k in m && p(m[k])
  }

  /** `countDocuments(filter)`. */
  function CountWhere<T>(m: map<Id, T>, p: T -> bool): (n: nat)
    ensures n == |Where(m, p)|
    ensures n == 0 <==> forall k :: k in m ==> !p(m[k])
  {
    var hits := Where(m, p);
    assert forall k :: k in m && p(m[k]) ==> k in hits;
    |hits|
  }

  /** The smallest element of a non-empty set of ids. */
  function Least(s: set<Id>): (k: Id)
    requires s != {}
    ensures k in s && forall j :: j in s ==> k <= j
  {
    LeastExists(s);
    var k :| k in s && forall j :: j in s ==> k <= j;
    k
  }

  /** A set of ids in increasing order. */
  function Ascending(s: set<Id>): (r: seq<Id>)
    ensures forall k :: k in s <==> k in r
    ensures forall i, j :: 0 <= i < j < |r| ==> r[i] < r[j]
  {
    if s == {} then []
    else
      var k := Least(s);
      var rest := s - {k};
      var tail := Ascending(rest);
      var r := [k] + tail;
      assert forall x :: x in r <==> x == k || x in tail;
      assert forall i :: 0 < i < |r| ==> r[i] == tail[i - 1] && k < r[i];
      r
  }

  /** The ids of a collection in natural order. */
  function Ids<T>(m: map<Id, T>): (r: seq<Id>)
    ensures forall k :: k in m <==> k in r
    ensures forall i, j :: 0 <= i < j < |r| ==> r[i] < r[j]
  {
    Ascending(m.Keys)
  }

  /** A collection in natural order: its (id, document) pairs by increasing id. */
  function Rows<T>(m: map<Id, T>): (r: seq<(Id, T)>)
    ensures forall k :: k in m ==> (k, m[k]) in r
    ensures forall i :: 0 <= i < |r| ==> r[i].0 in m && m[r[i].0] == r[i].1
    ensures forall i, j :: 0 <= i < j < |r| ==> r[i].0 < r[j].0
  {
    var ids := Ids(m);
    var r := seq(|ids|, i requires 0 <= i < |ids| => (ids[i], m[ids[i]]));
    forall k | k in m ensures (k, m[k]) in r {
      var i :| 0 <= i < |ids| && ids[i] == k;
      assert r[i] == (k, m[k]);
    }
    r
  }

  /** Listing a set in order neither repeats nor drops an id. */
  lemma {:induction false} AscendingLength(s: set<Id>)
    ensures |Ascending(s)| == |s|
    decreases |s|
  {
    if s != {} {
      var k := Least(s);
      var rest := s - {k};
      assert s == rest + {k};
      AscendingLength(rest);
    }
  }

  /** A collection lists as many rows as it holds documents. */
  lemma RowsLength<T>(m: map<Id, T>)
    ensures |Rows(m)| == |m|
  {
    AscendingLength(m.Keys);
  }
}

=== FILE: text.dfy ===
/** Character and string helpers: decimal rendering and parsing, case, trimming. */
module Text {
  import opened Wrappers

  predicate IsDigit(c: char) {
    '0' <= c <= '9'
  }

  predicate AllDigits(s: string) {
    forall i :: 0 <= i < |s| ==> IsDigit(s[i])
  }

  function DigitValue(c: char): nat
    requires IsDigit(c)
  {
    c as int - '0' as int
  }

  function DigitChar(d: nat): (c: char)
    requires d < 10
    ensures IsDigit(c) && DigitValue(c) == d
  {
    ('0' as int + d) as char
  }

  /** The number a string of decimal digits denotes. */
  function DigitsValue(s: string): nat
    requires AllDigits(s)
  {
    if s == [] then 0 else DigitsValue(s[..|s| - 1]) * 10 + DigitValue(s[|s| - 1])
  }

  /** Decimal rendering of a natural number: digits only, no leading zero, denoting `n`. */
  function NatToString(n: nat): (s: string)
    ensures |s| >= 1 && AllDigits(s)
    ensures s[0] == '0' ==> n == 0
    ensures DigitsValue(s) == n
    decreases n
  {
    if n < 10 then [DigitChar(n)]
    else
      var init := NatToString(n / 10);
      var s := init + [DigitChar(n % 10)];
      assert s[..|s| - 1] == init;
      s
  }

  /** `String(i)` for an integer. */
  function IntToString(i: int): (s: string)
    ensures |s| >= 1
  {
    if i < 0 then "-" + NatToString(-i) else NatToString(i)
  }

  /** The white space JavaScript's `parseInt` and `trim` skip (the characters of Unicode class Zs beyond U+00A0 are not listed). */
  predicate IsSpace(c: char) {
    c == ' ' || c == '\t' || c == '\n' || c == '\r' || c == '\U{000B}' || c == '\U{000C}'
    || c == '\U{00A0}' || c == '\U{FEFF}' || c == '\U{2028}' || c == '\U{2029}'
  }

  function TrimStart(s: string): (r: string)
    ensures |r| <= |s| && r == s[|s| - |r|..]
    ensures r == [] || !IsSpace(r[0])
    ensures (s == [] || !IsSpace(s[0])) ==> r == s
  {
    if s == [] || !IsSpace(s[0]) then s else TrimStart(s[1..])
  }

  function TrimEnd(s: string): (r: string)
    ensures |r| <= |s| && r == s[..|r|]
    ensures r == [] || !IsSpace(r[|r| - 1])
  {
    if s == [] || !IsSpace(s[|s| - 1]) then s else TrimEnd(s[..|s| - 1])
  }

  /** express-validator's `trim()`: white space removed at both ends. */
  function Trim(s: string): (r: string)
    ensures |r| <= |s|
    ensures r == [] || (!IsSpace(r[0]) && !IsSpace(r[|r| - 1]))
  {
    TrimEnd(TrimStart(s))
  }

  /** A string with no white space at either end is its own trim. */
  lemma TrimOfUnpadded(s: string)
    requires s != [] && !IsSpace(s[0]) && !IsSpace(s[|s| - 1])
    ensures Trim(s) == s
  {
    assert TrimStart(s) == s;
  }

  /** The longest prefix of decimal digits. */
  function DigitPrefix(s: string): (p: string)
    ensures p <= s && AllDigits(p)
    ensures |p| < |s| ==> !IsDigit(s[|p|])
  {
    if s == [] || !IsDigit(s[0]) then [] else [s[0]] + DigitPrefix(s[1..])
  }

  /** `parseInt(s, 10)`: leading white space, an optional sign, then the longest run of digits; None stands for NaN. */
  function ParseInt(s: string): Option<int> {
    var t := TrimStart(s);
    var negative := |t| > 0 && t[0] == '-';
    var body := if |t| > 0 && (t[0] == '-' || t[0] == '+') then t[1..] else t;
    var digits := DigitPrefix(body);
    if digits == [] then None
    else
      var magnitude: int := DigitsValue(digits);
      Some(if negative then -magnitude else magnitude)
  }

  lemma {:induction false} DigitPrefixOfDigits(s: string)
    requires AllDigits(s)
    ensures DigitPrefix(s) == s
  {
    if s != [] {
      DigitPrefixOfDigits(s[1..]);
    }
  }

  /** `parseInt` reads back exactly the integer `String` wrote. */
  lemma ParseIntOfIntToString(i: int)
    ensures ParseInt(IntToString(i)) == Some(i)
  {
    var s := IntToString(i);
    if i < 0 {
      var d := NatToString(-i);
      assert s == "-" + d;
      assert s[0] == '-';
      assert TrimStart(s) == s;
      assert s[1..] == d;
      DigitPrefixOfDigits(d);
    } else {
      assert s == NatToString(i);
      assert IsDigit(s[0]);
      assert TrimStart(s) == s;
      DigitPrefixOfDigits(s);
    }
  }

  function ToLowerChar(c: char): char {
    if 'A' <= c <= 'Z' then (c as int + 32) as char else c
  }

  function ToUpperChar(c: char): char {
    if 'a' <= c <= 'z' then (c as int - 32) as char else c
  }

  function ToLower(s: string): (r: string)
    ensures |r| == |s| && forall i :: 0 <= i < |s| ==> r[i] == ToLowerChar(s[i])
  {
    seq(|s|, i requires 0 <= i < |s| => ToLowerChar(s[i]))
  }

  function ToUpper(s: string): (r: string)
    ensures |r| == |s| && forall i :: 0 <= i < |s| ==> r[i] == ToUpperChar(s[i])
  {
    seq(|s|, i requires 0 <= i < |s| => ToUpperChar(s[i]))
  }

  /** A case-insensitive prefix test: the `^query` regular expression with the `i` flag, for a query without metacharacters. */
  predicate StartsWithIgnoringCase(s: string, prefix: string) {
    ToLower(prefix) <= ToLower(s)
  }

  predicate IsAsciiLetterOrDigit(c: char) {
    IsDigit(c) || ('a' <= c <= 'z') || ('A' <= c <= 'Z')
  }

  predicate IsAlphanumeric(s: string) {
    forall i :: 0 <= i < |s| ==> IsAsciiLetterOrDigit(s[i])
  }

  /** Whether `needle` occurs in `s`: JavaScript's `includes`/`indexOf(needle) > -1`. */
  predicate Contains(s: string, needle: string) {
    exists i :: 0 <= i <= |s| - |needle| && OccursAt(s, needle, i)
  }

  predicate OccursAt(s: string, needle: string, i: int)
    requires 0 <= i <= |s| - |needle|
  {
    s[i..i + |needle|] == needle
  }

  /** A text contains its own first part: `includes` finds what a text starts with. */
  lemma ContainsPrefix(prefix: string, rest: string)
    ensures Contains(prefix + rest, prefix)
  {
    assert OccursAt(prefix + rest, prefix, 0);
  }

  /** A text contains whatever is written in its middle. */
  lemma ContainsMiddle(a: string, needle: string, b: string)
    ensures Contains(a + needle + b, needle)
  {
    var s := a + needle + b;
    assert s[|a|..|a| + |needle|] == needle;
    assert OccursAt(s, needle, |a|);
  }

  /** A text lacking one of the needle's characters does not contain the needle. */
  lemma MissingCharExcludes(s: string, needle: string, j: nat)
    requires j < |needle| && forall i :: 0 <= i < |s| ==> s[i] != needle[j]
    ensures !Contains(s, needle)
  {
    forall i | 0 <= i <= |s| - |needle| ensures !OccursAt(s, needle, i) {
      assert s[i..i + |needle|][j] == s[i + j];
    }
  }
}

=== FILE: user_management.dfy ===
/**
 * The admin user screen (src/controllers/admin/userManagementController.js): blocking and
 * unblocking a user by flipping the status between "Active" and "Inactive".
 */
module UserManagement {
  import opened Wrappers
  import opened Tables
  import opened Records

  /** The toggle's rule: "Active" becomes "Inactive", any other status becomes "Active". */
  function NextStatus(status: string): (r: string)
    ensures r == "Inactive" <==> status == "Active"
    ensures r == "Active" <==> status != "Active"
  {
    if status == "Active" then "Inactive" else "Active"
  }

  /** The rule always changes the status, so the update it issues always modifies one document. */
  lemma NextStatusDiffers(status: string)
    ensures NextStatus(status) != status
  {
  }

  /** Toggling twice restores a status exactly when it was "Active" or "Inactive". */
  lemma ToggleTwiceRestoresIff(status: string)
    ensures NextStatus(NextStatus(status)) == status <==> status == "Active" || status == "Inactive"
  {
  }

  /** `updateOne` of the status: the number of documents it modified (0 when the value is unchanged). */
  function ModifiedCount(s: Store, id: Id, status: string): (n: nat)
    ensures n == 0 <==> id !in s.users || s.users[id].status == status
  {
    if id in s.users && s.users[id].status != status then 1 else 0
  }

  /**
   * toggleUserStatus: 404 "User not found" for an unknown id; otherwise only the status field
   * is rewritten and the admin is redirected to the user list. The second 404, for an update
   * that modified nothing, cannot happen because the new status always differs.
   */
  function ToggleUserStatus(s: Store, id: Id): (r: (Store, Reply))
    ensures r.1.status == 404 <==> id !in s.users
    ensures id !in s.users ==> r == (s, Reply(404, "User not found"))
    ensures id in s.users ==> r.1 == Reply(302, "/admin/users")
    ensures id in s.users ==> r.0.users.Keys == s.users.Keys && r.0 == s.(users := r.0.users)
    ensures id in s.users ==>
      r.0.users[id].status == NextStatus(s.users[id].status) && r.0.users[id] == s.users[id].(status := r.0.users[id].status)
    ensures id in s.users ==> forall k :: k in s.users && k != id ==> r.0.users[k] == s.users[k]
  {
    if id !in s.users then (s, Reply(404, "User not found"))
    else
      var status := NextStatus(s.users[id].status);
      assert ModifiedCount(s, id, status) == 1;
      (s.(users := s.users[id := s.users[id].(status := status)]), Reply(302, "/admin/users"))
  }

  /** A blocked user is unblocked by one more toggle, and the store is back where it was. */
  lemma ToggleUserTwiceRestores(s: Store, id: Id)
    requires id in s.users && (s.users[id].status == "Active" || s.users[id].status == "Inactive")
    ensures ToggleUserStatus(ToggleUserStatus(s, id).0, id).0 == s
  {
    var s1 := ToggleUserStatus(s, id).0;
    assert s1.users[id].(status := NextStatus(s1.users[id].status)) == s.users[id];
    assert s1.users[id := s.users[id]] == s.users;
  }
}

=== FILE: validate_env.dfy ===
/**
 * Start-up configuration check (src/config/validateEnv.js): the eleven required variables,
 * the two warnings, the exit decision and the exported PORT and NODE_ENV. The environment
 * is a map from name to value; a name that is not in the map is unset.
 */
module ValidateEnv {
  import opened Wrappers
  import opened Text
  import opened Seqs

  type Env = map<string, string>

  /** The required variables, in the order the check lists them, with their descriptions. */
  const RequiredVars: seq<(string, string)> := [
    ("MONGO_URI", "MongoDB connection string"),
    ("SESSION_SECRET", "Session encryption key (minimum 32 characters)"),
    ("EMAIL_USER", "Email service username/address"),
    ("EMAIL_PASS", "Email service password/app password"),
    ("CLOUDINARY_CLOUD_NAME", "Cloudinary cloud name"),
    ("CLOUDINARY_API_KEY", "Cloudinary API key"),
    ("CLOUDINARY_API_SECRET", "Cloudinary API secret"),
    ("GOOGLE_CLIENT_ID", "Google OAuth 2.0 client ID"),
    ("GOOGLE_CLIENT_SECRET", "Google OAuth 2.0 client secret"),
    ("RAZORPAY_KEY_ID", "Razorpay key ID"),
    ("RAZORPAY_SECRET", "Razorpay secret key")]

  const DefaultPort := 3000
  const DefaultNodeEnv := "development"
  const MinSecretLength := 32

  /** `process.env[key]` is truthy: set and not empty. */
  predicate IsSet(env: Env, key: string) {
    key in env && env[key] != ""
  }

  function Unset(env: Env): ((string, string)) -> bool {
    (v: (string, string)) => !IsSet(env, v.0)
  }

  /** The entries whose variable is not set, in their original order: `Object.keys(...).filter`. */
  function Missing(env: Env, vars: seq<(string, string)>): (r: seq<(string, string)>)
    ensures r == Filter(vars, Unset(env))
    ensures |r| <= |vars|
    ensures forall v :: v in r ==> v in vars && !IsSet(env, v.0)
    ensures forall v :: v in vars && !IsSet(env, v.0) ==> v in r
  {
    if vars == [] then []
    else
      var rest := Missing(env, vars[1..]);
      if IsSet(env, vars[0].0) then rest else [vars[0]] + rest
  }

  /** One line of the error report: the heading, then one line per missing variable. */
  datatype EnvError = MissingHeading | MissingVar(key: string, description: string)

  /** A warning: a short session secret, or a PORT that is not a number. */
  datatype EnvWarning = ShortSessionSecret | BadPort(value: string)

  /** What the check decides: the errors, the warnings, and whether the process exits. */
  datatype Report = Report(errors: seq<EnvError>, warnings: seq<EnvWarning>, exits: bool)

  function MissingLines(missing: seq<(string, string)>): (r: seq<EnvError>)
    ensures |r| == |missing|
    ensures forall i :: 0 <= i < |r| ==> r[i] == MissingVar(missing[i].0, missing[i].1)
  {
    if missing == [] then [] else [MissingVar(missing[0].0, missing[0].1)] + MissingLines(missing[1..])
  }

  /** The error lines: none when every variable in `vars` is set, else the heading and one line per missing one. */
  function EnvErrors(env: Env, vars: seq<(string, string)>): (r: seq<EnvError>)
    ensures r != [] <==> exists v :: v in vars && !IsSet(env, v.0)
    ensures r != [] ==> |r| == 1 + |Missing(env, vars)| && r[0] == MissingHeading
    ensures forall i :: 1 <= i < |r| ==> r[i] == MissingVar(Missing(env, vars)[i - 1].0, Missing(env, vars)[i - 1].1)
  {
    var missing := Missing(env, vars);
    assert missing != [] ==> missing[0] in missing;
    if missing == [] then [] else [MissingHeading] + MissingLines(missing)
  }

  function EnvWarnings(env: Env): (r: seq<EnvWarning>)
    ensures ShortSessionSecret in r <==> IsSet(env, "SESSION_SECRET") && |env["SESSION_SECRET"]| < MinSecretLength
    ensures (exists w :: w in r && w.BadPort?) <==> IsSet(env, "PORT") && ParseInt(env["PORT"]).None?
  {
    var secret: seq<EnvWarning> :=
      if IsSet(env, "SESSION_SECRET") && |env["SESSION_SECRET"]| < MinSecretLength then [ShortSessionSecret] else [];
    var port: seq<EnvWarning> :=
      if IsSet(env, "PORT") && ParseInt(env["PORT"]).None? then [BadPort(env["PORT"])] else [];
    assert port != [] ==> port[0] in secret + port;
    secret + port
  }

  /**
   * validateEnvironment: errors iff a required variable is unset or empty; a warning for a set
   * secret under 32 characters and one for a set PORT that `parseInt` cannot read; the process
   * exits iff there are errors.
   */
  function ValidateEnvironment(env: Env): (r: Report)
    ensures r.errors != [] <==> exists v :: v in RequiredVars && !IsSet(env, v.0)
    ensures r.errors != [] ==> |r.errors| == 1 + |Missing(env, RequiredVars)| && r.errors[0] == MissingHeading
    ensures forall i :: 1 <= i < |r.errors| ==>
      r.errors[i] == MissingVar(Missing(env, RequiredVars)[i - 1].0, Missing(env, RequiredVars)[i - 1].1)
    ensures ShortSessionSecret in r.warnings <==> IsSet(env, "SESSION_SECRET") && |env["SESSION_SECRET"]| < MinSecretLength
    ensures (exists w :: w in r.warnings && w.BadPort?) <==> IsSet(env, "PORT") && ParseInt(env["PORT"]).None?
    ensures r.exits <==> r.errors != []
  {
    var errors := EnvErrors(env, RequiredVars);
    Report(errors, EnvWarnings(env), errors != [])
  }

  /** The exported PORT: `parseInt(PORT, 10) || 3000`, so a missing, unreadable or zero PORT gives 3000. */
  function Port(env: Env): (p: int)
    ensures p != 0
    ensures "PORT" !in env ==> p == DefaultPort
  {
    if "PORT" !in env then DefaultPort
    else
      match ParseInt(env["PORT"])
      case Some(n) => if n != 0 then n else DefaultPort
      case None => DefaultPort
  }

  /** The exported NODE_ENV: its value when set, otherwise "development". */
  function NodeEnv(env: Env): (r: string)
    ensures IsSet(env, "NODE_ENV") ==> r == env["NODE_ENV"]
    ensures !IsSet(env, "NODE_ENV") ==> r == DefaultNodeEnv
  {
    if IsSet(env, "NODE_ENV") then env["NODE_ENV"] else DefaultNodeEnv
  }

  /** A PORT written as a non-zero integer is exported as that integer. */
  lemma PortReadsBack(env: Env, n: int)
    requires n != 0
    ensures Port(env["PORT" := IntToString(n)]) == n
  {
    ParseIntOfIntToString(n);
  }

  /** A PORT the check warns about is exported as the default, and the process still starts when nothing is missing. */
  lemma BadPortFallsBack(env: Env)
    requires "PORT" in env && ParseInt(env["PORT"]).None?
    requires forall v :: v in RequiredVars ==> IsSet(env, v.0)
    ensures Port(env) == DefaultPort
    ensures !ValidateEnvironment(env).exits
  {
  }

  /** With every variable missing, all eleven are listed under the heading. */
  lemma EmptyEnvironmentListsAll()
    ensures |ValidateEnvironment(map[]).errors| == 12
    ensures forall i :: 0 <= i < 11 ==>
      ValidateEnvironment(map[]).errors[i + 1] == MissingVar(RequiredVars[i].0, RequiredVars[i].1)
    ensures ValidateEnvironment(map[]).exits
  {
    NothingSetListsAll(RequiredVars);
    assert |RequiredVars| == 11;
  }

  /** In an empty environment every listed variable is reported, in order, under the heading. */
  lemma NothingSetListsAll(vars: seq<(string, string)>)
    requires vars != []
    ensures var errors := EnvErrors(map[], vars);
      && |errors| == 1 + |vars|
      && forall i :: 0 <= i < |vars| ==> errors[i + 1] == MissingVar(vars[i].0, vars[i].1)
  {
    MissingNothingSet(vars);
    assert vars[0] in vars && !IsSet(map[], vars[0].0);
  }

  lemma {:induction false} MissingNothingSet(vars: seq<(string, string)>)
    ensures Missing(map[], vars) == vars
  {
    if vars != [] {
      MissingNothingSet(vars[1..]);
      assert vars == [vars[0]] + vars[1..];
    }
  }
}

=== FILE: wallet.dfy ===
/**
 * The wallet ledger of a user: the transactions recorded against the wallet and the balance
 * they account for.
 */
module Wallet {
  import opened Records

  /** A transaction's effect on the balance. */
  function Signed(t: WalletTx): int {
    match t.kind
    case Credit => t.amount
    case Debit => -t.amount
  }

  /** Credits minus debits over the ledger. */
  function LedgerSum(txs: seq<WalletTx>): int
    decreases |txs|
  {
    if txs == [] then 0 else LedgerSum(txs[..|txs| - 1]) + Signed(txs[|txs| - 1])
  }

  lemma LedgerSumAppend(txs: seq<WalletTx>, t: WalletTx)
    ensures LedgerSum(txs + [t]) == LedgerSum(txs) + Signed(t)
  {
    assert (txs + [t])[..|txs|] == txs;
  }

  /** The balance is what the ledger accounts for. */
  predicate Balanced(u: User) {
    u.walletBalance == LedgerSum(u.walletTransactions)
  }

  /** One entry appended and the balance moved by exactly that entry: the ledger stays accounted for. */
  lemma PostingKeepsBalanced(u: User, t: WalletTx, balance: Cents)
    requires balance == u.walletBalance + Signed(t)
    ensures Balanced(u) <==> Balanced(u.(walletBalance := balance, walletTransactions := u.walletTransactions + [t]))
  {
    LedgerSumAppend(u.walletTransactions, t);
  }
}

=== FILE: wrappers.dfy ===
/** Failure-compatible result types shared by every module of the model. */
module Wrappers {

  /** A value that may be absent: the model's rendering of JavaScript's null/undefined. */
  datatype Option<+T> = None | Some(value: T) {
    predicate IsFailure() { None? }

    function PropagateFailure<U>(): Option<U>
      requires None?
    {
      None
    }

    function Extract(): T
      requires Some?
    {
      value
    }

    function GetOr(default: T): T {
      match this
      case Some(v) => v
      case None => default
    }
  }

  /** The outcome of an operation that may throw: Success carries the value, Failure the error. */
  datatype Result<+R, +E> = Success(value: R) | Failure(error: E) {
    predicate IsFailure() { Failure? }

    function PropagateFailure<U>(): Result<U, E>
      requires Failure?
    {
      Failure(error)
    }

    function Extract(): R
      requires Success?
    {
      value
    }
  }
}
